=== FILE: README.md ===
# Movie streaming apps: a Dafny model of their core logic

The repository holds several small streaming applications built on the same
pattern: an Express server over an in-memory store, and a React client.

- **MovieStreamHost** is a server with roles (owner, member, visitor), lockable
  accounts, uploads, a per-user "my list" and byte-range video streaming.
- **MovieWeb** is a server with an owner-only verification-code sign-in,
  admin lock and role management, and saved movies. Its static *Website*
  variant answers the same API from a mock store in the browser.
- **MovieStreamingHub** is a server with movie CRUD, video and thumbnail
  serving, and an embeddable player whose settings travel in a query string.
- **AI-TEST** is a code editor with tabs and a file tree.
- **verfrblx** is a local-storage list of generated keys.

This project models the sequential logic under the HTTP and React glue as
pure Dafny functions over immutable records, and proves what that logic
promises. That logic is:

- the byte-range responses (RFC 7233, sections 2.1, 4.1 and 4.2);
- the four stores and the routes that guard them;
- the password-hash format and the role-to-permission mapping;
- the owner verification-code state machine;
- the mock API router;
- the client-side guards, filters, group-by and formatting helpers;
- the embed URL round trip;
- the admin panel's pending-lock sets;
- the editor's tab and file-tree state;
- the key list.

How things are represented:

- A store is a record of maps from id to record, plus its id counters. Each
  operation returns the new store together with its result, and each store
  has a `Valid` invariant that every operation keeps.
- An HTTP answer is a `Reply`/`Response` record of status, headers and body
  kind.
- The current time, random tokens and salts are integer or string
  parameters. The scrypt key derivation is a function-valued parameter.
- JavaScript's string and number semantics are written out in `JsText`:
  `parseInt` with white space, sign and `0x` prefix, `split`, `pop`, a
  non-global `replace`, `padStart`, remainder with the dividend's sign,
  `Array#sort` on strings and Node's `path.extname`.

## Model

| member | source | states |
|---|---|---|
| RangeStream.RangeBounds | MovieStreamHost/server/routes.ts:423-425 | the start is `parseInt` of the piece before the first `-` once the first `bytes=` anywhere in the header is deleted, and the end `parseInt` of a non-empty second piece, both as JavaScript numbers (`NaN` without digits, `Infinity` when the digits overflow); an absent or empty second piece makes the end `size - 1` |
| RangeStream.PartialContent | MovieStreamHost/server/routes.ts:426-436 | status 206, `Content-Length` is `end - start + 1` in floating point (`NaN` when either bound is, `Infinity` when only the end is), `Accept-Ranges: bytes`, `Content-Type: video/mp4`; an infinite end sends the file from `start` to its end |
| RangeStream.FullContent | MovieStreamHost/server/routes.ts:438-445 | status 200, `Content-Length` is the file size, no `Content-Range`, the whole file |
| RangeStream.RangedOrFull | MovieStreamHost/server/routes.ts:420-446 | no or empty `Range` header gives the full 200; otherwise the 206 with the raw numbers is sent exactly when Node's read stream accepts the window (`start` an integer from 0 to `Number.MAX_SAFE_INTEGER`, and `end` either `Infinity` or an integer from `start` to `Number.MAX_SAFE_INTEGER`), and never a 416 |
| RangeStream.StreamMovie | MovieStreamHost/server/routes.ts:403-450 | an unknown movie or empty `videoUrl` gives 404 "Video not found" and a missing file 404 "Video file not found", both before any range parsing; otherwise the decimal range handling, which answers 206 only for a window Node's read stream accepts (an integer start from 0 to `Number.MAX_SAFE_INTEGER`, an end of `Infinity` or from the start to that ceiling) |
| RangeStream.ServeVideo | MovieStreamingHub/MovieStreamingHub/server/routes.ts:248-291 | a missing file gives 404; otherwise the same range handling with `parseInt` called without a radix, 206 only for a window Node's read stream accepts (an integer start from 0 to `Number.MAX_SAFE_INTEGER`, an end of `Infinity` or from the start to that ceiling) |
| RangeStream.PartialContentRoundTrip | MovieStreamHost/server/routes.ts:426-436 | every 206 with a finite end has a `Content-Range` that reads back (as section 4.2 of RFC 7233 defines it) as the start, end and size, and a `Content-Length` of `end - start + 1`, at least 1 |
| RangeStream.BoundsOfPieces | MovieStreamHost/server/routes.ts:423-425 | `bytes=<a>-<b>` reads as `parseInt(a)` and `parseInt(b)`, or `size - 1` when `b` is empty |
| RangeStream.OpenEndedBounds | MovieStreamHost/server/routes.ts:425 | `bytes=<start>-` reads as the window from `start` to `size - 1` |
| RangeStream.ClosedBounds | MovieStreamHost/server/routes.ts:423-425 | `bytes=<start>-<end>` reads as exactly those two numbers |
| RangeStream.OpenEndedServed | MovieStreamHost/server/routes.ts:422-436 | an open-ended range starting inside the file is served up to the last byte |
| RangeStream.LastHundredBytes | MovieStreamHost/server/routes.ts:425-436 | on a 1000-byte file `bytes=900-` is answered 206 with `bytes 900-999/1000` and length 100 |
| RangeStream.UnsatisfiableRangeStillPartial | MovieStreamHost/server/routes.ts:422-436 | a start at or past the end of the file (with `start <= end <= 2^53 - 1`) is still answered 206 with the raw numbers |
| RangeStream.OversizedRangeRaises | MovieStreamHost/server/routes.ts:427-449 | an end above `Number.MAX_SAFE_INTEGER` that JavaScript still reads as a finite number (below 2^1024 - 2^970) is never answered: opening the stream throws |
| RangeStream.InfiniteEndServed | MovieStreamHost/server/routes.ts:425-436 | an end whose digits reach 2^1024 - 2^970 is `Infinity`, which Node does not check: the answer is 206 with `bytes <start>-Infinity/<size>`, which does not read back as a `Content-Range`, and a `Content-Length` of `Infinity`, and the file is sent from `start` to its end |
| RangeStream.InvertedRangeRaises | MovieStreamHost/server/routes.ts:427-449 | a start larger than the end is never answered: opening the stream throws and the error goes to `next` |
| RangeStream.UnitNotChecked | MovieStreamHost/server/routes.ts:423 | the unit is never checked: `0-10` without `bytes=` is served as bytes 0 to 10 |
| Uploads.DefaultProfilePicture | MovieStreamHost/server/routes.ts:39-47 | owner and member get their own picture paths; every other role string gets the visitor picture |
| Uploads.DefaultPictureSeparatesRoles | MovieStreamHost/server/routes.ts:39-47 | two roles share a default picture exactly when both are owner, both are member, or neither is one of those |
| Uploads.HostDestination | MovieStreamHost/server/routes.ts:86-94 | the folder is chosen by the field name; any other field name is the "Invalid fieldname" error |
| Uploads.HostFileFilter | MovieStreamHost/server/routes.ts:108-139 | any field other than video, thumbnail and profilePicture is let through, and for those three a name without a dot is refused |
| Uploads.NoDotNoExtension | MovieStreamHost/server/routes.ts:111 | `path.extname` of a name without a dot is empty, so no whitelist can hold it |
| Uploads.HostFilterByExtension | MovieStreamHost/server/routes.ts:108-136 | a file `stem.ext`, in any letter case, passes a known field's filter exactly when `.ext` lower-cased is on that field's list |
| Uploads.HostFilterRejectsDotFile | MovieStreamHost/server/routes.ts:109-117 | a dot-file such as `.mp4` has no extension and is refused as a video |
| Uploads.HubDestination | MovieStreamingHub/MovieStreamingHub/server/routes.ts:30-38 | only video and thumbnail have a folder; every other field name is an error |
| Uploads.HubFileFilter | MovieStreamingHub/MovieStreamingHub/server/routes.ts:45-67 | a video or thumbnail is accepted exactly when both its MIME type and its lower-cased extension contain one of the field's words; any other field is refused |
| Uploads.HubFilterError | MovieStreamingHub/MovieStreamingHub/server/routes.ts:53-65 | the refusal message for each field; never empty |
| Uploads.MatchesAnyWordIff | MovieStreamingHub/MovieStreamingHub/server/routes.ts:48-50 | an unanchored regular-expression alternation of words matches exactly when some word occurs in the text |
| Uploads.HubFilterAcceptsLongerExtension | MovieStreamingHub/MovieStreamingHub/server/routes.ts:48-53 | the words are unanchored: a `video/mp4` upload named `x.mp4x` passes |
| Uploads.HubFilterNeedsVideoWordInMime | MovieStreamingHub/MovieStreamingHub/server/routes.ts:49-54 | a MIME type containing none of the video words is refused whatever the file name |
| Uploads.MsVideoLacksWords | MovieStreamingHub/MovieStreamingHub/server/routes.ts:48-54 | `video/x-msvideo`, the MIME type AVI files are sent with, contains none of the video words, so with the previous row an AVI file sent that way is refused |
| Uploads.ThumbnailContentType | MovieStreamingHub/MovieStreamingHub/server/routes.ts:304-309 | `.png`, `.gif` and `.webp` (lower-cased) get their image types; everything else is served as `image/jpeg` |
| Uploads.ThumbnailResponse | MovieStreamingHub/MovieStreamingHub/server/routes.ts:294-314 | a missing thumbnail gives 404, otherwise 200 with the type above |
| Uploads.ThumbnailTypeByExtension | MovieStreamingHub/MovieStreamingHub/server/routes.ts:304-309 | an upper-case extension is served like the lower-case one |
| HostStore.Empty | MovieStreamHost/server/storage.ts:79-87 | a new store has no users and no movies, both counters at 1, and satisfies the store invariant |
| HostStore.GetUser | MovieStreamHost/server/storage.ts:90-93 | a user is found exactly when the id is a key of the map, and it is the stored user |
| HostStore.FindUser | MovieStreamHost/server/storage.ts:96-99 | `find` over the users in insertion order: a hit satisfies the test and no user with a smaller id does; a miss means no user satisfies it |
| HostStore.GetUserByUsername | MovieStreamHost/server/storage.ts:95-100 | some user is returned exactly when some stored user has that user name, and it is the first such user in id order |
| HostStore.GetUserByEmail | MovieStreamHost/server/storage.ts:102-108 | an empty e-mail finds nobody; otherwise the first user with that e-mail, and nobody only when no user has it |
| HostStore.GetUserByVerificationToken | MovieStreamHost/server/storage.ts:110-116 | an empty token finds nobody; otherwise the first user holding that token, and nobody only when no user holds it |
| HostStore.CreateUser | MovieStreamHost/server/storage.ts:118-162 | the new user takes the next id, the role defaults to visitor, the picture is the role's default, owners and members may upload, the or-defaults turn empty text into null, the account starts unlocked and unverified with an empty list; no other user changes and the invariant is kept |
| HostStore.CreateUserIgnoresPicture | MovieStreamHost/server/storage.ts:136-149 | a picture supplied at creation makes no difference to the stored user |
| HostStore.CreateUserIdsFresh | MovieStreamHost/server/storage.ts:119 | two creations in a row give two different ids, neither of which was taken before |
| HostStore.DeleteUser | MovieStreamHost/server/storage.ts:168-170 | exactly that user is gone; other users, the movies and the counters are unchanged |
| HostStore.PictureAfterUpdate | MovieStreamHost/server/storage.ts:198-204 | both branches of the role check give the default picture of the role the user ends up with |
| HostStore.ApplyUserUpdate | MovieStreamHost/server/storage.ts:189-204 | field by field: each supplied user name, password, e-mail, display name, colour, role, lock flag and permission flag replaces the stored one and each absent one is kept; id, list, creation time, verification flag and token are kept; the picture becomes the default of the resulting role |
| HostStore.UpdateUser | MovieStreamHost/server/storage.ts:172-208 | an unknown id is an error; otherwise only that user changes, to the overlaid user, and the invariant is kept |
| HostStore.UpdateUserIgnoresPicture | MovieStreamHost/server/storage.ts:189-204 | whatever picture an update carries, the result is the same as without it |
| HostStore.UpdateUserProfile | MovieStreamHost/server/storage.ts:210-234 | an unknown id is an error; otherwise only that user changes, as the profile form describes, and the invariant is kept |
| HostStore.EditProfile | MovieStreamHost/server/storage.ts:216-230 | `??` keeps each absent field; a non-empty e-mail that differs from the stored one clears the verified flag and the token; name, password, role, picture, lock and list are untouched |
| HostStore.UpdateUserProfileIdempotent | MovieStreamHost/server/storage.ts:210-234 | saving the same profile twice leaves the store as saving it once |
| HostStore.EmptyEmailKeepsVerification | MovieStreamHost/server/storage.ts:217-229 | an empty e-mail is stored but does not count as a change, so the verified flag and the token survive |
| HostStore.CreateVerificationToken | MovieStreamHost/server/storage.ts:236-253 | an unknown id is an error; otherwise the given token is stored on that user only and returned |
| HostStore.VerifyEmail | MovieStreamHost/server/storage.ts:255-270 | an empty or unheld token changes nothing; a held token verifies the user holding it and clears that token, and nothing else changes |
| HostStore.TokenIssueThenVerify | MovieStreamHost/server/storage.ts:236-270 | a token issued to one user and held by no other verifies exactly that user, and presenting it a second time verifies nobody |
| HostStore.NoHolderNoVerify | MovieStreamHost/server/storage.ts:255-259 | a token that no user holds verifies nobody |
| HostStore.GetMovie | MovieStreamHost/server/storage.ts:273-276 | a movie is found exactly when its id is a key of the map |
| HostStore.AllMovies | MovieStreamHost/server/storage.ts:278-280 | every stored movie appears, only stored movies appear, in ascending id order |
| HostStore.GetMoviesByUploader | MovieStreamHost/server/storage.ts:289-293 | exactly the uploader's movies, in the order of all movies |
| HostStore.CreateMovie | MovieStreamHost/server/storage.ts:295-315 | the new movie takes the next id, the or-defaults turn empty text and year 0 into null, and no other movie changes |
| HostStore.Overlay | MovieStreamHost/server/storage.ts:324-327 | field by field: each supplied title, description, year, duration, quality, thumbnail, video URL and uploader replaces the stored one and each absent one is kept; id and creation time stay |
| HostStore.UpdateMovie | MovieStreamHost/server/storage.ts:317-331 | an unknown id is an error; otherwise only that movie changes, every supplied field replacing the stored one and every absent one kept, and the invariant is kept |
| HostStore.WithoutMovie | MovieStreamHost/server/storage.ts:339 | the id leaves the list and every other id stays; nothing else about the user changes |
| HostStore.DeleteMovie | MovieStreamHost/server/storage.ts:333-342 | exactly that movie is gone, its id leaves every user's list, and nothing else changes |
| HostStore.GetUserMovieList | MovieStreamHost/server/storage.ts:345-357 | an unknown user is an error; otherwise the listed movies that still exist, and only those, in the order of the user's list: the i-th result is the movie of the i-th listed id that is still stored |
| HostStore.MoviesOf | MovieStreamHost/server/storage.ts:352-356 | the movies whose ids are in the list and still stored, one per such id and in list order (position i holds the movie of the i-th surviving id), never more than the list is long |
| HostStore.LiveIds | MovieStreamHost/server/storage.ts:352-356 | an id survives exactly when it is in the list and its movie is still stored |
| HostStore.MoviesOfCons | MovieStreamHost/server/storage.ts:352-356 | keeping a still-stored head id puts its movie first and shifts the tail's movies one position, so the order claim carries over |
| HostStore.AddMovieToUserList | MovieStreamHost/server/storage.ts:359-375 | an unknown user or movie is an error; otherwise the id is appended to that user's list unless already there, and nothing else changes |
| HostStore.AddMovieToUserListIdempotent | MovieStreamHost/server/storage.ts:370-374 | adding the same movie twice leaves the store as adding it once |
| HostStore.RemoveMovieFromUserList | MovieStreamHost/server/storage.ts:377-386 | an unknown user is an error; otherwise every occurrence of the id leaves that user's list, and nothing else changes |
| HostStore.AddThenRemove | MovieStreamHost/server/storage.ts:359-386 | removing right after adding leaves the list without the movie and otherwise as it was |
| HostStore.InsertByRecency | MovieStreamHost/server/storage.ts:284 | one step of the stable sort: the result is the list with the movie added |
| HostStore.InsertKeepsNewestFirst | MovieStreamHost/server/storage.ts:284 | inserting into a newest-first list keeps it newest-first |
| HostStore.InsertKeepsOrderById | MovieStreamHost/server/storage.ts:284 | inserting a movie with a smaller id than all others keeps equal times in id order, as a stable sort does |
| HostStore.SortByRecency | MovieStreamHost/server/storage.ts:283-284 | the sorted list is a permutation of the input, newest first, and ties keep id order when the input was in id order |
| HostStore.GetRecentMovies | MovieStreamHost/server/storage.ts:282-287 | a prefix of the sorted movies, at most `limit` long, all of them when `limit` covers the store, newest first with ties in id order |
| HostStore.RecentPrefix | MovieStreamHost/server/storage.ts:285 | `slice` keeps the order of the sorted list |
| HostStore.RecentMoviesAreTheNewest | MovieStreamHost/server/storage.ts:282-287 | every movie left out of the recent list is no newer than any movie in it |
| PasswordHash.HexChar | MovieStreamHost/server/auth.ts:21 | a value below 16 is written as one lower-case hex digit that reads back as the value |
| PasswordHash.ToHex | MovieStreamHost/server/auth.ts:21 | `toString("hex")` writes two hex digits per byte and never a dot |
| PasswordHash.FromHex | MovieStreamHost/server/auth.ts:26 | `Buffer.from(s, "hex")` yields at most one byte per two characters |
| PasswordHash.FromHexToHex | MovieStreamHost/server/auth.ts:18-29 | decoding the hex text of a key gives back the key |
| PasswordHash.SplitStored | MovieStreamHost/server/auth.ts:25 | `split(".")` takes the text up to the first dot and the piece after it; the salt is absent exactly when there is no dot |
| PasswordHash.SplitStoredHash | MovieStreamHost/server/auth.ts:18-25 | splitting a stored hash gives back the hex key and the salt, as long as the salt has no dot |
| PasswordHash.ComparePasswords | MovieStreamHost/server/auth.ts:24-29 | the password matches exactly when the stored text has a salt and its decoded key equals the key derived from the supplied password and that salt |
| PasswordHash.HashThenCompare | MovieStreamHost/server/auth.ts:18-29 | the password a hash was made from matches it; another password whose derived key differs at the same length does not |
| HostAuth.RolePermissions | MovieStreamHost/server/auth.ts:123-134 | only owners may create and delete users; owners and members may upload; any other role gets nothing |
| HostAuth.LogIn | MovieStreamHost/server/auth.ts:48-66 | an empty user name or password is refused with "Missing credentials" before the strategy runs (passport-local's own check); otherwise a session is granted only to the stored user of that name whose password matches and who is unlocked or an owner; an unknown name is "Invalid username or password"; the lock message is given exactly to a matching, locked non-owner |
| HostAuth.EmptyPasswordNeverLogsIn | MovieStreamHost/server/auth.ts:158-161 | an account whose password is empty (which `/api/register` at lines 118-138 accepts and hashes) can never log in: the answer is always 401 "Missing credentials" |
| HostAuth.LockedNonOwnerCannotLogIn | MovieStreamHost/server/auth.ts:57-60 | when every user of that name is a locked non-owner, no password logs in |
| HostAuth.LoginStatus | MovieStreamHost/server/auth.ts:158-177 | 200 exactly for a granted session, 401 exactly for a rejection |
| HostAuth.InitializeAdmin | MovieStreamHost/server/auth.ts:80-100 | nothing changes when "Syfer-eng" exists; otherwise afterwards a user of that name exists and the invariant is kept |
| HostAuth.SeededOwnerIsOwner | MovieStreamHost/server/auth.ts:85-94 | the seeded account is an unlocked owner with every permission and the owner picture |
| HostAuth.InitializeAdminIdempotent | MovieStreamHost/server/auth.ts:80-100 | initialising twice leaves the store as initialising once |
| HostAuth.Register | MovieStreamHost/server/auth.ts:106-156 | 403 exactly for an anonymous caller or one that is neither "Syfer-eng" nor allowed to create users; 201 exactly when permitted and the name is free, and then the new user has the hashed password, the requested role (visitor by default) and that role's permissions; otherwise nothing changes |
| HostAuth.Target | MovieStreamHost/server/auth.ts:242-252 | `parseInt` of the path id looked up in the store; text that is not a number finds nobody |
| HostAuth.SetLock | MovieStreamHost/server/auth.ts:231-267 | 200 exactly for an owner caller with a boolean `isLocked` and an existing target other than "Syfer-eng", and then only that user's lock flag changes |
| HostAuth.RemoveUser | MovieStreamHost/server/auth.ts:269-297 | 200 exactly for an owner or user-deleting caller and an existing target other than "Syfer-eng", and then exactly that user is deleted; otherwise nothing changes |
| HostAuth.ChangeRole | MovieStreamHost/server/auth.ts:299-351 | 200 exactly for an owner caller, one of the three roles, an existing target, and no demotion of "Syfer-eng"; 400 exactly for an owner caller with an invalid role; on success only the target changes, to the role with its permissions and default picture |
| HostAuth.RegisterAndRoleChangeAgree | MovieStreamHost/server/auth.ts:123-134 | registering with a role and later changing a user to that role grant the same permissions |
| HostAuth.OwnerAccountProtected | MovieStreamHost/server/auth.ts:254-325 | no lock, delete or role request locks, deletes or demotes the "Syfer-eng" account |
| HostAuth.OwnerNeverLocked | MovieStreamHost/server/auth.ts:254-257 | a lock request leaves the "Syfer-eng" account's lock flag as it was |
| HostAuth.OwnerNeverRemoved | MovieStreamHost/server/auth.ts:288-290 | a delete request leaves the "Syfer-eng" account in the store |
| HostAuth.OwnerNeverDemoted | MovieStreamHost/server/auth.ts:322-325 | a role request leaves the "Syfer-eng" account's role as it was or makes it owner |
| HostAuth.RemoveMovie | MovieStreamHost/server/routes.ts:281-320 | 200 exactly for a caller who is an owner or the movie's uploader and an existing movie, and then the movie leaves the store and every list; otherwise nothing changes |
| HubStore.Empty | MovieStreamingHub/MovieStreamingHub/server/storage.ts:27-32 | a new store has no accounts and no movies and satisfies the store invariant |
| HubStore.CreateUser | MovieStreamingHub/MovieStreamingHub/server/storage.ts:44-49 | the account takes the next id and is stored under it; movies are untouched and the invariant is kept |
| HubStore.Initial | MovieStreamingHub/MovieStreamingHub/server/storage.ts:106-114 | the server starts with exactly the "demo" account, under id 1, and no movies |
| HubStore.GetUser | MovieStreamingHub/MovieStreamingHub/server/storage.ts:34-36 | an account is found exactly when the id is a key of the map |
| HubStore.GetUserByUsername | MovieStreamingHub/MovieStreamingHub/server/storage.ts:38-42 | an account is returned exactly when one has that name, and it is the first in id order |
| HubStore.GetMovies | MovieStreamingHub/MovieStreamingHub/server/storage.ts:51-53 | exactly the stored movies, in ascending id order |
| HubStore.GetMoviesByUserId | MovieStreamingHub/MovieStreamingHub/server/storage.ts:55-59 | exactly that user's movies, in the order of all movies |
| HubStore.GetMovie | MovieStreamingHub/MovieStreamingHub/server/storage.ts:61-63 | a movie is found exactly when the id is a key of the map |
| HubStore.CreateMovie | MovieStreamingHub/MovieStreamingHub/server/storage.ts:65-75 | the data is stored under the next id with the upload time: title, description, category, duration, year, user id, file path, thumbnail path and visibility all as given; nothing else changes and the invariant is kept |
| HubStore.Changed | MovieStreamingHub/MovieStreamingHub/server/storage.ts:81 | each field present in the change replaces the stored one; id, owner, file, duration and upload time stay |
| HubStore.UpdateMovie | MovieStreamingHub/MovieStreamingHub/server/storage.ts:77-84 | an unknown id gives `undefined` and no change; otherwise only that movie changes |
| HubStore.DeleteMovie | MovieStreamingHub/MovieStreamingHub/server/storage.ts:86-103 | the answer is true exactly when the movie existed; afterwards it is gone and nothing else changes |
| HubStore.GetMovieRoute | MovieStreamingHub/MovieStreamingHub/server/routes.ts:100-116 | 400 exactly when the id is not a number, 404 exactly when no movie has it, otherwise 200 with the movie |
| HubStore.UserMoviesRoute | MovieStreamingHub/MovieStreamingHub/server/routes.ts:119-136 | 400 exactly when the id is not a number, 404 exactly when no account has it, otherwise 200 with that user's movies |
| HubStore.UploadData | MovieStreamingHub/MovieStreamingHub/server/routes.ts:157-172 | validation passes exactly when the title is present and the user id and duration parse; then description defaults to "", category to "other", year to the current year, duration to 0, and the movie is public only for the text "true" |
| HubStore.MissingDurationReadsAsZero | MovieStreamingHub/MovieStreamingHub/server/routes.ts:166 | a form with a missing or empty duration is validated and stored exactly as one whose duration is the text "0" |
| HubStore.UploadRoute | MovieStreamingHub/MovieStreamingHub/server/routes.ts:139-182 | for a multipart form whose files multer accepted: 201 exactly when a video file is present and the data validates, and then the movie is stored under the next id and returned; every failure is a 400 that changes nothing |
| HubStore.FirstRefused | MovieStreamingHub/MovieStreamingHub/server/routes.ts:45-67 | nothing exactly when the filter accepts every file part; otherwise a part of the request that the filter refuses |
| HubStore.UploadRequestRoute | MovieStreamingHub/MovieStreamingHub/server/routes.ts:139-182 | a request that is not multipart, or that has a file the filter refuses, is answered 500 (the thrown `TypeError`'s message, or the filter's) and changes nothing; otherwise the answer of the handler for the stored form; the status is always 201, 400 or 500 |
| HubStore.RefusedFileStoresNothing | MovieStreamingHub/MovieStreamingHub/server/routes.ts:45-67 | any refused file part, wherever it is in the request, leaves the store unchanged and gives 500, not a validation 400 |
| HubStore.ChangeOf | MovieStreamingHub/MovieStreamingHub/server/routes.ts:198-211 | absent text fields are pruned, but `isPublic` is never absent and is true only for the text "true" |
| HubStore.UpdateRoute | MovieStreamingHub/MovieStreamingHub/server/routes.ts:185-220 | 400 exactly when the id is not a number, 404 exactly when no movie has it; otherwise only that movie changes: supplied fields replace the stored ones and the public flag is set from the body |
| HubStore.UpdateRouteIdempotent | MovieStreamingHub/MovieStreamingHub/server/routes.ts:185-220 | sending the same update twice leaves the store as sending it once |
| HubStore.UpdateWithoutIsPublicHides | MovieStreamingHub/MovieStreamingHub/server/routes.ts:203 | an update without `isPublic` makes the movie private |
| HubStore.DeleteRoute | MovieStreamingHub/MovieStreamingHub/server/routes.ts:223-245 | 400 exactly when the id is not a number, 404 exactly when no movie has it, otherwise 204 and the movie is gone |
| HubStore.UploadFetchDelete | MovieStreamingHub/MovieStreamingHub/server/routes.ts:100-245 | an uploaded movie is fetched by any text reading as its id, with the body the upload returned, and after deleting it the same request answers 404 |
| HubViews.ClockOf | MovieStreamingHub/MovieStreamingHub/client/src/components/ui/movie-card.tsx:29-31 | for a non-negative duration the hours, minutes and seconds recombine to it, with minutes and seconds under sixty and no hours below an hour |
| HubViews.SixtyOfHour | MovieStreamingHub/MovieStreamingHub/client/src/components/ui/movie-card.tsx:29-31 | hours, minutes of the remaining hour and seconds of the remaining minute add back up to the total |
| HubViews.FormatDuration | MovieStreamingHub/MovieStreamingHub/client/src/components/ui/movie-card.tsx:26-37 | a zero duration shows `00:00`; otherwise the clock text of the duration |
| HubViews.ReadTwoFields | MovieStreamingHub/MovieStreamingHub/client/src/components/ui/movie-card.tsx:36 | `M:SS` splits into its two fields and reads back as `M * 60 + SS` |
| HubViews.ReadThreeFields | MovieStreamingHub/MovieStreamingHub/client/src/components/ui/movie-card.tsx:34 | `H:MM:SS` splits into its three fields and reads back as `H * 3600 + MM * 60 + SS` |
| HubViews.PaddedField | MovieStreamingHub/MovieStreamingHub/client/src/components/ui/movie-card.tsx:34-36 | `padStart(2, '0')` of a value under sixty is two digits that read back as the value |
| HubViews.PlainField | MovieStreamingHub/MovieStreamingHub/client/src/components/ui/movie-card.tsx:34-36 | the decimal text of a natural number reads back as that number |
| HubViews.LongClockText | MovieStreamingHub/MovieStreamingHub/client/src/components/ui/movie-card.tsx:33-34 | with hours, the text has three fields, the last two of two digits, and reads back as the total |
| HubViews.LongClockFields | MovieStreamingHub/MovieStreamingHub/client/src/components/ui/movie-card.tsx:34 | the hour, padded minute and padded second texts each read back as their number, the last two with two digits |
| HubViews.ThreeFieldText | MovieStreamingHub/MovieStreamingHub/client/src/components/ui/movie-card.tsx:34 | three number fields joined by colons, the last two of two digits, give three fields that read back as `H * 3600 + MM * 60 + SS` |
| HubViews.ShortClockText | MovieStreamingHub/MovieStreamingHub/client/src/components/ui/movie-card.tsx:36 | without hours, the text has two fields, the last of two digits, and reads back as the total |
| HubViews.ClockTextRoundTrip | MovieStreamingHub/MovieStreamingHub/client/src/components/ui/movie-card.tsx:33-36 | any clock with minutes and seconds under sixty reads back as its total, with two fields without hours and three with |
| HubViews.FormatDurationRoundTrip | MovieStreamingHub/MovieStreamingHub/client/src/components/ui/movie-card.tsx:26-37 | the text shown for a positive duration has two fields below an hour and three from an hour on, and reads back in base 60 as the duration |
| HubViews.CardThumbnail | MovieStreamingHub/MovieStreamingHub/client/src/components/ui/movie-card.tsx:59-62 | no thumbnail gives the placeholder image; otherwise the stored file's name after its last `/`, under `/api/thumbnails/` |
| HubViews.FilteredMovies | MovieStreamingHub/MovieStreamingHub/client/src/pages/explore.tsx:20-30 | exactly the movies that match both the search and the tab, in list order |
| HubViews.UnfilteredExplore | MovieStreamingHub/MovieStreamingHub/client/src/pages/explore.tsx:20-30 | with no search on the `all` tab every movie is listed, in order |
| HubViews.SearchNarrows | MovieStreamingHub/MovieStreamingHub/client/src/pages/explore.tsx:20-30 | typing a query only removes movies from a tab: the list shown is the query's filter applied to the tab's unsearched list |
| HubViews.SearchKeepsOrder | MovieStreamingHub/MovieStreamingHub/client/src/pages/explore.tsx:20-30 | the movies left after a search keep the order they have on the tab |
| HubViews.ShownNarrows | MovieStreamingHub/MovieStreamingHub/client/src/pages/explore.tsx:22-29 | a movie shown with a query is also shown without one |
| HubViews.SearchIgnoresQueryCase | MovieStreamingHub/MovieStreamingHub/client/src/pages/explore.tsx:22-24 | the search gives the same answer for a query and its lower-case form |
| HubViews.CategoryCounts | MovieStreamingHub/MovieStreamingHub/client/src/pages/explore.tsx:33-37 | one count per schema category, the number of all movies in it, whatever the search says |
| HubViews.CountMatchesTab | MovieStreamingHub/MovieStreamingHub/client/src/pages/explore.tsx:33-37 | a tab's count is the number of movies that tab lists while the search box is empty |
| HubViews.PushGroups | MovieStreamingHub/MovieStreamingHub/client/src/pages/my-library.tsx:21-29 | one step of the `forEach` keeps each key's list equal to the movies of that key so far, in order |
| HubViews.Groups | MovieStreamingHub/MovieStreamingHub/client/src/pages/my-library.tsx:19-29 | each key's list is exactly the movies of that key, in list order, and the keys are exactly the keys that occur, an empty category counting as `Uncategorized` |
| HubViews.GroupsStep | MovieStreamingHub/MovieStreamingHub/client/src/pages/my-library.tsx:21-29 | grouping a list is grouping all but its last movie and pushing that one |
| HubViews.KeysInOrder | MovieStreamingHub/MovieStreamingHub/client/src/pages/my-library.tsx:32 | `Object.keys` lists each key that occurs exactly once |
| HubViews.SortedCategories | MovieStreamingHub/MovieStreamingHub/client/src/pages/my-library.tsx:32 | the keys in ascending order, each once, exactly the keys of the grouping |
| HubViews.SectionsFor | MovieStreamingHub/MovieStreamingHub/client/src/pages/my-library.tsx:71-78 | one section per key, titled with the key capitalised and holding that key's movies |
| HubViews.Library | MovieStreamingHub/MovieStreamingHub/client/src/pages/my-library.tsx:71-78 | the sections in sorted key order, each titled with its key capitalised and holding exactly that key's movies in list order |
| HubViews.SectionsMultiset | MovieStreamingHub/MovieStreamingHub/client/src/pages/my-library.tsx:71-78 | the sections of distinct keys hold together exactly the movies of those keys |
| HubViews.LibraryIsPermutation | MovieStreamingHub/MovieStreamingHub/client/src/pages/my-library.tsx:19-78 | every movie is in exactly one section: the sections together are a permutation of the user's movies |
| HubViews.MovieInItsSection | MovieStreamingHub/MovieStreamingHub/client/src/pages/my-library.tsx:19-78 | a movie is in the section named after its category, or `Uncategorized` |
| HubViews.RelatedMovies | MovieStreamingHub/MovieStreamingHub/client/src/pages/movie-details.tsx:28-30 | at most five movies, none without a loaded movie, each of the shown movie's category and not the shown movie; the result is the first `min(5, n)` of the `n` qualifying movies in list order, so a subsequence of the list |
| HubViews.RelatedKeepsEarlyMatches | MovieStreamingHub/MovieStreamingHub/client/src/pages/movie-details.tsx:28-30 | a qualifying movie with fewer than five qualifying movies before it in the list is always shown |
| HubViews.DisplayMinutes | MovieStreamingHub/MovieStreamingHub/client/src/pages/movie-details.tsx:94-97 | minutes are shown exactly for a non-zero duration, and they are the whole minutes in it |
| HubViews.DetailsSources | MovieStreamingHub/MovieStreamingHub/client/src/pages/movie-details.tsx:51-52 | the poster is the card's thumbnail and the video source is absent exactly when there is no file path |
| HubViews.DetailsQueryDisabled | MovieStreamingHub/MovieStreamingHub/client/src/pages/movie-details.tsx:14-20 | a route id with no digit does not fetch the movie |
| SearchParams.PairTexts | MovieStreamingHub/MovieStreamingHub/client/src/components/embed-modal.tsx:36-43 | one `name=value` text per pair, in order |
| SearchParams.ParamOf | MovieStreamingHub/MovieStreamingHub/client/src/pages/embed.tsx:10 | a piece with `=` is the name up to the first `=` and the value after it, and writing them back gives the piece; a piece without `=` is a name with an empty value |
| SearchParams.ParamsOf | MovieStreamingHub/MovieStreamingHub/client/src/pages/embed.tsx:10 | never more pairs than pieces |
| SearchParams.Get | MovieStreamingHub/MovieStreamingHub/client/src/pages/embed.tsx:15-18 | `get` finds nothing exactly when no pair has the name, and otherwise a value that some pair of that name carries |
| SearchParams.GetConcat | MovieStreamingHub/MovieStreamingHub/client/src/pages/embed.tsx:15-18 | `get` on two lists in a row looks at the second only when the first has no pair of that name |
| SearchParams.ParamOfPairText | MovieStreamingHub/MovieStreamingHub/client/src/pages/embed.tsx:10 | a pair whose name has no `=` is read back from its text |
| SearchParams.ParamsOfPairTexts | MovieStreamingHub/MovieStreamingHub/client/src/pages/embed.tsx:10 | a list of plain pairs is read back from their texts |
| SearchParams.ParseSerialize | MovieStreamingHub/MovieStreamingHub/client/src/components/embed-modal.tsx:36-43 | parsing `?` followed by the serialised pairs gives back the pairs, in order, when names are non-empty and free of `=` and `&` and values free of `&` |
| EmbedCode.QualityText | MovieStreamingHub/MovieStreamingHub/client/src/components/embed-modal.tsx:181 | each quality the dialog offers has a non-empty text without `&` |
| EmbedCode.EmbedParams | MovieStreamingHub/MovieStreamingHub/client/src/components/embed-modal.tsx:36-41 | `quality` comes last, one pair more for each flag that is set, and every pair survives the round trip |
| EmbedCode.Flags | MovieStreamingHub/MovieStreamingHub/client/src/components/embed-modal.tsx:38-40 | one pair for each of autoplay, loop and hidden controls that is set |
| EmbedCode.EmbedParamsOrder | MovieStreamingHub/MovieStreamingHub/client/src/components/embed-modal.tsx:38-41 | the names appear in the fixed order autoplay, loop, controls, quality, each at most once |
| EmbedCode.EmbedUrl | MovieStreamingHub/MovieStreamingHub/client/src/components/embed-modal.tsx:35-44 | the address is the origin, `/embed/`, the id and `?` with the query, since the query is never empty |
| EmbedCode.GenerateEmbedCode | MovieStreamingHub/MovieStreamingHub/client/src/components/embed-modal.tsx:32-47 | empty exactly without a movie; otherwise exactly `<iframe src="<embed address>"` followed by the option's `width` and `height` attributes, `frameborder="0"` and `allowfullscreen></iframe>` |
| EmbedCode.EmbedCodeSrc | MovieStreamingHub/MovieStreamingHub/client/src/components/embed-modal.tsx:32-47 | read as HTML, the `src` attribute of the generated iframe is the embed address, whenever the origin holds no double quote |
| EmbedCode.SizeInput | MovieStreamingHub/MovieStreamingHub/client/src/components/embed-modal.tsx:159-172 | a number other than zero is taken as typed; zero or text that is not a number gives the fallback |
| EmbedCode.SizeInputOfNumber | MovieStreamingHub/MovieStreamingHub/client/src/components/embed-modal.tsx:159-172 | a typed number comes back unchanged however large or negative, and zero gives 640 by 360 |
| EmbedCode.SizeInputOfText | MovieStreamingHub/MovieStreamingHub/client/src/components/embed-modal.tsx:159-172 | text without a digit gives 640 by 360 |
| EmbedPage.ReadSettings | MovieStreamingHub/MovieStreamingHub/client/src/pages/embed.tsx:15-18 | a flag is on exactly for the text `true` (`false` for `controls`); a missing or empty quality means `720p` and a non-empty one is taken as given |
| EmbedPage.LocationSearch | MovieStreamingHub/MovieStreamingHub/client/src/pages/embed.tsx:10 | nothing without a `?`; otherwise the text that starts at the first `?` and runs to the end of the address |
| EmbedPage.AssetSrc | MovieStreamingHub/MovieStreamingHub/client/src/pages/embed.tsx:27-33 | a source exists exactly for a non-empty path, and it is the prefix followed by a trailing piece of the path that has no `/` |
| EmbedPage.AssetSrcOfStoredFile | MovieStreamingHub/MovieStreamingHub/client/src/pages/embed.tsx:27-33 | a file stored under any directory, or under none, is served by its own name |
| EmbedPage.ReadEmbedParams | MovieStreamingHub/MovieStreamingHub/client/src/pages/embed.tsx:15-18 | the flags and the quality the dialog writes are the ones the page reads |
| EmbedPage.GetEmbedParams | MovieStreamingHub/MovieStreamingHub/client/src/components/embed-modal.tsx:38-41 | `get` on the dialog's pairs finds each flag exactly when it is set, and always the quality |
| EmbedPage.EmbedRoundTrip | MovieStreamingHub/MovieStreamingHub/client/src/pages/embed.tsx:10-24 | opening the address the dialog generates fetches the same movie id and shows the same player settings |
| EmbedPage.EmbedCodeRoundTrip | MovieStreamingHub/MovieStreamingHub/client/src/pages/embed.tsx:10-24 | the page the generated iframe opens shows the player settings chosen in the dialog |
| WebStore.Initial | MovieWeb/server/storage.ts:45-76 | the store starts with no movies and exactly one user, the unlocked admin owner "Syfer-eng" with the owner picture, under id 1, and the next user id is 2 |
| WebStore.GetUser | MovieWeb/server/storage.ts:83-85 | a user is found exactly when the id is a key of the map |
| WebStore.GetUserByUsername | MovieWeb/server/storage.ts:87-91 | a user is returned exactly when one has that name, and it is a stored user of that name |
| WebStore.CreateUser | MovieWeb/server/storage.ts:93-114 | the user takes the next id; the role defaults to visitor, falsy flags to false and empty texts to null; the picture is always the fixed default |
| WebStore.PlainUserDefaults | MovieWeb/server/storage.ts:100-111 | a registration with only a name and password gives a visitor that is not an admin, not locked and not verified |
| WebStore.Modify | MovieWeb/server/storage.ts:120-183 | an unknown id gives `undefined` and no change; otherwise the user is replaced and nothing else changes |
| WebStore.UpdateUserLockStatus | MovieWeb/server/storage.ts:120-127 | an unknown id gives `undefined`; otherwise the lock flag is set and an empty or missing reason is stored as null |
| WebStore.UpdateUserRole | MovieWeb/server/storage.ts:129-139 | an unknown id gives `undefined`; otherwise the role is set and the picture goes back to the default |
| WebStore.UpdateUserEmail | MovieWeb/server/storage.ts:141-148 | an unknown id gives `undefined`; otherwise only the e-mail changes |
| WebStore.UpdateUserProfilePicture | MovieWeb/server/storage.ts:150-158 | an unknown id gives `undefined`; otherwise only the picture changes |
| WebStore.UpdateVerificationCode | MovieWeb/server/storage.ts:167-174 | an unknown id gives `undefined`; otherwise only the verification code changes |
| WebStore.UpdateVerificationStatus | MovieWeb/server/storage.ts:176-183 | an unknown id gives `undefined`; otherwise only the verified flag changes |
| WebStore.DeleteUser | MovieWeb/server/storage.ts:160-165 | the answer is true exactly when the user existed; afterwards it is gone and nothing else changes |
| WebStore.AllMovies | MovieWeb/server/storage.ts:185-187 | exactly the stored movies |
| WebStore.GetMoviesByCategory | MovieWeb/server/storage.ts:189-193 | exactly the movies of that category, in the order of all movies |
| WebStore.GetFeaturedMovies | MovieWeb/server/storage.ts:195-199 | exactly the featured movies, in the order of all movies |
| WebStore.GetMovie | MovieWeb/server/storage.ts:201-203 | a movie is found exactly when the id is a key of the map |
| WebStore.CreateMovie | MovieWeb/server/storage.ts:205-210 | the movie is stored as given under the next id; nothing else changes |
| WebStore.DeleteMovie | MovieWeb/server/storage.ts:212-217 | the answer is true exactly when the movie existed; afterwards it is gone and nothing else changes |
| WebStore.AddMovieToUserList | MovieWeb/server/storage.ts:219-237 | `undefined` exactly when the movie or the user is missing; otherwise the user's id text is appended to the movie's list unless already there, and only that movie changes |
| WebStore.AddMovieToUserListIdempotent | MovieWeb/server/storage.ts:230-234 | saving the same movie twice leaves the store as saving it once |
| WebStore.RemoveMovieFromUserList | MovieWeb/server/storage.ts:239-252 | `undefined` exactly when the movie or the user is missing; otherwise the user's id text leaves the list, every other id stays, and only that movie changes |
| WebStore.GetUserSavedMovies | MovieWeb/server/storage.ts:254-263 | no movies for an unknown user; otherwise exactly the movies whose list holds the user's id text |
| WebStore.KeysDistinct | MovieWeb/server/storage.ts:231 | two different user ids have different id texts |
| WebStore.SaveThenUnsave | MovieWeb/server/storage.ts:219-263 | after saving, the movie is among the user's saved movies; after removing it again it is not; another user's save is unaffected |
| WebRoutes.PermissionLattice | MovieWeb/server/routes.ts:13-29 | an owner passes every check; a visitor that is not an admin passes none; an admin visitor may manage users but not upload; a member may upload but is not the owner |
| WebRoutes.PositiveId | MovieWeb/server/routes.ts:46-53 | the schema accepts the `parseInt` of the text exactly when it is a finite number above zero, and then gives that number; digits reaching 2^1024 - 2^970 read as `Infinity`, which `int()` rejects |
| WebRoutes.PositiveIdOfIntToString | MovieWeb/server/routes.ts:53 | the decimal text of a positive number below 2^1024 - 2^970 is accepted as that number, and that of any other number is rejected |
| WebRoutes.LockRoute | MovieWeb/server/routes.ts:41-72 | 200 exactly for a caller who may manage users, a positive id, a boolean `isLocked` and an existing target that is not an owner, and then the lock status is stored; 400 exactly for such a caller with a bad id or body; otherwise nothing changes |
| WebRoutes.RoleRoute | MovieWeb/server/routes.ts:74-104 | 200 exactly for an owner caller, a positive id, the role visitor or member, and an existing target that is not an owner, and then the role is stored; otherwise nothing changes |
| WebRoutes.DeleteUserRoute | MovieWeb/server/routes.ts:106-132 | 204 exactly for an owner caller, a positive id and an existing target that is not an owner, and then the user is gone; otherwise nothing changes |
| WebRoutes.OwnerAccountsUntouchable | MovieWeb/server/routes.ts:56-120 | no lock, role or delete request changes or removes a user whose role is owner |
| WebRoutes.GetMovieRoute | MovieWeb/server/routes.ts:151-160 | 200 exactly when the `parseInt` of the id names a stored movie; every other request is a 404, a `NaN` id included |
| WebRoutes.CreateMovieRoute | MovieWeb/server/routes.ts:163-182 | 201 exactly for an owner or member caller with valid data, and then the movie is stored under the next id with the caller as creator; otherwise nothing changes |
| WebRoutes.DeleteMovieRoute | MovieWeb/server/routes.ts:184-225 | 401 exactly without a session; 204 exactly for a positive id of a stored movie that the caller may delete (an owner any, a member only its own), and then the movie is gone; otherwise nothing changes |
| WebRoutes.DeleteMovieRule | MovieWeb/server/routes.ts:202-214 | a visitor never deletes a movie, and a member asking to delete an existing movie it did not create gets 403 |
| WebRoutes.CreatorMayDelete | MovieWeb/server/routes.ts:163-225 | a movie a member created through the API is one that member may then delete, as long as its id is a finite JavaScript number |
| WebRoutes.SaveRoute | MovieWeb/server/routes.ts:269-290 | 200 exactly for a signed-in, stored caller and a positive id of a stored movie, and then the movie is saved for the caller; otherwise nothing changes |
| WebRoutes.UnsaveRoute | MovieWeb/server/routes.ts:292-313 | 200 exactly for a signed-in, stored caller and a positive id of a stored movie, and then the caller's save is removed; otherwise nothing changes |
| WebRoutes.SavedMoviesRoute | MovieWeb/server/routes.ts:255-267 | 401 with no movies exactly without a session; otherwise the caller's saved movies |
| WebAuth.Authenticate | MovieWeb/server/auth.ts:61-83 | an empty name or password never reaches the strategy; an unknown name is no match; "Syfer-eng" with its fixed password is found and needs verification without any hash check; anyone else is found only when the password matches the stored hash |
| WebAuth.LoginRoute | MovieWeb/server/auth.ts:110-142 | a found, locked account gets 403; a found owner through the bypass gets 202 and a code `16120` valid for ten minutes; 200 only for a found, unlocked account; no other answer touches the pending codes |
| WebAuth.Key | MovieWeb/server/auth.ts:148-152 | the pending entry is looked up under `parseInt` of a given, non-empty user id |
| WebAuth.VerifyCode | MovieWeb/server/auth.ts:145-188 | 200 exactly for a given code that equals the pending code of an existing user and is presented at or before its expiry, and then the code is consumed and the user marked verified; an expired code is refused and dropped; a wrong code is refused and kept; the store changes only on success |
| WebAuth.RequestVerification | MovieWeb/server/auth.ts:191-240 | 200 exactly for given fields naming an existing "Syfer-eng" account, and then the fixed code is pending for ten minutes and stored on the user, whose e-mail becomes the given one; otherwise nothing changes |
| WebAuth.StoreOwnerCode | MovieWeb/server/auth.ts:220-233 | after the writes the user holds the given e-mail and the code, and no other user or movie changes |
| WebAuth.OwnerSignIn | MovieWeb/server/auth.ts:61-188 | the owner's bypass login issues a code, the code works within ten minutes and marks the owner verified, and it cannot be used twice |
| WebAuth.OwnerLoginIssuesCode | MovieWeb/server/auth.ts:110-139 | on a fresh server the owner's bypass answers 202 and leaves exactly one pending code, for user 1 |
| WebAuth.OwnerCodeAccepted | MovieWeb/server/auth.ts:145-188 | the owner's pending code is accepted once within its lifetime and refused the second time |
| WebAuth.ExpiredCodeIsForgotten | MovieWeb/server/auth.ts:158-161 | once the expiry has passed the code is refused and forgotten, so even the right code then fails |
| WebAuth.WrongCodeAllowsRetry | MovieWeb/server/auth.ts:163-165 | a wrong code leaves the pending code in place, so the right one still works afterwards |
| WebAuth.Register | MovieWeb/server/auth.ts:91-108 | 201 exactly when the name is free, and then the body is stored with the hashed password, not admin and not locked, every other field as the caller sent it; otherwise 400 and no change |
| WebAuth.RegisterGrantsRequestedOwnerRole | MovieWeb/server/auth.ts:97-102 | a self-registration whose body names the owner role is stored as an owner |
| WebAuth.RegisterFixed | MovieWeb/server/auth.ts:91-108 | 201 exactly when the name is free, and then the new user is a visitor that is not admin and not locked, with the hashed password, and no other user changes |
| WebAuth.RegisterFixedAddsNoManager | MovieWeb/server/auth.ts:91-108 | with the corrected registration, every user who may manage others was already in the store unchanged |
| MockStorage.Initial | MovieWeb/Website/src/lib/mockStorage.ts:4-114 | the page-load state holds the two seeded users and eight seeded movies, satisfies the store invariant (ids are positions plus one, names unique) and has nobody signed in |
| MockStorage.FindByName | MovieWeb/Website/src/lib/mockStorage.ts:119 | in a valid store, looking a stored user up by name finds exactly that user's position |
| MockStorage.Login | MovieWeb/Website/src/lib/mockStorage.ts:118-136 | a failed sign-in changes nothing and reports either the credentials message or the lock message; an unknown name gives the credentials message; a locked account is reported only when the password matched; success returns a stored, unlocked user with that name and password and makes it the current user |
| MockStorage.LoginOutcome | MovieWeb/Website/src/lib/mockStorage.ts:118-136 | for a stored user the outcome is decided by the password first and the lock flag second |
| MockStorage.Register | MovieWeb/Website/src/lib/mockStorage.ts:138-160 | a taken name is refused with no change; otherwise the user is appended with id count+1, no admin rights, unlocked, and signed in; the store invariant is kept and the new id is fresh |
| MockStorage.RegisterThenLogin | MovieWeb/Website/src/lib/mockStorage.ts:118-160 | a freshly registered user can sign in with the same credentials, and registering the same name again is refused |
| MockStorage.Logout | MovieWeb/Website/src/lib/mockStorage.ts:162-164 | clears the session and leaves users and movies as they were |
| MockStorage.GetAllUsers | MovieWeb/Website/src/lib/mockStorage.ts:170-177 | the user list is returned exactly when an admin is signed in, and refused with "Unauthorized" otherwise |
| MockStorage.UpdateUserLockStatus | MovieWeb/Website/src/lib/mockStorage.ts:179-202 | refusals change nothing, in source order: not an admin, unknown id, own account; success replaces only the target's lock flag and returns the updated user; the store invariant is kept |
| MockStorage.LockBlocksLogin | MovieWeb/Website/src/lib/mockStorage.ts:118-202 | an admin locking another user makes that user's next sign-in fail with the lock message, and unlocking lets it succeed |
| MockStorage.GetMoviesByCategory | MovieWeb/Website/src/lib/mockStorage.ts:211-215 | exactly the stored movies of that category, in stored order |
| MockStorage.GetFeaturedMovies | MovieWeb/Website/src/lib/mockStorage.ts:222-226 | exactly the featured stored movies, in stored order |
| MockStorage.GetMovie | MovieWeb/Website/src/lib/mockStorage.ts:217-220 | a stored movie with that id, or none exactly when no stored movie has it |
| MockStorage.SeededIds | MovieWeb/Website/src/lib/mockStorage.ts:25-114 | in the seeded store ids 1 to 8 are found and no other id is |
| QueryClient.CreateResponse | MovieWeb/Website/src/lib/queryClient.ts:17-25 | ok and data as given; the status defaults to 200 for ok and 400 otherwise; the status text is "OK" or "Error" |
| QueryClient.PathId | MovieWeb/Website/src/lib/queryClient.ts:74-75 | the id read from the last path segment is never zero: zero and NaN both read as no id |
| QueryClient.SessionEndpoints | MovieWeb/Website/src/lib/queryClient.ts:28-57 | handles exactly the login, register, logout POSTs and the user GET; every answer is ok exactly with status 200, carries a message otherwise, and keeps the store invariant; the answers themselves are stated by RegisterRoute, LoginRoute, CurrentUserRoute and SessionRoundTrip |
| QueryClient.MovieEndpoints | MovieWeb/Website/src/lib/queryClient.ts:59-86 | only GETs are handled, never change the store, and always answer 200 |
| QueryClient.AdminEndpoints | MovieWeb/Website/src/lib/queryClient.ts:88-110 | handles exactly the listing GET and a lock PATCH whose path ends in a nonzero id with a boolean isLocked; answers are well formed; the answers themselves are stated by AdminListingRoute and AdminPatchRoute |
| QueryClient.ApiRequest | MovieWeb/Website/src/lib/queryClient.ts:6-114 | every request gets a well-formed answer: ok exactly for 200, otherwise a 400, 401 or 404 with a message; a GET never changes the store; the store invariant is kept |
| QueryClient.LastSegmentOfPath | MovieWeb/Website/src/lib/queryClient.ts:66 | the last segment of a slash-terminated prefix followed by a slash-free text is that text |
| QueryClient.PathIdOf | MovieWeb/Website/src/lib/queryClient.ts:74-75 | a path ending in the decimal text of n yields id n when n is not zero, and no id for zero |
| QueryClient.CurrentUserRoute | MovieWeb/Website/src/lib/queryClient.ts:51-57 | GET /api/user answers 401 exactly when nobody is signed in, and the current user otherwise |
| QueryClient.SessionRoundTrip | MovieWeb/Website/src/lib/queryClient.ts:28-57 | after a successful login /api/user returns the signed-in user, and after logout it answers 401 |
| QueryClient.RegisterRoute | MovieWeb/Website/src/lib/queryClient.ts:37-44 | a taken name is a 400 with "Username already exists" and changes nothing; otherwise the new user, numbered after the last one, is stored, signed in and returned with 200 |
| QueryClient.LoginRoute | MovieWeb/Website/src/lib/queryClient.ts:28-35 | a refused sign-in is a 400 with the invalid-credentials or locked-account message and changes nothing; an unknown name is always refused as invalid credentials |
| QueryClient.AdminListingRoute | MovieWeb/Website/src/lib/queryClient.ts:89-96 | the listing GET returns every user to a signed-in admin and 401 "Unauthorized" to anyone else, changing nothing |
| QueryClient.CategoryRoute | MovieWeb/Website/src/lib/queryClient.ts:65-71 | a non-empty category segment is answered with that category's movies, even when it would read as an id |
| QueryClient.EmptyCategoryNotFound | MovieWeb/Website/src/lib/queryClient.ts:65-113 | the bare category prefix falls through every handler and ends in 404 |
| QueryClient.FeaturedRoute | MovieWeb/Website/src/lib/queryClient.ts:73-86 | /api/movies/featured reaches the featured list, because "featured" is not an id |
| QueryClient.PathIdWithoutDigits | MovieWeb/Website/src/lib/queryClient.ts:74-75 | a last segment without digits is not an id |
| QueryClient.MovieRoute | MovieWeb/Website/src/lib/queryClient.ts:73-113 | /api/movies/x answers the stored movie when x reads as a nonzero stored id, and 404 otherwise |
| QueryClient.MovieRouteById | MovieWeb/Website/src/lib/queryClient.ts:73-81 | the decimal text of a stored nonzero id is served, and id 0 is not found |
| QueryClient.AdminPatchRoute | MovieWeb/Website/src/lib/queryClient.ts:98-113 | a lock PATCH is handled only with a nonzero id and a boolean isLocked; store refusals become 401 and anything else falls through to 404 |
| QueryClient.GetQueryFn | MovieWeb/Website/src/lib/queryClient.ts:117-135 | data exactly when the response is ok; null exactly for a 401 under returnNull; an error otherwise |
| QueryClient.SignedOutQueries | MovieWeb/Website/src/lib/queryClient.ts:117-135 | signed out, the user query and the admin listing give null under returnNull and an error under throw, while the movie list loads |
| WebHome.FilteredMovies | MovieWeb/client/src/pages/home-page.tsx:23-32 | with no selection (null or empty) the loaded list itself; with a selection exactly the loaded movies passing its test, in list order; missing while the list is missing |
| WebHome.OnCategoryEvent | MovieWeb/client/src/pages/home-page.tsx:50-55 | the "home" event clears the selection, any other detail becomes it |
| WebHome.HomeShowsAll | MovieWeb/client/src/pages/home-page.tsx:24-55 | going back home shows the whole loaded list |
| WebHome.NamedTabsAreCategories | MovieWeb/client/src/pages/home-page.tsx:27-28 | the tv and new tabs keep exactly the movies stored under "TV Shows" and "New Releases" |
| WebHome.MyListShowsNothing | MovieWeb/client/src/pages/home-page.tsx:29 | the my-list tab always shows an empty list |
| WebHome.OtherSelectionsShowAll | MovieWeb/client/src/pages/home-page.tsx:26-30 | the movies tab and any unknown selection keep the whole list |
| WebHome.FilterTwiceSame | MovieWeb/client/src/pages/home-page.tsx:24-32 | filtering the filtered list again with the same selection changes nothing |
| WebHome.CategoryRow | MovieWeb/client/src/pages/home-page.tsx:34-35 | exactly the loaded movies of that stored category, in order, and empty while nothing is loaded |
| WebHome.HomeLayout | MovieWeb/client/src/pages/home-page.tsx:63-104 | a spinner exactly while loading; otherwise the hero is `trendingMovies[0]` when there is one, the trending row shows only with no selection, the action row only with no selection or the movies tab, and the my-list notice only on that tab |
| WebHome.SelectedHidesTrending | MovieWeb/client/src/pages/home-page.tsx:83-97 | after any category event other than home the trending row is hidden and the action row shows only for the movies tab |
| WebHome.HeroIsFirstTrending | MovieWeb/client/src/pages/home-page.tsx:79-81 | the hero is the first movie of the list in the trending category, whatever comes after it |
| HostMyList.EmptyMessage | MovieStreamHost/client/src/pages/my-list-page.tsx:36-49 | the log-in prompt exactly when there is no user; every signed-in user's message starts with "Your list is empty.", and an unknown role gets only that sentence |
| HostMyList.EmptyMessagePerRole | MovieStreamHost/client/src/pages/my-list-page.tsx:39-48 | the owner, member and visitor messages differ from each other and from any other role's |
| HostMyList.AvailableMovies | MovieStreamHost/client/src/pages/my-list-page.tsx:78-82 | nothing until both lists are loaded; then exactly the loaded movies whose id is not on the user's list, in list order |
| HostMyList.AvailablePartition | MovieStreamHost/client/src/pages/my-list-page.tsx:78-82 | a loaded movie is available exactly when no movie on the user's list has its id |
| HostMyList.AvailableAfterAdd | MovieStreamHost/client/src/pages/my-list-page.tsx:52-82 | a movie joining the user's list removes exactly the movies with its id from the available ones and keeps the rest in order |
| HostMyList.HasIdSnoc | MovieStreamHost/client/src/pages/my-list-page.tsx:80-81 | a list with one more movie holds an id exactly when the old list did or the new movie has it |
| HostMyList.MarkAdded | MovieStreamHost/client/src/pages/my-list-page.tsx:56 | the id is appended, so the marked ids grow by exactly one copy of it, even when it was already marked |
| HostMyList.MarkRemoved | MovieStreamHost/client/src/pages/my-list-page.tsx:69 | every copy of the id is gone, every copy of every other marked id stays (the multiset loses exactly the id's copies), and order is kept |
| HostMyList.AddThenRemove | MovieStreamHost/client/src/pages/my-list-page.tsx:52-75 | removing an id right after adding it leaves what removing it alone would leave |
| WebAdmin.ToggleLock | MovieWeb/client/src/components/admin/admin-panel.tsx:137-152 | the stored flag decides: an unlocked user ends up queued for locking and not for unlocking, a locked user the other way round; every other id keeps its queue membership; the queues stay disjoint and without repeats |
| WebAdmin.ToggleTwice | MovieWeb/client/src/components/admin/admin-panel.tsx:137-152 | a second click on the same row queues the same change as the first |
| WebAdmin.ToggleAll | MovieWeb/client/src/components/admin/admin-panel.tsx:137-152 | any run of clicks keeps the queues disjoint and without repeats |
| WebAdmin.ClicksKeepDisjoint | MovieWeb/client/src/components/admin/admin-panel.tsx:45-46 | from the empty queues, any run of clicks leaves them disjoint and without repeats |
| WebAdmin.LockRequests | MovieWeb/client/src/components/admin/admin-panel.tsx:171-178 | one request per queued id, in queue order, all with the same flag |
| WebAdmin.SaveChanges | MovieWeb/client/src/components/admin/admin-panel.tsx:169-188 | requests go out in order, locks before unlocks; when all are accepted every request was sent and both queues are cleared; otherwise sending stops at the first refused request and the queues are kept |
| WebAdmin.ApplyRequests | MovieWeb/client/src/components/admin/admin-panel.tsx:171-178 | after a run of same-flag requests every listed id holds that flag and every other stored id keeps its value |
| WebAdmin.ApplyConcat | MovieWeb/client/src/components/admin/admin-panel.tsx:171-178 | applying two runs of requests one after the other is applying their concatenation |
| WebAdmin.IsCurrentlyLocked | MovieWeb/client/src/components/admin/user-list-item.tsx:31-33 | a pending lock shows locked, otherwise a pending unlock shows unlocked, otherwise the stored flag shows |
| WebAdmin.ToggleShowsOpposite | MovieWeb/client/src/components/admin/admin-panel.tsx:137-152 | after one or two clicks the row shows the opposite of the stored flag |
| WebAdmin.SaveStoresWhatWasShown | MovieWeb/client/src/components/admin/admin-panel.tsx:169-188 | a save that goes through stores for each user the lock state the row showed before the save |
| WebAdmin.SaveDisabled | MovieWeb/client/src/components/admin/admin-panel.tsx:272 | the save button is enabled exactly when some change is queued and no lock request is in flight |
| WebAdmin.ClickEnablesSave | MovieWeb/client/src/components/admin/admin-panel.tsx:137-152 | after any click the save button is enabled unless a request is in flight |
| WebAdmin.FilteredUsers | MovieWeb/client/src/components/admin/admin-panel.tsx:190-192 | exactly the users whose lower-cased name contains the lower-cased search text, in list order |
| WebAdmin.ContainsEmpty | MovieWeb/client/src/components/admin/admin-panel.tsx:191 | every text contains the empty text |
| WebAdmin.EmptySearchListsAll | MovieWeb/client/src/components/admin/admin-panel.tsx:190-192 | an empty search lists every user |
| WebAdmin.SearchIgnoresCase | MovieWeb/client/src/components/admin/admin-panel.tsx:190-192 | the search text's letter case does not change the result |
| WebAdmin.NoUsersNotice | MovieWeb/client/src/components/admin/admin-panel.tsx:259-263 | a notice exactly when the search leaves no user: "No users found matching your search." with a search text, "No users found." without |
| WebAdmin.EmptySearchNotice | MovieWeb/client/src/components/admin/admin-panel.tsx:259-263 | without a search text the notice appears exactly when there are no users |
| WebAdmin.LockButtonDisabled | MovieWeb/client/src/components/admin/user-list-item.tsx:82 | the lock button is disabled exactly for owners |
| WebAdmin.RoleItems | MovieWeb/client/src/components/admin/user-list-item.tsx:108-138 | one menu item per role in the order owner, member, visitor, each disabled exactly when it is the user's role |
| WebAdmin.OneRoleItemDisabled | MovieWeb/client/src/components/admin/user-list-item.tsx:108-138 | exactly one item is disabled for a user with one of the three roles, and none otherwise |
| WebAdmin.FormatRole | MovieWeb/client/src/components/admin/user-list-item.tsx:36-38 | the same length, the first character upper-cased and the rest unchanged |
| WebAdmin.RoleNames | MovieWeb/client/src/components/admin/user-list-item.tsx:36-38 | the three roles read Owner, Member and Visitor |
| ProfilePicture.SchemeLength | MovieWeb/client/src/components/profile/profile-picture-form.tsx:56 | 8 exactly when the text starts with https:// and 7 exactly when it starts with http://, ignoring case; 0 otherwise |
| ProfilePicture.PreviewFor | MovieWeb/client/src/components/profile/profile-picture-form.tsx:53-61 | the typed text is previewed exactly when it matches the case-insensitive preview pattern, and a previewed text ends in an image extension |
| ProfilePicture.PreviewedIsAccepted | MovieWeb/client/src/components/profile/profile-picture-form.tsx:29-61 | a previewed address that passes the URL check also passes the form's extension rule |
| ProfilePicture.PreviewOfParts | MovieWeb/client/src/components/profile/profile-picture-form.tsx:56 | http:// or https://, any text without line breaks, a dot and a listed extension is always previewed |
| ProfilePicture.MatchesOfParts | MovieWeb/client/src/components/profile/profile-picture-form.tsx:56 | the pattern's middle run is exactly the text between the scheme and the extension |
| ProfilePicture.LowerOfParts | MovieWeb/client/src/components/profile/profile-picture-form.tsx:56 | lower-casing such an address changes only its middle part |
| ProfilePicture.SchemeOfParts | MovieWeb/client/src/components/profile/profile-picture-form.tsx:56 | the scheme is measured on the lower-cased text |
| ProfilePicture.LowerExtensions | MovieWeb/client/src/components/profile/profile-picture-form.tsx:33 | the listed extensions are already lower case |
| ProfilePicture.InitialForm | MovieWeb/client/src/components/profile/profile-picture-form.tsx:46-51 | the dialog opens with no preview and the user's picture in the field, or an empty field when there is none |
| ProfilePicture.TypeUrl | MovieWeb/client/src/components/profile/profile-picture-form.tsx:53-61 | typing sets the field to the typed text and the preview to what the preview rule gives for it |
| ProfilePicture.ClearPreview | MovieWeb/client/src/components/profile/profile-picture-form.tsx:63-66 | clearing empties both the preview and the field |
| ProfilePicture.ClearedFieldRejected | MovieWeb/client/src/components/profile/profile-picture-form.tsx:29-36 | after clearing, the form would refuse to submit the field |
| Guards.HostRoute | MovieStreamHost/client/src/lib/protected-route.tsx:13-50 | the spinner while loading; /auth without a user; the page exactly when a loaded user meets the required role and permission; / for a user who misses either; never the lock screen |
| Guards.NoRequirementAdmitsEveryone | MovieStreamHost/client/src/lib/protected-route.tsx:36-46 | a route without requirements renders for every signed-in user |
| Guards.RouteRequirement | MovieStreamHost/client/src/App.tsx:28-45 | exactly /upload, /users, /account-settings and /my-list are guarded: upload needs the upload permission, users needs the owner role, the other two need only a user |
| Guards.NavLinks | MovieStreamHost/client/src/components/layout/navbar.tsx:14-24 | no navbar on an embed page; otherwise Home always, My List for any user, Upload with the upload permission, Users for owners |
| Guards.NavMatchesRoutes | MovieStreamHost/client/src/components/layout/navbar.tsx:19-24 | once the user is known, each navbar link other than Home is shown exactly when its guarded route would render |
| Guards.NavByRole | MovieStreamHost/client/src/components/layout/navbar.tsx:22-23 | with the flags the server derives from the role, Upload shows for owners and members and Users for owners only |
| Guards.HostLockGuard | MovieStreamHost/client/src/components/auth/account-lock-guard.tsx:9-19 | the lock screen exactly for a locked account that is not an owner's; everyone else, signed in or not, sees the application |
| Guards.LockedUsersOnGuardedPages | MovieStreamHost/client/src/App.tsx:51-63 | a locked member or visitor reaches no guarded page, while a locked owner with the upload permission reaches all of them |
| Guards.HostPage | MovieStreamHost/client/src/App.tsx:55-63 | the lock screen exactly for a locked non-owner, whatever the route; the page renders exactly when the user is loaded, not such an account, and meets the route's requirement; otherwise the route guard's answer |
| Guards.SignedInPassesLockGuard | MovieStreamHost/client/src/components/auth/account-lock-guard.tsx:13 | anyone the server's login strategy signs in passes the lock guard |
| Guards.WebRoute | MovieWeb/Website/src/lib/protected-route.tsx:6-47 | the spinner while loading; /auth without a user; the lock screen exactly for a locked account, owner or not; the page otherwise |
| Guards.LockedOwnerDiffers | MovieWeb/Website/src/lib/protected-route.tsx:33-40 | a locked owner passes MovieStreamHost's guards but gets MovieWeb's lock screen |
| EditorHome.InitialTabsValid | AI-TEST/AICodeCraft/client/src/pages/Home.tsx:71-73 | the page opens with one tab, which is active, so the tab bar's invariant holds: ids unique and exactly one tab active |
| EditorHome.SetActive | AI-TEST/AICodeCraft/client/src/pages/Home.tsx:105-110 | the same tabs with the same ids and titles, active exactly where the id matches |
| EditorHome.SetActiveValid | AI-TEST/AICodeCraft/client/src/pages/Home.tsx:105-110 | activating an open tab leaves exactly that tab active |
| EditorHome.Deactivate | AI-TEST/AICodeCraft/client/src/pages/Home.tsx:100 | every tab kept as it was, but inactive |
| EditorHome.SelectTab | AI-TEST/AICodeCraft/client/src/pages/Home.tsx:96-111 | an open file's tab is activated in place; otherwise every tab is deactivated and a new, active tab for the file is appended |
| EditorHome.SelectTabValid | AI-TEST/AICodeCraft/client/src/pages/Home.tsx:96-111 | selecting a file keeps the invariant, and afterwards the active tab is the selected file's |
| EditorHome.CloseTab | AI-TEST/AICodeCraft/client/src/pages/Home.tsx:129-152 | closing is refused exactly when one tab is left; otherwise the result is `tabs.filter(t => t.id !== tab.id)` in order, except that when the active tab was closed and some tab remains, the last remaining tab is made active |
| EditorHome.MarkLastActive | AI-TEST/AICodeCraft/client/src/pages/Home.tsx:144 | the last tab becomes active and every other tab is unchanged |
| EditorHome.ClosedTabRemoved | AI-TEST/AICodeCraft/client/src/pages/Home.tsx:140 | with unique ids, closing the tab at a position filters out exactly that tab |
| EditorHome.CloseTabValid | AI-TEST/AICodeCraft/client/src/pages/Home.tsx:129-152 | closing an open tab when more than one is open removes exactly that tab: the other tabs keep their order, ids and titles, and are unchanged when the closed tab was not active; the invariant is kept |
| EditorHome.ClickTab | AI-TEST/AICodeCraft/client/src/pages/Home.tsx:114-121 | the same tabs in the same order with the same ids and titles, active exactly where the clicked tab's id is |
| EditorHome.StepValid | AI-TEST/AICodeCraft/client/src/pages/Home.tsx:79-152 | a select, a click on an open tab or a close of an open tab keeps the invariant |
| EditorHome.RunValid | AI-TEST/AICodeCraft/client/src/pages/Home.tsx:79-152 | any run of such events keeps the invariant |
| EditorHome.AlwaysOneActive | AI-TEST/AICodeCraft/client/src/pages/Home.tsx:71-152 | from the opening tab bar, exactly one tab is active after any run of selects, clicks and closes |
| EditorHome.LanguageFromFilename | AI-TEST/AICodeCraft/client/src/pages/Home.tsx:177-191 | always one of the six languages, and javascript whenever the lower-cased last dot segment is not a known extension |
| EditorHome.LanguageOfExtension | AI-TEST/AICodeCraft/client/src/pages/Home.tsx:178-190 | only the text after the last dot decides, in any letter case |
| EditorHome.LanguageWithoutDot | AI-TEST/AICodeCraft/client/src/pages/Home.tsx:178 | a name without a dot is looked up whole |
| EditorHome.FileSelect | AI-TEST/AICodeCraft/client/src/pages/Home.tsx:79-112 | an unknown file is created empty with the language its name suggests, appended and made active; a known file becomes active as stored; the tabs follow the select rule |
| EditorHome.FileSelectAgrees | AI-TEST/AICodeCraft/client/src/pages/Home.tsx:79-112 | after a select the active file and the active tab carry the selected id |
| EditorHome.CodeChange | AI-TEST/AICodeCraft/client/src/pages/Home.tsx:154-162 | the active file and every stored file with its id get the new text; tabs and all other files are unchanged |
| EditorHome.InsertedText | AI-TEST/AICodeCraft/client/src/pages/Home.tsx:167 | the old content, then two newlines unless the content already ends in one, then the code |
| EditorHome.InsertedCodeOnOwnLine | AI-TEST/AICodeCraft/client/src/pages/Home.tsx:167 | inserted code always starts on a new line |
| EditorHome.InsertCode | AI-TEST/AICodeCraft/client/src/pages/Home.tsx:164-168 | the active file's content becomes the inserted text; the active id and the tabs are unchanged |
| EditorSidebar.UpdateAll | AI-TEST/AICodeCraft/client/src/components/Sidebar.tsx:83-97 | one updated node per node, in order |
| EditorSidebar.UpdateItem | AI-TEST/AICodeCraft/client/src/components/Sidebar.tsx:84-96 | a node is active afterwards exactly when it carries the chosen id; the chosen node keeps its children as they were; id, name, kind and the presence of children never change |
| EditorSidebar.ShapeAll | AI-TEST/AICodeCraft/client/src/components/Sidebar.tsx:3-10 | the tree without its active marks has as many nodes at the top as the tree |
| EditorSidebar.UpdateKeepsShape | AI-TEST/AICodeCraft/client/src/components/Sidebar.tsx:83-97 | updating the tree changes only active marks: ids, names, kinds, order and nesting are kept |
| EditorSidebar.UpdateItemKeepsShape | AI-TEST/AICodeCraft/client/src/components/Sidebar.tsx:84-96 | the same for one node and everything below it |
| EditorSidebar.UpdateActiveCount | AI-TEST/AICodeCraft/client/src/components/Sidebar.tsx:83-97 | when every node carrying the chosen id is a leaf, exactly those nodes are active afterwards, whatever was active before |
| EditorSidebar.UpdateItemActiveCount | AI-TEST/AICodeCraft/client/src/components/Sidebar.tsx:84-96 | the same for one node and everything below it |
| EditorSidebar.ExactlyOneActive | AI-TEST/AICodeCraft/client/src/components/Sidebar.tsx:83-97 | when exactly one node, a leaf, carries the chosen id, exactly one node is active afterwards |
| EditorSidebar.SelectFile | AI-TEST/AICodeCraft/client/src/components/Sidebar.tsx:73-80 | a folder changes nothing and reaches no callback; a file updates the tree without changing its shape and is handed on |
| KeyStore.InitKeyStore | verfrblx/generated-keys.js:5-9 | a stored list is left as it is; a missing one becomes an empty list; the summary is untouched |
| KeyStore.InitKeyStoreIdempotent | verfrblx/generated-keys.js:5-9 | initialising twice is initialising once, and the entries read afterwards are the stored ones |
| KeyStore.ValidKeys | verfrblx/generated-keys.js:58 | one key per entry, in order, validated or not and with repeats |
| KeyStore.ValidKeysAppend | verfrblx/generated-keys.js:15-21 | appending an entry appends its key to the summary list |
| KeyStore.UpdateKeysJson | verfrblx/generated-keys.js:56-67 | the summary is rebuilt from the stored list and stamped with the given time |
| KeyStore.StoreKey | verfrblx/generated-keys.js:12-22 | a fresh, unvalidated entry stamped with the first clock reading is appended, even for a key already stored, and the summary lists exactly the stored keys afterwards, stamped with the second reading |
| KeyStore.KeyExists | verfrblx/generated-keys.js:25-29 | true exactly when some entry carries the key; the only change is the initialisation |
| KeyStore.StoredKeyExists | verfrblx/generated-keys.js:12-29 | a stored key is found afterwards, and storing adds exactly one entry |
| KeyStore.MarkValidated | verfrblx/generated-keys.js:38-39 | the entry at the position is marked validated at the given time, every other entry is untouched, and the listed keys do not change |
| KeyStore.ValidateKey | verfrblx/generated-keys.js:32-47 | true exactly when the key is stored; then the first entry carrying it is marked validated at the first clock reading and the summary is rewritten at the second; otherwise the list is left as it was |
| KeyStore.ValidateKeepsKeys | verfrblx/generated-keys.js:32-47 | validating never changes which keys are listed |
| KeyStore.OperationsKeepSync | verfrblx/generated-keys.js:12-47 | once the summary lists exactly the stored keys, storing, checking and validating keep it so |
| KeyStore.StoreThenValidate | verfrblx/generated-keys.js:12-47 | a key stored into empty storage and then validated is found, and is the one entry, validated at the second time |
| JsText.IntToString | MovieStreamHost/server/routes.ts:430 | at least one character; the decimal digits of a non-negative value, with a minus sign in front of a negative one |
| JsText.ParseIntOfIntToString | MovieStreamingHub/MovieStreamingHub/server/routes.ts:265-266 | parseInt reads back exactly the number the decimal text of any integer holds |
| JsText.ParseIntOfNatPrefix | MovieStreamHost/server/routes.ts:424-425 | parseInt reads the digits of a non-negative number and ignores whatever follows when it does not continue the number |
| JsText.ParseIntWithoutDigits | MovieStreamingHub/MovieStreamingHub/server/routes.ts:102-105 | a text without any decimal digit is NaN |
| JsText.ToNumber | MovieStreamHost/server/routes.ts:424-425 | what `parseInt` read as a JavaScript number: `NaN` without digits, `Infinity` (or `-Infinity`) once the digits reach 2^1024 - 2^970, the integer otherwise |
| JsText.Split | MovieStreamHost/server/routes.ts:423 | at least one piece, no piece holds the separator, and joining the pieces with it gives the text back |
| JsText.SplitJoin | MovieStreamHost/server/routes.ts:423 | splitting pieces joined by a separator that none of them holds gives the pieces back |
| JsText.LastSegment | MovieStreamingHub/MovieStreamingHub/server/routes.ts:41 | the text after the last separator: it holds no separator, ends the text, and is the whole text or follows a separator |
| JsText.LastSegmentIsLastPiece | MovieStreamingHub/MovieStreamingHub/server/routes.ts:41 | the last segment is exactly the last piece split produces |
| JsText.Extname | MovieStreamHost/server/routes.ts:111 | empty, or a dot followed by text without dot or slash, ending the path with its trailing slashes removed |
| JsText.ExtnameOf | MovieStreamHost/server/routes.ts:111 | a single path component stem.ext has the extension .ext |
| JsText.ToLower | MovieStreamHost/server/routes.ts:111 | the same length, each character lower-cased on its own |
| JsText.ToLowerIdempotent | MovieStreamHost/server/routes.ts:111 | lower-casing twice is lower-casing once |
| JsText.PadStart2 | MovieStreamingHub/MovieStreamingHub/client/src/components/ui/movie-card.tsx:34-36 | a text of two or more characters is kept; a shorter one is padded on the left with zeros to exactly two characters |
| JsText.TruncRem | MovieStreamingHub/MovieStreamingHub/client/src/components/ui/movie-card.tsx:30-31 | the remainder of a non-negative dividend is the usual one, and that of a negative dividend is never positive, as in JavaScript |
| JsText.PrecedesTotal | MovieStreamingHub/MovieStreamingHub/client/src/pages/my-library.tsx:32 | any two texts are ordered one way or the other |
| JsText.PrecedesAntisymmetric | MovieStreamingHub/MovieStreamingHub/client/src/pages/my-library.tsx:32 | two texts each ordered before the other are equal |
| JsText.SortStrings | MovieStreamingHub/MovieStreamingHub/client/src/pages/my-library.tsx:32 | the sorted keys are in ascending order and are a permutation of the input |

How the range handlers treat odd windows. The handler passes `start` and
`end` straight to Node's `fs.createReadStream`. Node throws before any header
is written when a bound is `NaN`, negative or above `Number.MAX_SAFE_INTEGER`
(2^53 - 1), or when `start > end`. Such a request ends in `Raised`
(`RangeStream.InvertedRangeRaises`, `RangeStream.OversizedRangeRaises`). In
MovieStreamHost the exception goes to `next`; in MovieStreamingHub it is
thrown out of the handler. The one exception is an end of `Infinity`, which
`parseInt` returns for digits denoting 2^1024 - 2^970 (about 1.8 * 10^308)
or more. Node does not check such an end, so the handler answers 206 with
`Infinity` in `Content-Range` and `Content-Length` and sends the file from
`start` on (`RangeStream.InfiniteEndServed`). A window that starts at or
past the end of the file, but is otherwise accepted by Node, is still
answered 206 with the raw numbers
(`RangeStream.UnsatisfiableRangeStillPartial`). No 416 response (section 4.4
of RFC 7233) is ever produced.

## Left out

- File system and streams: reading, writing and unlinking files, and the
  bytes a stream delivers, are not modelled. The range handlers' file
  existence check and Node's window check on `createReadStream` are stated
  as predicates.
- multer: the storage engine, the random file-name suffix, the upload size
  limit and the `maxCount: 1` limit per field are left out. The destination
  choice and the file filters are modelled.
- HubStore.UploadRequestRoute: a refused file's error reaches the server's
  closing error middleware, which is not part of this model. The answer is
  stated as 500 with the filter's message, the answer for an error that
  carries no status of its own.
- Sessions and passport: `req.login`, `req.logout`, serialisation and cookies
  are left out. The signed-in user is a parameter of each route.
- Password hashing: scrypt and random salts are parameters. Only the stored
  `<hex>.<salt>` format and its split are modelled.
- Clocks and randomness: `Date.now()`, `new Date()` and random tokens are
  integer or text parameters. ISO timestamps are integers.
- JsText.ToLower: lower-cases ASCII letters only. JavaScript's full Unicode
  case mapping is not modelled, and neither is the `/i` flag beyond ASCII.
- JsText.ParseInt: values between 2^53 and 2^1024 - 2^970 are not rounded
  to doubles; they stay exact integers. The overflow to `Infinity` above that
  is modelled by JsText.ToNumber where the range handlers and the MovieWeb
  id schema use the number. Elsewhere an overflowing id would find nothing
  either way. A non-integer number never arises in the modelled code.
- Request bodies: a body field is modelled with its declared type. A body
  without credential fields gets the same answer as empty ones, which
  HostAuth.LogIn models; a `null` update value is not modelled.
  Prototype keys such as `__proto__` in `extensionMap` or a request body are
  also not modelled.
- HubViews.Groups and HubViews.Library: the grouping object is a plain `{}`,
  so a category named like an inherited property (`constructor`, `toString`,
  `__proto__`) finds a truthy non-array value and the `push` in
  my-library.tsx:19-28 throws a TypeError. The model treats every category
  as a fresh key, so for such a category it promises a section where the
  page fails to render.
- URL handling: `URLSearchParams` percent-decoding and URL fragments are not
  modelled. Every name and value the embed feature writes is plain ASCII.
- Sort order: `Array#sort` is modelled on code-unit order of `char`. Texts
  outside the Basic Multilingual Plane compare by code point here.
- Descriptive fields: descriptions, URLs of posters and trailers, and
  `lockReason` text are carried through untouched and left out of the
  records, except where a rule reads them.
- MovieStreamHost routes that are not modelled, because they only read and
  forward records or check a password:
  - `GET /api/user-profile/:id`, `/api/movies`, `/api/movies/:id`,
    `/api/my-movies` and `/api/my-uploads`;
  - both change-password routes, `PATCH /api/user/profile`,
    `POST /api/user/profile-picture` and `/api/auth-status`;
  - `POST /api/logout`, `GET /api/user` and the `GET /api/users` listing in
    auth.ts.

  The store operations behind them are modelled.
- The second `PATCH /api/users/:id/lock` in MovieStreamHost/server/routes.ts
  (lines 488-524) is not modelled. It is registered after the one in auth.ts,
  so Express never reaches it.
- MovieStreamHost upload route (`POST /api/movies`): only its file filter and
  the store's `createMovie` are modelled, not the form parsing.
- MovieStreamingHub `GET /api/movies` and `GET /api/categories`: fixed
  listings, not modelled.
- MovieWeb routes that are not modelled: `GET /api/admin/users`,
  `GET /api/movies`, `/api/movies/featured`, `/api/movies/category/:category`,
  `PATCH /api/user/profile-picture`, `POST /api/logout` and `GET /api/user`.
  The store filters behind the movie listings are modelled.
- MovieWeb admin panel: the user-creation form, the delete dialog and the
  change-role mutation are left out. They only forward to the routes modelled
  in `WebRoutes`. `getRoleBadgeClass` is styling.
- WebHome: `filteredMovies` is computed but never rendered by the page. It is
  modelled as computed.
- Uploads.HostFileFilter: its own contract states only the unknown-field
  and dotless-name cases. The whitelist comparison is stated by
  HostFilterByExtension, for names of the form `stem.ext`.
- EditorHome.ClickTab: only the tab bar is modelled. The active file that
  `handleTabClick` also sets is left out.
- EditorHome.CloseTab: the active file that `handleTabClose` also sets after
  closing the active tab is left out.
- The editor's default file contents, toasts, the AI response panel and the
  download link that `updateKeysJson` builds (a Blob URL) are left out.
- ProfilePicture: whether a text is a URL at all (`z.string().url()`) is a
  function-valued parameter.
- Malformed local-storage JSON, which would make `JSON.parse` throw in the
  key store, is not modelled.
- The client's video players, `formatBytes` and the reading of a `null`
  duration are left out. The movie card's `formatDuration` is modelled on
  integer seconds.
- WebAuth.Authenticate: derives `needsVerification` from each login's
  credentials. In the code, the strategy sets the flag on the stored owner
  record itself, so it stays set for later logins of that record. That
  lasting flag is not modelled.
- WebStore.CreateMovie: keeps whatever `savedByUsers` the body carried, as
  the code does. The store invariant is promised only when that list has no
  repeats. JSON numeric ids are modelled as integers.

## Findings

| source | as written | input that shows it | evidently intended | confidence | as-written member | corrected member |
|---|---|---|---|---|---|---|
| MovieWeb/server/auth.ts:91-108 | `POST /api/register` spreads the whole request body into the new user and overrides only `password`, `isAdmin` and `isLocked`, so a caller-supplied `role` is stored | a registration body `{"username":"mallory","password":"secret1","role":"owner"}` on the seeded store creates user 2 with role owner, who passes every owner check of the admin routes | self-registration creates a visitor: the caller cannot choose the role, as the store's own default (`role: "visitor"`) and the owner-only role change route suggest | not executed | WebAuth.Register, WebAuth.RegisterGrantsRequestedOwnerRole | WebAuth.RegisterFixed, WebAuth.RegisterFixedAddsNoManager |

=== FILE: editor_home.dfy ===
/** The AI-TEST code editor's page state: the open tabs (exactly one of them
    active), the list of files with the active one, inserting generated
    code, and the language guessed from a file name. Toasts are left to the
    interface; a refused close is `None`. */
module EditorHome {
  import opened Options
  import opened JsText
  import opened Seqs

  // ------------------------------------------------------------------ tabs

  datatype Tab = Tab(id: string, title: string, isActive: bool)

  predicate UniqueIds(tabs: seq<Tab>) {
    forall i, j :: 0 <= i < j < |tabs| ==> tabs[i].id != tabs[j].id
  }

  /** The tab at `k` is the active one and no other is. */
  predicate ActiveAt(tabs: seq<Tab>, k: int) {
    0 <= k < |tabs| && forall j :: 0 <= j < |tabs| ==> (tabs[j].isActive <==> j == k)
  }

  predicate OneActive(tabs: seq<Tab>) {
    exists k :: 0 <= k < |tabs| && ActiveAt(tabs, k)
  }

  /** The invariant of the tab bar. */
  predicate ValidTabs(tabs: seq<Tab>) {
    UniqueIds(tabs) && OneActive(tabs)
  }

  /** The page opens with `main.js` as its only, active tab. */
  const InitialTabs: seq<Tab> := [Tab("main.js", "main.js", true)]

  lemma InitialTabsValid()
    ensures ValidTabs(InitialTabs)
  {
    assert ActiveAt(InitialTabs, 0);
  }

  predicate HasTab(tabs: seq<Tab>, id: string) {
    exists i :: 0 <= i < |tabs| && tabs[i].id == id
  }

  /** `tabs.map(t => ({ ...t, isActive: t.id === id }))`. */
  function SetActive(tabs: seq<Tab>, id: string): (r: seq<Tab>)
    ensures |r| == |tabs|
    ensures forall i :: 0 <= i < |r| ==> r[i].id == tabs[i].id && r[i].title == tabs[i].title
    ensures forall i :: 0 <= i < |r| ==> (r[i].isActive <==> tabs[i].id == id)
  {
    seq(|tabs|, i requires 0 <= i < |tabs| => tabs[i].(isActive := tabs[i].id == id))
  }

  /** Activating a tab that is open leaves exactly that one active. */
  lemma SetActiveValid(tabs: seq<Tab>, k: int)
    requires UniqueIds(tabs) && 0 <= k < |tabs|
    ensures ValidTabs(SetActive(tabs, tabs[k].id))
    ensures ActiveAt(SetActive(tabs, tabs[k].id), k)
  {
    var r := SetActive(tabs, tabs[k].id);
    assert ActiveAt(r, k);
  }

  /** `tabs.map(tab => ({ ...tab, isActive: false }))`. */
  function Deactivate(tabs: seq<Tab>): (r: seq<Tab>)
    ensures |r| == |tabs|
    ensures forall i :: 0 <= i < |r| ==> r[i] == tabs[i].(isActive := false)
  {
    seq(|tabs|, i requires 0 <= i < |tabs| => tabs[i].(isActive := false))
  }

  /** The tab update of `handleFileSelect`: a file without a tab gets a new,
      active one at the end and every other tab is deactivated; a file with
      a tab has that tab activated. */
  function SelectTab(tabs: seq<Tab>, id: string, name: string): (r: seq<Tab>)
    ensures HasTab(tabs, id) ==> r == SetActive(tabs, id)
    ensures !HasTab(tabs, id) ==>
      |r| == |tabs| + 1 && r[|tabs|] == Tab(id, name, true) && r[..|tabs|] == Deactivate(tabs)
  {
    if HasTab(tabs, id) then SetActive(tabs, id)
    else Deactivate(tabs) + [Tab(id, name, true)]
  }

  /** Selecting keeps the invariant, and the selected file's tab is the
      active one. */
  lemma SelectTabValid(tabs: seq<Tab>, id: string, name: string)
    requires UniqueIds(tabs)
    ensures ValidTabs(SelectTab(tabs, id, name))
    ensures exists k :: ActiveAt(SelectTab(tabs, id, name), k) && SelectTab(tabs, id, name)[k].id == id
  {
    if HasTab(tabs, id) {
      var k :| 0 <= k < |tabs| && tabs[k].id == id;
      SetActiveValid(tabs, k);
    } else {
      var r := SelectTab(tabs, id, name);
      assert ActiveAt(r, |tabs|);
      assert forall i, j :: 0 <= i < j < |r| ==> r[i].id != r[j].id by {
        forall i, j | 0 <= i < j < |r| ensures r[i].id != r[j].id {
          if j == |tabs| {
            assert r[i].id == tabs[i].id;
          } else {
            assert r[i].id == tabs[i].id && r[j].id == tabs[j].id;
          }
        }
      }
    }
  }

  /** `t => t.id !== id`. */
  function OtherThan(id: string): Tab -> bool {
    (t: Tab) => t.id != id
  }

  /** `handleTabClose`: closing the only tab is refused; otherwise every tab
      with that id goes and, when the closed tab was the active one, the
      last remaining tab becomes active. */
  function CloseTab(tabs: seq<Tab>, tab: Tab): (r: Option<seq<Tab>>)
    ensures r.None? <==> |tabs| == 1
    ensures r.Some? ==> forall i :: 0 <= i < |r.value| ==> r.value[i].id != tab.id
    ensures r.Some? && tab.isActive && r.value != [] ==> r.value[|r.value| - 1].isActive
    ensures r.Some? && !(tab.isActive && Filter(tabs, OtherThan(tab.id)) != []) ==>
      r.value == Filter(tabs, OtherThan(tab.id))
    ensures r.Some? && tab.isActive && Filter(tabs, OtherThan(tab.id)) != [] ==>
      r.value == MarkLastActive(Filter(tabs, OtherThan(tab.id)))
  {
    if |tabs| == 1 then None
    else
      var rest := Filter(tabs, OtherThan(tab.id));
      Some(if tab.isActive && |rest| > 0 then MarkLastActive(rest) else rest)
  }

  /** `newTabs[newTabs.length - 1].isActive = true`. */
  function MarkLastActive(tabs: seq<Tab>): (r: seq<Tab>)
    requires tabs != []
    ensures |r| == |tabs| && r[|r| - 1].isActive
    ensures forall i :: 0 <= i < |r| ==> r[i].id == tabs[i].id && r[i].title == tabs[i].title
    ensures forall i :: 0 <= i < |r| - 1 ==> r[i] == tabs[i]
  {
    tabs[..|tabs| - 1] + [tabs[|tabs| - 1].(isActive := true)]
  }

  /** A filter that drops the tab at `k` and keeps every other removes
      exactly that tab. */
  lemma RemoveAt(tabs: seq<Tab>, k: int, p: Tab -> bool)
    requires 0 <= k < |tabs| && !p(tabs[k])
    requires forall i :: 0 <= i < |tabs| && i != k ==> p(tabs[i])
    ensures Filter(tabs, p) == tabs[..k] + tabs[k + 1..]
  {
    var front, back := tabs[..k], tabs[k + 1..];
    SplitAt(tabs, k);
    assert forall i :: 0 <= i < |front| ==> p(front[i]);
    assert forall i :: 0 <= i < |back| ==> p(back[i]) by {
      assert forall i :: 0 <= i < |back| ==> back[i] == tabs[k + 1 + i];
    }
    FilterAround(front, tabs[k], back, p);
  }

  lemma SplitAt(tabs: seq<Tab>, k: int)
    requires 0 <= k < |tabs|
    ensures tabs == tabs[..k] + ([tabs[k]] + tabs[k + 1..])
  {
  }

  lemma FilterAround(front: seq<Tab>, t: Tab, back: seq<Tab>, p: Tab -> bool)
    requires !p(t)
    requires forall i :: 0 <= i < |front| ==> p(front[i])
    requires forall i :: 0 <= i < |back| ==> p(back[i])
    ensures Filter(front + ([t] + back), p) == front + back
  {
    FilterAppend(front, [t] + back, p);
    FilterAppend([t], back, p);
    assert Filter([t], p) == [];
    FilterAll(front, p);
    FilterAll(back, p);
  }

  /** The list without the tab at `k`, position by position. */
  lemma WithoutAt(tabs: seq<Tab>, k: int)
    requires 0 <= k < |tabs|
    ensures var rest := tabs[..k] + tabs[k + 1..];
      |rest| == |tabs| - 1 && forall i :: 0 <= i < |rest| ==> rest[i] == if i < k then tabs[i] else tabs[i + 1]
  {
  }

  lemma WithoutAtUnique(tabs: seq<Tab>, k: int)
    requires UniqueIds(tabs) && 0 <= k < |tabs|
    ensures UniqueIds(tabs[..k] + tabs[k + 1..])
  {
    WithoutAt(tabs, k);
  }

  /** Removing a tab other than the active one keeps that one active. */
  lemma WithoutInactive(tabs: seq<Tab>, k: int, a: int)
    requires ActiveAt(tabs, a) && 0 <= k < |tabs| && k != a
    ensures ActiveAt(tabs[..k] + tabs[k + 1..], if a < k then a else a - 1)
  {
    WithoutAt(tabs, k);
  }

  /** Removing the active tab leaves none active. */
  lemma WithoutActive(tabs: seq<Tab>, k: int)
    requires ActiveAt(tabs, k)
    ensures var rest := tabs[..k] + tabs[k + 1..];
      forall i :: 0 <= i < |rest| ==> !rest[i].isActive
  {
    WithoutAt(tabs, k);
  }

  /** Marking the last of tabs with none active makes it the only one. */
  lemma ActivateLast(rest: seq<Tab>)
    requires UniqueIds(rest) && rest != []
    requires forall i :: 0 <= i < |rest| ==> !rest[i].isActive
    ensures ValidTabs(MarkLastActive(rest))
  {
    assert ActiveAt(MarkLastActive(rest), |rest| - 1);
  }

  /** Closing an open tab keeps the invariant. */
  lemma CloseTabValid(tabs: seq<Tab>, k: int)
    requires ValidTabs(tabs) && 0 <= k < |tabs| && |tabs| > 1
    ensures CloseTab(tabs, tabs[k]).Some? && ValidTabs(CloseTab(tabs, tabs[k]).value)
    ensures |CloseTab(tabs, tabs[k]).value| == |tabs| - 1
    ensures var r, rest := CloseTab(tabs, tabs[k]).value, tabs[..k] + tabs[k + 1..];
      forall i :: 0 <= i < |r| ==> r[i].id == rest[i].id && r[i].title == rest[i].title
    ensures !tabs[k].isActive ==> CloseTab(tabs, tabs[k]).value == tabs[..k] + tabs[k + 1..]
  {
    var rest := tabs[..k] + tabs[k + 1..];
    ClosedTabRemoved(tabs, k);
    assert CloseTab(tabs, tabs[k]) == Some(if tabs[k].isActive then MarkLastActive(rest) else rest);
    var a :| 0 <= a < |tabs| && ActiveAt(tabs, a);
    if tabs[k].isActive {
      ClosedActive(tabs, k);
    } else {
      ClosedInactive(tabs, k, a);
    }
  }

  /** With unique ids, closing the tab at `k` filters out exactly that tab. */
  lemma ClosedTabRemoved(tabs: seq<Tab>, k: int)
    requires UniqueIds(tabs) && 0 <= k < |tabs|
    ensures Filter(tabs, OtherThan(tabs[k].id)) == tabs[..k] + tabs[k + 1..]
  {
    var p := OtherThan(tabs[k].id);
    assert !p(tabs[k]) && forall i :: 0 <= i < |tabs| && i != k ==> p(tabs[i]);
    RemoveAt(tabs, k, p);
  }

  lemma ClosedActive(tabs: seq<Tab>, k: int)
    requires UniqueIds(tabs) && ActiveAt(tabs, k) && |tabs| > 1
    ensures var rest := tabs[..k] + tabs[k + 1..];
      rest != [] && ValidTabs(MarkLastActive(rest))
  {
    WithoutAtUnique(tabs, k);
    WithoutActive(tabs, k);
    ActivateLast(tabs[..k] + tabs[k + 1..]);
  }

  lemma ClosedInactive(tabs: seq<Tab>, k: int, a: int)
    requires UniqueIds(tabs) && ActiveAt(tabs, a) && 0 <= k < |tabs| && k != a
    ensures ValidTabs(tabs[..k] + tabs[k + 1..])
  {
    WithoutAtUnique(tabs, k);
    WithoutInactive(tabs, k, a);
  }

  /** `handleTabClick`: only the clicked tab is active afterwards. */
  function ClickTab(tabs: seq<Tab>, tab: Tab): (r: seq<Tab>)
    ensures |r| == |tabs|
    ensures forall i :: 0 <= i < |r| ==> r[i].id == tabs[i].id && r[i].title == tabs[i].title
    ensures forall i :: 0 <= i < |r| ==> (r[i].isActive <==> tabs[i].id == tab.id)
  {
    SetActive(tabs, tab.id)
  }

  /** Every sequence of selects, clicks on open tabs and closes of open tabs,
      starting from the initial tab, leaves exactly one tab active. */
  datatype TabEvent = Select(id: string, name: string) | Click(k: nat) | Close(k: nat)

  function Step(tabs: seq<Tab>, e: TabEvent): seq<Tab> {
    match e
    case Select(id, name) => SelectTab(tabs, id, name)
    case Click(k) => if k < |tabs| then ClickTab(tabs, tabs[k]) else tabs
    case Close(k) => if k < |tabs| then CloseTab(tabs, tabs[k]).GetOr(tabs) else tabs
  }

  function Run(tabs: seq<Tab>, events: seq<TabEvent>): seq<Tab>
    decreases |events|
  {
    if events == [] then tabs else Run(Step(tabs, events[0]), events[1..])
  }

  lemma StepValid(tabs: seq<Tab>, e: TabEvent)
    requires ValidTabs(tabs)
    ensures ValidTabs(Step(tabs, e))
  {
    match e
    case Select(id, name) => SelectTabValid(tabs, id, name);
    case Click(k) =>
      if k < |tabs| {
        SetActiveValid(tabs, k);
      }
    case Close(k) =>
      if k < |tabs| && |tabs| > 1 {
        CloseTabValid(tabs, k);
      }
  }

  lemma {:induction false} RunValid(tabs: seq<Tab>, events: seq<TabEvent>)
    requires ValidTabs(tabs)
    ensures ValidTabs(Run(tabs, events))
    decreases |events|
  {
    if events != [] {
      StepValid(tabs, events[0]);
      RunValid(Step(tabs, events[0]), events[1..]);
    }
  }

  lemma AlwaysOneActive(events: seq<TabEvent>)
    ensures OneActive(Run(InitialTabs, events))
  {
    InitialTabsValid();
    RunValid(InitialTabs, events);
  }

  // ------------------------------------------------------------- languages

  /** `extensionMap[ext]`. */
  function ExtensionLanguage(ext: string): Option<string> {
    if ext == "js" || ext == "jsx" then Some("javascript")
    else if ext == "ts" || ext == "tsx" then Some("typescript")
    else if ext == "py" then Some("python")
    else if ext == "java" then Some("java")
    else if ext == "html" then Some("html")
    else if ext == "css" then Some("css")
    else None
  }

  /** `getLanguageFromFilename`: the text after the last `.` (the whole name
      when there is none), lower-cased and looked up; anything unknown is
      JavaScript. */
  function LanguageFromFilename(filename: string): (lang: string)
    ensures lang in {"javascript", "typescript", "python", "java", "html", "css"}
    ensures ExtensionLanguage(ToLower(LastSegment(filename, '.'))).None? ==> lang == "javascript"
  {
    ExtensionLanguage(ToLower(LastSegment(filename, '.'))).GetOr("javascript")
  }

  /** Only the last extension counts, in any letter case. */
  lemma LanguageOfExtension(stem: string, ext: string)
    requires '.' !in ext
    ensures LanguageFromFilename(stem + "." + ext) == ExtensionLanguage(ToLower(ext)).GetOr("javascript")
  {
    assert stem + "." + ext == stem + ['.'] + ext;
    LastSegmentAfterSeparator(stem, '.', ext);
    LastSegmentWithoutSeparator(ext, '.');
  }

  /** A name without a dot is looked up whole: a file called `py` is Python. */
  lemma LanguageWithoutDot(name: string)
    requires '.' !in name
    ensures LanguageFromFilename(name) == ExtensionLanguage(ToLower(name)).GetOr("javascript")
  {
    LastSegmentWithoutSeparator(name, '.');
  }

  // ----------------------------------------------------------------- files

  datatype FileData = FileData(id: string, name: string, content: string, language: string)

  datatype Editor = Editor(tabs: seq<Tab>, active: FileData, files: seq<FileData>)

  function HasId(id: string): FileData -> bool {
    (f: FileData) => f.id == id
  }

  /** `handleFileSelect`: a file not yet known is created empty with the
      language its name suggests and becomes active; a known file becomes
      active as stored. The tabs follow `SelectTab`. */
  function FileSelect(e: Editor, id: string, name: string): (r: Editor)
    ensures r.tabs == SelectTab(e.tabs, id, name)
    ensures FirstIndex(e.files, HasId(id)).None? ==>
      r.active == FileData(id, name, "", LanguageFromFilename(name)) && r.files == e.files + [r.active]
    ensures FirstIndex(e.files, HasId(id)).Some? ==>
      r.files == e.files && r.active == e.files[FirstIndex(e.files, HasId(id)).value]
  {
    var tabs := SelectTab(e.tabs, id, name);
    match FirstIndex(e.files, HasId(id))
    case None =>
      var created := FileData(id, name, "", LanguageFromFilename(name));
      Editor(tabs, created, e.files + [created])
    case Some(i) => Editor(tabs, e.files[i], e.files)
  }

  /** After a select the active file and the active tab carry the same id. */
  lemma FileSelectAgrees(e: Editor, id: string, name: string)
    requires UniqueIds(e.tabs)
    ensures var r := FileSelect(e, id, name);
      r.active.id == id && exists k :: ActiveAt(r.tabs, k) && r.tabs[k].id == r.active.id
  {
    SelectTabValid(e.tabs, id, name);
  }

  /** `handleCodeChange`: the active file and every stored file with its id
      get the new text; nothing else changes. */
  function CodeChange(e: Editor, code: string): (r: Editor)
    ensures r.tabs == e.tabs && r.active == e.active.(content := code)
    ensures |r.files| == |e.files|
    ensures forall i :: 0 <= i < |r.files| ==>
      r.files[i] == if e.files[i].id == e.active.id then e.files[i].(content := code) else e.files[i]
  {
    var files := seq(|e.files|, i requires 0 <= i < |e.files| =>
      if e.files[i].id == e.active.id then e.files[i].(content := code) else e.files[i]);
    Editor(e.tabs, e.active.(content := code), files)
  }

  /** The text `handleInsertCode` writes: the old content, a blank line
      unless it already ends in a newline, then the code. */
  function InsertedText(content: string, code: string): (r: string)
    ensures StartsWith(r, content) && EndsWith(r, code)
    ensures |r| == |content| + |code| + (if EndsWith(content, "\n") then 0 else 2)
    ensures !EndsWith(content, "\n") ==> r[|content|..|content| + 2] == "\n\n"
  {
    var r := content + (if EndsWith(content, "\n") then "" else "\n\n") + code;
    assert r[..|content|] == content;
    assert r[|r| - |code|..] == code;
    r
  }

  /** Inserted code always starts on a line of its own. */
  lemma InsertedCodeOnOwnLine(content: string, code: string)
    ensures var r := InsertedText(content, code);
      |r| > |code| && r[|r| - |code| - 1] == '\n'
  {
    var r := InsertedText(content, code);
    if EndsWith(content, "\n") {
      assert r == content + code;
      assert r[|content| - 1] == content[|content| - 1];
    } else {
      assert r == content + "\n\n" + code;
      assert r[|content| + 1] == '\n';
    }
  }

  /** `handleInsertCode`. */
  function InsertCode(e: Editor, code: string): (r: Editor)
    ensures r.active.content == InsertedText(e.active.content, code)
    ensures r.active.id == e.active.id && r.tabs == e.tabs
  {
    CodeChange(e, InsertedText(e.active.content, code))
  }
}

=== FILE: editor_sidebar.dfy ===
/** The AI-TEST editor's file tree: `updateActiveFile`, which marks the
    chosen node active and every other node it visits inactive, and
    `selectFile`, which ignores folders. */
module EditorSidebar {
  import opened Options

  /** A node of the tree. `hasChildren` says whether the `children` list is
      present at all: it is absent on files and may be absent on folders,
      and an absent list behaves like an empty one except that it is not
      walked. An absent `isActive` reads as false. */
  datatype FileItem = FileItem(id: string, name: string, isFolder: bool, hasChildren: bool, children: seq<FileItem>, isActive: bool)

  /** `updateActiveFile(items, activeId)`. */
  function UpdateAll(items: seq<FileItem>, activeId: string): (r: seq<FileItem>)
    ensures |r| == |items|
    ensures forall i :: 0 <= i < |r| ==> r[i] == UpdateItem(items[i], activeId)
    decreases items
  {
    if items == [] then [] else [UpdateItem(items[0], activeId)] + UpdateAll(items[1..], activeId)
  }

  /** One node: the matching node is marked active and kept as it is below;
      any other node is marked inactive, and a folder's children are
      updated in turn. */
  function UpdateItem(item: FileItem, activeId: string): (r: FileItem)
    ensures r.isActive <==> item.id == activeId
    ensures item.id == activeId ==> r.children == item.children
    ensures r.id == item.id && r.name == item.name && r.isFolder == item.isFolder && r.hasChildren == item.hasChildren
    decreases item
  {
    if item.id == activeId then item.(isActive := true)
    else if item.hasChildren then
      item.(isActive := false, children := UpdateAll(item.children, activeId))
    else item.(isActive := false)
  }

  // ----------------------------------------------------------------- shape

  /** The tree with every active mark cleared: ids, names, kinds, order and
      nesting. */
  function ShapeAll(items: seq<FileItem>): (r: seq<FileItem>)
    ensures |r| == |items|
    decreases items
  {
    if items == [] then [] else [Shape(items[0])] + ShapeAll(items[1..])
  }

  function Shape(item: FileItem): FileItem
    decreases item
  {
    item.(isActive := false, children := if item.hasChildren then ShapeAll(item.children) else [])
  }

  /** `updateActiveFile` changes only active marks. */
  lemma {:induction false} UpdateKeepsShape(items: seq<FileItem>, activeId: string)
    ensures ShapeAll(UpdateAll(items, activeId)) == ShapeAll(items)
    decreases items
  {
    if items != [] {
      UpdateItemKeepsShape(items[0], activeId);
      UpdateKeepsShape(items[1..], activeId);
    }
  }

  lemma {:induction false} UpdateItemKeepsShape(item: FileItem, activeId: string)
    ensures Shape(UpdateItem(item, activeId)) == Shape(item)
    decreases item
  {
    if item.id != activeId && item.hasChildren {
      UpdateKeepsShape(item.children, activeId);
    }
  }

  // ---------------------------------------------------------------- counts

  /** How many nodes carry the id. */
  function CountIdAll(items: seq<FileItem>, id: string): nat
    decreases items
  {
    if items == [] then 0 else CountId(items[0], id) + CountIdAll(items[1..], id)
  }

  function CountId(item: FileItem, id: string): nat
    decreases item
  {
    (if item.id == id then 1 else 0) + (if item.hasChildren then CountIdAll(item.children, id) else 0)
  }

  /** How many nodes are marked active. */
  function ActiveAll(items: seq<FileItem>): nat
    decreases items
  {
    if items == [] then 0 else Active(items[0]) + ActiveAll(items[1..])
  }

  function Active(item: FileItem): nat
    decreases item
  {
    (if item.isActive then 1 else 0) + (if item.hasChildren then ActiveAll(item.children) else 0)
  }

  /** Every node carrying the id is a leaf: no children, or an empty list. */
  predicate TargetsLeafAll(items: seq<FileItem>, id: string)
    decreases items
  {
    items == [] || (TargetsLeaf(items[0], id) && TargetsLeafAll(items[1..], id))
  }

  predicate TargetsLeaf(item: FileItem, id: string)
    decreases item
  {
    if item.id == id then !item.hasChildren || item.children == []
    else !item.hasChildren || TargetsLeafAll(item.children, id)
  }

  /** When the chosen id names only leaves, exactly the nodes carrying it
      are active afterwards, whatever was active before. */
  lemma {:induction false} UpdateActiveCount(items: seq<FileItem>, activeId: string)
    requires TargetsLeafAll(items, activeId)
    ensures ActiveAll(UpdateAll(items, activeId)) == CountIdAll(items, activeId)
    decreases items
  {
    if items != [] {
      UpdateItemActiveCount(items[0], activeId);
      UpdateActiveCount(items[1..], activeId);
    }
  }

  lemma {:induction false} UpdateItemActiveCount(item: FileItem, activeId: string)
    requires TargetsLeaf(item, activeId)
    ensures Active(UpdateItem(item, activeId)) == CountId(item, activeId)
    decreases item
  {
    if item.id == activeId {
      if item.hasChildren {
        assert ActiveAll(item.children) == 0 && CountIdAll(item.children, activeId) == 0;
      }
    } else if item.hasChildren {
      UpdateActiveCount(item.children, activeId);
    }
  }

  /** With the id carried by exactly one node, a leaf, exactly one node is
      active afterwards. */
  lemma ExactlyOneActive(items: seq<FileItem>, activeId: string)
    requires CountIdAll(items, activeId) == 1 && TargetsLeafAll(items, activeId)
    ensures ActiveAll(UpdateAll(items, activeId)) == 1
  {
    UpdateActiveCount(items, activeId);
  }

  // ---------------------------------------------------------------- select

  /** `selectFile`: a folder changes nothing and reaches no callback; a file
      updates the tree and is handed to `onFileSelect`. */
  function SelectFile(files: seq<FileItem>, file: FileItem): (r: (seq<FileItem>, Option<FileItem>))
    ensures file.isFolder ==> r == (files, None)
    ensures !file.isFolder ==> r.1 == Some(file) && ShapeAll(r.0) == ShapeAll(files)
  {
    if file.isFolder then (files, None)
    else
      UpdateKeepsShape(files, file.id);
      (UpdateAll(files, file.id), Some(file))
  }

  /** The tree the sidebar starts with. */
  const InitialFiles: seq<FileItem> := [
    FileItem("src", "src", true, true, [
      FileItem("main.js", "main.js", false, false, [], true),
      FileItem("api.js", "api.js", false, false, [], false),
      FileItem("utils.js", "utils.js", false, false, [], false)], false),
    FileItem("components", "components", true, false, [], false),
    FileItem("README.md", "README.md", false, false, [], false),
    FileItem("package.json", "package.json", false, false, [], false)]
}

=== FILE: embed_code.dfy ===
/** MovieStreamingHub's embed dialog: its options, the number inputs for the
    player size, and `generateEmbedCode`, which writes an `<iframe>` whose
    `src` carries the options as a query string. */
module EmbedCode {
  import opened Options
  import opened JsText
  import opened Seqs
  import opened SearchParams

  /** The three qualities the dialog offers. */
  datatype Quality = P480 | P720 | P1080

  function QualityText(q: Quality): (t: string)
    ensures t != "" && '&' !in t
  {
    match q
    case P480 => "480p"
    case P720 => "720p"
    case P1080 => "1080p"
  }

  datatype EmbedOptions = EmbedOptions(autoplay: bool, loop: bool, hideControls: bool, width: int, height: int, quality: Quality)

  /** The options the dialog opens with. */
  const DefaultOptions := EmbedOptions(false, false, false, 640, 360, P720)

  function Names(ps: seq<Param>): (ns: seq<string>)
    ensures |ns| == |ps| && forall i :: 0 <= i < |ps| ==> ns[i] == ps[i].name
  {
    if ps == [] then [] else [ps[0].name] + Names(ps[1..])
  }

  /** `[p]` when the flag is set, nothing otherwise. */
  function When(on: bool, p: Param): seq<Param> {
    if on then [p] else []
  }

  /** The pairs `generateEmbedCode` appends, in order: `autoplay=true`,
      `loop=true` and `controls=false` each only when its option is set,
      then `quality` always. */
  function EmbedParams(o: EmbedOptions): (ps: seq<Param>)
    ensures ps != [] && ps[|ps| - 1] == Param("quality", QualityText(o.quality))
    ensures |ps| == 1 + (if o.autoplay then 1 else 0) + (if o.loop then 1 else 0) + (if o.hideControls then 1 else 0)
    ensures AllPlain(ps)
  {
    FlagsPlain(o);
    AllPlainConcat(Flags(o), [Param("quality", QualityText(o.quality))]);
    Flags(o) + [Param("quality", QualityText(o.quality))]
  }

  /** The optional pairs, in order. */
  function Flags(o: EmbedOptions): (ps: seq<Param>)
    ensures |ps| == (if o.autoplay then 1 else 0) + (if o.loop then 1 else 0) + (if o.hideControls then 1 else 0)
  {
    When(o.autoplay, Param("autoplay", "true")) + When(o.loop, Param("loop", "true"))
      + When(o.hideControls, Param("controls", "false"))
  }

  lemma WhenPlain(on: bool, p: Param)
    requires Plain(p)
    ensures AllPlain(When(on, p))
  {
  }

  lemma FlagsPlain(o: EmbedOptions)
    ensures AllPlain(Flags(o))
  {
    var a := When(o.autoplay, Param("autoplay", "true"));
    var l := When(o.loop, Param("loop", "true"));
    var c := When(o.hideControls, Param("controls", "false"));
    WhenPlain(o.autoplay, Param("autoplay", "true"));
    WhenPlain(o.loop, Param("loop", "true"));
    WhenPlain(o.hideControls, Param("controls", "false"));
    AllPlainConcat(a, l);
    AllPlainConcat(a + l, c);
  }

  /** The parameter names appear in the fixed order autoplay, loop,
      controls, quality, each at most once. */
  lemma EmbedParamsOrder(o: EmbedOptions)
    ensures IsSubsequence(Names(EmbedParams(o)), ["autoplay", "loop", "controls", "quality"])
  {
    var q := [Param("quality", QualityText(o.quality))];
    QualityLast(q, o.quality, ["quality"]);
    var c := When(o.hideControls, Param("controls", "false"));
    var l := When(o.loop, Param("loop", "true"));
    var a := When(o.autoplay, Param("autoplay", "true"));
    NamesWhenCons(o.hideControls, Param("controls", "false"), q, ["quality"]);
    NamesWhenCons(o.loop, Param("loop", "true"), c + q, ["controls", "quality"]);
    NamesWhenCons(o.autoplay, Param("autoplay", "true"), l + (c + q), ["loop", "controls", "quality"]);
    EmbedParamsParts(o);
  }

  lemma EmbedParamsParts(o: EmbedOptions)
    ensures EmbedParams(o) == When(o.autoplay, Param("autoplay", "true")) + (When(o.loop, Param("loop", "true"))
      + (When(o.hideControls, Param("controls", "false")) + [Param("quality", QualityText(o.quality))]))
  {
  }

  lemma QualityLast(q: seq<Param>, quality: Quality, names: seq<string>)
    requires q == [Param("quality", QualityText(quality))] && names == ["quality"]
    ensures IsSubsequence(Names(q), names)
  {
    assert Names(q) == names;
    assert names[1..] == [];
  }

  /** An optional pair in front keeps the names a subsequence of the fixed
      order with its own name in front. */
  lemma NamesWhenCons(on: bool, p: Param, rest: seq<Param>, names: seq<string>)
    requires IsSubsequence(Names(rest), names)
    ensures IsSubsequence(Names(When(on, p) + rest), [p.name] + names)
  {
    assert ([p.name] + names)[1..] == names;
    if on {
      assert ([p] + rest)[1..] == rest;
      assert Names([p] + rest) == [p.name] + Names(rest);
    } else {
      assert When(on, p) + rest == rest;
    }
  }

  /** `${origin}/embed/${id}${queryString}`: the query string is never
      empty, because `quality` is always present. */
  function EmbedUrl(origin: string, id: int, o: EmbedOptions): (url: string)
    ensures url == origin + "/embed/" + IntToString(id) + "?" + Serialize(EmbedParams(o))
  {
    var query := Serialize(EmbedParams(o));
    assert query != "" by {
      var ts := PairTexts(EmbedParams(o));
      assert ts[0] == PairText(EmbedParams(o)[0]);
      if |ts| > 1 { assert query == ts[0] + "&" + Join(ts[1..], '&'); }
    }
    origin + "/embed/" + IntToString(id) + (if query != "" then "?" + query else "")
  }

  /** `generateEmbedCode()`: empty without a movie; otherwise an iframe
      pointing at the embed URL, sized by the options. */
  function GenerateEmbedCode(movieId: Option<int>, origin: string, o: EmbedOptions): (code: string)
    ensures movieId.None? <==> code == ""
    ensures movieId.Some? ==> StartsWith(code, "<iframe src=\"" + EmbedUrl(origin, movieId.value, o) + "\"")
    ensures movieId.Some? ==> EndsWith(code, " width=\"" + IntToString(o.width) + "\" height=\"" + IntToString(o.height)
      + "\" frameborder=\"0\" allowfullscreen></iframe>")
    ensures movieId.Some? ==>
      |code| == |"<iframe src=\"" + EmbedUrl(origin, movieId.value, o) + "\""| + |SizeAttributes(o)|
  {
    match movieId
    case None => ""
    case Some(id) =>
      var head := "<iframe src=\"" + EmbedUrl(origin, id, o) + "\"";
      StartsWithConcat(head, SizeAttributes(o));
      assert (head + SizeAttributes(o))[|head|..] == SizeAttributes(o);
      head + SizeAttributes(o)
  }

  /** The rest of the tag: the size attributes and the closing markup. */
  function SizeAttributes(o: EmbedOptions): string {
    " width=\"" + IntToString(o.width) + "\" height=\"" + IntToString(o.height)
      + "\" frameborder=\"0\" allowfullscreen></iframe>"
  }

  predicate QuoteFree(ps: seq<Param>) {
    forall i :: 0 <= i < |ps| ==> '"' !in ps[i].name && '"' !in ps[i].value
  }

  lemma QuoteFreeWhen(on: bool, name: string, value: string)
    requires '"' !in name && '"' !in value
    ensures QuoteFree(When(on, Param(name, value)))
  {
  }

  lemma QuoteFreeConcat(a: seq<Param>, b: seq<Param>)
    requires QuoteFree(a) && QuoteFree(b)
    ensures QuoteFree(a + b)
  {
    assert forall i :: |a| <= i < |a + b| ==> (a + b)[i] == b[i - |a|];
  }

  lemma QualityQuoteFree(q: Quality)
    ensures '"' !in QualityText(q)
  {
    match q
    case P480 => assert QualityText(q) == "480p";
    case P720 => assert QualityText(q) == "720p";
    case P1080 => assert QualityText(q) == "1080p";
  }

  lemma FlagsQuoteFree(o: EmbedOptions)
    ensures QuoteFree(Flags(o))
  {
    assert '"' !in "autoplay" && '"' !in "loop" && '"' !in "controls" && '"' !in "true" && '"' !in "false";
    QuoteFreeWhen(o.autoplay, "autoplay", "true");
    QuoteFreeWhen(o.loop, "loop", "true");
    QuoteFreeWhen(o.hideControls, "controls", "false");
    QuoteFreeConcat(When(o.autoplay, Param("autoplay", "true")), When(o.loop, Param("loop", "true")));
    QuoteFreeConcat(When(o.autoplay, Param("autoplay", "true")) + When(o.loop, Param("loop", "true")),
      When(o.hideControls, Param("controls", "false")));
  }

  lemma PairTextsQuoteFree(ps: seq<Param>)
    requires QuoteFree(ps)
    ensures forall i :: 0 <= i < |PairTexts(ps)| ==> '"' !in PairTexts(ps)[i]
  {
    forall i | 0 <= i < |ps| ensures '"' !in PairTexts(ps)[i] {
      assert PairTexts(ps)[i] == ps[i].name + "=" + ps[i].value;
    }
  }

  /** No pair the dialog writes holds a double quote. */
  lemma QuoteFreeParams(o: EmbedOptions)
    ensures forall i :: 0 <= i < |PairTexts(EmbedParams(o))| ==> '"' !in PairTexts(EmbedParams(o))[i]
  {
    FlagsQuoteFree(o);
    QualityQuoteFree(o.quality);
    assert '"' !in "quality";
    QuoteFreeWhen(true, "quality", QualityText(o.quality));
    QuoteFreeConcat(Flags(o), [Param("quality", QualityText(o.quality))]);
    PairTextsQuoteFree(EmbedParams(o));
  }

  /** The embed address holds no double quote when the origin holds none. */
  lemma EmbedUrlQuoteFree(origin: string, id: int, o: EmbedOptions)
    requires '"' !in origin
    ensures '"' !in EmbedUrl(origin, id, o)
  {
    IntToStringChars(id);
    QuoteFreeParams(o);
    JoinWithout(PairTexts(EmbedParams(o)), '&', '"');
  }

  /** The `src` attribute of a tag that opens with `<iframe src="`, read
      the way an HTML parser reads a double-quoted attribute: the text up to
      the next double quote. */
  function IframeSrc(code: string): (src: Option<string>)
    ensures src.Some? ==> StartsWith(code, "<iframe src=\"" + src.value + "\"") && '"' !in src.value
  {
    var head := "<iframe src=\"";
    if StartsWith(code, head) && '"' in code[|head|..] then
      var rest := code[|head|..];
      var i := FirstIndexOfChar(rest, '"');
      assert code[..|head| + i + 1] == head + rest[..i] + "\"";
      Some(rest[..i])
    else None
  }

  /** A quoted `src` holding no quote is read back whole. */
  lemma IframeSrcOf(url: string, tail: string)
    requires '"' !in url
    ensures IframeSrc("<iframe src=\"" + url + "\"" + tail) == Some(url)
  {
    var head := "<iframe src=\"";
    var code := head + url + "\"" + tail;
    StartsWithConcat(head, url + "\"" + tail);
    assert code == head + (url + "\"" + tail);
    assert code[|head|..] == url + ['"'] + tail;
    FirstIndexOfCharAfter(url, '"', tail);
    assert (url + ['"'] + tail)[..|url|] == url;
  }

  /** The iframe the dialog writes points at the embed address. */
  lemma EmbedCodeSrc(origin: string, id: int, o: EmbedOptions)
    requires '"' !in origin
    ensures IframeSrc(GenerateEmbedCode(Some(id), origin, o)) == Some(EmbedUrl(origin, id, o))
  {
    EmbedUrlQuoteFree(origin, id, o);
    IframeSrcOf(EmbedUrl(origin, id, o), SizeAttributes(o));
  }

  /** `parseInt(value) || fallback` for a size input: any number other than
      zero is taken as typed, with no clamping to the input's min and max. */
  function SizeInput(text: string, fallback: int): (n: int)
    ensures ParseInt(text, Unspecified).Some? && ParseInt(text, Unspecified).value != 0 ==>
      n == ParseInt(text, Unspecified).value
    ensures ParseInt(text, Unspecified).None? || ParseInt(text, Unspecified).value == 0 ==> n == fallback
  {
    NonZeroOrNull(ParseInt(text, Unspecified)).GetOr(fallback)
  }

  function WidthInput(text: string): int { SizeInput(text, 640) }

  function HeightInput(text: string): int { SizeInput(text, 360) }

  /** A typed number comes back unchanged, however large or negative; zero
      and text that is not a number fall back to 640 by 360. */
  lemma SizeInputOfNumber(n: int)
    ensures WidthInput(IntToString(n)) == if n != 0 then n else 640
    ensures HeightInput(IntToString(n)) == if n != 0 then n else 360
  {
    ParseIntOfIntToString(n, Unspecified);
  }

  lemma SizeInputOfText(text: string)
    requires forall i :: 0 <= i < |text| ==> !IsDigit(text[i])
    ensures WidthInput(text) == 640 && HeightInput(text) == 360
  {
    ParseIntWithoutDigits(text, Unspecified);
  }
}

=== FILE: embed_page.dfy ===
/** MovieStreamingHub's `/embed/:id` page: the player settings it reads from
    the query string, whether it fetches the movie, and the media sources it
    derives from the stored file paths. */
module EmbedPage {
  import opened Options
  import opened JsText
  import opened SearchParams
  import opened EmbedCode

  datatype Settings = Settings(autoplay: bool, loop: bool, hideControls: bool, quality: string)

  /** The settings read from `location.search`: a flag is on only for the
      exact text `true` (`false` for `controls`), and a missing or empty
      quality means 720p. */
  function ReadSettings(search: string): (r: Settings)
    ensures r.autoplay <==> Get(Parse(search), "autoplay") == Some("true")
    ensures r.loop <==> Get(Parse(search), "loop") == Some("true")
    ensures r.hideControls <==> Get(Parse(search), "controls") == Some("false")
    ensures Get(Parse(search), "quality").None? ==> r.quality == "720p"
    ensures Get(Parse(search), "quality") == Some("") ==> r.quality == "720p"
    ensures Get(Parse(search), "quality").Some? && Get(Parse(search), "quality").value != "" ==>
      r.quality == Get(Parse(search), "quality").value
  {
    var ps := Parse(search);
    Settings(
      Get(ps, "autoplay") == Some("true"),
      Get(ps, "loop") == Some("true"),
      Get(ps, "controls") == Some("false"),
      StringOr(Get(ps, "quality"), "720p"))
  }

  /** `location.search` of an address: from the first `?` on, or nothing. */
  function LocationSearch(href: string): (r: string)
    ensures '?' !in href ==> r == ""
    ensures '?' in href ==> r != [] && r[0] == '?' && EndsWith(href, r)
    ensures '?' !in href[..|href| - |r|]
  {
    if '?' in href then
      var i := FirstIndexOfChar(href, '?');
      assert href[|href| - |href[i..]|..] == href[i..];
      assert href[..|href| - |href[i..]|] == href[..i];
      href[i..]
    else ""
  }

  /** `enabled: !isNaN(parseInt(id))`: the movie is fetched only when the
      route's id reads as a number. */
  function MovieQueryEnabled(idParam: string): bool {
    ParseInt(idParam, Unspecified).Some?
  }

  /** `path ? prefix + path.split('/').pop() : undefined`: the source is the
      file name after the last `/`, served under `prefix`. */
  function AssetSrc(prefix: string, path: Option<string>): (r: Option<string>)
    ensures r.Some? <==> path.Some? && path.value != ""
    ensures r.Some? ==>
      && StartsWith(r.value, prefix)
      && '/' !in r.value[|prefix|..]
      && EndsWith(path.value, r.value[|prefix|..])
  {
    if path.Some? && path.value != "" then
      var src := prefix + LastSegment(path.value, '/');
      assert src[|prefix|..] == LastSegment(path.value, '/');
      Some(src)
    else None
  }

  function VideoSrc(filePath: Option<string>): Option<string> {
    AssetSrc("/api/videos/", filePath)
  }

  function ThumbnailSrc(thumbnailPath: Option<string>): Option<string> {
    AssetSrc("/api/thumbnails/", thumbnailPath)
  }

  /** A file stored under any directory is served by its own name. */
  lemma AssetSrcOfStoredFile(prefix: string, dir: string, name: string)
    requires name != "" && '/' !in name
    ensures AssetSrc(prefix, Some(dir + "/" + name)) == Some(prefix + name)
    ensures AssetSrc(prefix, Some(name)) == Some(prefix + name)
  {
    assert dir + "/" + name == dir + ['/'] + name;
    LastSegmentAfterSeparator(dir, '/', name);
    LastSegmentWithoutSeparator(name, '/');
  }

  /** The flags and the quality the dialog wrote are what the page reads. */
  lemma ReadEmbedParams(o: EmbedOptions)
    ensures ReadSettings("?" + Serialize(EmbedParams(o))) ==
      Settings(o.autoplay, o.loop, o.hideControls, QualityText(o.quality))
  {
    ParseSerialize(EmbedParams(o));
    GetEmbedParams(o);
  }

  function Tail3(o: EmbedOptions): seq<Param> {
    When(o.loop, Param("loop", "true")) + Tail2(o)
  }

  function Tail2(o: EmbedOptions): seq<Param> {
    When(o.hideControls, Param("controls", "false")) + [Param("quality", QualityText(o.quality))]
  }

  lemma GetWhen(on: bool, p: Param, name: string)
    ensures Get(When(on, p), name) == if on && p.name == name then Some(p.value) else None
  {
  }

  lemma GetEmbedParams(o: EmbedOptions)
    ensures Get(EmbedParams(o), "autoplay") == if o.autoplay then Some("true") else None
    ensures Get(EmbedParams(o), "loop") == if o.loop then Some("true") else None
    ensures Get(EmbedParams(o), "controls") == if o.hideControls then Some("false") else None
    ensures Get(EmbedParams(o), "quality") == Some(QualityText(o.quality))
  {
    assert EmbedParams(o) == When(o.autoplay, Param("autoplay", "true")) + Tail3(o);
    GetTail2(o);
    GetTail3(o);
    GetConcat(When(o.autoplay, Param("autoplay", "true")), Tail3(o), "autoplay");
    GetConcat(When(o.autoplay, Param("autoplay", "true")), Tail3(o), "loop");
    GetConcat(When(o.autoplay, Param("autoplay", "true")), Tail3(o), "controls");
    GetConcat(When(o.autoplay, Param("autoplay", "true")), Tail3(o), "quality");
    GetWhen(o.autoplay, Param("autoplay", "true"), "autoplay");
    GetWhen(o.autoplay, Param("autoplay", "true"), "loop");
    GetWhen(o.autoplay, Param("autoplay", "true"), "controls");
    GetWhen(o.autoplay, Param("autoplay", "true"), "quality");
  }

  lemma GetTail3(o: EmbedOptions)
    ensures Get(Tail3(o), "autoplay") == None
    ensures Get(Tail3(o), "loop") == if o.loop then Some("true") else None
    ensures Get(Tail3(o), "controls") == if o.hideControls then Some("false") else None
    ensures Get(Tail3(o), "quality") == Some(QualityText(o.quality))
  {
    GetTail2(o);
    GetConcat(When(o.loop, Param("loop", "true")), Tail2(o), "autoplay");
    GetConcat(When(o.loop, Param("loop", "true")), Tail2(o), "loop");
    GetConcat(When(o.loop, Param("loop", "true")), Tail2(o), "controls");
    GetConcat(When(o.loop, Param("loop", "true")), Tail2(o), "quality");
    GetWhen(o.loop, Param("loop", "true"), "autoplay");
    GetWhen(o.loop, Param("loop", "true"), "loop");
    GetWhen(o.loop, Param("loop", "true"), "controls");
    GetWhen(o.loop, Param("loop", "true"), "quality");
  }

  lemma GetTail2(o: EmbedOptions)
    ensures Get(Tail2(o), "autoplay") == None && Get(Tail2(o), "loop") == None
    ensures Get(Tail2(o), "controls") == if o.hideControls then Some("false") else None
    ensures Get(Tail2(o), "quality") == Some(QualityText(o.quality))
  {
    var q := [Param("quality", QualityText(o.quality))];
    var c := When(o.hideControls, Param("controls", "false"));
    GetConcat(c, q, "autoplay");
    GetConcat(c, q, "loop");
    GetConcat(c, q, "controls");
    GetConcat(c, q, "quality");
  }

  /** The embed round trip: opening the address the dialog generated shows
      the same movie with the same player settings. */
  lemma EmbedRoundTrip(origin: string, id: int, o: EmbedOptions)
    requires '?' !in origin
    ensures var url := EmbedUrl(origin, id, o);
      && ReadSettings(LocationSearch(url)) == Settings(o.autoplay, o.loop, o.hideControls, QualityText(o.quality))
      && MovieQueryEnabled(IntToString(id))
      && ParseInt(IntToString(id), Unspecified) == Some(id)
  {
    var path := origin + "/embed/" + IntToString(id);
    var query := Serialize(EmbedParams(o));
    IntToStringChars(id);
    assert '?' !in path by {
      forall k | 0 <= k < |path| ensures path[k] != '?' {
        if k >= |origin| + 7 {
          assert path[k] == IntToString(id)[k - |origin| - 7];
        } else if k >= |origin| {
          assert path[k] == "/embed/"[k - |origin|];
        } else {
          assert path[k] == origin[k];
        }
      }
    }
    var url := EmbedUrl(origin, id, o);
    assert url == path + ['?'] + query;
    FirstIndexOfCharAfter(path, '?', query);
    assert LocationSearch(url) == "?" + query;
    ReadEmbedParams(o);
    ParseIntOfIntToString(id, Unspecified);
  }

  /** The code the dialog generates, pasted into a page, opens the embed
      page on the same movie with the same player settings. */
  lemma EmbedCodeRoundTrip(origin: string, id: int, o: EmbedOptions)
    requires '?' !in origin && '"' !in origin
    ensures var src := IframeSrc(GenerateEmbedCode(Some(id), origin, o));
      && src.Some?
      && ReadSettings(LocationSearch(src.value)) == Settings(o.autoplay, o.loop, o.hideControls, QualityText(o.quality))
  {
    EmbedCodeSrc(origin, id, o);
    EmbedRoundTrip(origin, id, o);
  }
}

=== FILE: guards.dfy ===
/** The client-side guards: MovieStreamHost's `ProtectedRoute`, its navbar
    links and its `AccountLockGuard`, and MovieWeb's `ProtectedRoute`, which
    shows the lock screen itself. Each is a decision over the signed-in user
    (or none) and the loading flag; rendering is left to React. */
module Guards {
  import opened Options
  import opened JsText
  import opened HostStore
  import opened HostAuth
  import opened PasswordHash
  import WebStore

  /** What a guard puts on the screen. */
  datatype View = Spinner | RedirectTo(path: string) | LockScreen | Render

  // ------------------------------------------------- MovieStreamHost routes

  /** The permission names a route may require. */
  datatype Permission = CreateUsers | DeleteUsers | UploadMovies

  /** `user[requiredPermission]`. */
  function Holds(u: User, p: Permission): bool {
    match p
    case CreateUsers => u.canCreateUsers
    case DeleteUsers => u.canDeleteUsers
    case UploadMovies => u.canUploadMovies
  }

  /** A route's `requiredRole` and `requiredPermission`, either possibly absent. */
  datatype Requirement = Requirement(role: Option<string>, permission: Option<Permission>)

  const NoRequirement := Requirement(None, None)

  /** The user meets the requirement: a required role (a non-empty text, as
      every `UserRole` is) must be the user's role, and a required
      permission flag must be set. */
  predicate Meets(u: User, req: Requirement) {
    (req.role.Some? && req.role.value != "" ==> u.role == req.role.value) &&
    (req.permission.Some? ==> Holds(u, req.permission.value))
  }

  /** MovieStreamHost's `ProtectedRoute`: the spinner while loading, `/auth`
      without a user, `/` for a user who misses the requirement. */
  function HostRoute(isLoading: bool, user: Option<User>, req: Requirement): (v: View)
    ensures isLoading ==> v == Spinner
    ensures !isLoading && user.None? ==> v == RedirectTo("/auth")
    ensures v == Render <==> !isLoading && user.Some? && Meets(user.value, req)
    ensures !isLoading && user.Some? && !Meets(user.value, req) ==> v == RedirectTo("/")
    ensures v != LockScreen
  {
    if isLoading then Spinner
    else if user.None? then RedirectTo("/auth")
    else if req.role.Some? && req.role.value != "" && user.value.role != req.role.value then RedirectTo("/")
    else if req.permission.Some? && !Holds(user.value, req.permission.value) then RedirectTo("/")
    else Render
  }

  /** Without requirements every signed-in user gets through. */
  lemma NoRequirementAdmitsEveryone(u: User)
    ensures HostRoute(false, Some(u), NoRequirement) == Render
  {
  }

  /** The guarded routes of the application and what each requires. */
  function RouteRequirement(path: string): (req: Option<Requirement>)
    ensures req.Some? <==> path in {"/upload", "/users", "/account-settings", "/my-list"}
  {
    if path == "/upload" then Some(Requirement(None, Some(UploadMovies)))
    else if path == "/users" then Some(Requirement(Some("owner"), None))
    else if path == "/account-settings" || path == "/my-list" then Some(NoRequirement)
    else None
  }

  // ----------------------------------------------------- MovieStreamHost nav

  datatype NavLink = NavLink(name: string, href: string, visible: bool)

  /** `navLinks`, or nothing at all on an embed page. */
  function NavLinks(location: string, user: Option<User>): (links: Option<seq<NavLink>>)
    ensures links.None? <==> StartsWith(location, "/embed/")
    ensures links.Some? ==> |links.value| == 4
    ensures links.Some? ==>
      && links.value[0] == NavLink("Home", "/", true)
      && links.value[1] == NavLink("My List", "/my-list", user.Some?)
      && links.value[2] == NavLink("Upload", "/upload", user.Some? && user.value.canUploadMovies)
      && links.value[3] == NavLink("Users", "/users", user.Some? && user.value.role == "owner")
  {
    if StartsWith(location, "/embed/") then None
    else
      Some([
        NavLink("Home", "/", true),
        NavLink("My List", "/my-list", user.Some?),
        NavLink("Upload", "/upload", user.Some? && user.value.canUploadMovies),
        NavLink("Users", "/users", user.Some? && user.value.role == "owner")])
  }

  /** The navbar and the router agree: once the user is known, every link
      except Home is shown exactly when its route would render. */
  lemma NavMatchesRoutes(location: string, user: Option<User>, i: nat)
    requires !StartsWith(location, "/embed/") && 1 <= i < 4
    ensures var link := NavLinks(location, user).value[i];
      RouteRequirement(link.href).Some? &&
      (link.visible <==> HostRoute(false, user, RouteRequirement(link.href).value) == Render)
  {
  }

  /** With the flags the server derives from the role, the Upload link
      shows for owners and members and the Users link for owners only. */
  lemma NavByRole(location: string, u: User)
    requires !StartsWith(location, "/embed/")
    requires Flags(u) == RolePermissions(u.role)
    ensures NavLinks(location, Some(u)).value[2].visible <==> u.role == "owner" || u.role == "member"
    ensures NavLinks(location, Some(u)).value[3].visible <==> u.role == "owner"
  {
    assert u.canUploadMovies == RolePermissions(u.role).canUploadMovies;
  }

  // ---------------------------------------------- MovieStreamHost lock guard

  /** `AccountLockGuard`: the lock screen for a locked account that is not an
      owner's; everyone else, signed in or not, sees the application. */
  function HostLockGuard(user: Option<User>): (v: View)
    ensures v == LockScreen || v == Render
    ensures v == LockScreen <==> user.Some? && user.value.isLocked && user.value.role != "owner"
  {
    if user.Some? && user.value.isLocked && user.value.role != "owner" then LockScreen else Render
  }

  /** The whole MovieStreamHost page on a guarded route: the lock guard
      wraps the router. */
  function HostPage(isLoading: bool, user: Option<User>, path: string): (v: View)
    requires RouteRequirement(path).Some?
    ensures v == LockScreen <==> user.Some? && user.value.isLocked && user.value.role != "owner"
    ensures v == Render <==>
      && !isLoading && user.Some? && !(user.value.isLocked && user.value.role != "owner")
      && Meets(user.value, RouteRequirement(path).value)
    ensures HostLockGuard(user) == Render ==> v == HostRoute(isLoading, user, RouteRequirement(path).value)
  {
    if HostLockGuard(user) == LockScreen then LockScreen
    else HostRoute(isLoading, user, RouteRequirement(path).value)
  }

  /** A locked member or visitor reaches no guarded page, and a locked owner
      reaches all of them. */
  lemma LockedUsersOnGuardedPages(path: string, u: User)
    requires RouteRequirement(path).Some? && u.isLocked
    ensures u.role != "owner" ==> HostPage(false, Some(u), path) == LockScreen
    ensures u.role == "owner" && u.canUploadMovies ==> HostPage(false, Some(u), path) == Render
  {
  }

  /** The guard and the login strategy apply the same rule: whoever the
      server signs in passes the lock guard. */
  lemma SignedInPassesLockGuard(s: Store, username: string, password: string, kdf: (string, string) -> seq<Byte>)
    requires Valid(s) && LogIn(s, username, password, kdf).Authenticated?
    ensures HostLockGuard(Some(LogIn(s, username, password, kdf).user)) == Render
  {
  }

  // ------------------------------------------------------- MovieWeb's route

  /** MovieWeb's `ProtectedRoute`: the spinner while loading, `/auth` without
      a user, the lock screen for any locked account, owner or not. */
  function WebRoute(isLoading: bool, user: Option<WebStore.User>): (v: View)
    ensures isLoading ==> v == Spinner
    ensures !isLoading && user.None? ==> v == RedirectTo("/auth")
    ensures !isLoading && user.Some? ==> (v == LockScreen <==> user.value.isLocked)
    ensures v == Render <==> !isLoading && user.Some? && !user.value.isLocked
  {
    if isLoading then Spinner
    else if user.None? then RedirectTo("/auth")
    else if user.value.isLocked then LockScreen
    else Render
  }

  /** Where the two applications differ: a locked owner passes
      MovieStreamHost's guards but not MovieWeb's. */
  lemma LockedOwnerDiffers(h: User, w: WebStore.User)
    requires h.isLocked && h.role == "owner" && w.isLocked && w.role == "owner"
    ensures HostLockGuard(Some(h)) == Render && HostRoute(false, Some(h), NoRequirement) == Render
    ensures WebRoute(false, Some(w)) == LockScreen
  {
  }
}

=== FILE: host_auth.dfy ===
/** MovieStreamHost's authentication layer: the local login strategy with
    its lock rule over the `PasswordHash` format, the seeded owner
    account, and the user-management endpoints with the role→permission
    mapping and the protection of the "Syfer-eng" account. The key
    derivation function (scrypt) and the random salt are parameters. */
module HostAuth {
  import opened Options
  import opened JsText
  import opened HostStore
  import opened PasswordHash
  import Uploads

  const OwnerName := "Syfer-eng"

  // ------------------------------------------------------------ permissions

  datatype Permissions = Permissions(canCreateUsers: bool, canDeleteUsers: bool, canUploadMovies: bool)

  /** The flags register and role change derive from a role. */
  function RolePermissions(role: string): (p: Permissions)
    ensures p.canCreateUsers <==> role == "owner"
    ensures p.canDeleteUsers <==> role == "owner"
    ensures p.canUploadMovies <==> role == "owner" || role == "member"
  {
    if role == "member" then Permissions(false, false, true)
    else if role == "owner" then Permissions(true, true, true)
    else Permissions(false, false, false)
  }

  function Flags(u: User): Permissions {
    Permissions(u.canCreateUsers, u.canDeleteUsers, u.canUploadMovies)
  }

  // ------------------------------------------------------------------ login

  datatype Login = Authenticated(user: User) | Rejected(message: string) | Errored

  const InvalidCredentials := "Invalid username or password"
  const AccountLocked := "Your account has been locked. Please contact administrator."
  const MissingCredentials := "Missing credentials"

  /** passport-local in front of the local strategy: an empty or absent
      user name or password is refused with "Missing credentials" before the
      strategy runs. The strategy then rejects an unknown user or a wrong
      password, and a locked account too unless it is an owner's. */
  function LogIn(s: Store, username: string, password: string, kdf: (string, string) -> seq<Byte>): (r: Login)
    ensures username == "" || password == "" ==> r == Rejected(MissingCredentials)
    ensures Valid(s) && r.Authenticated? ==>
      username != "" && password != "" &&
      r.user.id in s.users && s.users[r.user.id] == r.user && r.user.username == username &&
      ComparePasswords(password, r.user.password, kdf) == Match &&
      (!r.user.isLocked || r.user.role == "owner")
    ensures Valid(s) && username != "" && password != "" && GetUserByUsername(s, username).None? ==>
      r == Rejected(InvalidCredentials)
    ensures r == Rejected(AccountLocked) <==>
      username != "" && password != "" && GetUserByUsername(s, username).Some? &&
      ComparePasswords(password, GetUserByUsername(s, username).value.password, kdf) == Match &&
      GetUserByUsername(s, username).value.isLocked && GetUserByUsername(s, username).value.role != "owner"
  {
    if username == "" || password == "" then Rejected(MissingCredentials)
    else
      match GetUserByUsername(s, username)
      case None => Rejected(InvalidCredentials)
      case Some(u) =>
        match ComparePasswords(password, u.password, kdf)
        case Thrown => Errored
        case Mismatch => Rejected(InvalidCredentials)
        case Match =>
          if u.isLocked && u.role != "owner" then Rejected(AccountLocked) else Authenticated(u)
  }

  /** An account registered with an empty password never gets a session,
      although registering hashes the empty text like any other. */
  lemma EmptyPasswordNeverLogsIn(s: Store, username: string, kdf: (string, string) -> seq<Byte>)
    ensures LogIn(s, username, "", kdf) == Rejected(MissingCredentials)
    ensures LoginStatus(LogIn(s, username, "", kdf)) == 401
  {
  }

  /** A locked account that is not an owner's never gets a session, whatever
      password is offered. */
  lemma LockedNonOwnerCannotLogIn(s: Store, username: string, password: string, kdf: (string, string) -> seq<Byte>)
    requires Valid(s)
    requires forall k :: k in s.users && s.users[k].username == username ==>
      s.users[k].isLocked && s.users[k].role != "owner"
    ensures !LogIn(s, username, password, kdf).Authenticated?
  {
  }

  /** `POST /api/login`: 401 with the strategy's message, 200 on success,
      a server error when comparing throws. */
  function LoginStatus(r: Login): (status: int)
    ensures status == 200 <==> r.Authenticated?
    ensures status == 401 <==> r.Rejected?
  {
    match r
    case Authenticated(_) => 200
    case Rejected(_) => 401
    case Errored => 500
  }

  // ------------------------------------------------------------ seeded owner

  function OwnerSeed(hashed: string): NewUser {
    NewUser(OwnerName, hashed, None, None, None, None, Some("owner"), Some(true), Some(true), Some(true))
  }

  /** `initializeAdmin`: creates "Syfer-eng" as an owner unless a user of
      that name exists. */
  function InitializeAdmin(s: Store, hashed: string, now: int): (s': Store)
    ensures Valid(s) ==> Valid(s')
    ensures GetUserByUsername(s, OwnerName).Some? ==> s' == s
    ensures Valid(s) ==> exists k :: k in s'.users && s'.users[k].username == OwnerName
  {
    if GetUserByUsername(s, OwnerName).Some? then s
    else
      var (s', u) := CreateUser(s, OwnerSeed(hashed), now);
      assert u.id in s'.users && s'.users[u.id].username == OwnerName;
      s'
  }

  /** The seeded owner has every permission and the owner picture. */
  lemma SeededOwnerIsOwner(s: Store, hashed: string, now: int)
    requires Valid(s) && GetUserByUsername(s, OwnerName).None?
    ensures var u := CreateUser(s, OwnerSeed(hashed), now).1;
      InitializeAdmin(s, hashed, now).users[u.id] == u &&
      u.role == "owner" && Flags(u) == RolePermissions("owner") && !u.isLocked &&
      u.profilePicture == "/images/owner/owner.png"
  {
  }

  /** Initialising twice is the same as initialising once. */
  lemma InitializeAdminIdempotent(s: Store, hashed: string, now: int, later: int)
    requires Valid(s)
    ensures var s1 := InitializeAdmin(s, hashed, now);
      InitializeAdmin(s1, hashed, later) == s1
  {
    var s1 := InitializeAdmin(s, hashed, now);
    var k :| k in s1.users && s1.users[k].username == OwnerName;
    assert GetUserByUsername(s1, OwnerName).Some?;
  }

  // ------------------------------------------------------- user management

  datatype Reply = Reply(status: int, message: string)

  /** `POST /api/register`, with the hashed password passed in. */
  function Register(s: Store, caller: Option<User>, body: NewUser, hashed: string, now: int): (r: (Store, Reply))
    ensures r.1.status == 201 <==>
      caller.Some? && (caller.value.username == OwnerName || caller.value.canCreateUsers) &&
      GetUserByUsername(s, body.username).None?
    ensures r.1.status == 403 <==>
      caller.None? || (caller.value.username != OwnerName && !caller.value.canCreateUsers)
    ensures r.1.status != 201 ==> r.0 == s
    ensures r.1.status == 201 ==>
      s.nextUserId in r.0.users && r.0.nextUserId == s.nextUserId + 1 &&
      var u := r.0.users[s.nextUserId];
      u.username == body.username && u.password == hashed && u.role == StringOr(body.role, "visitor") &&
      Flags(u) == RolePermissions(u.role) && !u.isLocked
    ensures Valid(s) ==> Valid(r.0)
  {
    if caller.None? then (s, Reply(403, "You must be logged in to register new users"))
    else if caller.value.username != OwnerName && !caller.value.canCreateUsers then
      (s, Reply(403, "You don't have permission to create users"))
    else if GetUserByUsername(s, body.username).Some? then (s, Reply(400, "Username already exists"))
    else
      var p := RolePermissions(body.role.GetOr(""));
      var input := body.(password := hashed, canCreateUsers := Some(p.canCreateUsers),
        canDeleteUsers := Some(p.canDeleteUsers), canUploadMovies := Some(p.canUploadMovies));
      (CreateUser(s, input, now).0, Reply(201, ""))
  }

  /** `parseInt(req.params.id)` looked up in the store; `NaN` finds nobody. */
  function Target(s: Store, idText: string): (t: Option<User>)
    ensures t.Some? ==>
      ParseInt(idText, Unspecified).Some? && ParseInt(idText, Unspecified).value in s.users &&
      t.value == s.users[ParseInt(idText, Unspecified).value]
    ensures t.None? ==> ParseInt(idText, Unspecified).None? || ParseInt(idText, Unspecified).value !in s.users
  {
    match ParseInt(idText, Unspecified)
    case None => None
    case Some(id) => GetUser(s, id)
  }

  /** `PATCH /api/users/:id/lock` (owner only; `isLocked` is `None` when the
      body's value is not a boolean). */
  function SetLock(s: Store, caller: Option<User>, idText: string, isLocked: Option<bool>): (r: (Store, Reply))
    ensures r.1.status == 200 <==>
      caller.Some? && caller.value.role == "owner" && isLocked.Some? &&
      Target(s, idText).Some? && Target(s, idText).value.username != OwnerName
    ensures r.1.status != 200 ==> r.0 == s
    ensures r.1.status == 200 && Valid(s) ==> var k := Target(s, idText).value.id;
      k in r.0.users && r.0.users[k].isLocked == isLocked.value &&
      (forall j :: j in r.0.users <==> j in s.users) &&
      (forall j :: j in s.users && j != k ==> r.0.users[j] == s.users[j])
    ensures Valid(s) ==> Valid(r.0)
  {
    if caller.None? then (s, Reply(401, "Unauthorized"))
    else if caller.value.role != "owner" then (s, Reply(403, "Forbidden"))
    else if isLocked.None? then (s, Reply(400, "isLocked must be a boolean value"))
    else match Target(s, idText)
      case None => (s, Reply(404, "User not found"))
      case Some(u) =>
        if u.username == OwnerName then (s, Reply(403, "Cannot lock the owner account"))
        else
          var upd := UserUpdate(None, None, None, None, None, None, None, None, None, None, isLocked);
          var id := ParseInt(idText, Unspecified).value;
          (UpdateUser(s, id, upd).value.0,
           Reply(200, if isLocked.value then "Account locked successfully" else "Account unlocked successfully"))
  }

  /** `DELETE /api/users/:id`: an owner or a user allowed to delete users,
      never the "Syfer-eng" account. */
  function RemoveUser(s: Store, caller: Option<User>, idText: string): (r: (Store, Reply))
    ensures r.1.status == 200 <==>
      caller.Some? && (caller.value.role == "owner" || caller.value.canDeleteUsers) &&
      Target(s, idText).Some? && Target(s, idText).value.username != OwnerName
    ensures r.1.status != 200 ==> r.0 == s
    ensures r.1.status == 200 ==> var k := ParseInt(idText, Unspecified).value;
      r.0 == DeleteUser(s, k) && k !in r.0.users
    ensures Valid(s) ==> Valid(r.0)
  {
    if caller.None? then (s, Reply(401, "Unauthorized"))
    else if caller.value.role != "owner" && !caller.value.canDeleteUsers then (s, Reply(403, "Forbidden"))
    else match Target(s, idText)
      case None => (s, Reply(404, "User not found"))
      case Some(u) =>
        if u.username == OwnerName then (s, Reply(403, "Cannot delete the owner account"))
        else (DeleteUser(s, ParseInt(idText, Unspecified).value), Reply(200, "User deleted successfully"))
  }

  predicate IsUserRole(role: string) { role == "owner" || role == "member" || role == "visitor" }

  /** `PATCH /api/users/:id/role` (owner only; `role` is `None` when the
      body's value is not a string): sets the role with its permissions. */
  function ChangeRole(s: Store, caller: Option<User>, idText: string, role: Option<string>): (r: (Store, Reply))
    ensures r.1.status == 200 <==>
      caller.Some? && caller.value.role == "owner" && role.Some? && IsUserRole(role.value) &&
      Target(s, idText).Some? && (Target(s, idText).value.username == OwnerName ==> role.value == "owner")
    ensures r.1.status == 400 <==> caller.Some? && caller.value.role == "owner" && (role.None? || !IsUserRole(role.value))
    ensures r.1.status != 200 ==> r.0 == s
    ensures r.1.status == 200 && Valid(s) ==> var k := Target(s, idText).value.id;
      k in r.0.users && r.0.users[k].role == role.value && Flags(r.0.users[k]) == RolePermissions(role.value) &&
      r.0.users[k].profilePicture == Uploads.DefaultProfilePicture(role.value) &&
      (forall j :: j in r.0.users <==> j in s.users) &&
      (forall j :: j in s.users && j != k ==> r.0.users[j] == s.users[j])
    ensures Valid(s) ==> Valid(r.0)
  {
    if caller.None? then (s, Reply(401, "Unauthorized"))
    else if caller.value.role != "owner" then (s, Reply(403, "Forbidden"))
    else if role.None? || !IsUserRole(role.value) then (s, Reply(400, "Invalid role"))
    else match Target(s, idText)
      case None => (s, Reply(404, "User not found"))
      case Some(u) =>
        if u.username == OwnerName && role.value != "owner" then (s, Reply(403, "Cannot change the owner's role"))
        else
          var p := RolePermissions(role.value);
          var upd := UserUpdate(None, None, None, None, None, None, role,
            Some(p.canCreateUsers), Some(p.canDeleteUsers), Some(p.canUploadMovies), None);
          (UpdateUser(s, ParseInt(idText, Unspecified).value, upd).value.0, Reply(200, "User role updated successfully"))
  }

  /** Registering with a role and later changing a user to that role grant
      the same permissions. */
  lemma RegisterAndRoleChangeAgree(s: Store, caller: Option<User>, body: NewUser, hashed: string, now: int,
                                   t: Store, owner: Option<User>, idText: string, role: string)
    requires Valid(s) && Valid(t) && body.role == Some(role) && role != ""
    requires Register(s, caller, body, hashed, now).1.status == 201
    requires ChangeRole(t, owner, idText, Some(role)).1.status == 200
    ensures var k := Target(t, idText).value.id;
      var u := CreateUser(s, body, now).1;
      Flags(Register(s, caller, body, hashed, now).0.users[u.id]) ==
      Flags(ChangeRole(t, owner, idText, Some(role)).0.users[k])
  {
  }

  /** No endpoint locks, deletes or demotes the "Syfer-eng" account. */
  lemma OwnerAccountProtected(s: Store, caller: Option<User>, idText: string, lock: Option<bool>, role: Option<string>, k: int)
    requires Valid(s) && k in s.users && s.users[k].username == OwnerName
    ensures var s' := SetLock(s, caller, idText, lock).0; k in s'.users && s'.users[k].isLocked == s.users[k].isLocked
    ensures k in RemoveUser(s, caller, idText).0.users
    ensures var s' := ChangeRole(s, caller, idText, role).0;
      k in s'.users && (s'.users[k].role == s.users[k].role || s'.users[k].role == "owner")
  {
    OwnerNeverLocked(s, caller, idText, lock, k);
    OwnerNeverRemoved(s, caller, idText, k);
    OwnerNeverDemoted(s, caller, idText, role, k);
  }

  lemma OwnerNeverLocked(s: Store, caller: Option<User>, idText: string, lock: Option<bool>, k: int)
    requires Valid(s) && k in s.users && s.users[k].username == OwnerName
    ensures var s' := SetLock(s, caller, idText, lock).0; k in s'.users && s'.users[k].isLocked == s.users[k].isLocked
  {
  }

  lemma OwnerNeverRemoved(s: Store, caller: Option<User>, idText: string, k: int)
    requires Valid(s) && k in s.users && s.users[k].username == OwnerName
    ensures k in RemoveUser(s, caller, idText).0.users
  {
  }

  lemma OwnerNeverDemoted(s: Store, caller: Option<User>, idText: string, role: Option<string>, k: int)
    requires Valid(s) && k in s.users && s.users[k].username == OwnerName
    ensures var s' := ChangeRole(s, caller, idText, role).0;
      k in s'.users && (s'.users[k].role == s.users[k].role || s'.users[k].role == "owner")
  {
  }

  /** `DELETE /api/movies/:id`: an owner or the movie's uploader; removing
      the files on disk is not modelled. */
  function RemoveMovie(s: Store, caller: Option<User>, idText: string): (r: (Store, Reply))
    ensures r.1.status == 200 <==>
      caller.Some? && ParseInt(idText, Unspecified).Some? && ParseInt(idText, Unspecified).value in s.movies &&
      (caller.value.role == "owner" || s.movies[ParseInt(idText, Unspecified).value].uploaderId == caller.value.id)
    ensures r.1.status != 200 ==> r.0 == s
    ensures r.1.status == 200 ==> r.0 == DeleteMovie(s, ParseInt(idText, Unspecified).value)
    ensures Valid(s) ==> Valid(r.0)
  {
    if caller.None? then (s, Reply(401, "Unauthorized"))
    else
      var movie := match ParseInt(idText, Unspecified) case None => None case Some(id) => GetMovie(s, id);
      if movie.None? then (s, Reply(404, "Movie not found"))
      else if caller.value.role != "owner" && movie.value.uploaderId != caller.value.id then
        (s, Reply(403, "You don't have permission to delete this movie"))
      else (DeleteMovie(s, ParseInt(idText, Unspecified).value), Reply(200, "Movie deleted successfully"))
  }
}

=== FILE: host_my_list.dfy ===
/** MovieStreamHost's "My List" page: the message shown for an empty list,
    the movies still available to add, and the ids the page marks as just
    added. A missing query result is `None`. */
module HostMyList {
  import opened Options
  import opened JsText
  import opened Seqs
  import opened HostStore

  /** `getEmptyMessage`: a prompt to log in without a user, otherwise a
      message chosen by role. */
  function EmptyMessage(user: Option<User>): (text: string)
    ensures user.None? <==> text == "Please log in to view your movie list."
    ensures user.Some? ==> StartsWith(text, "Your list is empty.")
    ensures user.Some? && user.value.role !in {"owner", "member", "visitor"} ==> text == "Your list is empty."
  {
    match user
    case None => "Please log in to view your movie list."
    case Some(u) =>
      var base := "Your list is empty.";
      if u.role == "owner" then
        StartsWithConcat(base, " Add some movies by uploading them!");
        base + " Add some movies by uploading them!"
      else if u.role == "member" then
        StartsWithConcat(base, " Add some movies by uploading them or by picking them!");
        base + " Add some movies by uploading them or by picking them!"
      else if u.role == "visitor" then
        StartsWithConcat(base, " Add some!");
        base + " Add some!"
      else base
  }

  /** Every role gets its own message. */
  lemma EmptyMessagePerRole(u: User, v: User)
    requires u.role in {"owner", "member", "visitor"} && u.role != v.role
    ensures EmptyMessage(Some(u)) != EmptyMessage(Some(v))
  {
    var e := "Your list is empty.";
    var a := EmptyMessage(Some(u));
    var b := EmptyMessage(Some(v));
    assert |e| == 19;
    if |a| == |b| {
      assert a != b by {
        if u.role == "owner" || v.role == "owner" {
          assert |" Add some movies by uploading them!"| == 35;
          assert |" Add some movies by uploading them or by picking them!"| == 54;
          assert |" Add some!"| == 10;
        } else {
          assert |" Add some movies by uploading them or by picking them!"| == 54;
          assert |" Add some!"| == 10;
        }
      }
    }
  }

  /** Whether a list of movies holds one with the given id: `myMovieIds.includes(id)`. */
  predicate HasId(ms: seq<Movie>, id: int) {
    exists k :: 0 <= k < |ms| && ms[k].id == id
  }

  function NotIn(mine: seq<Movie>): Movie -> bool {
    (m: Movie) => !HasId(mine, m.id)
  }

  /** `getAvailableMovies`: nothing until both lists are loaded, then the
      movies whose id is not on the user's list, in list order. */
  function AvailableMovies(all: Option<seq<Movie>>, mine: Option<seq<Movie>>): (r: seq<Movie>)
    ensures all.None? || mine.None? ==> r == []
    ensures all.Some? && mine.Some? ==>
      && IsSubsequence(r, all.value)
      && forall m :: m in r <==> m in all.value && !HasId(mine.value, m.id)
  {
    if all.None? || mine.None? then []
    else
      FilterIsSubsequence(all.value, NotIn(mine.value));
      Filter(all.value, NotIn(mine.value))
  }

  /** Every loaded movie is either available or shares its id with a movie
      on the list, never both. */
  lemma AvailablePartition(all: seq<Movie>, mine: seq<Movie>, m: Movie)
    requires m in all
    ensures m in AvailableMovies(Some(all), Some(mine)) <==> !HasId(mine, m.id)
  {
  }

  /** A movie appearing on the user's list takes every movie with its id out
      of the available ones and leaves the rest in order. */
  lemma AvailableAfterAdd(all: seq<Movie>, mine: seq<Movie>, x: Movie)
    ensures AvailableMovies(Some(all), Some(mine + [x])) ==
      Filter(AvailableMovies(Some(all), Some(mine)), (m: Movie) => m.id != x.id)
  {
    var p := NotIn(mine + [x]);
    var q := NotIn(mine);
    var d := (m: Movie) => m.id != x.id;
    var both := (m: Movie) => q(m) && d(m);
    forall m | m in all ensures p(m) == both(m) {
      HasIdSnoc(mine, x, m.id);
    }
    FilterSame(all, p, both);
    FilterConj(all, q, d);
  }

  lemma HasIdSnoc(ms: seq<Movie>, x: Movie, id: int)
    ensures HasId(ms + [x], id) <==> HasId(ms, id) || x.id == id
  {
    if HasId(ms + [x], id) {
      var k :| 0 <= k < |ms + [x]| && (ms + [x])[k].id == id;
      if k < |ms| { assert ms[k].id == id; }
    }
    if HasId(ms, id) {
      var k :| 0 <= k < |ms| && ms[k].id == id;
      assert (ms + [x])[k].id == id;
    }
    if x.id == id {
      assert (ms + [x])[|ms|].id == id;
    }
  }

  lemma {:induction false} FilterConj(s: seq<Movie>, q: Movie -> bool, d: Movie -> bool)
    ensures Filter(s, (m: Movie) => q(m) && d(m)) == Filter(Filter(s, q), d)
  {
    if s != [] {
      FilterConj(s[1..], q, d);
      if q(s[0]) {
        assert Filter(s, q) == [s[0]] + Filter(s[1..], q);
        assert ([s[0]] + Filter(s[1..], q))[1..] == Filter(s[1..], q);
      }
    }
  }

  /** `selectedMovies` after a successful add: the id appended, even when it
      is already there. */
  function MarkAdded(selected: seq<int>, id: int): (r: seq<int>)
    ensures multiset(r) == multiset(selected) + multiset{id}
    ensures selected <= r
  {
    selected + [id]
  }

  /** `selectedMovies` after a successful removal: every copy of the id gone. */
  function MarkRemoved(selected: seq<int>, id: int): (r: seq<int>)
    ensures id !in r
    ensures multiset(r) == multiset(selected)[id := 0]
    ensures forall x :: x != id ==> (x in r <==> x in selected)
    ensures IsSubsequence(r, selected)
  {
    RemoveAllMultiset(selected, id);
    RemoveAll(selected, id)
  }

  /** Removing an id right after adding it leaves what removing it alone
      would have left: the duplicate an add may create goes too. */
  lemma {:induction false} AddThenRemove(selected: seq<int>, id: int)
    ensures MarkRemoved(MarkAdded(selected, id), id) == MarkRemoved(selected, id)
  {
    if selected == [] {
      assert MarkAdded(selected, id) == [id];
      assert [id][1..] == [];
    } else {
      var s := selected + [id];
      assert s[0] == selected[0] && s[1..] == selected[1..] + [id];
      AddThenRemove(selected[1..], id);
    }
  }
}

=== FILE: host_store.dfy ===
/** MovieStreamHost's in-memory `MemStorage`: users and movies kept in maps
    keyed by ids handed out by two counters, each user's "my list" of movie
    ids, e-mail verification tokens, and the recent-movies query. Every
    method is a function from the old store to the new one; a thrown
    `Error` is a `Failure`. `now` stands for `new Date()` and the token for
    `randomBytes(32).toString('hex')`. */
module HostStore {
  import opened Options
  import opened Seqs
  import opened Keyed
  import Uploads
  import JsText

  datatype User = User(
    id: int, username: string, password: string,
    email: Option<string>, emailVerified: bool, verificationToken: Option<string>,
    displayName: Option<string>, profilePicture: string, profileColor: Option<string>,
    role: string, canCreateUsers: bool, canDeleteUsers: bool, canUploadMovies: bool,
    isLocked: bool, createdAt: int, myList: seq<int>)

  /** The fields a caller may pass to `createUser`; `None` is an absent field. */
  datatype NewUser = NewUser(
    username: string, password: string, email: Option<string>,
    displayName: Option<string>, profilePicture: Option<string>, profileColor: Option<string>,
    role: Option<string>, canCreateUsers: Option<bool>, canDeleteUsers: Option<bool>,
    canUploadMovies: Option<bool>)

  /** A `Partial<User>` update; `None` leaves the field as it is. */
  datatype UserUpdate = UserUpdate(
    username: Option<string>, password: Option<string>, email: Option<string>,
    displayName: Option<string>, profilePicture: Option<string>, profileColor: Option<string>,
    role: Option<string>, canCreateUsers: Option<bool>, canDeleteUsers: Option<bool>,
    canUploadMovies: Option<bool>, isLocked: Option<bool>)

  /** The profile form: `null`/absent fields are `None`. */
  datatype ProfileUpdate = ProfileUpdate(displayName: Option<string>, email: Option<string>, profileColor: Option<string>)

  datatype Movie = Movie(
    id: int, title: string, description: Option<string>, year: Option<int>,
    duration: Option<string>, quality: Option<string>, thumbnailUrl: Option<string>,
    videoUrl: string, uploaderId: int, createdAt: int)

  datatype NewMovie = NewMovie(
    title: string, description: Option<string>, year: Option<int>,
    duration: Option<string>, quality: Option<string>, thumbnailUrl: Option<string>,
    videoUrl: string, uploaderId: int)

  /** A `Partial<Movie>` update of the fields other than `id` and `createdAt`. */
  datatype MovieUpdate = MovieUpdate(
    title: Option<string>, description: Option<string>, year: Option<int>,
    duration: Option<string>, quality: Option<string>, thumbnailUrl: Option<string>,
    videoUrl: Option<string>, uploaderId: Option<int>)

  datatype Store = Store(users: map<int, User>, movies: map<int, Movie>, nextUserId: int, nextMovieId: int)

  /** Counters start at 1 and every stored id is below its counter and equal
      to its key; no "my list" holds an id twice. */
  predicate Valid(s: Store) {
    s.nextUserId >= 1 && s.nextMovieId >= 1 &&
    (forall k :: k in s.users ==> 1 <= k < s.nextUserId && s.users[k].id == k && NoDuplicates(s.users[k].myList)) &&
    (forall k :: k in s.movies ==> 1 <= k < s.nextMovieId && s.movies[k].id == k)
  }

  function Empty(): (s: Store)
    ensures Valid(s) && s.users == map[] && s.movies == map[]
    ensures s.nextUserId == 1 && s.nextMovieId == 1
  {
    Store(map[], map[], 1, 1)
  }

  // ----------------------------------------------------------------- users

  function UserNotFound(id: int): string {
    "User with id " + JsText.IntToString(id) + " not found"
  }

  function MovieNotFound(id: int): string {
    "Movie with id " + JsText.IntToString(id) + " not found"
  }

  function GetUser(s: Store, id: int): (u: Option<User>)
    ensures u.Some? <==> id in s.users
    ensures u.Some? ==> u.value == s.users[id]
  {
    if id in s.users then Some(s.users[id]) else None
  }

  function AllUsers(s: Store): seq<User> {
    ValuesBetween(s.users, 1, s.nextUserId)
  }

  /** `find` over the users in insertion order. */
  function FindUser(s: Store, p: User -> bool): (u: Option<User>)
    ensures Valid(s) && u.Some? ==> u.value.id in s.users && s.users[u.value.id] == u.value && p(u.value)
    ensures Valid(s) && u.None? ==> forall k :: k in s.users ==> !p(s.users[k])
    ensures Valid(s) && u.Some? ==> forall k :: k in s.users && k < u.value.id ==> !p(s.users[k])
  {
    match FirstKey(s.users, p, 1, s.nextUserId)
    case None => None
    case Some(k) => Some(s.users[k])
  }

  /** The first user, in id order, with that user name. */
  function GetUserByUsername(s: Store, username: string): (u: Option<User>)
    ensures Valid(s) ==> (u.Some? <==> exists k :: k in s.users && s.users[k].username == username)
    ensures Valid(s) && u.Some? ==>
      u.value.id in s.users && s.users[u.value.id] == u.value && u.value.username == username &&
      forall k :: k in s.users && k < u.value.id ==> s.users[k].username != username
  {
    FindUser(s, (v: User) => v.username == username)
  }

  /** An empty e-mail finds nobody. */
  function GetUserByEmail(s: Store, email: string): (u: Option<User>)
    ensures email == "" ==> u.None?
    ensures Valid(s) && email != "" ==>
      (u.Some? <==> exists k :: k in s.users && s.users[k].email == Some(email))
    ensures Valid(s) && u.Some? ==>
      u.value.id in s.users && s.users[u.value.id] == u.value && u.value.email == Some(email)
  {
    if email == "" then None else FindUser(s, (v: User) => v.email == Some(email))
  }

  /** An empty token finds nobody. */
  function GetUserByVerificationToken(s: Store, token: string): (u: Option<User>)
    ensures token == "" ==> u.None?
    ensures Valid(s) && token != "" ==>
      (u.Some? <==> exists k :: k in s.users && s.users[k].verificationToken == Some(token))
    ensures Valid(s) && u.Some? ==>
      u.value.id in s.users && s.users[u.value.id] == u.value && u.value.verificationToken == Some(token)
  {
    if token == "" then None else FindUser(s, (v: User) => v.verificationToken == Some(token))
  }

  /** `createUser`: the next id, the role defaulting to "visitor", the
      role's default picture whatever picture was supplied, upload rights for
      owners and members, and a fresh unlocked, unverified account with an
      empty list. */
  function CreateUser(s: Store, input: NewUser, now: int): (r: (Store, User))
    ensures var (s', u) := r;
      u.id == s.nextUserId && s'.nextUserId == s.nextUserId + 1 &&
      s'.nextMovieId == s.nextMovieId && s'.movies == s.movies &&
      u.id in s'.users && s'.users[u.id] == u &&
      (forall k :: k in s.users && k != u.id ==> k in s'.users && s'.users[k] == s.users[k]) &&
      (forall k :: k in s'.users ==> k in s.users || k == u.id)
    ensures var u := r.1;
      u.username == input.username && u.password == input.password &&
      u.role == StringOr(input.role, "visitor") &&
      u.profilePicture == Uploads.DefaultProfilePicture(u.role) &&
      u.email == NonEmptyOrNull(input.email) &&
      u.canCreateUsers == FlagOrFalse(input.canCreateUsers) &&
      u.canDeleteUsers == FlagOrFalse(input.canDeleteUsers) &&
      (u.canUploadMovies <==> u.role == "owner" || u.role == "member" || FlagOrFalse(input.canUploadMovies)) &&
      !u.isLocked && !u.emailVerified && u.verificationToken.None? && u.myList == [] && u.createdAt == now
    ensures Valid(s) ==> r.1.id !in s.users && Valid(r.0)
  {
    var id := s.nextUserId;
    var role := StringOr(input.role, "visitor");
    var u := User(id, input.username, input.password, NonEmptyOrNull(input.email), false, None,
      NonEmptyOrNull(input.displayName), Uploads.DefaultProfilePicture(role), NonEmptyOrNull(input.profileColor),
      role, FlagOrFalse(input.canCreateUsers), FlagOrFalse(input.canDeleteUsers),
      role == "owner" || role == "member" || FlagOrFalse(input.canUploadMovies),
      false, now, []);
    (s.(users := s.users[id := u], nextUserId := id + 1), u)
  }

  /** The supplied picture plays no part in the created user. */
  lemma CreateUserIgnoresPicture(s: Store, input: NewUser, picture: Option<string>, now: int)
    ensures CreateUser(s, input.(profilePicture := picture), now) == CreateUser(s, input, now)
  {
  }

  /** Ids are never reused: two creations in a row give two different ids,
      neither of which was taken before. */
  lemma CreateUserIdsFresh(s: Store, a: NewUser, b: NewUser, t1: int, t2: int)
    requires Valid(s)
    ensures var (s1, u1) := CreateUser(s, a, t1);
      var (s2, u2) := CreateUser(s1, b, t2);
      u1.id != u2.id && u1.id !in s.users && u2.id !in s.users && u2.id !in s1.users && Valid(s2)
  {
  }

  function DeleteUser(s: Store, id: int): (s': Store)
    ensures id !in s'.users && s'.movies == s.movies
    ensures forall k :: k in s'.users <==> k in s.users && k != id
    ensures forall k :: k in s'.users ==> s'.users[k] == s.users[k]
    ensures s'.nextUserId == s.nextUserId && s'.nextMovieId == s.nextMovieId
    ensures Valid(s) ==> Valid(s')
  {
    s.(users := s.users - {id})
  }

  /** A new non-empty role that differs from the stored one brings its own
      default picture; otherwise the picture is the current role's default. */
  function PictureAfterUpdate(u: User, upd: UserUpdate): (picture: string)
    ensures picture == Uploads.DefaultProfilePicture(upd.role.GetOr(u.role))
  {
    if upd.role.Some? && upd.role.value != "" && upd.role.value != u.role
    then Uploads.DefaultProfilePicture(upd.role.value)
    else Uploads.DefaultProfilePicture(upd.role.GetOr(u.role))
  }

  /** `{ ...user, ...update }` without the picture, which is then recomputed
      from the role. */
  function ApplyUserUpdate(u: User, upd: UserUpdate): (v: User)
    ensures v.id == u.id && v.myList == u.myList && v.createdAt == u.createdAt
    ensures v.role == upd.role.GetOr(u.role)
    ensures v.isLocked == upd.isLocked.GetOr(u.isLocked)
    ensures v.profilePicture == Uploads.DefaultProfilePicture(v.role)
    ensures v.username == upd.username.GetOr(u.username) && v.password == upd.password.GetOr(u.password)
    ensures v.canCreateUsers == upd.canCreateUsers.GetOr(u.canCreateUsers)
    ensures v.canDeleteUsers == upd.canDeleteUsers.GetOr(u.canDeleteUsers)
    ensures v.canUploadMovies == upd.canUploadMovies.GetOr(u.canUploadMovies)
    ensures upd.email.Some? ==> v.email == upd.email
    ensures upd.email.None? ==> v.email == u.email
    ensures upd.displayName.Some? ==> v.displayName == upd.displayName
    ensures upd.displayName.None? ==> v.displayName == u.displayName
    ensures upd.profileColor.Some? ==> v.profileColor == upd.profileColor
    ensures upd.profileColor.None? ==> v.profileColor == u.profileColor
    ensures v.emailVerified == u.emailVerified && v.verificationToken == u.verificationToken
  {
    var role := upd.role.GetOr(u.role);
    var picture := PictureAfterUpdate(u, upd);
    User(u.id, upd.username.GetOr(u.username), upd.password.GetOr(u.password),
      if upd.email.Some? then upd.email else u.email, u.emailVerified, u.verificationToken,
      if upd.displayName.Some? then upd.displayName else u.displayName, picture,
      if upd.profileColor.Some? then upd.profileColor else u.profileColor,
      role, upd.canCreateUsers.GetOr(u.canCreateUsers), upd.canDeleteUsers.GetOr(u.canDeleteUsers),
      upd.canUploadMovies.GetOr(u.canUploadMovies), upd.isLocked.GetOr(u.isLocked), u.createdAt, u.myList)
  }

  /** `updateUser`: fails for an unknown id; otherwise only that user
      changes, and its picture is the default for its resulting role. */
  function UpdateUser(s: Store, id: int, upd: UserUpdate): (r: Result<(Store, User)>)
    ensures r.Failure? <==> id !in s.users
    ensures r.Ok? ==> var (s', v) := r.value;
      v == ApplyUserUpdate(s.users[id], upd) && id in s'.users && s'.users[id] == v &&
      v.profilePicture == Uploads.DefaultProfilePicture(v.role) &&
      s'.movies == s.movies && s'.nextUserId == s.nextUserId && s'.nextMovieId == s.nextMovieId &&
      (forall k :: k in s'.users <==> k in s.users) &&
      (forall k :: k in s.users && k != id ==> s'.users[k] == s.users[k])
    ensures r.Ok? && Valid(s) ==> Valid(r.value.0)
  {
    if id !in s.users then Failure(UserNotFound(id))
    else
      var v := ApplyUserUpdate(s.users[id], upd);
      Ok((s.(users := s.users[id := v]), v))
  }

  /** Whatever picture an update carries, the stored one is the role's default. */
  lemma UpdateUserIgnoresPicture(s: Store, id: int, upd: UserUpdate, picture: Option<string>)
    ensures UpdateUser(s, id, upd.(profilePicture := picture)) == UpdateUser(s, id, upd)
  {
  }

  /** `updateUserProfile`: `??` keeps old values for absent fields; a
      non-empty e-mail that differs from the stored one clears the
      verification flag and token. */
  function UpdateUserProfile(s: Store, id: int, p: ProfileUpdate): (r: Result<(Store, User)>)
    ensures r.Failure? <==> id !in s.users
    ensures r.Ok? ==> var (s', v) := r.value;
      v == EditProfile(s.users[id], p) && id in s'.users && s'.users[id] == v &&
      (forall k :: k in s'.users <==> k in s.users) &&
      (forall k :: k in s.users && k != id ==> s'.users[k] == s.users[k]) &&
      s'.movies == s.movies && s'.nextUserId == s.nextUserId && s'.nextMovieId == s.nextMovieId
    ensures r.Ok? && Valid(s) ==> Valid(r.value.0)
  {
    if id !in s.users then Failure(UserNotFound(id))
    else
      var v := EditProfile(s.users[id], p);
      Ok((s.(users := s.users[id := v]), v))
  }

  /** One user after the profile form: `??` keeps absent fields. */
  function EditProfile(u: User, p: ProfileUpdate): (v: User)
    ensures var emailChanged := p.email.Some? && p.email.value != "" && p.email != u.email;
      v.email == (if p.email.Some? then p.email else u.email) &&
      v.displayName == (if p.displayName.Some? then p.displayName else u.displayName) &&
      v.profileColor == (if p.profileColor.Some? then p.profileColor else u.profileColor) &&
      v.emailVerified == (if emailChanged then false else u.emailVerified) &&
      v.verificationToken == (if emailChanged then None else u.verificationToken)
    ensures v.id == u.id && v.profilePicture == u.profilePicture && v.role == u.role && v.myList == u.myList
    ensures v.isLocked == u.isLocked && v.username == u.username && v.password == u.password
  {
    var emailChanged := p.email.Some? && p.email.value != "" && p.email != u.email;
    User(u.id, u.username, u.password,
      if p.email.Some? then p.email else u.email,
      if emailChanged then false else u.emailVerified,
      if emailChanged then None else u.verificationToken,
      if p.displayName.Some? then p.displayName else u.displayName, u.profilePicture,
      if p.profileColor.Some? then p.profileColor else u.profileColor,
      u.role, u.canCreateUsers, u.canDeleteUsers, u.canUploadMovies, u.isLocked, u.createdAt, u.myList)
  }

  /** Saving the same profile twice is the same as saving it once. */
  lemma UpdateUserProfileIdempotent(s: Store, id: int, p: ProfileUpdate)
    requires id in s.users
    ensures var s1 := UpdateUserProfile(s, id, p).value.0;
      UpdateUserProfile(s1, id, p).value.0 == s1
  {
    var s1 := UpdateUserProfile(s, id, p).value.0;
    var s2 := UpdateUserProfile(s1, id, p).value.0;
    assert s2.users[id] == s1.users[id];
    assert s2.users == s1.users;
  }

  /** An empty e-mail is stored but does not count as a change, so the
      verification state survives it. */
  lemma EmptyEmailKeepsVerification(s: Store, id: int, p: ProfileUpdate)
    requires id in s.users && p.email == Some("")
    ensures var v := UpdateUserProfile(s, id, p).value.1;
      v.email == Some("") && v.emailVerified == s.users[id].emailVerified &&
      v.verificationToken == s.users[id].verificationToken
  {
  }

  /** `createVerificationToken` with the random token passed in. */
  function CreateVerificationToken(s: Store, id: int, token: string): (r: Result<(Store, string)>)
    ensures r.Failure? <==> id !in s.users
    ensures r.Ok? ==> var (s', t) := r.value;
      t == token && id in s'.users && s'.users[id] == s.users[id].(verificationToken := Some(token)) &&
      (forall k :: k in s'.users <==> k in s.users) &&
      (forall k :: k in s.users && k != id ==> s'.users[k] == s.users[k]) &&
      s'.movies == s.movies && s'.nextUserId == s.nextUserId && s'.nextMovieId == s.nextMovieId
    ensures r.Ok? && Valid(s) ==> Valid(r.value.0)
  {
    if id !in s.users then Failure(UserNotFound(id))
    else Ok((s.(users := s.users[id := s.users[id].(verificationToken := Some(token))]), token))
  }

  /** `verifyEmail`: the first user holding the token becomes verified and
      loses the token; an empty or unknown token changes nothing. */
  function VerifyEmail(s: Store, token: string): (r: (Store, Option<User>))
    ensures r.1.None? ==> r.0 == s
    ensures token == "" ==> r.1.None?
    ensures Valid(s) && token != "" && (exists k :: k in s.users && s.users[k].verificationToken == Some(token)) ==> r.1.Some?
    ensures Valid(s) && r.1.Some? ==> var v := r.1.value;
      v.id in s.users && s.users[v.id].verificationToken == Some(token) &&
      v == s.users[v.id].(emailVerified := true, verificationToken := None) &&
      v.id in r.0.users && r.0.users[v.id] == v &&
      (forall k :: k in r.0.users <==> k in s.users) &&
      (forall k :: k in s.users && k != v.id ==> r.0.users[k] == s.users[k]) &&
      r.0.movies == s.movies && r.0.nextUserId == s.nextUserId && r.0.nextMovieId == s.nextMovieId
    ensures Valid(s) ==> Valid(r.0)
  {
    match GetUserByVerificationToken(s, token)
    case None => (s, None)
    case Some(u) =>
      var v := u.(emailVerified := true, verificationToken := None);
      (s.(users := s.users[u.id := v]), Some(v))
  }

  /** Issuing a token that no other user holds and then presenting it
      verifies exactly that user, and the token cannot be used twice. */
  lemma TokenIssueThenVerify(s: Store, id: int, token: string)
    requires Valid(s) && id in s.users && token != ""
    requires forall k :: k in s.users && k != id ==> s.users[k].verificationToken != Some(token)
    ensures var s1 := CreateVerificationToken(s, id, token).value.0;
      var (s2, v) := VerifyEmail(s1, token);
      v.Some? && v.value.id == id && v.value.emailVerified && v.value.verificationToken.None? &&
      VerifyEmail(s2, token).1.None?
  {
    var s1 := CreateVerificationToken(s, id, token).value.0;
    assert Valid(s1) && s1.users[id].verificationToken == Some(token);
    var (s2, v) := VerifyEmail(s1, token);
    assert v.Some? && v.value.id == id;
    assert s2.users[id].verificationToken.None?;
    assert forall k :: k in s2.users ==> s2.users[k].verificationToken != Some(token);
    NoHolderNoVerify(s2, token);
  }

  /** A token nobody holds verifies nobody. */
  lemma NoHolderNoVerify(s: Store, token: string)
    requires Valid(s)
    requires forall k :: k in s.users ==> s.users[k].verificationToken != Some(token)
    ensures VerifyEmail(s, token).1.None?
  {
  }

  // ---------------------------------------------------------------- movies

  function GetMovie(s: Store, id: int): (m: Option<Movie>)
    ensures m.Some? <==> id in s.movies
    ensures m.Some? ==> m.value == s.movies[id]
  {
    if id in s.movies then Some(s.movies[id]) else None
  }

  /** `Array.from(movies.values())`, in ascending id order. */
  function AllMovies(s: Store): (ms: seq<Movie>)
    ensures Valid(s) ==> forall m :: m in ms ==> m.id in s.movies && s.movies[m.id] == m
    ensures Valid(s) ==> forall k :: k in s.movies ==> s.movies[k] in ms
    ensures Valid(s) ==> IdsAscending(ms)
  {
    var ms := ValuesBetween(s.movies, 1, s.nextMovieId);
    assert Valid(s) ==> forall k :: k in s.movies ==> s.movies[k] in ms by {
      if Valid(s) {
        forall k | k in s.movies ensures s.movies[k] in ms {
          ValuesBetweenMembership(s.movies, 1, s.nextMovieId, s.movies[k]);
        }
      }
    }
    ms
  }

  predicate IdsAscending(ms: seq<Movie>) {
    forall i, j :: 0 <= i < j < |ms| ==> ms[i].id < ms[j].id
  }

  /** `getMoviesByUploader`: exactly the uploader's movies, in id order. */
  function GetMoviesByUploader(s: Store, uploaderId: int): (ms: seq<Movie>)
    ensures forall m :: m in ms <==> m in AllMovies(s) && m.uploaderId == uploaderId
    ensures IsSubsequence(ms, AllMovies(s))
  {
    var p := (m: Movie) => m.uploaderId == uploaderId;
    FilterIsSubsequence(AllMovies(s), p);
    Filter(AllMovies(s), p)
  }

  /** `createMovie`: the next id, `|| null` defaults, and the creation time. */
  function CreateMovie(s: Store, input: NewMovie, now: int): (r: (Store, Movie))
    ensures var (s', m) := r;
      m.id == s.nextMovieId && s'.nextMovieId == s.nextMovieId + 1 &&
      s'.users == s.users && s'.nextUserId == s.nextUserId &&
      m.id in s'.movies && s'.movies[m.id] == m &&
      (forall k :: k in s.movies && k != m.id ==> k in s'.movies && s'.movies[k] == s.movies[k]) &&
      (forall k :: k in s'.movies ==> k in s.movies || k == m.id)
    ensures var m := r.1;
      m.title == input.title && m.videoUrl == input.videoUrl && m.uploaderId == input.uploaderId &&
      m.description == NonEmptyOrNull(input.description) && m.year == NonZeroOrNull(input.year) &&
      m.duration == NonEmptyOrNull(input.duration) && m.quality == NonEmptyOrNull(input.quality) &&
      m.thumbnailUrl == NonEmptyOrNull(input.thumbnailUrl) && m.createdAt == now
    ensures Valid(s) ==> r.1.id !in s.movies && Valid(r.0)
  {
    var id := s.nextMovieId;
    var m := Movie(id, input.title, NonEmptyOrNull(input.description), NonZeroOrNull(input.year),
      NonEmptyOrNull(input.duration), NonEmptyOrNull(input.quality), NonEmptyOrNull(input.thumbnailUrl),
      input.videoUrl, input.uploaderId, now);
    (s.(movies := s.movies[id := m], nextMovieId := id + 1), m)
  }

  /** The stored movie with every supplied field of the update laid over it. */
  function Overlay(o: Movie, upd: MovieUpdate): (m: Movie)
    ensures m.id == o.id && m.createdAt == o.createdAt
    ensures m.title == upd.title.GetOr(o.title) && m.videoUrl == upd.videoUrl.GetOr(o.videoUrl)
    ensures m.uploaderId == upd.uploaderId.GetOr(o.uploaderId)
    ensures upd.description.Some? ==> m.description == upd.description
    ensures upd.description.None? ==> m.description == o.description
    ensures upd.year.Some? ==> m.year == upd.year
    ensures upd.year.None? ==> m.year == o.year
    ensures upd.duration.Some? ==> m.duration == upd.duration
    ensures upd.duration.None? ==> m.duration == o.duration
    ensures upd.quality.Some? ==> m.quality == upd.quality
    ensures upd.quality.None? ==> m.quality == o.quality
    ensures upd.thumbnailUrl.Some? ==> m.thumbnailUrl == upd.thumbnailUrl
    ensures upd.thumbnailUrl.None? ==> m.thumbnailUrl == o.thumbnailUrl
  {
    o.(
      title := upd.title.GetOr(o.title),
      description := if upd.description.Some? then upd.description else o.description,
      year := if upd.year.Some? then upd.year else o.year,
      duration := if upd.duration.Some? then upd.duration else o.duration,
      quality := if upd.quality.Some? then upd.quality else o.quality,
      thumbnailUrl := if upd.thumbnailUrl.Some? then upd.thumbnailUrl else o.thumbnailUrl,
      videoUrl := upd.videoUrl.GetOr(o.videoUrl),
      uploaderId := upd.uploaderId.GetOr(o.uploaderId))
  }

  /** Writing a movie back under its own id keeps the store valid. */
  lemma ReplaceMovieValid(s: Store, m: Movie)
    requires Valid(s) && m.id in s.movies
    ensures Valid(s.(movies := s.movies[m.id := m]))
  {
  }

  /** `updateMovie`: fails for an unknown id, otherwise overrides the
      supplied fields of that movie only. */
  function UpdateMovie(s: Store, id: int, upd: MovieUpdate): (r: Result<(Store, Movie)>)
    ensures r.Failure? <==> id !in s.movies
    ensures r.Ok? ==> var (s', m) := r.value; var old_ := s.movies[id];
      m.id == old_.id && m.createdAt == old_.createdAt &&
      m.title == upd.title.GetOr(old_.title) && m.videoUrl == upd.videoUrl.GetOr(old_.videoUrl) &&
      m.uploaderId == upd.uploaderId.GetOr(old_.uploaderId) &&
      m.description == (if upd.description.Some? then upd.description else old_.description) &&
      m.year == (if upd.year.Some? then upd.year else old_.year) &&
      m.duration == (if upd.duration.Some? then upd.duration else old_.duration) &&
      m.quality == (if upd.quality.Some? then upd.quality else old_.quality) &&
      m.thumbnailUrl == (if upd.thumbnailUrl.Some? then upd.thumbnailUrl else old_.thumbnailUrl) &&
      id in s'.movies && s'.movies[id] == m && s'.users == s.users &&
      (forall k :: k in s'.movies <==> k in s.movies) &&
      (forall k :: k in s.movies && k != id ==> s'.movies[k] == s.movies[k]) &&
      s'.nextUserId == s.nextUserId && s'.nextMovieId == s.nextMovieId
    ensures r.Ok? && Valid(s) ==> Valid(r.value.0)
  {
    if id !in s.movies then Failure(MovieNotFound(id))
    else
      var m := Overlay(s.movies[id], upd);
      if Valid(s) then
        ReplaceMovieValid(s, m);
        Ok((s.(movies := s.movies[id := m]), m))
      else
        Ok((s.(movies := s.movies[id := m]), m))
  }

  /** Removes `movieId` from one user's list. */
  function WithoutMovie(u: User, movieId: int): (v: User)
    ensures movieId !in v.myList && v == u.(myList := v.myList)
    ensures forall x :: x != movieId ==> (x in v.myList <==> x in u.myList)
    ensures NoDuplicates(u.myList) ==> NoDuplicates(v.myList)
  {
    u.(myList := RemoveAll(u.myList, movieId))
  }

  /** `deleteMovie`: the movie goes, and so does its id from every user's
      list; nothing else changes. */
  function DeleteMovie(s: Store, id: int): (s': Store)
    ensures id !in s'.movies
    ensures forall k :: k in s'.movies <==> k in s.movies && k != id
    ensures forall k :: k in s'.movies ==> s'.movies[k] == s.movies[k]
    ensures forall k :: k in s'.users <==> k in s.users
    ensures forall k :: k in s'.users ==> id !in s'.users[k].myList
    ensures forall k, x :: k in s.users && x != id ==> (x in s'.users[k].myList <==> x in s.users[k].myList)
    ensures forall k :: k in s.users ==> s'.users[k] == s.users[k].(myList := s'.users[k].myList)
    ensures s'.nextUserId == s.nextUserId && s'.nextMovieId == s.nextMovieId
    ensures Valid(s) ==> Valid(s')
  {
    var users := map k | k in s.users :: WithoutMovie(s.users[k], id);
    s.(movies := s.movies - {id}, users := users)
  }

  // ---------------------------------------------------------------- my list

  /** `getUserMovieList`: fails for an unknown user; otherwise the listed
      movies that still exist, in list order. */
  function GetUserMovieList(s: Store, userId: int): (r: Result<seq<Movie>>)
    ensures r.Failure? <==> userId !in s.users
    ensures r.Ok? && Valid(s) ==> forall m :: m in r.value ==> m.id in s.users[userId].myList
    ensures r.Ok? ==> forall m :: m in r.value ==> m in s.movies.Values
    ensures r.Ok? && Valid(s) ==> forall x :: x in s.users[userId].myList && x in s.movies ==> s.movies[x] in r.value
    ensures r.Ok? ==> var live := LiveIds(s, s.users[userId].myList);
      |r.value| == |live| && forall i :: 0 <= i < |r.value| ==> live[i] in s.movies && r.value[i] == s.movies[live[i]]
  {
    if userId !in s.users then Failure(UserNotFound(userId))
    else Ok(MoviesOf(s, s.users[userId].myList))
  }

  /** The ids of `ids` whose movie still exists, in list order. */
  function LiveIds(s: Store, ids: seq<int>): (live: seq<int>)
    ensures forall x :: x in live <==> x in ids && x in s.movies
  {
    Filter(ids, x => x in s.movies)
  }

  function MoviesOf(s: Store, ids: seq<int>): (ms: seq<Movie>)
    ensures forall m :: m in ms ==> exists x :: x in ids && x in s.movies && s.movies[x] == m
    ensures forall x :: x in ids && x in s.movies ==> s.movies[x] in ms
    ensures forall m :: m in ms ==> m in s.movies.Values
    ensures Valid(s) ==> forall m :: m in ms ==> m.id in ids
    ensures |ms| <= |ids|
    ensures |ms| == |LiveIds(s, ids)|
    ensures forall i :: 0 <= i < |ms| ==> LiveIds(s, ids)[i] in s.movies && ms[i] == s.movies[LiveIds(s, ids)[i]]
  {
    if ids == [] then []
    else
      var rest := MoviesOf(s, ids[1..]);
      assert forall x :: x in ids[1..] ==> x in ids;
      if ids[0] in s.movies then
        var ms := [s.movies[ids[0]]] + rest;
        MoviesOfCons(s, ids, rest);
        LiveMoviesComeFromIds(s, ids, ms);
        ms
      else
        assert LiveIds(s, ids) == LiveIds(s, ids[1..]);
        rest
  }

  /** The step of `MoviesOf` that keeps the head id: the head's movie comes
      first, followed by the result for the tail, position for position. */
  lemma MoviesOfCons(s: Store, ids: seq<int>, rest: seq<Movie>)
    requires ids != [] && ids[0] in s.movies
    requires |rest| == |LiveIds(s, ids[1..])|
    requires forall i :: 0 <= i < |rest| ==> LiveIds(s, ids[1..])[i] in s.movies && rest[i] == s.movies[LiveIds(s, ids[1..])[i]]
    ensures var ms := [s.movies[ids[0]]] + rest;
      |ms| == |LiveIds(s, ids)| &&
      forall i :: 0 <= i < |ms| ==> LiveIds(s, ids)[i] in s.movies && ms[i] == s.movies[LiveIds(s, ids)[i]]
  {
    var ms := [s.movies[ids[0]]] + rest;
    var live := LiveIds(s, ids);
    var liveRest := LiveIds(s, ids[1..]);
    assert live == [ids[0]] + liveRest;
    forall i | 0 <= i < |ms| ensures live[i] in s.movies && ms[i] == s.movies[live[i]] {
      if i > 0 {
        assert ms[i] == rest[i - 1] && live[i] == liveRest[i - 1];
      }
    }
  }

  /** A list that holds, position for position, the movies of the surviving
      ids holds only movies of ids in the list. */
  lemma LiveMoviesComeFromIds(s: Store, ids: seq<int>, ms: seq<Movie>)
    requires |ms| == |LiveIds(s, ids)|
    requires forall i :: 0 <= i < |ms| ==> LiveIds(s, ids)[i] in s.movies && ms[i] == s.movies[LiveIds(s, ids)[i]]
    ensures forall m :: m in ms ==> exists x :: x in ids && x in s.movies && s.movies[x] == m
  {
    var live := LiveIds(s, ids);
    forall m | m in ms ensures exists x :: x in ids && x in s.movies && s.movies[x] == m {
      var i :| 0 <= i < |ms| && ms[i] == m;
      var x := live[i];
      assert x in ids && x in s.movies && s.movies[x] == m;
    }
  }




  /** `addMovieToUserList`: fails for an unknown user or movie; appends the id
      unless it is already there. */
  function AddMovieToUserList(s: Store, userId: int, movieId: int): (r: Result<Store>)
    ensures r.Failure? <==> userId !in s.users || movieId !in s.movies
    ensures r.Ok? ==> var s' := r.value; var u := s.users[userId];
      userId in s'.users && s'.users[userId] == u.(myList := AddIfAbsent(u.myList, movieId)) &&
      movieId in s'.users[userId].myList &&
      (forall k :: k in s'.users <==> k in s.users) &&
      (forall k :: k in s.users && k != userId ==> s'.users[k] == s.users[k]) &&
      s'.movies == s.movies && s'.nextUserId == s.nextUserId && s'.nextMovieId == s.nextMovieId
    ensures r.Ok? && Valid(s) ==> Valid(r.value)
  {
    if userId !in s.users then Failure(UserNotFound(userId))
    else if movieId !in s.movies then Failure(MovieNotFound(movieId))
    else
      var u := s.users[userId];
      Ok(s.(users := s.users[userId := u.(myList := AddIfAbsent(u.myList, movieId))]))
  }

  /** Adding the same movie twice leaves the store as adding it once. */
  lemma AddMovieToUserListIdempotent(s: Store, userId: int, movieId: int)
    requires userId in s.users && movieId in s.movies
    ensures var s1 := AddMovieToUserList(s, userId, movieId).value;
      AddMovieToUserList(s1, userId, movieId) == Ok(s1)
  {
    var s1 := AddMovieToUserList(s, userId, movieId).value;
    var s2 := AddMovieToUserList(s1, userId, movieId).value;
    assert s2.users[userId] == s1.users[userId];
    assert s2.users == s1.users;
  }

  /** `removeMovieFromUserList`: fails for an unknown user; otherwise every
      occurrence of the id leaves that user's list. */
  function RemoveMovieFromUserList(s: Store, userId: int, movieId: int): (r: Result<Store>)
    ensures r.Failure? <==> userId !in s.users
    ensures r.Ok? ==> var s' := r.value;
      userId in s'.users && s'.users[userId] == WithoutMovie(s.users[userId], movieId) &&
      (forall k :: k in s'.users <==> k in s.users) &&
      (forall k :: k in s.users && k != userId ==> s'.users[k] == s.users[k]) &&
      s'.movies == s.movies && s'.nextUserId == s.nextUserId && s'.nextMovieId == s.nextMovieId
    ensures r.Ok? && Valid(s) ==> Valid(r.value)
  {
    if userId !in s.users then Failure(UserNotFound(userId))
    else Ok(s.(users := s.users[userId := WithoutMovie(s.users[userId], movieId)]))
  }

  /** Removing right after adding takes the movie back out of the list. */
  lemma AddThenRemove(s: Store, userId: int, movieId: int)
    requires userId in s.users && movieId in s.movies
    ensures var s1 := AddMovieToUserList(s, userId, movieId).value;
      var s2 := RemoveMovieFromUserList(s1, userId, movieId).value;
      movieId !in s2.users[userId].myList &&
      forall x :: x != movieId ==> (x in s2.users[userId].myList <==> x in s.users[userId].myList)
  {
  }

  // --------------------------------------------------------- recent movies

  predicate NewestFirst(ms: seq<Movie>) {
    forall i, j :: 0 <= i < j < |ms| ==> ms[i].createdAt >= ms[j].createdAt
  }

  /** Newest first, and among equally old movies the smaller id first: the
      order a stable sort gives when its input is in id order. */
  predicate NewestFirstThenById(ms: seq<Movie>) {
    forall i, j :: 0 <= i < j < |ms| ==>
      ms[i].createdAt > ms[j].createdAt || (ms[i].createdAt == ms[j].createdAt && ms[i].id < ms[j].id)
  }

  function InsertByRecency(x: Movie, ms: seq<Movie>): (r: seq<Movie>)
    ensures multiset(r) == multiset(ms) + multiset{x}
  {
    if ms == [] then [x]
    else if ms[0].createdAt <= x.createdAt then [x] + ms
    else
      assert ms == [ms[0]] + ms[1..];
      [ms[0]] + InsertByRecency(x, ms[1..])
  }

  lemma {:induction false} InsertKeepsNewestFirst(x: Movie, ms: seq<Movie>)
    requires NewestFirst(ms)
    ensures NewestFirst(InsertByRecency(x, ms))
  {
    if ms != [] && ms[0].createdAt > x.createdAt {
      InsertKeepsNewestFirst(x, ms[1..]);
      var rest := InsertByRecency(x, ms[1..]);
      forall m | m in rest ensures ms[0].createdAt >= m.createdAt {
        InsertedFrom(x, ms[1..], m);
      }
    }
  }

  lemma {:induction false} InsertKeepsOrderById(x: Movie, ms: seq<Movie>)
    requires NewestFirstThenById(ms)
    requires forall m :: m in ms ==> x.id < m.id
    ensures NewestFirstThenById(InsertByRecency(x, ms))
  {
    if ms != [] && ms[0].createdAt > x.createdAt {
      InsertKeepsOrderById(x, ms[1..]);
      var rest := InsertByRecency(x, ms[1..]);
      forall m | m in rest
        ensures ms[0].createdAt > m.createdAt || (ms[0].createdAt == m.createdAt && ms[0].id < m.id)
      {
        InsertedFrom(x, ms[1..], m);
      }
    }
  }

  /** What an insertion holds is the inserted movie or an old one. */
  lemma InsertedFrom(x: Movie, ms: seq<Movie>, m: Movie)
    requires m in InsertByRecency(x, ms)
    ensures m == x || m in ms
  {
    assert m in multiset(InsertByRecency(x, ms));
  }

  lemma SortStepById(ms: seq<Movie>, rest: seq<Movie>)
    requires ms != [] && IdsAscending(ms)
    requires multiset(rest) == multiset(ms[1..]) && (IdsAscending(ms[1..]) ==> NewestFirstThenById(rest))
    ensures NewestFirstThenById(InsertByRecency(ms[0], rest))
  {
    assert IdsAscending(ms[1..]);
    forall m | m in rest ensures ms[0].id < m.id {
      assert m in multiset(rest);
      assert m in ms[1..];
    }
    InsertKeepsOrderById(ms[0], rest);
  }

  /** `sort((a, b) => b.createdAt - a.createdAt)`, which is stable. */
  function SortByRecency(ms: seq<Movie>): (r: seq<Movie>)
    ensures multiset(r) == multiset(ms)
    ensures NewestFirst(r)
    ensures IdsAscending(ms) ==> NewestFirstThenById(r)
  {
    if ms == [] then []
    else
      var rest := SortByRecency(ms[1..]);
      assert ms == [ms[0]] + ms[1..];
      InsertKeepsNewestFirst(ms[0], rest);
      if IdsAscending(ms) then
        SortStepById(ms, rest);
        InsertByRecency(ms[0], rest)
      else
        InsertByRecency(ms[0], rest)
  }

  /** `getRecentMovies(limit)`: the first `limit` movies of the stable
      newest-first order (`slice(0, limit)`, so a negative limit counts from
      the end). */
  function GetRecentMovies(s: Store, limit: int): (ms: seq<Movie>)
    ensures ms <= SortByRecency(AllMovies(s))
    ensures limit >= 0 ==> |ms| <= limit
    ensures limit >= |AllMovies(s)| ==> multiset(ms) == multiset(AllMovies(s))
    ensures NewestFirst(ms)
    ensures Valid(s) ==> NewestFirstThenById(ms)
  {
    var all := SortByRecency(AllMovies(s));
    var ms := SliceTo(all, limit);
    RecentPrefix(ms, all);
    assert limit >= |AllMovies(s)| ==> ms == all;
    ms
  }

  /** A prefix of a recency-sorted list is sorted the same way. */
  lemma RecentPrefix(ms: seq<Movie>, all: seq<Movie>)
    requires ms <= all
    ensures NewestFirst(all) ==> NewestFirst(ms)
    ensures NewestFirstThenById(all) ==> NewestFirstThenById(ms)
  {
    assert forall i :: 0 <= i < |ms| ==> ms[i] == all[i];
  }

  /** Every movie left out of the recent list is no newer than any movie in it. */
  lemma RecentMoviesAreTheNewest(s: Store, limit: int, kept: Movie, dropped: Movie)
    requires kept in GetRecentMovies(s, limit)
    requires dropped in AllMovies(s) && dropped !in GetRecentMovies(s, limit)
    ensures kept.createdAt >= dropped.createdAt
  {
    var all := SortByRecency(AllMovies(s));
    var ms := GetRecentMovies(s, limit);
    assert dropped in multiset(AllMovies(s));
    assert dropped in all;
    var i :| 0 <= i < |ms| && ms[i] == kept;
    var j :| 0 <= j < |all| && all[j] == dropped;
    assert all[i] == kept;
    assert ms == all[..|ms|];
  }
}

=== FILE: hub_store.dfy ===
/** MovieStreamingHub's server: the in-memory `MemStorage` (accounts and
    movies keyed by counter ids) and the JSON movie routes over it — id
    parsing, the multipart upload's defaults and validation, the PUT update
    with its pruning of absent fields, and delete. Deleting the files on disk
    is not modelled; `now` stands for `new Date()`. */
module HubStore {
  import opened Options
  import opened JsText
  import opened Seqs
  import opened Keyed
  import Uploads

  datatype Account = Account(id: int, username: string, password: string)

  datatype Movie = Movie(
    id: int, title: string, description: string, category: string, duration: int, year: string,
    userId: int, filePath: string, thumbnailPath: string, isPublic: bool, uploadedAt: int)

  /** A validated `InsertMovie`. */
  datatype MovieData = MovieData(
    title: string, description: string, category: string, duration: int, year: string,
    userId: int, filePath: string, thumbnailPath: string, isPublic: bool)

  /** The fields the PUT route may change; `None` is a pruned field. */
  datatype MovieChange = MovieChange(
    title: Option<string>, description: Option<string>, category: Option<string>,
    year: Option<string>, isPublic: Option<bool>)

  datatype Store = Store(users: map<int, Account>, movies: map<int, Movie>, nextUserId: int, nextMovieId: int)

  predicate Valid(s: Store) {
    s.nextUserId >= 1 && s.nextMovieId >= 1 &&
    (forall k :: k in s.users ==> 1 <= k < s.nextUserId && s.users[k].id == k) &&
    (forall k :: k in s.movies ==> 1 <= k < s.nextMovieId && s.movies[k].id == k)
  }

  function Empty(): (s: Store)
    ensures Valid(s) && s.users == map[] && s.movies == map[]
  {
    Store(map[], map[], 1, 1)
  }

  function CreateUser(s: Store, username: string, password: string): (r: (Store, Account))
    ensures r.1 == Account(s.nextUserId, username, password)
    ensures r.0.users == s.users[s.nextUserId := r.1] && r.0.movies == s.movies
    ensures r.0.nextUserId == s.nextUserId + 1 && r.0.nextMovieId == s.nextMovieId
    ensures Valid(s) ==> r.1.id !in s.users && Valid(r.0)
  {
    var u := Account(s.nextUserId, username, password);
    (s.(users := s.users[u.id := u], nextUserId := u.id + 1), u)
  }

  /** The module-level store: empty, then the "demo" account, which gets id 1. */
  function Initial(): (s: Store)
    ensures Valid(s) && s.movies == map[] && s.users == map[1 := Account(1, "demo", "password123")]
    ensures s.nextUserId == 2 && s.nextMovieId == 1
  {
    CreateUser(Empty(), "demo", "password123").0
  }

  function GetUser(s: Store, id: int): (u: Option<Account>)
    ensures u.Some? <==> id in s.users
    ensures u.Some? ==> u.value == s.users[id]
  {
    if id in s.users then Some(s.users[id]) else None
  }

  /** `find` by user name, in insertion order. */
  function GetUserByUsername(s: Store, username: string): (u: Option<Account>)
    ensures u.Some? ==> u.value.username == username
    ensures Valid(s) ==> (u.Some? <==> exists k :: k in s.users && s.users[k].username == username)
    ensures Valid(s) && u.Some? ==>
      u.value.id in s.users && s.users[u.value.id] == u.value &&
      forall k :: k in s.users && k < u.value.id ==> s.users[k].username != username
  {
    match FirstKey(s.users, (a: Account) => a.username == username, 1, s.nextUserId)
    case None => None
    case Some(k) => Some(s.users[k])
  }

  /** `getMovies`: every movie, in id order. */
  function GetMovies(s: Store): (ms: seq<Movie>)
    ensures Valid(s) ==> forall m :: m in ms <==> m in s.movies.Values
    ensures Valid(s) ==> forall i, j :: 0 <= i < j < |ms| ==> ms[i].id < ms[j].id
  {
    var ms := ValuesBetween(s.movies, 1, s.nextMovieId);
    assert Valid(s) ==> forall m :: m in ms <==> m in s.movies.Values by {
      if Valid(s) {
        forall m ensures m in ms <==> m in s.movies.Values {
          ValuesBetweenMembership(s.movies, 1, s.nextMovieId, m);
        }
      }
    }
    ms
  }

  /** `getMoviesByUserId`: the user's movies, in id order. */
  function GetMoviesByUserId(s: Store, userId: int): (ms: seq<Movie>)
    ensures Valid(s) ==> forall m :: m in ms <==> m in s.movies.Values && m.userId == userId
    ensures IsSubsequence(ms, GetMovies(s))
  {
    var p := (m: Movie) => m.userId == userId;
    FilterIsSubsequence(GetMovies(s), p);
    Filter(GetMovies(s), p)
  }

  function GetMovie(s: Store, id: int): (m: Option<Movie>)
    ensures m.Some? <==> id in s.movies
    ensures m.Some? ==> m.value == s.movies[id]
  {
    if id in s.movies then Some(s.movies[id]) else None
  }

  function Stored(id: int, d: MovieData, now: int): Movie {
    Movie(id, d.title, d.description, d.category, d.duration, d.year, d.userId, d.filePath, d.thumbnailPath, d.isPublic, now)
  }

  /** `createMovie`: `{ ...data, id, uploadedAt }` under the next id. */
  function CreateMovie(s: Store, d: MovieData, now: int): (r: (Store, Movie))
    ensures r.1.id == s.nextMovieId && r.1.uploadedAt == now
    ensures r.1.title == d.title && r.1.category == d.category && r.1.duration == d.duration &&
      r.1.isPublic == d.isPublic && r.1.userId == d.userId && r.1.filePath == d.filePath
    ensures r.1.description == d.description && r.1.year == d.year && r.1.thumbnailPath == d.thumbnailPath
    ensures r.0.movies == s.movies[r.1.id := r.1] && r.0.users == s.users
    ensures r.0.nextMovieId == s.nextMovieId + 1 && r.0.nextUserId == s.nextUserId
    ensures Valid(s) ==> r.1.id !in s.movies && Valid(r.0)
  {
    var m := Stored(s.nextMovieId, d, now);
    (s.(movies := s.movies[m.id := m], nextMovieId := m.id + 1), m)
  }

  function Changed(m: Movie, c: MovieChange): (m': Movie)
    ensures m'.id == m.id && m'.uploadedAt == m.uploadedAt && m'.userId == m.userId
    ensures m'.filePath == m.filePath && m'.duration == m.duration
    ensures m'.title == c.title.GetOr(m.title) && m'.description == c.description.GetOr(m.description)
    ensures m'.category == c.category.GetOr(m.category) && m'.year == c.year.GetOr(m.year)
    ensures m'.isPublic == c.isPublic.GetOr(m.isPublic)
  {
    m.(title := c.title.GetOr(m.title), description := c.description.GetOr(m.description),
       category := c.category.GetOr(m.category), year := c.year.GetOr(m.year),
       isPublic := c.isPublic.GetOr(m.isPublic))
  }

  /** `updateMovie`: `undefined` for an unknown id, otherwise the spread of
      the change over that movie alone. */
  function UpdateMovie(s: Store, id: int, c: MovieChange): (r: Option<(Store, Movie)>)
    ensures r.None? <==> id !in s.movies
    ensures r.Some? ==>
      r.value.1 == Changed(s.movies[id], c) && r.value.0 == s.(movies := s.movies[id := r.value.1])
    ensures r.Some? && Valid(s) ==> Valid(r.value.0)
  {
    if id !in s.movies then None
    else
      var m := Changed(s.movies[id], c);
      Some((s.(movies := s.movies[id := m]), m))
  }

  /** `deleteMovie`: false for an unknown id, otherwise true and the movie is gone. */
  function DeleteMovie(s: Store, id: int): (r: (Store, bool))
    ensures r.1 <==> id in s.movies
    ensures r.0.movies == s.movies - {id} && r.0.users == s.users
    ensures r.0.nextMovieId == s.nextMovieId && r.0.nextUserId == s.nextUserId
    ensures Valid(s) ==> Valid(r.0)
  {
    if id !in s.movies then (s, false) else (s.(movies := s.movies - {id}), true)
  }

  // ---------------------------------------------------------------- routes

  datatype Body = OneMovie(movie: Movie) | Movies(movies: seq<Movie>) | Message(text: string) | NoBody

  datatype Reply = Reply(status: int, body: Body)

  /** `parseInt(req.params.id)`, `None` being `NaN`. */
  function RouteId(text: string): Option<int> {
    ParseInt(text, Unspecified)
  }

  /** `GET /api/movies/:id`. */
  function GetMovieRoute(s: Store, idText: string): (r: Reply)
    ensures r.status == 400 <==> RouteId(idText).None?
    ensures r.status == 404 <==> RouteId(idText).Some? && RouteId(idText).value !in s.movies
    ensures r.status == 200 <==> RouteId(idText).Some? && RouteId(idText).value in s.movies
    ensures r.status == 200 ==> r.body == OneMovie(s.movies[RouteId(idText).value])
  {
    match RouteId(idText)
    case None => Reply(400, Message("Invalid movie ID"))
    case Some(id) =>
      match GetMovie(s, id)
      case None => Reply(404, Message("Movie not found"))
      case Some(m) => Reply(200, OneMovie(m))
  }

  /** `GET /api/users/:userId/movies`. */
  function UserMoviesRoute(s: Store, userIdText: string): (r: Reply)
    ensures r.status == 400 <==> RouteId(userIdText).None?
    ensures r.status == 404 <==> RouteId(userIdText).Some? && RouteId(userIdText).value !in s.users
    ensures r.status == 200 ==>
      RouteId(userIdText).Some? && RouteId(userIdText).value in s.users &&
      r.body == Movies(GetMoviesByUserId(s, RouteId(userIdText).value))
  {
    match RouteId(userIdText)
    case None => Reply(400, Message("Invalid user ID"))
    case Some(id) =>
      if GetUser(s, id).None? then Reply(404, Message("User not found"))
      else Reply(200, Movies(GetMoviesByUserId(s, id)))
  }

  /** The multipart form of `POST /api/movies`: stored file paths and the
      text fields, `None` where absent. */
  datatype UploadForm = UploadForm(
    videoPath: Option<string>, thumbnailPath: Option<string>,
    userId: Option<string>, title: Option<string>, description: Option<string>,
    category: Option<string>, year: Option<string>, isPublic: Option<string>, duration: Option<string>)

  /** `parseInt(x)` where an absent field is `undefined`, which parses as `NaN`. */
  function ParseField(x: Option<string>): Option<int> {
    if x.None? then None else ParseInt(x.value, Unspecified)
  }

  /** The defaults the route fills in, followed by the schema check: a
      missing title and a `NaN` user id or duration fail validation. */
  function UploadData(f: UploadForm, currentYear: string): (r: Result<MovieData>)
    requires f.videoPath.Some?
    ensures r.Ok? <==> f.title.Some? && ParseField(f.userId).Some? && ParseInt(StringOr(f.duration, "0"), Unspecified).Some?
    ensures r.Ok? ==> var d := r.value;
      d.title == f.title.value && d.userId == ParseField(f.userId).value &&
      d.description == StringOr(f.description, "") &&
      d.category == StringOr(f.category, "other") &&
      d.year == StringOr(f.year, currentYear) &&
      (d.isPublic <==> f.isPublic == Some("true")) &&
      d.duration == ParseInt(StringOr(f.duration, "0"), Unspecified).value &&
      d.filePath == f.videoPath.value && d.thumbnailPath == StringOr(f.thumbnailPath, "")
  {
    var userId := ParseField(f.userId);
    var duration := ParseInt(StringOr(f.duration, "0"), Unspecified);
    if f.title.None? || userId.None? || duration.None? then Failure("Validation error")
    else Ok(MovieData(f.title.value, StringOr(f.description, ""), StringOr(f.category, "other"),
      duration.value, StringOr(f.year, currentYear), userId.value, f.videoPath.value,
      StringOr(f.thumbnailPath, ""), f.isPublic == Some("true")))
  }

  /** `duration || '0'`: a form without a duration, or with an empty one,
      is read exactly as one whose duration is the text "0". */
  lemma MissingDurationReadsAsZero(f: UploadForm, currentYear: string)
    requires f.videoPath.Some? && (f.duration.None? || f.duration == Some(""))
    ensures UploadData(f, currentYear) == UploadData(f.(duration := Some("0")), currentYear)
  {
  }

  /** `POST /api/movies`. */
  function UploadRoute(s: Store, f: UploadForm, now: int, currentYear: string): (r: (Store, Reply))
    ensures r.1.status == 201 <==> f.videoPath.Some? && UploadData(f, currentYear).Ok?
    ensures r.1.status != 201 ==> r.0 == s && r.1.status == 400
    ensures r.1.status == 201 ==>
      r.0 == CreateMovie(s, UploadData(f, currentYear).value, now).0 &&
      r.1.body == OneMovie(r.0.movies[s.nextMovieId])
    ensures Valid(s) ==> Valid(r.0)
  {
    if f.videoPath.None? then (s, Reply(400, Message("Video file is required")))
    else match UploadData(f, currentYear)
      case Failure(msg) => (s, Reply(400, Message(msg)))
      case Ok(d) =>
        var (s', m) := CreateMovie(s, d, now);
        (s', Reply(201, OneMovie(m)))
  }

  /** A file part of the upload as multer sees it before storing it. */
  datatype UploadFile = UploadFile(field: string, mimetype: string, originalName: string)

  /** `POST /api/movies` as it arrives: a body that is not multipart leaves
      `req.files` undefined; a multipart body carries its file parts in
      order, and the form that results once multer has stored them. */
  datatype UploadRequest = NotMultipart | Multipart(files: seq<UploadFile>, form: UploadForm)

  /** The first file part `videoFilter` refuses, if any. */
  function FirstRefused(files: seq<UploadFile>): (r: Option<UploadFile>)
    ensures r.None? <==> forall i :: 0 <= i < |files| ==>
      Uploads.HubFileFilter(files[i].field, files[i].mimetype, files[i].originalName)
    ensures r.Some? ==> r.value in files
    ensures r.Some? ==> !Uploads.HubFileFilter(r.value.field, r.value.mimetype, r.value.originalName)
  {
    if files == [] then None
    else if !Uploads.HubFileFilter(files[0].field, files[0].mimetype, files[0].originalName) then Some(files[0])
    else FirstRefused(files[1..])
  }

  /** The message of the `TypeError` thrown by `files.video` when `files`
      is undefined. */
  const UndefinedFilesError := "Cannot read properties of undefined (reading 'video')"

  /** The whole `POST /api/movies` pipeline. Without a multipart body the
      handler throws on `files.video` and `handleError` answers 500 with the
      error's message. A file the filter refuses stops multer, and its error
      is answered 500 with the filter's message before the handler runs.
      Otherwise the handler's own answer. */
  function UploadRequestRoute(s: Store, req: UploadRequest, now: int, currentYear: string): (r: (Store, Reply))
    ensures r.1.status in {201, 400, 500}
    ensures r.1.status != 201 ==> r.0 == s
    ensures r.1.status == 500 <==> req.NotMultipart? || FirstRefused(req.files).Some?
    ensures req.NotMultipart? ==> r.1.body == Message(UndefinedFilesError)
    ensures req.Multipart? && FirstRefused(req.files).Some? ==>
      r.1.body == Message(Uploads.HubFilterError(FirstRefused(req.files).value.field))
    ensures req.Multipart? && FirstRefused(req.files).None? ==> r == UploadRoute(s, req.form, now, currentYear)
  {
    match req
    case NotMultipart => (s, Reply(500, Message(UndefinedFilesError)))
    case Multipart(files, form) =>
      match FirstRefused(files)
      case Some(f) => (s, Reply(500, Message(Uploads.HubFilterError(f.field))))
      case None => UploadRoute(s, form, now, currentYear)
  }

  /** A refused file never reaches the store, and the answer is not the
      400 of a failed validation. */
  lemma RefusedFileStoresNothing(s: Store, files: seq<UploadFile>, form: UploadForm, now: int, currentYear: string, i: nat)
    requires i < |files| && !Uploads.HubFileFilter(files[i].field, files[i].mimetype, files[i].originalName)
    ensures UploadRequestRoute(s, Multipart(files, form), now, currentYear).0 == s
    ensures UploadRequestRoute(s, Multipart(files, form), now, currentYear).1.status == 500
  {
  }

  /** The JSON body of `PUT /api/movies/:id`; absent fields are `None`. */
  datatype UpdateBody = UpdateBody(
    title: Option<string>, description: Option<string>, category: Option<string>,
    year: Option<string>, isPublic: Option<string>)

  /** The update object after pruning: `isPublic` is never `undefined`, so it
      is always set, to true exactly for the text "true". */
  function ChangeOf(b: UpdateBody): (c: MovieChange)
    ensures c.isPublic == Some(b.isPublic == Some("true"))
    ensures c.title == b.title && c.description == b.description && c.category == b.category && c.year == b.year
  {
    MovieChange(b.title, b.description, b.category, b.year, Some(b.isPublic == Some("true")))
  }

  /** `PUT /api/movies/:id`. */
  function UpdateRoute(s: Store, idText: string, b: UpdateBody): (r: (Store, Reply))
    ensures r.1.status == 400 <==> RouteId(idText).None?
    ensures r.1.status == 404 <==> RouteId(idText).Some? && RouteId(idText).value !in s.movies
    ensures r.1.status != 200 ==> r.0 == s
    ensures r.1.status == 200 ==>
      RouteId(idText).Some? && RouteId(idText).value in s.movies &&
      var id := RouteId(idText).value; var old_ := s.movies[id];
      id in r.0.movies && r.0 == s.(movies := s.movies[id := r.0.movies[id]]) &&
      r.1.body == OneMovie(r.0.movies[id]) &&
      (r.0.movies[id].isPublic <==> b.isPublic == Some("true")) &&
      r.0.movies[id].title == b.title.GetOr(old_.title) &&
      r.0.movies[id].description == b.description.GetOr(old_.description) &&
      r.0.movies[id].category == b.category.GetOr(old_.category) &&
      r.0.movies[id].year == b.year.GetOr(old_.year) &&
      r.0.movies[id].filePath == old_.filePath && r.0.movies[id].uploadedAt == old_.uploadedAt
    ensures Valid(s) ==> Valid(r.0)
  {
    match RouteId(idText)
    case None => (s, Reply(400, Message("Invalid movie ID")))
    case Some(id) =>
      if GetMovie(s, id).None? then (s, Reply(404, Message("Movie not found")))
      else
        var (s', m) := UpdateMovie(s, id, ChangeOf(b)).value;
        (s', Reply(200, OneMovie(m)))
  }

  /** Sending the same update twice leaves the store as sending it once. */
  lemma UpdateRouteIdempotent(s: Store, idText: string, b: UpdateBody)
    ensures var s1 := UpdateRoute(s, idText, b).0; UpdateRoute(s1, idText, b).0 == s1
  {
    var s1 := UpdateRoute(s, idText, b).0;
    if RouteId(idText).Some? && RouteId(idText).value in s.movies {
      var id := RouteId(idText).value;
      assert Changed(s1.movies[id], ChangeOf(b)) == s1.movies[id];
      assert s1.movies[id := s1.movies[id]] == s1.movies;
    }
  }

  /** An update without `isPublic` still makes the movie private. */
  lemma UpdateWithoutIsPublicHides(s: Store, idText: string, b: UpdateBody)
    requires RouteId(idText).Some? && RouteId(idText).value in s.movies && b.isPublic.None?
    ensures !UpdateRoute(s, idText, b).0.movies[RouteId(idText).value].isPublic
  {
  }

  /** `DELETE /api/movies/:id`: 204 once the movie is gone; the 500 branch
      for a failed delete is unreachable, since the movie was just found. */
  function DeleteRoute(s: Store, idText: string): (r: (Store, Reply))
    ensures r.1.status == 400 <==> RouteId(idText).None?
    ensures r.1.status == 404 <==> RouteId(idText).Some? && RouteId(idText).value !in s.movies
    ensures r.1.status == 204 <==> RouteId(idText).Some? && RouteId(idText).value in s.movies
    ensures r.1.status != 204 ==> r.0 == s
    ensures r.1.status == 204 ==> r.0 == DeleteMovie(s, RouteId(idText).value).0
    ensures Valid(s) ==> Valid(r.0)
  {
    match RouteId(idText)
    case None => (s, Reply(400, Message("Invalid movie ID")))
    case Some(id) =>
      if GetMovie(s, id).None? then (s, Reply(404, Message("Movie not found")))
      else
        var (s', success) := DeleteMovie(s, id);
        if success then (s', Reply(204, NoBody)) else (s, Reply(500, Message("Failed to delete movie")))
  }

  /** An uploaded movie can be fetched by its id, given as any text that
      reads as that id, and after deleting it the same request answers 404. */
  lemma UploadFetchDelete(s: Store, f: UploadForm, now: int, currentYear: string, idText: string)
    requires Valid(s) && f.videoPath.Some? && UploadData(f, currentYear).Ok?
    requires RouteId(idText) == Some(s.nextMovieId)
    ensures var (s1, r) := UploadRoute(s, f, now, currentYear);
      GetMovieRoute(s1, idText) == Reply(200, r.body) &&
      GetMovieRoute(DeleteRoute(s1, idText).0, idText).status == 404
  {
  }
}

=== FILE: hub_views.dfy ===
/** MovieStreamingHub's client views over the movie list: the card's duration
    text and thumbnail, the explore page's search and category tabs, the
    library grouped by category, and the details page's related movies. A
    stored empty string stands for a missing field, as in `HubStore`. */
module HubViews {
  import opened Options
  import opened JsText
  import opened Seqs
  import opened HubStore
  import opened EmbedPage

  // ------------------------------------------------------------ movie card

  /** The hours, minutes and seconds `formatDuration` computes: `Math.floor`
      of the divisions, JavaScript's `%` for the remainders. */
  datatype Clock = Clock(hours: int, minutes: int, seconds: int)

  function ClockOf(total: int): (c: Clock)
    ensures total >= 0 ==>
      && c.hours >= 0 && 0 <= c.minutes < 60 && 0 <= c.seconds < 60
      && c.hours * 3600 + c.minutes * 60 + c.seconds == total
    ensures 0 <= total < 3600 ==> c.hours == 0
  {
    if total >= 0 then
      SixtyOfHour(total);
      Clock(total / 3600, TruncRem(total, 3600) / 60, TruncRem(total, 60))
    else Clock(total / 3600, TruncRem(total, 3600) / 60, TruncRem(total, 60))
  }

  lemma SixtyOfHour(total: nat)
    ensures (total / 3600) * 3600 + (total % 3600) / 60 * 60 + total % 60 == total
    ensures total % 60 == (total % 3600) % 60
  {
    var q, r := total / 3600, total % 3600;
    assert total == 3600 * q + r;
    assert r == 60 * (r / 60) + r % 60;
    assert total == 60 * (60 * q + r / 60) + r % 60;
  }

  /** The text of a clock: `H:MM:SS` with hours, `M:SS` without. */
  function ClockText(c: Clock): string {
    if c.hours > 0 then
      IntToString(c.hours) + ":" + PadStart2(IntToString(c.minutes)) + ":" + PadStart2(IntToString(c.seconds))
    else
      IntToString(c.minutes) + ":" + PadStart2(IntToString(c.seconds))
  }

  /** `formatDuration`: `00:00` for a falsy duration, otherwise the clock
      text of the duration's hours, minutes and seconds. */
  function FormatDuration(seconds: int): (text: string)
    ensures seconds == 0 ==> text == "00:00"
  {
    if seconds == 0 then "00:00" else ClockText(ClockOf(seconds))
  }

  /** A clock field as a number: a non-empty run of decimal digits. */
  function FieldValue(f: string): Option<nat> {
    if f != [] && AllDigits(f) then
      assert forall i :: 0 <= i < |f| ==> IsRadixDigit(f[i], false);
      Some(DigitsValue(f, false))
    else None
  }

  /** Reading a clock text back: the `:`-separated fields in base 60. */
  function ClockValue(fields: seq<string>, acc: int): Option<int> {
    if fields == [] then Some(acc)
    else match FieldValue(fields[0])
      case None => None
      case Some(n) => ClockValue(fields[1..], acc * 60 + n)
  }

  function ParseClock(text: string): Option<int> {
    ClockValue(Split(text, ':'), 0)
  }

  lemma NoColonInDigits(s: string)
    requires AllDigits(s)
    ensures ':' !in s
  {
    assert forall i :: 0 <= i < |s| ==> s[i] != ':';
  }

  lemma ClockValueStep(f: string, n: nat, rest: seq<string>, acc: int)
    requires FieldValue(f) == Some(n)
    ensures ClockValue([f] + rest, acc) == ClockValue(rest, acc * 60 + n)
  {
    assert ([f] + rest)[1..] == rest;
  }

  lemma ReadTwoFields(a: string, x: nat, b: string, y: nat)
    requires FieldValue(a) == Some(x) && FieldValue(b) == Some(y)
    ensures Split(a + ":" + b, ':') == [a, b]
    ensures ParseClock(a + ":" + b) == Some(x * 60 + y)
  {
    NoColonInDigits(a);
    NoColonInDigits(b);
    assert a + ":" + b == a + [':'] + b;
    SplitCons(a, ':', b);
    SplitOne(b, ':');
    ClockValueStep(a, x, [b], 0);
    ClockValueStep(b, y, [], x);
    assert [a] + [b] == [a, b] && [b] + [] == [b];
  }

  lemma SplitThree(a: string, b: string, c: string)
    requires ':' !in a && ':' !in b && ':' !in c
    ensures Split(a + ":" + b + ":" + c, ':') == [a, b, c]
  {
    var tail := b + [':'] + c;
    assert a + ":" + b + ":" + c == a + [':'] + tail;
    SplitCons(a, ':', tail);
    SplitCons(b, ':', c);
    SplitOne(c, ':');
    assert [a] + ([b] + [c]) == [a, b, c];
  }

  lemma ClockValueThree(a: string, x: nat, b: string, y: nat, c: string, z: nat)
    requires FieldValue(a) == Some(x) && FieldValue(b) == Some(y) && FieldValue(c) == Some(z)
    ensures ClockValue([a, b, c], 0) == Some(x * 3600 + y * 60 + z)
  {
    assert [a, b, c] == [a] + [b, c] && [b, c] == [b] + [c] && [c] == [c] + [];
    ClockValueStep(a, x, [b, c], 0);
    ClockValueStep(b, y, [c], x);
    ClockValueStep(c, z, [], x * 60 + y);
    assert ((0 * 60 + x) * 60 + y) * 60 + z == x * 3600 + y * 60 + z;
  }

  lemma ReadThreeFields(a: string, x: nat, b: string, y: nat, c: string, z: nat)
    requires FieldValue(a) == Some(x) && FieldValue(b) == Some(y) && FieldValue(c) == Some(z)
    ensures Split(a + ":" + b + ":" + c, ':') == [a, b, c]
    ensures ParseClock(a + ":" + b + ":" + c) == Some(x * 3600 + y * 60 + z)
  {
    NoColonInDigits(a);
    NoColonInDigits(b);
    NoColonInDigits(c);
    SplitThree(a, b, c);
    ClockValueThree(a, x, b, y, c, z);
  }

  /** A minute or second field is two digits and reads back as its value. */
  lemma PaddedField(n: nat)
    requires n < 60
    ensures FieldValue(PadStart2(IntToString(n))) == Some(n)
    ensures |PadStart2(IntToString(n))| == 2
  {
    var t := PadStart2(NatToString(n));
    if n >= 10 {
      assert NatToString(n) == NatToString(n / 10) + [DigitChar(n % 10)];
      DecimalValueOfNatToString(n);
    } else {
      assert t == ['0', DigitChar(n)];
      assert t[..1] == ['0'] && ['0'][..0] == [];
      assert DigitsValue(['0'], false) == 0;
    }
  }

  lemma PlainField(n: nat)
    ensures FieldValue(IntToString(n)) == Some(n)
  {
    DecimalValueOfNatToString(n);
  }

  /** Three fields that read as numbers, the last two of two digits, give a
      text with three fields that reads back as their total. */
  lemma ThreeFieldText(t: string, a: string, x: nat, b: string, y: nat, c: string, z: nat)
    requires t == a + ":" + b + ":" + c && |b| == 2 && |c| == 2
    requires FieldValue(a) == Some(x) && FieldValue(b) == Some(y) && FieldValue(c) == Some(z)
    ensures var fields := Split(t, ':');
      && |fields| == 3 && (forall i :: 1 <= i < |fields| ==> |fields[i]| == 2)
      && ParseClock(t) == Some(x * 3600 + y * 60 + z)
  {
    ReadThreeFields(a, x, b, y, c, z);
  }

  /** The hour, padded minute and padded second texts each read back as
      their number, the last two with two digits. */
  lemma LongClockFields(c: Clock, h: string, m: string, s: string)
    requires c.hours > 0 && 0 <= c.minutes < 60 && 0 <= c.seconds < 60
    requires h == IntToString(c.hours) && m == PadStart2(IntToString(c.minutes)) && s == PadStart2(IntToString(c.seconds))
    ensures FieldValue(h) == Some(c.hours) && FieldValue(m) == Some(c.minutes) && FieldValue(s) == Some(c.seconds)
    ensures |m| == 2 && |s| == 2
  {
    PaddedField(c.minutes);
    PaddedField(c.seconds);
    PlainField(c.hours);
  }

  lemma LongClockText(c: Clock)
    requires c.hours > 0 && 0 <= c.minutes < 60 && 0 <= c.seconds < 60
    ensures var fields := Split(ClockText(c), ':');
      && |fields| == 3 && (forall i :: 1 <= i < |fields| ==> |fields[i]| == 2)
      && ParseClock(ClockText(c)) == Some(c.hours * 3600 + c.minutes * 60 + c.seconds)
  {
    var h, m, s := IntToString(c.hours), PadStart2(IntToString(c.minutes)), PadStart2(IntToString(c.seconds));
    LongClockFields(c, h, m, s);
    ThreeFieldText(h + ":" + m + ":" + s, h, c.hours, m, c.minutes, s, c.seconds);
    assert ClockText(c) == h + ":" + m + ":" + s;
  }

  lemma ShortClockText(c: Clock)
    requires c.hours == 0 && 0 <= c.minutes < 60 && 0 <= c.seconds < 60
    ensures var fields := Split(ClockText(c), ':');
      && |fields| == 2 && (forall i :: 1 <= i < |fields| ==> |fields[i]| == 2)
      && ParseClock(ClockText(c)) == Some(c.minutes * 60 + c.seconds)
  {
    PaddedField(c.seconds);
    PlainField(c.minutes);
    ReadTwoFields(IntToString(c.minutes), c.minutes, PadStart2(IntToString(c.seconds)), c.seconds);
  }

  /** Any clock with minutes and seconds under sixty reads back as its
      total: two fields without hours, three with. */
  lemma ClockTextRoundTrip(c: Clock)
    requires c.hours >= 0 && 0 <= c.minutes < 60 && 0 <= c.seconds < 60
    ensures var fields := Split(ClockText(c), ':');
      && |fields| == (if c.hours == 0 then 2 else 3)
      && (forall i :: 1 <= i < |fields| ==> |fields[i]| == 2)
      && ParseClock(ClockText(c)) == Some(c.hours * 3600 + c.minutes * 60 + c.seconds)
  {
    if c.hours > 0 {
      LongClockText(c);
    } else {
      ShortClockText(c);
    }
  }

  /** The text `formatDuration` writes for a positive duration has two
      fields under an hour and three from an hour on, every field after the
      first has two digits, and reading it in base 60 gives the duration back. */
  lemma FormatDurationRoundTrip(seconds: int)
    requires seconds > 0
    ensures var fields := Split(FormatDuration(seconds), ':');
      && |fields| == (if seconds < 3600 then 2 else 3)
      && (forall i :: 1 <= i < |fields| ==> |fields[i]| == 2)
      && ParseClock(FormatDuration(seconds)) == Some(seconds)
  {
    var c := ClockOf(seconds);
    assert FormatDuration(seconds) == ClockText(c);
    ClockTextRoundTrip(c);
    assert c.hours == 0 <==> seconds < 3600;
    assert c.hours * 3600 + c.minutes * 60 + c.seconds == seconds;
  }

  const PlaceholderThumbnail := "https://via.placeholder.com/450x253/1E1E1E/AAAAAA?text=No+Thumbnail"

  /** The card's image: the stored thumbnail served by file name, or the
      fixed placeholder when there is none. */
  function CardThumbnail(m: Movie): (url: string)
    ensures m.thumbnailPath == "" ==> url == PlaceholderThumbnail
    ensures m.thumbnailPath != "" ==>
      && StartsWith(url, "/api/thumbnails/")
      && '/' !in url[16..]
      && EndsWith(m.thumbnailPath, url[16..])
  {
    var src := ThumbnailSrc(Some(m.thumbnailPath));
    src.GetOr(PlaceholderThumbnail)
  }

  // --------------------------------------------------------------- explore

  /** The search box: an empty query matches everything, otherwise the
      lower-cased title or (non-empty) description must contain the
      lower-cased query. */
  predicate MatchesSearch(m: Movie, query: string) {
    || query == ""
    || Contains(ToLower(m.title), ToLower(query))
    || (m.description != "" && Contains(ToLower(m.description), ToLower(query)))
  }

  /** The tabs: `all`, or exactly one category. */
  predicate MatchesCategory(m: Movie, active: string) {
    active == "all" || m.category == active
  }

  function Shown(active: string, query: string): Movie -> bool {
    (m: Movie) => MatchesSearch(m, query) && MatchesCategory(m, active)
  }

  /** `filteredMovies`: the movies passing both tests, in list order. */
  function FilteredMovies(all: seq<Movie>, active: string, query: string): (r: seq<Movie>)
    ensures forall m :: m in r <==> m in all && MatchesSearch(m, query) && MatchesCategory(m, active)
    ensures IsSubsequence(r, all)
  {
    FilterIsSubsequence(all, Shown(active, query));
    Filter(all, Shown(active, query))
  }

  /** With no search on the `all` tab every movie is listed. */
  lemma UnfilteredExplore(all: seq<Movie>)
    ensures FilteredMovies(all, "all", "") == all
  {
    FilterAll(all, Shown("all", ""));
  }

  /** Typing a query only ever removes movies from a tab: the list shown is
      the query's filter applied to the tab's unsearched list. */
  lemma SearchNarrows(all: seq<Movie>, active: string, query: string)
    ensures FilteredMovies(all, active, query) == Filter(FilteredMovies(all, active, ""), Shown(active, query))
  {
    var p, q := Shown(active, query), Shown(active, "");
    forall m | m in all && p(m) ensures q(m) {
      ShownNarrows(active, query, m);
    }
    FilterOfFilter(all, p, q);
  }

  /** The movies left after a search keep the tab's order. */
  lemma SearchKeepsOrder(all: seq<Movie>, active: string, query: string)
    ensures IsSubsequence(FilteredMovies(all, active, query), FilteredMovies(all, active, ""))
  {
    SearchNarrows(all, active, query);
    FilterIsSubsequence(FilteredMovies(all, active, ""), Shown(active, query));
  }

  lemma ShownNarrows(active: string, query: string, m: Movie)
    ensures Shown(active, query)(m) ==> Shown(active, "")(m)
  {
  }

  /** The search ignores the case of the query. */
  lemma SearchIgnoresQueryCase(m: Movie, query: string)
    ensures MatchesSearch(m, query) <==> MatchesSearch(m, ToLower(query))
  {
    ToLowerIdempotent(query);
    assert query == "" <==> ToLower(query) == "";
  }

  /** The categories of the upload schema, in the order the tabs list them. */
  const Categories: seq<string> :=
    ["action", "comedy", "drama", "documentary", "horror", "sci-fi", "adventure", "personal", "travel", "food", "other"]

  function InCategory(c: string): Movie -> bool {
    (m: Movie) => m.category == c
  }

  /** `categoryCounts`: per schema category, how many of all movies carry
      it; the search text plays no part. */
  function CategoryCounts(all: seq<Movie>): (counts: map<string, nat>)
    ensures forall c :: c in counts <==> c in Categories
    ensures forall c :: c in counts ==> counts[c] == |Filter(all, InCategory(c))|
  {
    map c | c in Categories :: |Filter(all, InCategory(c))|
  }

  /** A tab's count is the number of movies the tab lists while the search
      box is empty. */
  lemma CountMatchesTab(all: seq<Movie>, c: string)
    requires c in Categories
    ensures CategoryCounts(all)[c] == |FilteredMovies(all, c, "")|
  {
    assert c != "all";
    FilterSame(all, InCategory(c), Shown(c, ""));
  }

  // ------------------------------------------------------------ my library

  /** The section a movie goes to: its category, or `Uncategorized`. */
  function LibraryKey(m: Movie): string {
    if m.category != "" then m.category else "Uncategorized"
  }

  function InGroup(k: string): Movie -> bool {
    (m: Movie) => LibraryKey(m) == k
  }

  predicate HasKey(ms: seq<Movie>, k: string) {
    exists i :: 0 <= i < |ms| && LibraryKey(ms[i]) == k
  }

  lemma HasKeySnoc(ms: seq<Movie>)
    requires ms != []
    ensures forall j :: HasKey(ms, j) <==> HasKey(ms[..|ms| - 1], j) || j == LibraryKey(ms[|ms| - 1])
  {
    var n := |ms| - 1;
    forall j ensures HasKey(ms, j) <==> HasKey(ms[..n], j) || j == LibraryKey(ms[n]) {
      if HasKey(ms[..n], j) {
        var i :| 0 <= i < n && LibraryKey(ms[..n][i]) == j;
        assert LibraryKey(ms[i]) == j;
      }
      if HasKey(ms, j) {
        var i :| 0 <= i < |ms| && LibraryKey(ms[i]) == j;
        if i < n { assert LibraryKey(ms[..n][i]) == j; }
      }
    }
  }

  lemma GroupAfterPush(pre: seq<Movie>, m: Movie, j: string)
    ensures Filter(pre + [m], InGroup(j)) == Filter(pre, InGroup(j)) + (if LibraryKey(m) == j then [m] else [])
  {
    FilterAppend(pre, [m], InGroup(j));
  }

  lemma NoKeyNoGroup(ms: seq<Movie>, j: string)
    requires !HasKey(ms, j)
    ensures Filter(ms, InGroup(j)) == []
  {
    FilterNone(ms, InGroup(j));
  }

  /** One step of the `forEach`: the movie is pushed onto its key's list,
      the list created on first use. */
  function Push(g: map<string, seq<Movie>>, m: Movie): map<string, seq<Movie>> {
    var k := LibraryKey(m);
    g[k := (if k in g then g[k] else []) + [m]]
  }

  /** The grouping of a list's movies, by key. */
  ghost predicate GroupsOf(g: map<string, seq<Movie>>, ms: seq<Movie>) {
    && (forall k :: k in g <==> HasKey(ms, k))
    && (forall k :: k in g ==> g[k] == Filter(ms, InGroup(k)))
  }

  lemma PushGroups(g: map<string, seq<Movie>>, pre: seq<Movie>, m: Movie)
    requires GroupsOf(g, pre)
    ensures GroupsOf(Push(g, m), pre + [m])
  {
    var ms := pre + [m];
    var k := LibraryKey(m);
    var g' := Push(g, m);
    assert ms[..|ms| - 1] == pre && ms[|ms| - 1] == m;
    HasKeySnoc(ms);
    forall j | j in g' ensures g'[j] == Filter(ms, InGroup(j)) {
      GroupAfterPush(pre, m, j);
      if j == k && k !in g {
        NoKeyNoGroup(pre, j);
      }
    }
  }

  /** `moviesByCategory`, built by the `forEach` over the list. */
  function Groups(ms: seq<Movie>): (g: map<string, seq<Movie>>)
    ensures GroupsOf(g, ms)
  {
    if ms == [] then map[]
    else
      var n := |ms| - 1;
      var g := Groups(ms[..n]);
      GroupsStep(g, ms);
      Push(g, ms[n])
  }

  lemma GroupsStep(g: map<string, seq<Movie>>, ms: seq<Movie>)
    requires ms != [] && GroupsOf(g, ms[..|ms| - 1])
    ensures GroupsOf(Push(g, ms[|ms| - 1]), ms)
  {
    var n := |ms| - 1;
    PushGroups(g, ms[..n], ms[n]);
    assert ms[..n] + [ms[n]] == ms;
  }

  /** `Object.keys(moviesByCategory)` before sorting: each key once, in the
      order of first appearance. */
  function KeysInOrder(ms: seq<Movie>): (ks: seq<string>)
    ensures NoDuplicates(ks)
    ensures forall k :: k in ks <==> HasKey(ms, k)
  {
    if ms == [] then []
    else
      var n := |ms| - 1;
      HasKeySnoc(ms);
      AddIfAbsent(KeysInOrder(ms[..n]), LibraryKey(ms[n]))
  }

  datatype Section = Section(title: string, movies: seq<Movie>)

  /** `sortedCategories`: the keys in ascending order, each once, exactly the
      keys of the groups. */
  function SortedCategories(ms: seq<Movie>): (ks: seq<string>)
    ensures SortedStrings(ks) && NoDuplicates(ks)
    ensures forall k :: k in ks <==> k in Groups(ms)
  {
    var keys := KeysInOrder(ms);
    var ks := SortStrings(keys);
    PermutationNoDuplicates(keys, ks);
    assert forall k :: k in ks <==> k in multiset(keys);
    ks
  }

  function SectionsFor(ms: seq<Movie>, ks: seq<string>): (r: seq<Section>)
    ensures |r| == |ks|
    ensures forall i :: 0 <= i < |ks| ==> r[i] == Section(Capitalize(ks[i]), Filter(ms, InGroup(ks[i])))
  {
    if ks == [] then [] else [Section(Capitalize(ks[0]), Filter(ms, InGroup(ks[0])))] + SectionsFor(ms, ks[1..])
  }

  /** The library's per-category sections, in sorted key order, each titled
      with its key capitalised. */
  function Library(ms: seq<Movie>): (r: seq<Section>)
    ensures |r| == |SortedCategories(ms)|
    ensures forall i :: 0 <= i < |r| ==>
      && SortedCategories(ms)[i] in Groups(ms)
      && r[i] == Section(Capitalize(SortedCategories(ms)[i]), Groups(ms)[SortedCategories(ms)[i]])
  {
    SectionsFor(ms, SortedCategories(ms))
  }

  function SectionMovies(ss: seq<Section>): seq<seq<Movie>> {
    if ss == [] then [] else [ss[0].movies] + SectionMovies(ss[1..])
  }

  function InKeys(ks: seq<string>): Movie -> bool {
    (m: Movie) => LibraryKey(m) in ks
  }

  lemma {:induction false} FilterSplitKey(ms: seq<Movie>, k: string, rest: seq<string>)
    requires k !in rest
    ensures multiset(Filter(ms, InKeys([k] + rest))) ==
      multiset(Filter(ms, InGroup(k))) + multiset(Filter(ms, InKeys(rest)))
  {
    if ms != [] {
      FilterSplitKey(ms[1..], k, rest);
    }
  }

  lemma {:induction false} SectionsMultiset(ms: seq<Movie>, ks: seq<string>)
    requires NoDuplicates(ks)
    ensures multiset(Concat(SectionMovies(SectionsFor(ms, ks)))) == multiset(Filter(ms, InKeys(ks)))
  {
    if ks == [] {
      FilterNone(ms, InKeys(ks));
    } else {
      var k, rest := ks[0], ks[1..];
      HeadNotInTail(ks);
      SectionsStep(ms, ks);
      SectionsMultiset(ms, rest);
      FilterSplitKey(ms, k, rest);
      assert ks == [k] + rest;
    }
  }

  lemma HeadNotInTail<T>(s: seq<T>)
    requires s != [] && NoDuplicates(s)
    ensures s[0] !in s[1..] && NoDuplicates(s[1..])
  {
    forall i | 0 <= i < |s| - 1 ensures s[1..][i] != s[0] {
      assert s[1..][i] == s[i + 1];
    }
  }

  lemma SectionsStep(ms: seq<Movie>, ks: seq<string>)
    requires ks != []
    ensures Concat(SectionMovies(SectionsFor(ms, ks))) ==
      Filter(ms, InGroup(ks[0])) + Concat(SectionMovies(SectionsFor(ms, ks[1..])))
  {
    var ss := SectionsFor(ms, ks);
    assert ss[1..] == SectionsFor(ms, ks[1..]);
    var parts := SectionMovies(ss);
    assert parts[1..] == SectionMovies(ss[1..]);
  }

  /** Every movie is in exactly one section: the sections together are a
      permutation of the uploads. */
  lemma LibraryIsPermutation(ms: seq<Movie>)
    ensures multiset(Concat(SectionMovies(Library(ms)))) == multiset(ms)
  {
    var ks := SortedCategories(ms);
    SectionsMultiset(ms, ks);
    assert forall m :: m in ms ==> InKeys(ks)(m) by {
      forall m | m in ms ensures LibraryKey(m) in ks {
        var i :| 0 <= i < |ms| && ms[i] == m;
        assert HasKey(ms, LibraryKey(m));
      }
    }
    FilterAll(ms, InKeys(ks));
  }

  /** A movie's section is the one named after its key. */
  lemma MovieInItsSection(ms: seq<Movie>, m: Movie)
    requires m in ms
    ensures exists i :: 0 <= i < |Library(ms)| && SortedCategories(ms)[i] == LibraryKey(m) && m in Library(ms)[i].movies
  {
    var i :| 0 <= i < |ms| && ms[i] == m;
    assert HasKey(ms, LibraryKey(m));
    var ks := SortedCategories(ms);
    assert LibraryKey(m) in Groups(ms);
    assert LibraryKey(m) in ks;
    var j :| 0 <= j < |ks| && ks[j] == LibraryKey(m);
    assert m in Library(ms)[j].movies;
  }

  // --------------------------------------------------------- movie details

  /** Whether `m` belongs among the movies related to `c`: same category,
      other id. */
  function RelatedTo(movieId: Option<int>, c: Movie): Movie -> bool {
    (m: Movie) => (movieId.None? || m.id != movieId.value) && m.category == c.category
  }

  /** `relatedMovies`: other movies of the shown movie's category, at most
      five, in list order. `movieId` is the route's `parseInt`, `None` for
      `NaN`, which no id equals; without a loaded movie nothing matches. */
  function RelatedMovies(all: seq<Movie>, movieId: Option<int>, current: Option<Movie>): (r: seq<Movie>)
    ensures |r| <= 5
    ensures current.None? ==> r == []
    ensures IsSubsequence(r, all)
    ensures current.Some? ==>
      var matching := Filter(all, RelatedTo(movieId, current.value));
      r <= matching && |r| == if |matching| < 5 then |matching| else 5
    ensures forall m :: m in r ==>
      && m in all && current.Some? && m.category == current.value.category
      && (movieId.Some? ==> m.id != movieId.value)
    ensures forall m ::
      (m in all && current.Some? && m.category == current.value.category && (movieId.Some? ==> m.id != movieId.value)) ==>
      m in r || |r| == 5
  {
    match current
    case None => []
    case Some(c) =>
      var p := RelatedTo(movieId, c);
      var matching := Filter(all, p);
      var r := SliceTo(matching, 5);
      assert |matching| < 5 ==> r == matching;
      assert forall m :: m in all && p(m) ==> m in matching;
      PrefixMembers(r, matching);
      assert forall m :: m in r ==> m in matching && m in all && p(m);
      FilterIsSubsequence(all, p);
      PrefixOfSubsequence(r, matching, all);
      r
  }

  /** The five are the first ones: a related movie with fewer than five
      related movies before it in the list is always shown. */
  lemma RelatedKeepsEarlyMatches(all: seq<Movie>, movieId: Option<int>, c: Movie, i: nat)
    requires i < |all| && RelatedTo(movieId, c)(all[i])
    requires CountWhere(all[..i], RelatedTo(movieId, c)) < 5
    ensures all[i] in RelatedMovies(all, movieId, Some(c))
  {
    var p := RelatedTo(movieId, c);
    assert all == all[..i] + all[i..];
    FilterAppend(all[..i], all[i..], p);
    assert all[i..] == [all[i]] + all[i + 1..];
    var k := |Filter(all[..i], p)|;
    var matching := Filter(all, p);
    assert matching[k] == all[i];
    var r := RelatedMovies(all, movieId, Some(c));
    assert r[k] == matching[k];
  }

  /** `Math.floor(duration / 60)` minutes, shown only for a non-zero duration. */
  function DisplayMinutes(duration: int): (r: Option<int>)
    ensures r.Some? <==> duration != 0
    ensures r.Some? ==> r.value * 60 <= duration < r.value * 60 + 60
  {
    if duration != 0 then Some(duration / 60) else None
  }

  /** The player's sources on the details page are the ones the embed page
      computes, and the poster is the card's thumbnail. */
  lemma DetailsSources(m: Movie)
    ensures m.thumbnailPath != "" ==> ThumbnailSrc(Some(m.thumbnailPath)) == Some(CardThumbnail(m))
    ensures m.filePath == "" <==> VideoSrc(Some(m.filePath)).None?
  {
  }

  /** The details query is not sent when the route's id has no digit. */
  lemma DetailsQueryDisabled(id: string)
    requires forall i :: 0 <= i < |id| ==> !IsDigit(id[i])
    ensures !MovieQueryEnabled(id)
  {
    ParseIntWithoutDigits(id, Unspecified);
  }
}

=== FILE: js_text.dfy ===
/** The slice of JavaScript's string and number semantics the modelled code
    relies on: `parseInt`, `Number#toString`, `split`, `split(..).pop()`,
    `replace` with a non-global pattern, `includes`, `startsWith`, `endsWith`,
    `padStart`, ASCII case mapping and Node's `path.extname`. */
module JsText {
  import opened Options

  // ---------------------------------------------------------------- digits

  predicate IsDigit(c: char) { '0' <= c <= '9' }

  predicate IsHexDigit(c: char) { IsDigit(c) || 'a' <= c <= 'f' || 'A' <= c <= 'F' }

  predicate AllDigits(s: string) { forall i :: 0 <= i < |s| ==> IsDigit(s[i]) }

  function DigitValue(c: char): nat
    requires IsHexDigit(c)
  {
    if IsDigit(c) then c as int - '0' as int
    else if 'a' <= c <= 'f' then c as int - 'a' as int + 10
    else c as int - 'A' as int + 10
  }

  function DigitChar(d: nat): (c: char)
    requires d < 10
    ensures IsDigit(c) && DigitValue(c) == d
  {
    ('0' as int + d) as char
  }

  /** A digit of the radix in use: decimal, or hexadecimal after a `0x` prefix. */
  predicate IsRadixDigit(c: char, hex: bool) { if hex then IsHexDigit(c) else IsDigit(c) }

  /** The value of a non-empty run of radix digits, most significant first. */
  function DigitsValue(s: string, hex: bool): nat
    requires forall i :: 0 <= i < |s| ==> IsRadixDigit(s[i], hex)
  {
    if s == [] then 0
    else
      assert forall i :: 0 <= i < |s| - 1 ==> s[..|s| - 1][i] == s[i];
      assert IsRadixDigit(s[|s| - 1], hex);
      DigitsValue(s[..|s| - 1], hex) * (if hex then 16 else 10) + DigitValue(s[|s| - 1])
  }

  /** Length of the longest prefix of `s` made of radix digits. */
  function DigitRun(s: string, hex: bool): (n: nat)
    ensures n <= |s|
    ensures forall i :: 0 <= i < n ==> IsRadixDigit(s[i], hex)
    ensures n < |s| ==> !IsRadixDigit(s[n], hex)
  {
    if s == [] || !IsRadixDigit(s[0], hex) then 0 else 1 + DigitRun(s[1..], hex)
  }

  // ------------------------------------------------------- number rendering

  /** `String(n)` for a non-negative integer: its decimal digits. */
  function NatToString(n: nat): (r: string)
    ensures |r| >= 1 && AllDigits(r)
    ensures |r| > 1 ==> r[0] != '0'
  {
    if n < 10 then [DigitChar(n)] else NatToString(n / 10) + [DigitChar(n % 10)]
  }

  /** `String(i)` for an integer: a minus sign before the digits of a negative value. */
  function IntToString(i: int): (r: string)
    ensures |r| >= 1
    ensures i >= 0 ==> r == NatToString(i)
    ensures i < 0 ==> r == "-" + NatToString(-i)
  {
    if i < 0 then "-" + NatToString(-i) else NatToString(i)
  }

  /** The text of a number holds only digits and a minus sign, so no
      separator of a path or a query ever occurs in it. */
  lemma IntToStringChars(i: int)
    ensures forall k :: 0 <= k < |IntToString(i)| ==> IsDigit(IntToString(i)[k]) || IntToString(i)[k] == '-'
  {
    if i < 0 {
      var d := NatToString(-i);
      assert forall k :: 1 <= k < |IntToString(i)| ==> IntToString(i)[k] == d[k - 1];
    }
  }

  lemma {:induction false} DecimalValueOfNatToString(n: nat)
    ensures DigitsValue(NatToString(n), false) == n
    decreases n
  {
    var s := NatToString(n);
    if n >= 10 {
      DecimalValueOfNatToString(n / 10);
      assert s[..|s| - 1] == NatToString(n / 10);
    }
  }

  lemma {:induction false} DigitRunOfDigitsThen(a: string, rest: string, hex: bool)
    requires forall i :: 0 <= i < |a| ==> IsRadixDigit(a[i], hex)
    requires rest == [] || !IsRadixDigit(rest[0], hex)
    ensures DigitRun(a + rest, hex) == |a|
    decreases |a|
  {
    if a != [] {
      assert (a + rest)[1..] == a[1..] + rest;
      DigitRunOfDigitsThen(a[1..], rest, hex);
    }
  }

  // -------------------------------------------------------------- parseInt

  /** The characters `parseInt` skips before the number: ECMAScript's
      WhiteSpace and LineTerminator code points. */
  predicate IsJsSpace(c: char) {
    var n := c as int;
    n == 0x09 || n == 0x0A || n == 0x0B || n == 0x0C || n == 0x0D || n == 0x20 ||
    n == 0xA0 || n == 0x1680 || (0x2000 <= n <= 0x200A) || n == 0x2028 ||
    n == 0x2029 || n == 0x202F || n == 0x205F || n == 0x3000 || n == 0xFEFF
  }

  function TrimStart(s: string): (r: string)
    ensures |r| <= |s| && r == s[|s| - |r|..]
    ensures forall i :: 0 <= i < |s| - |r| ==> IsJsSpace(s[i])
    ensures r == [] || !IsJsSpace(r[0])
  {
    if s != [] && IsJsSpace(s[0]) then TrimStart(s[1..]) else s
  }

  /** `parseInt(s, 10)` versus `parseInt(s)`: without a radix a `0x`/`0X`
      prefix switches to hexadecimal. */
  datatype Radix = Decimal | Unspecified

  /** The unsigned part of `parseInt`: an optional `0x` prefix (only without
      an explicit radix), then the longest run of digits; `None` when there is
      no digit. */
  function ParseUnsigned(u: string, radix: Radix): (r: Option<nat>)
  {
    var hex := radix == Unspecified && |u| >= 2 && u[0] == '0' && (u[1] == 'x' || u[1] == 'X');
    var body := if hex then u[2..] else u;
    var n := DigitRun(body, hex);
    if n == 0 then None else Some(DigitsValue(body[..n], hex))
  }

  /** JavaScript `parseInt`: skip leading white space, take an optional sign,
      then the longest run of digits; `None` is `NaN` (no digit at all).
      Any trailing text after the digits is ignored. */
  function ParseInt(s: string, radix: Radix): (r: Option<int>)
  {
    var t := TrimStart(s);
    if t != [] && t[0] == '-' then
      match ParseUnsigned(t[1..], radix)
      case None => None
      case Some(m) => Some(0 - m)
    else if t != [] && t[0] == '+' then
      match ParseUnsigned(t[1..], radix)
      case None => None
      case Some(m) => Some(m)
    else
      match ParseUnsigned(t, radix)
      case None => None
      case Some(m) => Some(m)
  }

  /** The least integer that JavaScript rounds to `Infinity` when it reads
      the integer's digits: 2^1024 - 2^970, halfway between `Number.MAX_VALUE`
      and 2^1024, where rounding to even goes up. */
  const InfinityThreshold: int := 179769313486231580793728971405303415079934132710037826936173778980444968292764750946649017977587207096330286416692887910946555547851940402630657488671505820681908902000708383676273854845817711531764475730270069855571366959622842914819860834936475292719074168444365510704342711559699508093042880177904174497792

  /** A number as `parseInt` can return it: `NaN`, a finite integer, or an
      infinity of either sign. */
  datatype JsNumber = NaN | Int(value: int) | Infinity(negative: bool)

  /** The JavaScript number for what `parseInt` read: digits denoting
      `InfinityThreshold` or more, in either direction, overflow to an
      infinity. */
  function ToNumber(p: Option<int>): (n: JsNumber)
    ensures n.NaN? <==> p.None?
    ensures n.Int? <==> p.Some? && -InfinityThreshold < p.value < InfinityThreshold
    ensures n.Int? ==> n.value == p.value
    ensures n == Infinity(false) <==> p.Some? && InfinityThreshold <= p.value
    ensures n == Infinity(true) <==> p.Some? && p.value <= -InfinityThreshold
  {
    match p
    case None => NaN
    case Some(i) =>
      if InfinityThreshold <= i then Infinity(false)
      else if i <= -InfinityThreshold then Infinity(true)
      else Int(i)
  }

  /** Text that starts with neither white space nor a sign is read as an
      unsigned number. */
  lemma ParseIntUnsigned(s: string, radix: Radix)
    requires s == [] || (!IsJsSpace(s[0]) && s[0] != '-' && s[0] != '+')
    ensures ParseInt(s, radix) == ParseUnsigned(s, radix)
  {
    assert TrimStart(s) == s;
  }

  /** Unsigned text not starting with a digit holds no number. */
  lemma ParseUnsignedNoDigit(u: string, radix: Radix)
    requires u == [] || !IsDigit(u[0])
    ensures ParseUnsigned(u, radix) == None
  {
  }

  lemma ParseUnsignedOfNatPrefix(n: nat, rest: string, radix: Radix)
    requires rest == [] || !IsDigit(rest[0])
    requires radix == Unspecified && n == 0 ==> rest == [] || (rest[0] != 'x' && rest[0] != 'X')
    ensures ParseUnsigned(NatToString(n) + rest, radix) == Some(n)
  {
    var a := NatToString(n);
    var s := a + rest;
    assert s[0] == a[0];
    if |a| == 1 && |s| >= 2 { assert s[1] == rest[0]; }
    DigitRunOfDigitsThen(a, rest, false);
    assert s[..|a|] == a;
    DecimalValueOfNatToString(n);
  }

  /** `parseInt` reads back what `String(n)` wrote for a non-negative integer,
      whatever follows it as long as that does not continue the number. */
  lemma ParseIntOfNatPrefix(n: nat, rest: string, s: string, radix: Radix)
    requires s == NatToString(n) + rest
    requires rest == [] || !IsDigit(rest[0])
    requires radix == Unspecified && n == 0 ==> rest == [] || (rest[0] != 'x' && rest[0] != 'X')
    ensures ParseInt(s, radix) == Some(n)
  {
    assert s[0] == NatToString(n)[0] && IsDigit(s[0]);
    ParseIntUnsigned(s, radix);
    ParseUnsignedOfNatPrefix(n, rest, radix);
  }

  lemma ParseIntOfIntToString(i: int, radix: Radix)
    ensures ParseInt(IntToString(i), radix) == Some(i)
  {
    if i >= 0 {
      ParseIntOfNatToString(i, radix);
    } else {
      ParseUnsignedOfNat(-i, radix);
      ParseIntOfNegated(NatToString(-i), -i, radix);
    }
  }

  lemma ParseIntOfNatToString(n: nat, radix: Radix)
    ensures ParseInt(NatToString(n), radix) == Some(n)
  {
    assert NatToString(n) + "" == NatToString(n);
    ParseIntOfNatPrefix(n, "", NatToString(n), radix);
  }

  /** A minus sign in front of unsigned text negates the number it holds. */
  lemma ParseIntOfNegated(u: string, n: nat, radix: Radix)
    requires ParseUnsigned(u, radix) == Some(n)
    ensures ParseInt("-" + u, radix) == Some(0 - n)
  {
    var s := "-" + u;
    assert s[0] == '-' && !IsJsSpace(s[0]);
    assert TrimStart(s) == s;
    assert s[1..] == u;
  }

  lemma ParseUnsignedOfNat(n: nat, radix: Radix)
    ensures ParseUnsigned(NatToString(n), radix) == Some(n)
  {
    assert NatToString(n) + "" == NatToString(n);
    ParseUnsignedOfNatPrefix(n, "", radix);
  }

  /** Text with no decimal digit at all is `NaN`. */
  lemma ParseIntWithoutDigits(s: string, radix: Radix)
    requires forall i :: 0 <= i < |s| ==> !IsDigit(s[i])
    ensures ParseInt(s, radix) == None
  {
    var t := TrimStart(s);
    assert forall i :: 0 <= i < |t| ==> t[i] == s[|s| - |t| + i];
    if t != [] && (t[0] == '-' || t[0] == '+') {
      assert |t| == 1 || t[1..][0] == t[1];
      ParseUnsignedNoDigit(t[1..], radix);
    } else {
      ParseUnsignedNoDigit(t, radix);
    }
  }

  // ----------------------------------------------------- searching strings

  predicate OccursAt(s: string, pat: string, j: int) {
    0 <= j && j + |pat| <= |s| && s[j..j + |pat|] == pat
  }

  /** `s.indexOf(pat, from)` as an option: the first occurrence at or after `from`. */
  function IndexFrom(s: string, pat: string, from: nat): (r: Option<nat>)
    ensures r.Some? ==> from <= r.value && OccursAt(s, pat, r.value)
    ensures r.Some? ==> forall j :: from <= j < r.value ==> !OccursAt(s, pat, j)
    ensures r.None? ==> forall j :: from <= j ==> !OccursAt(s, pat, j)
    decreases |s| - from
  {
    if from + |pat| > |s| then None
    else if s[from..from + |pat|] == pat then Some(from)
    else IndexFrom(s, pat, from + 1)
  }

  function IndexOf(s: string, pat: string): (r: Option<nat>)
    ensures r.Some? ==> OccursAt(s, pat, r.value)
    ensures r.Some? ==> forall j :: 0 <= j < r.value ==> !OccursAt(s, pat, j)
    ensures r.None? ==> forall j :: 0 <= j ==> !OccursAt(s, pat, j)
  {
    IndexFrom(s, pat, 0)
  }

  /** `s.includes(pat)`. */
  predicate Contains(s: string, pat: string) { IndexOf(s, pat).Some? }

  lemma ContainsIffOccurs(s: string, pat: string)
    ensures Contains(s, pat) <==> exists j :: OccursAt(s, pat, j)
  {
    if Contains(s, pat) { assert OccursAt(s, pat, IndexOf(s, pat).value); }
  }

  lemma ContainsInfix(a: string, pat: string, b: string)
    ensures Contains(a + pat + b, pat)
  {
    assert (a + pat + b)[|a|..|a| + |pat|] == pat;
    assert OccursAt(a + pat + b, pat, |a|);
    ContainsIffOccurs(a + pat + b, pat);
  }

  predicate StartsWith(s: string, prefix: string) { prefix <= s }

  lemma StartsWithConcat(a: string, b: string)
    ensures StartsWith(a + b, a)
  {
    assert (a + b)[..|a|] == a;
  }

  predicate EndsWith(s: string, suffix: string) {
    |suffix| <= |s| && s[|s| - |suffix|..] == suffix
  }

  lemma EndsWithTransitive(a: string, b: string, c: string)
    requires EndsWith(a, b) && EndsWith(b, c)
    ensures EndsWith(a, c)
  {
    assert a[|a| - |c|..] == a[|a| - |b|..][|b| - |c|..];
  }

  /** `s.replace("pat", rep)` with a plain (non-global) pattern: only the
      first occurrence is replaced, wherever it is. */
  function ReplaceFirst(s: string, pat: string, rep: string): (r: string)
    ensures IndexOf(s, pat).None? ==> r == s
    ensures IndexOf(s, pat).Some? ==>
      var i := IndexOf(s, pat).value;
      r == s[..i] + rep + s[i + |pat|..]
  {
    match IndexOf(s, pat)
    case None => s
    case Some(i) => s[..i] + rep + s[i + |pat|..]
  }

  // ------------------------------------------------------------- splitting

  function FirstIndexOfChar(s: string, c: char): (i: nat)
    requires c in s
    ensures i < |s| && s[i] == c && c !in s[..i]
  {
    if s[0] == c then 0
    else
      assert c in s[1..] by { var k :| 0 <= k < |s| && s[k] == c; assert s[1..][k - 1] == c; }
      var j := FirstIndexOfChar(s[1..], c);
      assert s[..j + 1] == [s[0]] + s[1..][..j];
      j + 1
  }

  /** The first separator of `a + [c] + b` is the one after `a` when `a` holds none. */
  lemma FirstIndexOfCharAfter(a: string, c: char, b: string)
    requires c !in a
    ensures FirstIndexOfChar(a + [c] + b, c) == |a|
  {
    var s := a + [c] + b;
    var i := FirstIndexOfChar(s, c);
    assert s[|a|] == c && s[..|a|] == a;
    assert i <= |a| ==> s[..i] == a[..i];
  }

  /** `s.split(sep)` for a one-character separator. */
  function Split(s: string, sep: char): (r: seq<string>)
    ensures |r| >= 1
    ensures forall i :: 0 <= i < |r| ==> sep !in r[i]
    ensures Join(r, sep) == s
    decreases |s|
  {
    if sep !in s then [s]
    else
      var i := FirstIndexOfChar(s, sep);
      var rest := Split(s[i + 1..], sep);
      assert s == s[..i] + [sep] + s[i + 1..];
      [s[..i]] + rest
  }

  /** `parts.join(sep)`. */
  function Join(parts: seq<string>, sep: char): string
  {
    if parts == [] then ""
    else if |parts| == 1 then parts[0]
    else parts[0] + [sep] + Join(parts[1..], sep)
  }

  lemma {:induction false} SplitJoin(parts: seq<string>, sep: char)
    requires |parts| >= 1
    requires forall i :: 0 <= i < |parts| ==> sep !in parts[i]
    ensures Split(Join(parts, sep), sep) == parts
    decreases |parts|
  {
    if |parts| > 1 {
      var s := Join(parts, sep);
      var tail := Join(parts[1..], sep);
      assert s == parts[0] + [sep] + tail;
      assert sep in s by { assert s[|parts[0]|] == sep; }
      var i := FirstIndexOfChar(s, sep);
      assert i == |parts[0]|;
      assert s[..i] == parts[0];
      assert s[i + 1..] == tail;
      SplitJoin(parts[1..], sep);
    }
  }

  /** A character that is neither the separator nor in any part is not in
      the joined text. */
  lemma {:induction false} JoinWithout(parts: seq<string>, sep: char, c: char)
    requires c != sep && forall i :: 0 <= i < |parts| ==> c !in parts[i]
    ensures c !in Join(parts, sep)
    decreases |parts|
  {
    if |parts| > 1 {
      JoinWithout(parts[1..], sep, c);
      assert Join(parts, sep) == parts[0] + [sep] + Join(parts[1..], sep);
    }
  }

  lemma SplitTwo(a: string, sep: char, b: string)
    requires sep !in a && sep !in b
    ensures Split(a + [sep] + b, sep) == [a, b]
  {
    assert Join([a, b], sep) == a + [sep] + b;
    SplitJoin([a, b], sep);
  }

  /** A first piece without the separator splits off on its own. */
  lemma SplitCons(a: string, sep: char, rest: string)
    requires sep !in a
    ensures Split(a + [sep] + rest, sep) == [a] + Split(rest, sep)
  {
    var s := a + [sep] + rest;
    FirstIndexOfCharAfter(a, sep, rest);
    assert s[|a|] == sep;
    assert s[..|a|] == a && s[|a| + 1..] == rest;
  }

  lemma SplitOne(a: string, sep: char)
    requires sep !in a
    ensures Split(a, sep) == [a]
  {
  }

  /** `s.split(sep).pop()`: the text after the last separator (all of `s` when
      there is none). */
  function LastSegment(s: string, sep: char): (r: string)
    ensures sep !in r && EndsWith(s, r)
    ensures |r| == |s| || s[|s| - |r| - 1] == sep
  {
    if s == [] then []
    else if s[|s| - 1] == sep then []
    else
      var init, c := s[..|s| - 1], s[|s| - 1];
      SegmentSnoc(init, LastSegment(init, sep), c, sep);
      assert s == init + [c];
      LastSegment(init, sep) + [c]
  }

  /** A last segment grows by a character that is not a separator. */
  lemma SegmentSnoc(init: string, r: string, c: char, sep: char)
    requires sep !in r && EndsWith(init, r) && c != sep
    requires |r| == |init| || init[|init| - |r| - 1] == sep
    ensures sep !in r + [c] && EndsWith(init + [c], r + [c])
    ensures |r| == |init| || (init + [c])[|init| - |r| - 1] == sep
  {
    var s := init + [c];
    assert s[|s| - |r| - 1..] == init[|init| - |r|..] + [c];
  }

  /** The last segment of a text ending in `c`, which is not a separator. */
  lemma LastSegmentSnoc(init: string, c: char, sep: char)
    requires c != sep
    ensures LastSegment(init + [c], sep) == LastSegment(init, sep) + [c]
  {
    var s := init + [c];
    assert s[..|s| - 1] == init && s[|s| - 1] == c;
  }

  /** Text before a separator never reaches the last segment. */
  lemma {:induction false} LastSegmentAfterSeparator(a: string, sep: char, b: string)
    ensures LastSegment(a + [sep] + b, sep) == LastSegment(b, sep)
    decreases |b|
  {
    if b == [] {
      assert a + [sep] + b == a + [sep];
      assert (a + [sep])[|a|] == sep;
    } else {
      var b', c := b[..|b| - 1], b[|b| - 1];
      if c == sep {
        var s := a + [sep] + b;
        assert s[|s| - 1] == sep;
        assert b[|b| - 1] == sep;
      } else {
        assert a + [sep] + b == (a + [sep] + b') + [c];
        assert b == b' + [c];
        LastSegmentSnoc(a + [sep] + b', c, sep);
        LastSegmentSnoc(b', c, sep);
        LastSegmentAfterSeparator(a, sep, b');
      }
    }
  }

  lemma {:induction false} LastSegmentWithoutSeparator(s: string, sep: char)
    requires sep !in s
    ensures LastSegment(s, sep) == s
    decreases |s|
  {
    if s != [] {
      var init, c := s[..|s| - 1], s[|s| - 1];
      assert s == init + [c];
      LastSegmentWithoutSeparator(init, sep);
      LastSegmentSnoc(init, c, sep);
    }
  }

  lemma SplitAtFirst(s: string, sep: char)
    requires sep in s
    ensures var i := FirstIndexOfChar(s, sep);
      Split(s, sep) == [s[..i]] + Split(s[i + 1..], sep)
  {
  }

  /** The last piece of `split` is exactly `LastSegment`. */
  lemma {:induction false} LastSegmentIsLastPiece(s: string, sep: char)
    ensures LastSegment(s, sep) == Split(s, sep)[|Split(s, sep)| - 1]
    decreases |s|
  {
    if sep !in s {
      LastSegmentWithoutSeparator(s, sep);
      SplitOne(s, sep);
    } else {
      var i := FirstIndexOfChar(s, sep);
      var head, rest := s[..i], s[i + 1..];
      LastSegmentIsLastPiece(rest, sep);
      LastPieceOfCons(s, head, rest, sep);
    }
  }

  /** One step of the induction: cutting off the first piece keeps both the
      last segment and the last piece. */
  lemma LastPieceOfCons(s: string, head: string, rest: string, sep: char)
    requires sep in s && head == s[..FirstIndexOfChar(s, sep)] && rest == s[FirstIndexOfChar(s, sep) + 1..]
    requires LastSegment(rest, sep) == Split(rest, sep)[|Split(rest, sep)| - 1]
    ensures LastSegment(s, sep) == Split(s, sep)[|Split(s, sep)| - 1]
  {
    SplitAtFirst(s, sep);
    var parts, whole := Split(rest, sep), Split(s, sep);
    assert whole == [head] + parts;
    LastOfCons(head, parts);
    assert s == head + [sep] + rest;
    LastSegmentAfterSeparator(head, sep, rest);
  }

  lemma LastOfCons<T>(x: T, xs: seq<T>)
    requires xs != []
    ensures ([x] + xs)[|[x] + xs| - 1] == xs[|xs| - 1]
  {
  }

  // ----------------------------------------------------------- case, pads

  function LowerChar(c: char): char {
    if 'A' <= c <= 'Z' then (c as int + 32) as char else c
  }

  function UpperChar(c: char): char {
    if 'a' <= c <= 'z' then (c as int - 32) as char else c
  }

  /** `toLowerCase()` restricted to ASCII letters. */
  function ToLower(s: string): (r: string)
    ensures |r| == |s| && forall i :: 0 <= i < |s| ==> r[i] == LowerChar(s[i])
  {
    seq(|s|, i requires 0 <= i < |s| => LowerChar(s[i]))
  }

  lemma ToLowerConcat(a: string, b: string)
    ensures ToLower(a + b) == ToLower(a) + ToLower(b)
  {
  }

  /** `s.padStart(2, "0")`. */
  function PadStart2(s: string): (r: string)
    ensures |s| >= 2 ==> r == s
    ensures |s| < 2 ==> |r| == 2 && EndsWith(r, s) && forall i :: 0 <= i < 2 - |s| ==> r[i] == '0'
  {
    if |s| >= 2 then s else seq(2 - |s|, _ => '0') + s
  }

  // -------------------------------------------------------- path.extname

  function StripTrailingSlashes(p: string): (r: string)
    ensures r <= p
    ensures r == [] || r[|r| - 1] != '/'
  {
    if p != [] && p[|p| - 1] == '/' then StripTrailingSlashes(p[..|p| - 1]) else p
  }

  /** Node's POSIX `path.extname`: from the last '.' of the last path component
      to its end; empty when there is no '.', when the only '.' opens the
      component (a dot-file), or when the component is "..". Trailing slashes
      are ignored. */
  function Extname(p: string): (r: string)
    ensures r == [] || (r[0] == '.' && '.' !in r[1..] && '/' !in r)
    ensures EndsWith(StripTrailingSlashes(p), r)
  {
    var q := StripTrailingSlashes(p);
    var base := LastSegment(q, '/');
    if '.' !in base then ""
    else
      var tail := LastSegment(base, '.');
      var dot := |base| - |tail| - 1;
      if dot == 0 || base == ".." then ""
      else
        DottedTail(q, base, tail);
        "." + tail
  }

  /** With a separator present, the last segment is shorter than the text. */
  lemma {:induction false} LastSegmentShorter(s: string, sep: char)
    requires sep in s
    ensures |LastSegment(s, sep)| < |s|
    decreases |s|
  {
    if s[|s| - 1] != sep {
      var init, c := s[..|s| - 1], s[|s| - 1];
      assert s == init + [c];
      assert sep in init;
      LastSegmentShorter(init, sep);
      LastSegmentSnoc(init, c, sep);
    }
  }

  /** The extension Extname cuts from a component ends the whole path. */
  lemma DottedTail(q: string, base: string, tail: string)
    requires base == LastSegment(q, '/') && '.' in base && tail == LastSegment(base, '.')
    requires |base| - |tail| - 1 != 0
    ensures EndsWith(q, "." + tail)
  {
    LastSegmentShorter(base, '.');
    SeparatorBeforeLastSegment(base, '.');
    EndsWithTransitive(q, base, "." + tail);
  }

  lemma SeparatorBeforeLastSegment(s: string, sep: char)
    requires |LastSegment(s, sep)| < |s|
    ensures EndsWith(s, [sep] + LastSegment(s, sep))
  {
    var r := LastSegment(s, sep);
    var k := |s| - |r| - 1;
    assert s[k] == sep && s[k + 1..] == r;
    assert s[k..] == [s[k]] + s[k + 1..];
  }

  /** A name `stem.ext` whose stem is a non-empty single path component has
      extension `.ext`. */
  lemma ExtnameOf(stem: string, ext: string)
    requires stem != [] && '/' !in stem
    requires ext != [] && '.' !in ext && '/' !in ext
    ensures Extname(stem + "." + ext) == "." + ext
  {
    var p := stem + "." + ext;
    SingleComponent(stem, ext);
    DottedName(stem, ext);
    assert |p| >= 3;
  }

  lemma SingleComponent(stem: string, ext: string)
    requires stem != [] && '/' !in stem
    requires ext != [] && '/' !in ext
    ensures var p := stem + "." + ext; StripTrailingSlashes(p) == p && LastSegment(p, '/') == p
  {
    var p := stem + "." + ext;
    assert p[|p| - 1] == ext[|ext| - 1];
    assert '/' !in p by {
      forall i | 0 <= i < |p| ensures p[i] != '/' {
        if i < |stem| { assert p[i] == stem[i]; }
        else if i > |stem| { assert p[i] == ext[i - |stem| - 1]; }
      }
    }
    LastSegmentWithoutSeparator(p, '/');
  }

  lemma DottedName(stem: string, ext: string)
    requires '.' !in ext
    ensures var p := stem + "." + ext; '.' in p && LastSegment(p, '.') == ext
  {
    var p := stem + "." + ext;
    assert p == stem + ['.'] + ext;
    LastSegmentAfterSeparator(stem, '.', ext);
    LastSegmentWithoutSeparator(ext, '.');
    assert p[|stem|] == '.';
  }

  // ------------------------------------------------- more case and numbers

  lemma ToLowerIdempotent(s: string)
    ensures ToLower(ToLower(s)) == ToLower(s)
  {
  }

  /** `s.charAt(0).toUpperCase() + s.slice(1)`: only the first character
      changes. */
  function Capitalize(s: string): (r: string)
    ensures |r| == |s|
    ensures s != [] ==> r[0] == UpperChar(s[0]) && r[1..] == s[1..]
  {
    if s == [] then s else [UpperChar(s[0])] + s[1..]
  }

  /** JavaScript's `%` on integers: the remainder takes the sign of the
      dividend, unlike Dafny's Euclidean `%`. */
  function TruncRem(a: int, b: int): (r: int)
    requires b > 0
    ensures a >= 0 ==> r == a % b
    ensures a < 0 ==> -b < r <= 0
  {
    if a >= 0 then a % b else -((-a) % b)
  }

  // -------------------------------------------------------- sorting strings

  /** The order `Array#sort` uses on strings when no comparator is given:
      character by character, a proper prefix first. */
  predicate Precedes(a: string, b: string) {
    if a == [] then true
    else if b == [] then false
    else if a[0] != b[0] then a[0] < b[0]
    else Precedes(a[1..], b[1..])
  }

  lemma {:induction false} PrecedesTotal(a: string, b: string)
    ensures Precedes(a, b) || Precedes(b, a)
  {
    if a != [] && b != [] && a[0] == b[0] {
      PrecedesTotal(a[1..], b[1..]);
    }
  }

  lemma {:induction false} PrecedesAntisymmetric(a: string, b: string)
    requires Precedes(a, b) && Precedes(b, a)
    ensures a == b
  {
    if a != [] && b != [] {
      PrecedesAntisymmetric(a[1..], b[1..]);
      assert a == [a[0]] + a[1..] && b == [b[0]] + b[1..];
    }
  }

  predicate SortedStrings(s: seq<string>) {
    forall i :: 0 <= i < |s| - 1 ==> Precedes(s[i], s[i + 1])
  }

  function InsertString(x: string, s: seq<string>): (r: seq<string>)
    requires SortedStrings(s)
    ensures SortedStrings(r)
    ensures multiset(r) == multiset(s) + multiset{x}
    ensures |r| == |s| + 1 && (r[0] == x || (s != [] && r[0] == s[0]))
  {
    if s == [] || Precedes(x, s[0]) then [x] + s
    else
      PrecedesTotal(x, s[0]);
      var rest := InsertString(x, s[1..]);
      assert s == [s[0]] + s[1..];
      [s[0]] + rest
  }

  /** `keys.sort()`: an ascending permutation of the input. */
  function SortStrings(s: seq<string>): (r: seq<string>)
    ensures SortedStrings(r)
    ensures multiset(r) == multiset(s)
  {
    if s == [] then []
    else
      assert s == [s[0]] + s[1..];
      InsertString(s[0], SortStrings(s[1..]))
  }
}

=== FILE: key_store.dfy ===
/** verfrblx's store of generated keys. The browser's local storage holds two
    items: the list of generated keys, and a `keysJson` summary listing every
    stored key, rewritten after each change. The current time is a parameter
    (an integer standing for the ISO timestamp). */
module KeyStore {
  import opened Options
  import opened Seqs

  datatype Entry = Entry(key: string, generatedAt: int, validated: bool, lastValidated: Option<int>)

  datatype KeysJson = KeysJson(validKeys: seq<string>, lastUpdated: int)

  /** The two storage items; `None` is an item that is not set. */
  datatype Storage = Storage(generatedKeys: Option<seq<Entry>>, keysJson: Option<KeysJson>)

  /** The list after `initKeyStore`: the stored one, or an empty one. */
  function Entries(s: Storage): seq<Entry> {
    s.generatedKeys.GetOr([])
  }

  /** `initKeyStore`: sets an empty list only when none is stored. */
  function InitKeyStore(s: Storage): (r: Storage)
    ensures r.generatedKeys.Some? && r.keysJson == s.keysJson
    ensures s.generatedKeys.Some? ==> r == s
    ensures s.generatedKeys.None? ==> r.generatedKeys == Some([])
  {
    if s.generatedKeys.None? then s.(generatedKeys := Some([])) else s
  }

  lemma InitKeyStoreIdempotent(s: Storage)
    ensures InitKeyStore(InitKeyStore(s)) == InitKeyStore(s)
    ensures Entries(InitKeyStore(s)) == Entries(s)
  {
  }

  /** `keys.map(entry => entry.key)`: every stored key, validated or not, in
      insertion order and with repeats. */
  function ValidKeys(entries: seq<Entry>): (r: seq<string>)
    ensures |r| == |entries|
    ensures forall i :: 0 <= i < |r| ==> r[i] == entries[i].key
  {
    if entries == [] then [] else [entries[0].key] + ValidKeys(entries[1..])
  }

  lemma ValidKeysAppend(entries: seq<Entry>, e: Entry)
    ensures ValidKeys(entries + [e]) == ValidKeys(entries) + [e.key]
  {
  }

  /** `updateKeysJson`: the summary is rebuilt from the stored list. */
  function UpdateKeysJson(s: Storage, now: int): (r: Storage)
    ensures r.generatedKeys == InitKeyStore(s).generatedKeys
    ensures r.keysJson == Some(KeysJson(ValidKeys(Entries(s)), now))
  {
    var t := InitKeyStore(s);
    t.(keysJson := Some(KeysJson(ValidKeys(Entries(t)), now)))
  }

  /** The summary lists exactly the stored keys. */
  predicate InSync(s: Storage) {
    s.generatedKeys.Some? && s.keysJson.Some? && s.keysJson.value.validKeys == ValidKeys(s.generatedKeys.value)
  }

  /** `storeKey`: a fresh, unvalidated entry at the end, even when the key is
      already stored; then the summary is rewritten. The clock is read twice,
      once for the entry (`generatedAt`) and once for the summary
      (`updatedAt`). */
  function StoreKey(s: Storage, key: string, generatedAt: int, updatedAt: int): (r: Storage)
    ensures Entries(r) == Entries(s) + [Entry(key, generatedAt, false, None)]
    ensures InSync(r) && r.keysJson.value.lastUpdated == updatedAt
  {
    var entries := Entries(s) + [Entry(key, generatedAt, false, None)];
    UpdateKeysJson(Storage(Some(entries), s.keysJson), updatedAt)
  }

  function HasKey(key: string): Entry -> bool {
    (e: Entry) => e.key == key
  }

  /** `keyExists`: whether some entry carries the key. */
  function KeyExists(s: Storage, key: string): (r: (Storage, bool))
    ensures r.0 == InitKeyStore(s)
    ensures r.1 <==> exists i :: 0 <= i < |Entries(s)| && Entries(s)[i].key == key
  {
    (InitKeyStore(s), FirstIndex(Entries(s), HasKey(key)).Some?)
  }

  /** A stored key is found, however many times it was stored before. */
  lemma StoredKeyExists(s: Storage, key: string, generatedAt: int, updatedAt: int)
    ensures KeyExists(StoreKey(s, key, generatedAt, updatedAt), key).1
    ensures |Entries(StoreKey(s, key, generatedAt, updatedAt))| == |Entries(s)| + 1
  {
    var es := Entries(StoreKey(s, key, generatedAt, updatedAt));
    assert es[|es| - 1].key == key;
  }

  /** `i` is the first entry carrying the key. */
  predicate FirstMatch(entries: seq<Entry>, key: string, i: int) {
    0 <= i < |entries| && entries[i].key == key && forall j :: 0 <= j < i ==> entries[j].key != key
  }

  /** The entry at `i` marked validated at `now`; the rest untouched. */
  function MarkValidated(entries: seq<Entry>, i: nat, now: int): (r: seq<Entry>)
    requires i < |entries|
    ensures |r| == |entries|
    ensures r[i] == entries[i].(validated := true, lastValidated := Some(now))
    ensures forall j :: 0 <= j < |entries| && j != i ==> r[j] == entries[j]
    ensures ValidKeys(r) == ValidKeys(entries)
  {
    var r := entries[i := entries[i].(validated := true, lastValidated := Some(now))];
    assert forall j :: 0 <= j < |r| ==> ValidKeys(r)[j] == ValidKeys(entries)[j];
    r
  }

  /** `validateKey`: the first entry with the key is marked validated at
      `validatedAt`, the summary is rewritten at `updatedAt` (a second
      reading of the clock), and the answer is true; with no such entry the
      answer is false and the list is left as it was. */
  function ValidateKey(s: Storage, key: string, validatedAt: int, updatedAt: int): (r: (Storage, bool))
    ensures r.1 <==> KeyExists(s, key).1
    ensures !r.1 ==> r.0 == InitKeyStore(s)
    ensures r.1 ==> InSync(r.0) && r.0.keysJson.value.lastUpdated == updatedAt
    ensures r.1 ==> exists i :: FirstMatch(Entries(s), key, i) && Entries(r.0) == MarkValidated(Entries(s), i, validatedAt)
  {
    var entries := Entries(s);
    match FirstIndex(entries, HasKey(key))
    case None => (InitKeyStore(s), false)
    case Some(i) =>
      assert FirstMatch(entries, key, i);
      (UpdateKeysJson(Storage(Some(MarkValidated(entries, i, validatedAt)), s.keysJson), updatedAt), true)
  }

  /** Validating never changes which keys are listed. */
  lemma ValidateKeepsKeys(s: Storage, key: string, validatedAt: int, updatedAt: int)
    ensures ValidKeys(Entries(ValidateKey(s, key, validatedAt, updatedAt).0)) == ValidKeys(Entries(s))
  {
    var r := ValidateKey(s, key, validatedAt, updatedAt);
    if r.1 {
      var i :| FirstMatch(Entries(s), key, i) && Entries(r.0) == MarkValidated(Entries(s), i, validatedAt);
    }
  }

  /** Every operation leaves the summary in step with the list once it is. */
  lemma OperationsKeepSync(s: Storage, key: string, t1: int, t2: int)
    requires InSync(s)
    ensures InSync(StoreKey(s, key, t1, t2))
    ensures InSync(KeyExists(s, key).0)
    ensures InSync(ValidateKey(s, key, t1, t2).0)
  {
  }

  /** A key stored and then validated is found validated at the place it
      was first stored. */
  lemma StoreThenValidate(key: string, t1: int, t2: int, t3: int, t4: int)
    ensures var s := StoreKey(Storage(None, None), key, t1, t2);
      var r := ValidateKey(s, key, t3, t4);
      r.1 && Entries(r.0) == [Entry(key, t1, true, Some(t3))]
  {
    var s := StoreKey(Storage(None, None), key, t1, t2);
    assert Entries(s) == [Entry(key, t1, false, None)];
    assert HasKey(key)(Entries(s)[0]);
  }
}

=== FILE: keyed.dfy ===
/** Reading an id-keyed map the way the stores do: `Array.from(map.values())`
    yields entries in insertion order, and since every store inserts ids
    from a counter that only grows (updates overwrite in place and keep
    their position), that order is ascending id order. */
module Keyed {
  import opened Options

  predicate Ascending(ks: seq<int>) {
    forall i, j :: 0 <= i < j < |ks| ==> ks[i] < ks[j]
  }

  lemma AscendingCons(k: int, rest: seq<int>)
    requires Ascending(rest) && forall i :: 0 <= i < |rest| ==> k < rest[i]
    ensures Ascending([k] + rest)
  {
    var ks := [k] + rest;
    forall i, j | 0 <= i < j < |ks| ensures ks[i] < ks[j] {
      assert ks[j] == rest[j - 1];
      if i > 0 { assert ks[i] == rest[i - 1]; }
    }
  }

  /** The keys of `m` in `[lo, hi)`, ascending. */
  function KeysBetween<V>(m: map<int, V>, lo: int, hi: int): (ks: seq<int>)
    ensures forall i :: 0 <= i < |ks| ==> ks[i] in m && lo <= ks[i] < hi
    ensures forall k :: k in m && lo <= k < hi ==> k in ks
    ensures Ascending(ks)
    decreases hi - lo
  {
    if lo >= hi then []
    else
      var rest := KeysBetween(m, lo + 1, hi);
      if lo in m then
        AscendingCons(lo, rest);
        [lo] + rest
      else rest
  }

  /** `Array.from(m.values())` for a map whose keys all lie in `[lo, hi)`. */
  function ValuesBetween<V>(m: map<int, V>, lo: int, hi: int): (vs: seq<V>)
    ensures var ks := KeysBetween(m, lo, hi);
      |vs| == |ks| && forall i :: 0 <= i < |vs| ==> vs[i] == m[ks[i]]
  {
    var ks := KeysBetween(m, lo, hi);
    seq(|ks|, i requires 0 <= i < |ks| => m[ks[i]])
  }

  lemma ValuesBetweenMembership<V>(m: map<int, V>, lo: int, hi: int, v: V)
    ensures v in ValuesBetween(m, lo, hi) <==> exists k :: k in m && lo <= k < hi && m[k] == v
  {
    if v in ValuesBetween(m, lo, hi) {
      ValueHasKey(m, lo, hi, v);
    }
    if exists k :: k in m && lo <= k < hi && m[k] == v {
      var k :| k in m && lo <= k < hi && m[k] == v;
      KeyHasValue(m, lo, hi, k);
    }
  }

  lemma ValueHasKey<V>(m: map<int, V>, lo: int, hi: int, v: V)
    requires v in ValuesBetween(m, lo, hi)
    ensures exists k :: k in m && lo <= k < hi && m[k] == v
  {
    var ks := KeysBetween(m, lo, hi);
    var vs := ValuesBetween(m, lo, hi);
    var i :| 0 <= i < |vs| && vs[i] == v;
    var k := ks[i];
    assert k in m && lo <= k < hi && m[k] == v;
  }

  lemma KeyHasValue<V>(m: map<int, V>, lo: int, hi: int, k: int)
    requires k in m && lo <= k < hi
    ensures m[k] in ValuesBetween(m, lo, hi)
  {
    var ks := KeysBetween(m, lo, hi);
    var vs := ValuesBetween(m, lo, hi);
    var i :| 0 <= i < |ks| && ks[i] == k;
    assert vs[i] == m[k];
  }

  /** `Array.from(m.values()).find(p)`, as the key of the first entry that
      satisfies `p`. */
  function FirstKey<V>(m: map<int, V>, p: V -> bool, lo: int, hi: int): (r: Option<int>)
    ensures r.Some? ==> r.value in m && lo <= r.value < hi && p(m[r.value])
    ensures r.Some? ==> forall k :: k in m && lo <= k < r.value ==> !p(m[k])
    ensures r.None? ==> forall k :: k in m && lo <= k < hi ==> !p(m[k])
    decreases hi - lo
  {
    if lo >= hi then None
    else if lo in m && p(m[lo]) then Some(lo)
    else FirstKey(m, p, lo + 1, hi)
  }
}

=== FILE: mock_storage.dfy ===
/** The static website's in-browser stand-in for the MovieWeb server: two
    arrays seeded with fixed users and movies, and a `currentUser` session
    slot. A `mockAuth` method that throws `Error(message)` returns
    `Failure(message)` and leaves the state as it was. */
module MockStorage {
  import opened Options
  import opened Seqs

  datatype User = User(id: int, username: string, password: string, isAdmin: bool, isLocked: bool)

  /** The fields of a movie the mock API looks at; the descriptive ones
      (description, URLs) are copied through untouched and so left out. */
  datatype Movie = Movie(id: int, title: string, releaseYear: int, durationMinutes: int, category: string, featured: bool)

  /** `InsertUser`: the registration form's fields. */
  datatype NewUser = NewUser(username: string, password: string)

  datatype State = State(users: seq<User>, movies: seq<Movie>, current: Option<User>)

  /** Ids are array positions plus one (users are only ever appended) and
      usernames are unique. */
  predicate Valid(s: State) {
    && (forall i :: 0 <= i < |s.users| ==> s.users[i].id == i + 1)
    && (forall i, j :: 0 <= i < j < |s.users| ==> s.users[i].username != s.users[j].username)
  }

  function SeedUsers(): seq<User> {
    [ User(1, "admin", "admin123", true, false),
      User(2, "user1", "password", false, false) ]
  }

  function SeedMovies(): seq<Movie> {
    [ Movie(1, "Inception", 2010, 148, "sci-fi", true),
      Movie(2, "The Shawshank Redemption", 1994, 142, "drama", true),
      Movie(3, "The Dark Knight", 2008, 152, "action", true),
      Movie(4, "Pulp Fiction", 1994, 154, "crime", false),
      Movie(5, "The Matrix", 1999, 136, "sci-fi", false),
      Movie(6, "Forrest Gump", 1994, 142, "drama", false),
      Movie(7, "Interstellar", 2014, 169, "sci-fi", false),
      Movie(8, "The Godfather", 1972, 175, "crime", false) ]
  }

  /** The page-load state: seeded arrays, nobody signed in. */
  function Initial(): (s: State)
    ensures Valid(s) && s.current.None?
  {
    State(SeedUsers(), SeedMovies(), None)
  }

  const InvalidCredentials := "Invalid username or password"
  const AccountLocked := "Your account has been locked. Please contact admin."
  const UsernameTaken := "Username already exists"
  const Unauthorized := "Unauthorized"
  const UserNotFound := "User not found"
  const OwnAccount := "Cannot lock your own account"

  predicate HasName(u: User, name: string) { u.username == name }

  /** In a valid state the user found by name is the only one with that name. */
  lemma FindByName(s: State, k: nat)
    requires Valid(s) && k < |s.users|
    ensures FirstIndex(s.users, (u: User) => HasName(u, s.users[k].username)) == Some(k)
  {
    var r := FirstIndex(s.users, (u: User) => HasName(u, s.users[k].username));
    assert r.Some? by {
      assert HasName(s.users[k], s.users[k].username);
    }
  }

  /** `mockAuth.login`: an unknown name and a wrong password fail alike; the
      lock is looked at only once the password matched. */
  function Login(s: State, username: string, password: string): (r: (State, Result<User>))
    ensures r.1.Failure? ==> r.0 == s
    ensures r.1.Ok? ==> r.0 == s.(current := Some(r.1.value))
    ensures r.1.Ok? ==>
      r.1.value in s.users && r.1.value.username == username && r.1.value.password == password && !r.1.value.isLocked
    ensures (forall u :: u in s.users ==> u.username != username) ==> r.1 == Failure(InvalidCredentials)
    ensures r.1 == Failure(AccountLocked) ==>
      exists u :: u in s.users && u.username == username && u.password == password && u.isLocked
    ensures r.1.Failure? ==> r.1.message == InvalidCredentials || r.1.message == AccountLocked
  {
    match FirstIndex(s.users, (u: User) => HasName(u, username))
    case None => (s, Failure(InvalidCredentials))
    case Some(i) =>
      var u := s.users[i];
      if u.password != password then (s, Failure(InvalidCredentials))
      else if u.isLocked then (s, Failure(AccountLocked))
      else (s.(current := Some(u)), Ok(u))
  }

  /** For a stored user the outcome of a login is fixed by the password and
      the lock flag alone. */
  lemma LoginOutcome(s: State, k: nat, password: string)
    requires Valid(s) && k < |s.users|
    ensures var u := s.users[k];
      Login(s, u.username, password).1 ==
        if u.password != password then Failure(InvalidCredentials)
        else if u.isLocked then Failure(AccountLocked)
        else Ok(u)
  {
    FindByName(s, k);
  }

  predicate NameTaken(s: State, name: string) {
    exists u :: u in s.users && u.username == name
  }

  /** `mockAuth.register`: a new name is appended with the next id, without
      admin rights and unlocked, and becomes the current user. */
  function Register(s: State, data: NewUser): (r: (State, Result<User>))
    ensures NameTaken(s, data.username) ==> r == (s, Failure(UsernameTaken))
    ensures !NameTaken(s, data.username) ==>
      && r.1 == Ok(User(|s.users| + 1, data.username, data.password, false, false))
      && r.0 == State(s.users + [r.1.value], s.movies, Some(r.1.value))
    ensures Valid(s) ==> Valid(r.0)
    ensures Valid(s) && r.1.Ok? ==> forall u :: u in s.users ==> u.id != r.1.value.id
  {
    if exists u :: u in s.users && HasName(u, data.username) then (s, Failure(UsernameTaken))
    else
      var created := User(|s.users| + 1, data.username, data.password, false, false);
      var s' := State(s.users + [created], s.movies, Some(created));
      assert forall i :: 0 <= i < |s.users| ==> s.users[i] in s.users;
      (s', Ok(created))
  }

  /** A freshly registered user can sign in with the same credentials, and
      the same name cannot be registered twice. */
  lemma RegisterThenLogin(s: State, data: NewUser)
    requires Valid(s) && !NameTaken(s, data.username)
    ensures var s1 := Register(s, data).0;
      && Login(s1, data.username, data.password).1 == Register(s, data).1
      && Register(s1, data) == (s1, Failure(UsernameTaken))
  {
    var s1 := Register(s, data).0;
    assert s1.users[|s.users|] == Register(s, data).1.value;
    LoginOutcome(s1, |s.users|, data.password);
  }

  /** `mockAuth.logout`. */
  function Logout(s: State): (r: State)
    ensures r.current.None? && r.users == s.users && r.movies == s.movies
  {
    s.(current := None)
  }

  predicate SignedInAdmin(s: State) {
    s.current.Some? && s.current.value.isAdmin
  }

  /** `mockAuth.getAllUsers`: admins only. */
  function GetAllUsers(s: State): (r: Result<seq<User>>)
    ensures r.Ok? <==> SignedInAdmin(s)
    ensures r.Ok? ==> r.value == s.users
    ensures r.Failure? ==> r.message == Unauthorized
  {
    if !SignedInAdmin(s) then Failure(Unauthorized) else Ok(s.users)
  }

  predicate HasId(u: User, id: int) { u.id == id }

  /** `mockAuth.updateUserLockStatus`: an admin may set the lock flag of any
      other user. The session's copy of the current user is not refreshed. */
  function UpdateUserLockStatus(s: State, userId: int, isLocked: bool): (r: (State, Result<User>))
    ensures r.1.Failure? ==> r.0 == s
    ensures !SignedInAdmin(s) ==> r.1 == Failure(Unauthorized)
    ensures SignedInAdmin(s) && (forall u :: u in s.users ==> u.id != userId) ==> r.1 == Failure(UserNotFound)
    ensures SignedInAdmin(s) && (exists u :: u in s.users && u.id == userId) && userId == s.current.value.id ==>
      r.1 == Failure(OwnAccount)
    ensures r.1.Ok? ==>
      && SignedInAdmin(s) && userId != s.current.value.id
      && exists i :: 0 <= i < |s.users| && s.users[i].id == userId &&
           r.0 == s.(users := s.users[i := s.users[i].(isLocked := isLocked)]) && r.1.value == r.0.users[i]
    ensures Valid(s) ==> Valid(r.0)
  {
    if !SignedInAdmin(s) then (s, Failure(Unauthorized))
    else match FirstIndex(s.users, (u: User) => HasId(u, userId))
      case None =>
        assert forall u :: u in s.users ==> !HasId(u, userId);
        (s, Failure(UserNotFound))
      case Some(i) =>
        if userId == s.current.value.id then (s, Failure(OwnAccount))
        else
          var u' := s.users[i].(isLocked := isLocked);
          var s' := s.(users := s.users[i := u']);
          (s', Ok(u'))
  }

  /** An admin's lock takes effect at the target's next sign-in, and an
      unlock restores it. */
  lemma LockBlocksLogin(s: State, k: nat)
    requires Valid(s) && SignedInAdmin(s) && k < |s.users| && s.users[k].id != s.current.value.id
    ensures var u := s.users[k];
      && Login(UpdateUserLockStatus(s, u.id, true).0, u.username, u.password).1 == Failure(AccountLocked)
      && Login(UpdateUserLockStatus(s, u.id, false).0, u.username, u.password).1 == Ok(u.(isLocked := false))
  {
    var u := s.users[k];
    var locked := UpdateUserLockStatus(s, u.id, true);
    var unlocked := UpdateUserLockStatus(s, u.id, false);
    assert exists v :: v in s.users && v.id == u.id by { assert s.users[k] in s.users; }
    LoginOutcome(locked.0, k, u.password);
    LoginOutcome(unlocked.0, k, u.password);
  }

  /** `mockMovies.getMoviesByCategory`: an exact, order-preserving filter. */
  function GetMoviesByCategory(s: State, category: string): (r: seq<Movie>)
    ensures forall m :: m in r <==> m in s.movies && m.category == category
    ensures IsSubsequence(r, s.movies)
  {
    var p := (m: Movie) => m.category == category;
    FilterIsSubsequence(s.movies, p);
    Filter(s.movies, p)
  }

  /** `mockMovies.getFeaturedMovies`. */
  function GetFeaturedMovies(s: State): (r: seq<Movie>)
    ensures forall m :: m in r <==> m in s.movies && m.featured
    ensures IsSubsequence(r, s.movies)
  {
    var p := (m: Movie) => m.featured;
    FilterIsSubsequence(s.movies, p);
    Filter(s.movies, p)
  }

  /** `mockMovies.getMovie`: the first movie with that id, `None` on a miss. */
  function GetMovie(s: State, id: int): (r: Option<Movie>)
    ensures r.None? <==> forall m :: m in s.movies ==> m.id != id
    ensures r.Some? ==> r.value in s.movies && r.value.id == id
  {
    match FirstIndex(s.movies, (m: Movie) => m.id == id)
    case None =>
      assert forall m :: m in s.movies ==> m.id != id;
      None
    case Some(i) => Some(s.movies[i])
  }

  /** Every seeded id is found, and the next one is not. */
  lemma SeededIds(id: int)
    ensures GetMovie(Initial(), id).Some? <==> 1 <= id <= 8
  {
    var ms := SeedMovies();
    if 1 <= id <= 8 {
      assert ms[id - 1].id == id;
      assert ms[id - 1] in ms;
    }
  }
}

=== FILE: options.dfy ===
/** Optional values. `None` stands for JavaScript's `undefined`/`null` results
    (a failed lookup, a NaN from `parseInt`, an absent request field). */
module Options {

  datatype Option<+T> = None | Some(value: T) {

    /** The wrapped value, or `default` when there is none (the `??` operator). */
    function GetOr(default: T): T {
      match this
      case Some(v) => v
      case None => default
    }
  }

  /** The outcome of a store method that throws `Error(message)` on failure. */
  datatype Result<+T> = Ok(value: T) | Failure(message: string)

  /** `x || fallback` on an optional string: both `undefined`/`null` and the
      empty string are falsy in JavaScript. */
  function StringOr(x: Option<string>, fallback: string): string {
    if x.Some? && x.value != "" then x.value else fallback
  }

  /** `x || null` on an optional string: the empty string collapses to null. */
  function NonEmptyOrNull(x: Option<string>): Option<string> {
    if x.Some? && x.value != "" then x else None
  }

  /** `x || null` on an optional number: zero collapses to null. */
  function NonZeroOrNull(x: Option<int>): Option<int> {
    if x.Some? && x.value != 0 then x else None
  }

  /** `x || false` on an optional boolean. */
  function FlagOrFalse(x: Option<bool>): bool {
    x.Some? && x.value
  }
}

=== FILE: password_hash.dfy ===
/** The password format both servers share: `hashPassword` stores the
    derived key in hex, a dot and the hex salt; `comparePasswords` splits the
    stored text on the dot, decodes the hex and compares the bytes. The key
    derivation function (scrypt) is a parameter. */
module PasswordHash {
  import opened Options
  import opened JsText

  type Byte = b: int | 0 <= b < 256

  function HexChar(d: nat): (c: char)
    requires d < 16
    ensures IsHexDigit(c) && DigitValue(c) == d && c != '.'
  {
    if d < 10 then ('0' as int + d) as char else ('a' as int + d - 10) as char
  }

  /** `buf.toString("hex")`: two lower-case digits per byte. */
  function ToHex(bytes: seq<Byte>): (r: string)
    ensures |r| == 2 * |bytes|
    ensures forall i :: 0 <= i < |r| ==> IsHexDigit(r[i]) && r[i] != '.'
  {
    if bytes == [] then "" else [HexChar(bytes[0] / 16), HexChar(bytes[0] % 16)] + ToHex(bytes[1..])
  }

  /** `Buffer.from(s, "hex")`: decodes digit pairs up to the first pair that
      is not hexadecimal; an odd last digit is dropped. */
  function FromHex(s: string): (r: seq<Byte>)
    ensures |r| <= |s| / 2
  {
    if |s| < 2 || !IsHexDigit(s[0]) || !IsHexDigit(s[1]) then []
    else [DigitValue(s[0]) * 16 + DigitValue(s[1])] + FromHex(s[2..])
  }

  lemma {:induction false} FromHexToHex(bytes: seq<Byte>)
    ensures FromHex(ToHex(bytes)) == bytes
  {
    if bytes != [] {
      var h := ToHex(bytes);
      assert h[2..] == ToHex(bytes[1..]);
      FromHexToHex(bytes[1..]);
    }
  }

  /** What `hashPassword` stores: the derived key in hex, a dot, the salt. */
  function StoredHash(key: seq<Byte>, salt: string): string {
    ToHex(key) + "." + salt
  }

  /** `const [hashed, salt] = stored.split(".")`; the salt is `undefined`
      when there is no dot. */
  function SplitStored(stored: string): (r: (string, Option<string>))
    ensures r.1.None? <==> '.' !in stored
    ensures '.' !in r.0 && (r.1.Some? ==> '.' !in r.1.value)
    ensures StartsWith(stored, r.0)
  {
    var parts := Split(stored, '.');
    assert parts[0] <= stored by {
      if |parts| > 1 { assert Join(parts, '.') == parts[0] + ['.'] + Join(parts[1..], '.'); }
    }
    if |parts| > 1 then
      assert Join(parts, '.') == parts[0] + ['.'] + Join(parts[1..], '.');
      assert '.' in stored by { assert stored[|parts[0]|] == '.'; }
      (parts[0], Some(parts[1]))
    else (parts[0], None)
  }

  /** Splitting a stored hash gives back exactly the hex key and the salt,
      because neither contains a dot. */
  lemma SplitStoredHash(key: seq<Byte>, salt: string)
    requires '.' !in salt
    ensures SplitStored(StoredHash(key, salt)) == (ToHex(key), Some(salt))
  {
    SplitTwo(ToHex(key), '.', salt);
    assert ToHex(key) + "." + salt == ToHex(key) + ['.'] + salt;
  }

  datatype Check = Match | Mismatch | Thrown

  /** `comparePasswords`: `timingSafeEqual` throws when the lengths differ,
      and the key derivation throws on an `undefined` salt. */
  function ComparePasswords(supplied: string, stored: string, kdf: (string, string) -> seq<Byte>): (c: Check)
    ensures c == Match <==>
      SplitStored(stored).1.Some? && FromHex(SplitStored(stored).0) == kdf(supplied, SplitStored(stored).1.value)
  {
    var (hashed, salt) := SplitStored(stored);
    if salt.None? then Thrown
    else
      var expected := FromHex(hashed);
      var actual := kdf(supplied, salt.value);
      if |expected| != |actual| then Thrown
      else if expected == actual then Match else Mismatch
  }

  /** The password a hash was made from matches it; any password whose
      derived key differs (at the same length) does not. */
  lemma HashThenCompare(password: string, other: string, salt: string, kdf: (string, string) -> seq<Byte>)
    requires '.' !in salt
    requires |kdf(other, salt)| == |kdf(password, salt)| && kdf(other, salt) != kdf(password, salt)
    ensures ComparePasswords(password, StoredHash(kdf(password, salt), salt), kdf) == Match
    ensures ComparePasswords(other, StoredHash(kdf(password, salt), salt), kdf) == Mismatch
  {
    SplitStoredHash(kdf(password, salt), salt);
    FromHexToHex(kdf(password, salt));
  }
}

=== FILE: profile_picture.dfy ===
/** MovieWeb's profile-picture dialog: the rule its form applies before
    submitting, the rule that decides whether a typed address is previewed,
    and the form's initial and cleared states. Whether a text is a URL at all
    is decided by the validation library and is a parameter here. */
module ProfilePicture {
  import opened Options
  import opened JsText
  import opened WebStore

  /** The extensions both patterns list: `jpe?g|png|ico|gif|webp|svg`. */
  const ImageExtensions: seq<string> := ["jpg", "jpeg", "png", "ico", "gif", "webp", "svg"]

  /** The text ends, ignoring ASCII case, in a dot and one of the extensions. */
  predicate HasImageExtension(url: string) {
    exists i :: 0 <= i < |ImageExtensions| && EndsWith(ToLower(url), "." + ImageExtensions[i])
  }

  /** The form's rule: a URL that ends in an image extension. */
  predicate Accepted(url: string, isUrl: string -> bool) {
    isUrl(url) && HasImageExtension(url)
  }

  /** Characters JavaScript's `.` does not match. */
  predicate IsLineTerminator(c: char) {
    c == '\n' || c == '\r' || c == '\U{2028}' || c == '\U{2029}'
  }

  predicate NoLineBreak(s: string) {
    forall i :: 0 <= i < |s| ==> !IsLineTerminator(s[i])
  }

  /** The length of the `https?://` the address starts with, ignoring case,
      or 0 when it starts with neither. */
  function SchemeLength(url: string): (n: nat)
    ensures n == 0 || n == 7 || n == 8
    ensures n == 8 <==> StartsWith(ToLower(url), "https://")
    ensures n == 7 <==> StartsWith(ToLower(url), "http://")
  {
    var lower := ToLower(url);
    if StartsWith(lower, "https://") then
      assert lower[4] == 's';
      8
    else if StartsWith(lower, "http://") then 7
    else 0
  }

  /** The preview pattern `^(https?:\/\/.*)\.(ext)$`, case-insensitive: the
      scheme, then a run without line breaks, then a dot and an extension
      that ends the text. */
  predicate PreviewPattern(url: string) {
    var n := SchemeLength(url);
    n > 0 && exists i :: 0 <= i < |ImageExtensions| && MatchesWith(url, n, "." + ImageExtensions[i])
  }

  /** The rest of the pattern once the scheme length `n` and the suffix are
      fixed. */
  predicate MatchesWith(url: string, n: nat, suffix: string) {
    n + |suffix| <= |url| && EndsWith(ToLower(url), suffix) && NoLineBreak(url[n..|url| - |suffix|])
  }

  /** `handleUrlChange`: the typed text becomes the preview when it is
      non-empty and matches the preview pattern, otherwise the preview is
      cleared. */
  function PreviewFor(url: string): (preview: Option<string>)
    ensures preview.Some? <==> PreviewPattern(url)
    ensures preview.Some? ==> preview.value == url && HasImageExtension(url)
  {
    if url != "" && PreviewPattern(url) then Some(url) else None
  }

  /** A previewed address that the URL check accepts also passes the form. */
  lemma PreviewedIsAccepted(url: string, isUrl: string -> bool)
    requires PreviewFor(url).Some? && isUrl(url)
    ensures Accepted(url, isUrl)
  {
  }

  /** Conversely, `http://` or `https://`, any text without line breaks, a
      dot and a listed extension is previewed. */
  lemma PreviewOfParts(scheme: string, mid: string, k: nat)
    requires scheme == "http://" || scheme == "https://"
    requires NoLineBreak(mid) && k < |ImageExtensions|
    ensures PreviewFor(scheme + mid + "." + ImageExtensions[k]) == Some(scheme + mid + "." + ImageExtensions[k])
  {
    var suffix := "." + ImageExtensions[k];
    var url := scheme + mid + suffix;
    LowerOfParts(scheme, mid, k);
    SchemeOfParts(url, scheme, ToLower(mid) + suffix);
    MatchesOfParts(url, scheme, mid, suffix);
    assert PreviewPattern(url);
  }

  lemma MatchesOfParts(url: string, scheme: string, mid: string, suffix: string)
    requires url == scheme + mid + suffix && NoLineBreak(mid)
    requires ToLower(url) == scheme + (ToLower(mid) + suffix)
    ensures MatchesWith(url, |scheme|, suffix)
  {
    var lower := ToLower(url);
    assert lower[|lower| - |suffix|..] == suffix;
    assert url[|scheme|..|url| - |suffix|] == mid;
  }

  /** Lowering the address changes only the middle part. */
  lemma LowerOfParts(scheme: string, mid: string, k: nat)
    requires scheme == "http://" || scheme == "https://"
    requires k < |ImageExtensions|
    ensures ToLower(scheme + mid + "." + ImageExtensions[k]) == scheme + (ToLower(mid) + ("." + ImageExtensions[k]))
  {
    var suffix := "." + ImageExtensions[k];
    LowerExtensions(k);
    assert ToLower(suffix) == suffix by {
      ToLowerConcat(".", ImageExtensions[k]);
    }
    assert ToLower(scheme) == scheme;
    ToLowerConcat(scheme, mid);
    ToLowerConcat(scheme + mid, suffix);
    assert scheme + mid + suffix == (scheme + mid) + suffix;
  }

  /** The scheme is measured on the lowered text, which starts with it. */
  lemma SchemeOfParts(url: string, scheme: string, rest: string)
    requires scheme == "http://" || scheme == "https://"
    requires ToLower(url) == scheme + rest
    ensures SchemeLength(url) == |scheme|
  {
    var lower := scheme + rest;
    assert lower[..|scheme|] == scheme;
    if scheme == "http://" {
      assert lower[4] == ':';
    }
  }

  lemma LowerExtensions(k: nat)
    requires k < |ImageExtensions|
    ensures ToLower(ImageExtensions[k]) == ImageExtensions[k]
  {
    var e := ImageExtensions[k];
    assert forall i :: 0 <= i < |e| ==> 'a' <= e[i] <= 'z';
  }

  datatype FormState = FormState(preview: Option<string>, field: string)

  /** The dialog opens with the user's picture in the field (or nothing) and
      no preview. */
  function InitialForm(user: Option<User>): (st: FormState)
    ensures st.preview.None?
    ensures user.Some? && user.value.profilePicture != "" ==> st.field == user.value.profilePicture
    ensures user.None? || user.value.profilePicture == "" ==> st.field == ""
  {
    FormState(None, if user.Some? then user.value.profilePicture else "")
  }

  /** Typing into the field replaces its text and recomputes the preview. */
  function TypeUrl(st: FormState, url: string): (r: FormState)
    ensures r.field == url
    ensures r.preview == PreviewFor(url)
  {
    FormState(PreviewFor(url), url)
  }

  /** `clearPreview`: no preview and an empty field. */
  function ClearPreview(st: FormState): (r: FormState)
    ensures r.preview.None? && r.field == ""
  {
    FormState(None, "")
  }

  /** After clearing, the field holds nothing the form would submit. */
  lemma ClearedFieldRejected(st: FormState, isUrl: string -> bool)
    ensures !Accepted(ClearPreview(st).field, isUrl)
  {
    assert forall i :: 0 <= i < |ImageExtensions| ==> |"." + ImageExtensions[i]| > 0;
  }
}

=== FILE: query_client.dfy ===
/** The static website's `apiRequest`: a dispatcher that matches the method
    and URL against the MovieWeb API's endpoints in a fixed order and answers
    from the mock store with a response record; and `getQueryFn`, which turns
    a response into query data, `null` or a thrown error. */
module QueryClient {
  import opened Options
  import opened JsText
  import opened MockStorage

  /** The JSON value a mock response carries. */
  datatype Payload =
    | UserData(user: User)
    | UserList(users: seq<User>)
    | MovieData(movie: Movie)
    | MovieList(movies: seq<Movie>)
    | ErrorMessage(message: string)
    | NoFields

  datatype Response = Response(ok: bool, status: int, statusText: string, data: Payload)

  /** The request body as the handlers read it: the credential fields, and
      `isLocked` when it holds a boolean (`None` for any other type). */
  datatype RequestData = RequestData(username: string, password: string, isLocked: Option<bool>)

  /** `createResponse(ok, data, status = ok ? 200 : 400)`. */
  function CreateResponse(ok: bool, data: Payload, status: Option<int>): (r: Response)
    ensures r.ok == ok && r.data == data
    ensures status.Some? ==> r.status == status.value
    ensures status.None? && ok ==> r.status == 200
    ensures status.None? && !ok ==> r.status == 400
    ensures r.statusText == if ok then "OK" else "Error"
  {
    Response(ok, status.GetOr(if ok then 200 else 400), if ok then "OK" else "Error", data)
  }

  function Success(data: Payload): Response { CreateResponse(true, data, None) }

  function Refusal(message: string, status: Option<int>): Response {
    CreateResponse(false, ErrorMessage(message), status)
  }

  const EndpointNotFound := Refusal("Endpoint not found", Some(404))

  /** `parseInt(url.split("/").pop() || "0")` read as a condition: the id
      when it is a number other than zero, `None` for `NaN` and zero. */
  function PathId(url: string): (r: Option<int>)
    ensures r.Some? ==> r.value != 0
  {
    NonZeroOrNull(ParseInt(StringOr(Some(LastSegment(url, '/')), "0"), Unspecified))
  }

  /** What every endpoint's answer satisfies: `ok` exactly for 200, an
      error message otherwise, no state change on a GET, and the store's
      invariant kept. */
  predicate WellFormed(s: State, verb: string, r: (State, Response)) {
    && (r.1.ok <==> r.1.status == 200)
    && (!r.1.ok ==> r.1.status in {400, 401, 404} && r.1.data.ErrorMessage?)
    && (verb == "GET" ==> r.0 == s)
    && (Valid(s) ==> Valid(r.0))
  }

  /** The session endpoints: `/api/login`, `/api/register`, `/api/logout`
      and `/api/user`. `None` is falling through to the next checks. */
  function SessionEndpoints(s: State, verb: string, url: string, data: RequestData): (r: Option<(State, Response)>)
    ensures r.Some? ==> WellFormed(s, verb, r.value)
    ensures r.None? <==>
      !(
      || (url == "/api/login" && verb == "POST")
      || (url == "/api/register" && verb == "POST")
      || (url == "/api/logout" && verb == "POST")
      || (url == "/api/user" && verb == "GET"))
  {
    if url == "/api/login" && verb == "POST" then
      var (s', res) := Login(s, data.username, data.password);
      match res
      case Ok(u) => Some((s', Success(UserData(u))))
      case Failure(m) => Some((s', Refusal(m, None)))
    else if url == "/api/register" && verb == "POST" then
      var (s', res) := Register(s, NewUser(data.username, data.password));
      match res
      case Ok(u) => Some((s', Success(UserData(u))))
      case Failure(m) => Some((s', Refusal(m, None)))
    else if url == "/api/logout" && verb == "POST" then
      Some((Logout(s), Success(NoFields)))
    else if url == "/api/user" && verb == "GET" then
      match s.current
      case None => Some((s, Refusal("Unauthorized", Some(401))))
      case Some(u) => Some((s, Success(UserData(u))))
    else None
  }

  /** The movie endpoints, in source order: the full list, a category, an
      id, the featured list. The category and id endpoints fall through
      when their segment is empty, not a nonzero number, or not stored. */
  function MovieEndpoints(s: State, verb: string, url: string): (r: Option<(State, Response)>)
    ensures r.Some? ==> r.value.0 == s && r.value.1.ok && r.value.1.status == 200
    ensures verb != "GET" ==> r.None?
  {
    if verb != "GET" then None
    else if url == "/api/movies" then
      Some((s, Success(MovieList(s.movies))))
    else if StartsWith(url, "/api/movies/category/") && LastSegment(url, '/') != "" then
      Some((s, Success(MovieList(GetMoviesByCategory(s, LastSegment(url, '/'))))))
    else if StartsWith(url, "/api/movies/") && PathId(url).Some? && GetMovie(s, PathId(url).value).Some? then
      Some((s, Success(MovieData(GetMovie(s, PathId(url).value).value))))
    else if url == "/api/movies/featured" then
      Some((s, Success(MovieList(GetFeaturedMovies(s)))))
    else None
  }

  /** The admin endpoints: the user listing and the lock PATCH, whose store
      refusals are answered with 401. */
  function AdminEndpoints(s: State, verb: string, url: string, data: RequestData): (r: Option<(State, Response)>)
    ensures r.Some? ==> WellFormed(s, verb, r.value)
    ensures r.None? <==>
      !(
      || (url == "/api/admin/users" && verb == "GET")
      || (StartsWith(url, "/api/admin/users/") && verb == "PATCH" && PathId(url).Some? && data.isLocked.Some?))
  {
    if url == "/api/admin/users" && verb == "GET" then
      match GetAllUsers(s)
      case Ok(us) => Some((s, Success(UserList(us))))
      case Failure(m) => Some((s, Refusal(m, Some(401))))
    else if StartsWith(url, "/api/admin/users/") && verb == "PATCH" && PathId(url).Some? && data.isLocked.Some? then
      var (s', res) := UpdateUserLockStatus(s, PathId(url).value, data.isLocked.value);
      match res
      case Ok(u) => Some((s', Success(UserData(u))))
      case Failure(m) => Some((s', Refusal(m, Some(401))))
    else None
  }

  /** `apiRequest(verb, url, data)`: the first endpoint that answers wins,
      and a request no endpoint answers is a 404. */
  function ApiRequest(s: State, verb: string, url: string, data: RequestData): (r: (State, Response))
    ensures WellFormed(s, verb, r)
  {
    match SessionEndpoints(s, verb, url, data)
    case Some(r) => r
    case None =>
      match MovieEndpoints(s, verb, url)
      case Some(r) => r
      case None =>
        match AdminEndpoints(s, verb, url, data)
        case Some(r) => r
        case None => (s, EndpointNotFound)
  }

  /** The last segment of a path ending in `prefix + x` is `x`. */
  lemma LastSegmentOfPath(prefix: string, x: string)
    requires prefix != [] && prefix[|prefix| - 1] == '/' && '/' !in x
    ensures LastSegment(prefix + x, '/') == x
  {
    var a := prefix[..|prefix| - 1];
    assert prefix + x == a + ['/'] + x;
    LastSegmentAfterSeparator(a, '/', x);
    LastSegmentWithoutSeparator(x, '/');
  }

  /** The decimal text of a number other than zero is read back as that id;
      zero and text without digits are not ids. */
  lemma PathIdOf(prefix: string, n: int)
    requires prefix != [] && prefix[|prefix| - 1] == '/'
    ensures PathId(prefix + IntToString(n)) == if n != 0 then Some(n) else None
  {
    assert '/' !in IntToString(n) by {
      forall i | 0 <= i < |IntToString(n)| ensures IntToString(n)[i] != '/' {
        if i > 0 || n >= 0 {
          assert IntToString(n)[i] == IntToString(n)[i];
        }
      }
    }
    LastSegmentOfPath(prefix, IntToString(n));
    ParseIntOfIntToString(n, Unspecified);
  }

  /** GET `/api/user` answers 401 exactly when nobody is signed in. */
  lemma CurrentUserRoute(s: State, data: RequestData)
    ensures ApiRequest(s, "GET", "/api/user", data).1 ==
      if s.current.None? then Refusal("Unauthorized", Some(401)) else Success(UserData(s.current.value))
  {
  }

  /** A successful sign-in is reflected by `/api/user`, and signing out
      turns it into a 401 again. */
  lemma SessionRoundTrip(s: State, data: RequestData, other: RequestData)
    requires ApiRequest(s, "POST", "/api/login", data).1.ok
    ensures var s1 := ApiRequest(s, "POST", "/api/login", data).0;
      && s1.current.Some? && s1.current.value.username == data.username
      && ApiRequest(s1, "GET", "/api/user", other).1 == Success(UserData(s1.current.value))
      && ApiRequest(ApiRequest(s1, "POST", "/api/logout", other).0, "GET", "/api/user", other).1.status == 401
  {
  }

  /** POST `/api/register`: a taken name is refused with 400 and nothing
      changes; otherwise the new user, numbered after the last one, is
      stored, signed in and returned. */
  lemma RegisterRoute(s: State, data: RequestData)
    ensures var (s', res) := ApiRequest(s, "POST", "/api/register", data);
      && (NameTaken(s, data.username) ==>
        s' == s && res == Refusal(UsernameTaken, None) && res.status == 400)
      && (!NameTaken(s, data.username) ==>
        var u := User(|s.users| + 1, data.username, data.password, false, false);
        res == Success(UserData(u)) && s'.users == s.users + [u] && s'.current == Some(u))
  {
  }

  /** POST `/api/login`: a refused sign-in is a 400 carrying the store's
      message and changes nothing, and an unknown name is always refused. */
  lemma LoginRoute(s: State, data: RequestData)
    ensures var (s', res) := ApiRequest(s, "POST", "/api/login", data);
      && (!res.ok ==> s' == s && res.status == 400)
      && (!res.ok ==> res.data == ErrorMessage(InvalidCredentials) || res.data == ErrorMessage(AccountLocked))
      && ((forall u :: u in s.users ==> u.username != data.username) ==> res == Refusal(InvalidCredentials, None))
  {
  }

  /** GET `/api/admin/users`: the whole user list for a signed-in admin,
      401 for anyone else. */
  lemma AdminListingRoute(s: State, data: RequestData)
    ensures ApiRequest(s, "GET", "/api/admin/users", data) ==
      (s, if SignedInAdmin(s) then Success(UserList(s.users)) else Refusal(Unauthorized, Some(401)))
  {
    AdminListingIsNoMovieEndpoint(s, "/api/admin/users");
  }

  /** `/api/movies/category/<c>` lists category `c`, even when `c` would also
      read as an id: the category check comes first. */
  lemma CategoryRoute(s: State, c: string, data: RequestData)
    requires c != "" && '/' !in c
    ensures ApiRequest(s, "GET", "/api/movies/category/" + c, data) ==
      (s, Success(MovieList(GetMoviesByCategory(s, c))))
  {
    var url := "/api/movies/category/" + c;
    LastSegmentOfPath("/api/movies/category/", c);
    assert url[5] == 'm';
    assert StartsWith(url, "/api/movies/category/");
  }

  /** With nothing after it, the category prefix falls through the id check
      (the empty segment reads as 0) and ends in 404. */
  lemma EmptyCategoryNotFound(s: State, data: RequestData)
    ensures ApiRequest(s, "GET", "/api/movies/category/", data) == (s, EndpointNotFound)
  {
    EmptyCategoryAt(s, "/api/movies/category/", data);
  }

  lemma EmptyCategoryAt(s: State, url: string, data: RequestData)
    requires url == "/api/movies/category/"
    ensures ApiRequest(s, "GET", url, data) == (s, EndpointNotFound)
  {
    EmptyCategorySegment(url);
    assert url[5] == 'm' && url[12] == 'c';
    assert !StartsWith(url, "/api/admin/users/");
    assert MovieEndpoints(s, "GET", url) == None;
  }

  lemma EmptyCategorySegment(url: string)
    requires url == "/api/movies/category/"
    ensures LastSegment(url, '/') == "" && PathId(url) == None
  {
    assert url == "/api/movies/category" + ['/'] + "";
    LastSegmentAfterSeparator("/api/movies/category", '/', "");
    assert StringOr(Some(LastSegment(url, '/')), "0") == NatToString(0) + "";
    ParseIntOfNatToString(0, Unspecified);
  }

  /** `/api/movies/featured` reaches the featured handler: `parseInt` of
      "featured" is `NaN`, so the id endpoint lets it through. */
  lemma FeaturedRoute(s: State, data: RequestData)
    ensures ApiRequest(s, "GET", "/api/movies/featured", data) == (s, Success(MovieList(GetFeaturedMovies(s))))
  {
    FeaturedRouteAt(s, "/api/movies/featured", data);
  }

  /** A segment without digits is not an id. */
  lemma PathIdWithoutDigits(prefix: string, w: string)
    requires prefix != [] && prefix[|prefix| - 1] == '/' && w != [] && '/' !in w
    requires forall i :: 0 <= i < |w| ==> !IsDigit(w[i])
    ensures PathId(prefix + w) == None
  {
    LastSegmentOfPath(prefix, w);
    ParseIntWithoutDigits(w, Unspecified);
  }

  lemma FeaturedRouteAt(s: State, url: string, data: RequestData)
    requires url == "/api/movies/featured"
    ensures ApiRequest(s, "GET", url, data) == (s, Success(MovieList(GetFeaturedMovies(s))))
  {
    FeaturedIsNoId(url);
    FeaturedIsNoCategory(url);
    FeaturedMovieEndpoint(s, url);
  }

  lemma FeaturedIsNoId(url: string)
    requires url == "/api/movies/featured"
    ensures PathId(url) == None
  {
    assert url == "/api/movies/" + "featured";
    PathIdWithoutDigits("/api/movies/", "featured");
  }

  lemma FeaturedIsNoCategory(url: string)
    requires url == "/api/movies/featured"
    ensures !StartsWith(url, "/api/movies/category/") && url != "/api/movies"
  {
    assert url[12] == 'f';
  }

  lemma FeaturedMovieEndpoint(s: State, url: string)
    requires url == "/api/movies/featured" && !StartsWith(url, "/api/movies/category/") && url != "/api/movies"
    requires PathId(url) == None
    ensures MovieEndpoints(s, "GET", url) == Some((s, Success(MovieList(GetFeaturedMovies(s)))))
  {
  }

  /** `/api/movies/<x>` for a single segment other than "featured": the movie
      when `x` reads as a nonzero id that is stored, 404 otherwise. */
  lemma MovieRoute(s: State, x: string, data: RequestData)
    requires '/' !in x && x != "featured"
    ensures var url := "/api/movies/" + x;
      ApiRequest(s, "GET", url, data) ==
        if PathId(url).Some? && GetMovie(s, PathId(url).value).Some? then
          (s, Success(MovieData(GetMovie(s, PathId(url).value).value)))
        else (s, EndpointNotFound)
  {
    var url := "/api/movies/" + x;
    assert url[12..] == x;
    assert |url| <= 20 || url[20] == x[8];
    assert !StartsWith(url, "/api/movies/category/");
    assert "/api/movies/featured"[12..] == "featured";
    assert url != "/api/movies/featured";
    assert url != "/api/movies";
    assert StartsWith(url, "/api/movies/");
  }

  /** Hence a stored id is served, and id 0 is not found. */
  lemma MovieRouteById(s: State, n: int, data: RequestData)
    ensures ApiRequest(s, "GET", "/api/movies/" + IntToString(n), data).1 ==
      if n != 0 && GetMovie(s, n).Some? then Success(MovieData(GetMovie(s, n).value)) else EndpointNotFound
  {
    var x := IntToString(n);
    PathIdOf("/api/movies/", n);
    NumberSegment(n, x);
    MovieRoute(s, x, data);
  }

  /** The decimal text of a number is a single segment other than "featured". */
  lemma NumberSegment(n: int, x: string)
    requires x == IntToString(n)
    ensures '/' !in x && x != "featured"
  {
    IntToStringChars(n);
    assert "featured"[0] == 'f';
  }

  /** PATCH `/api/admin/users/<x>` is handled only when `x` reads as a nonzero
      id and `isLocked` is a boolean; a refusal from the store is a 401, and
      anything else falls through to 404. */
  lemma AdminPatchRoute(s: State, x: string, data: RequestData)
    requires '/' !in x
    ensures var url := "/api/admin/users/" + x;
      ApiRequest(s, "PATCH", url, data) ==
        if PathId(url).None? || data.isLocked.None? then (s, EndpointNotFound)
        else
          var (s', res) := UpdateUserLockStatus(s, PathId(url).value, data.isLocked.value);
          if res.Ok? then (s', Success(UserData(res.value))) else (s', Refusal(res.message, Some(401)))
  {
    var url := "/api/admin/users/" + x;
    assert StartsWith(url, "/api/admin/users/");
  }

  /** `on401` of `getQueryFn`. */
  datatype UnauthorizedBehavior = ReturnNull | Throw

  datatype QueryResult = Data(payload: Payload) | NullResult | Thrown

  /** `getQueryFn({on401})` applied to the query key `url`. */
  function GetQueryFn(s: State, on401: UnauthorizedBehavior, url: string): (r: QueryResult)
    ensures var res := ApiRequest(s, "GET", url, RequestData("", "", None)).1;
      && (r.Data? <==> res.ok)
      && (r.Data? ==> r.payload == res.data)
      && (r.NullResult? <==> on401 == ReturnNull && res.status == 401)
  {
    var res := ApiRequest(s, "GET", url, RequestData("", "", None)).1;
    if on401 == ReturnNull && !res.ok && res.status == 401 then NullResult
    else if !res.ok then Thrown
    else Data(res.data)
  }

  /** The admin listing is not under the movie prefix. */
  lemma AdminListingIsNoMovieEndpoint(s: State, url: string)
    requires url == "/api/admin/users"
    ensures MovieEndpoints(s, "GET", url) == None
  {
    assert url[5] == 'a';
    assert !StartsWith(url, "/api/movies/");
  }

  /** A signed-out visitor's user query is `null` with `returnNull` and an
      error with `throw`; so is the user listing; the movie list loads. */
  lemma SignedOutQueries(s: State)
    requires s.current.None?
    ensures GetQueryFn(s, ReturnNull, "/api/user") == NullResult
    ensures GetQueryFn(s, Throw, "/api/user") == Thrown
    ensures GetQueryFn(s, ReturnNull, "/api/admin/users") == NullResult
    ensures GetQueryFn(s, Throw, "/api/admin/users") == Thrown
    ensures GetQueryFn(s, Throw, "/api/movies") == Data(MovieList(s.movies))
  {
    AdminListingIsNoMovieEndpoint(s, "/api/admin/users");
  }
}

=== FILE: range_stream.dfy ===
/** Byte-range video responses of `/api/stream/:id` (MovieStreamHost) and
    `/api/videos/:filename` (MovieStreamingHub), following the byte-range form
    of section 2.1 of RFC 7233, status 206 of section 4.1 and `Content-Range`
    of section 4.2. The handlers never answer 416 (section 4.4) and never check
    the requested window themselves; the only check is the one Node's
    `fs.createReadStream` makes on its `start`/`end` options, which throws
    before any header is written. */
module RangeStream {
  import opened Options
  import opened JsText

  /** A JavaScript number as these handlers produce it: `NaN` when
      `parseInt` found no digit, `Infinity` when its digits overflow. */
  type Num = JsNumber

  /** `${n}` in a template literal. */
  function NumText(n: Num): string {
    match n
    case NaN => "NaN"
    case Int(i) => IntToString(i)
    case Infinity(negative) => if negative then "-Infinity" else "Infinity"
  }

  /** `(end - start) + 1` in floating point: `NaN` absorbs, an infinity minus
      a finite number stays that infinity, and two infinities of the same
      sign cancel to `NaN`. */
  function SpanLength(start: Num, end: Num): Num {
    match (start, end)
    case (Int(a), Int(b)) => Int(b - a + 1)
    case (Int(_), Infinity(negative)) => Infinity(negative)
    case (Infinity(negative), Int(_)) => Infinity(!negative)
    case (Infinity(p), Infinity(q)) => if p == q then NaN else Infinity(q)
    case _ => NaN
  }

  /** What follows the headers: the inclusive byte window, everything from an
      offset to the end of the file, the whole file, or a JSON `{ message }`
      body. */
  datatype Body = Window(first: int, last: int) | Rest(from: int) | WholeFile | Message(text: string)

  /** `contentLength` is `None` when the header is absent. */
  datatype Response = Response(
    status: int,
    contentRange: Option<string>,
    acceptRanges: Option<string>,
    contentLength: Option<Num>,
    contentType: Option<string>,
    body: Body)

  /** A response is written, or the exception thrown while opening the stream
      reaches Express's error handling (`next(error)` in MovieStreamHost, a
      synchronous throw in MovieStreamingHub). */
  datatype Outcome = Sent(response: Response) | Raised

  function NotFound(message: string): (r: Response)
    ensures r.status == 404 && r.body == Message(message) && r.contentRange.None?
  {
    Response(404, None, None, None, None, Message(message))
  }

  /** The two numbers the handler reads from a `Range` header: the first
      "bytes=" anywhere in it is deleted, the rest is split on '-', the first
      piece is the start and a non-empty second piece is the end, which
      otherwise defaults to the last byte of the file. */
  function RangeBounds(range: string, size: int, radix: Radix): (bounds: (Num, Num))
    ensures var parts := Split(ReplaceFirst(range, "bytes=", ""), '-');
      bounds.0 == ToNumber(ParseInt(parts[0], radix)) &&
      (|parts| < 2 || parts[1] == "" ==> bounds.1 == ToNumber(Some(size - 1))) &&
      (|parts| >= 2 && parts[1] != "" ==> bounds.1 == ToNumber(ParseInt(parts[1], radix)))
  {
    var parts := Split(ReplaceFirst(range, "bytes=", ""), '-');
    var start := ToNumber(ParseInt(parts[0], radix));
    var end := ToNumber(if |parts| >= 2 && parts[1] != "" then ParseInt(parts[1], radix) else Some(size - 1));
    (start, end)
  }

  /** The 206 answer exactly as the handler writes it, with no check on the
      numbers. */
  function PartialContent(start: Num, end: Num, size: int): (r: Response)
    ensures r.status == 206
    ensures r.contentLength == Some(SpanLength(start, end))
    ensures r.acceptRanges == Some("bytes") && r.contentType == Some("video/mp4")
  {
    Response(206,
      Some("bytes " + NumText(start) + "-" + NumText(end) + "/" + IntToString(size)),
      Some("bytes"), Some(SpanLength(start, end)), Some("video/mp4"),
      match (start, end)
      case (Int(a), Int(b)) => Window(a, b)
      case (Int(a), Infinity(false)) => Rest(a)
      case _ => WholeFile)
  }

  function FullContent(size: int): (r: Response)
    ensures r.status == 200 && r.contentLength == Some(Int(size))
    ensures r.contentRange.None? && r.body == WholeFile
  {
    Response(200, None, None, Some(Int(size)), Some("video/mp4"), WholeFile)
  }

  /** `Number.MAX_SAFE_INTEGER`, 2^53 - 1: the largest value Node's integer
      option check accepts by default. */
  const MaxSafeInteger := 9007199254740991

  /** Node's check on `createReadStream`'s `start`/`end`: `start` an integer
      between 0 and `Number.MAX_SAFE_INTEGER`; `end` either `Infinity`, which
      Node reads as "to the end of the file" and does not check, or an
      integer between `start` and `Number.MAX_SAFE_INTEGER`. */
  predicate StreamAccepts(start: Num, end: Num) {
    start.Int? && 0 <= start.value <= MaxSafeInteger &&
    (end == Infinity(false) || (end.Int? && start.value <= end.value <= MaxSafeInteger))
  }

  /** The part both handlers share once the file is known to exist: a
      non-empty `Range` header gives 206 with the raw numbers, unless the
      stream refuses them; otherwise 200 with the whole file. */
  function RangedOrFull(range: Option<string>, size: nat, radix: Radix): (o: Outcome)
    ensures o.Sent? ==> o.response.status in {200, 206}
    ensures range.None? || range.value == "" ==> o == Sent(FullContent(size))
    ensures range.Some? && range.value != "" ==>
      var (start, end) := RangeBounds(range.value, size, radix);
      (o.Sent? <==> StreamAccepts(start, end)) &&
      (o.Sent? ==> o.response == PartialContent(start, end, size))
  {
    if range.None? || range.value == "" then Sent(FullContent(size))
    else
      var (start, end) := RangeBounds(range.value, size, radix);
      if StreamAccepts(start, end) then Sent(PartialContent(start, end, size)) else Raised
  }

  /** `GET /api/stream/:id` of MovieStreamHost. `videoUrl` is `None` when no
      movie has the id; `fileExists` and `size` stand for `fs.existsSync` and
      `fs.statSync`. */
  function StreamMovie(videoUrl: Option<string>, fileExists: bool, size: nat, range: Option<string>): (o: Outcome)
    ensures videoUrl.None? || videoUrl.value == "" ==> o == Sent(NotFound("Video not found"))
    ensures videoUrl.Some? && videoUrl.value != "" && !fileExists ==> o == Sent(NotFound("Video file not found"))
    ensures videoUrl.Some? && videoUrl.value != "" && fileExists ==> o == RangedOrFull(range, size, Decimal)
  {
    if videoUrl.None? || videoUrl.value == "" then Sent(NotFound("Video not found"))
    else if !fileExists then Sent(NotFound("Video file not found"))
    else RangedOrFull(range, size, Decimal)
  }

  /** `GET /api/videos/:filename` of MovieStreamingHub; its `parseInt` calls
      pass no radix, so a `0x` prefix is read as hexadecimal. */
  function ServeVideo(fileExists: bool, size: nat, range: Option<string>): (o: Outcome)
    ensures !fileExists ==> o == Sent(NotFound("Video file not found"))
    ensures fileExists ==> o == RangedOrFull(range, size, Unspecified)
  {
    if !fileExists then Sent(NotFound("Video file not found"))
    else RangedOrFull(range, size, Unspecified)
  }

  // ------------------------------------------------- reading Content-Range

  /** A strict `1*DIGIT` reader. */
  function ParseDecimal(s: string): (r: Option<nat>)
    ensures r.Some? ==> s != "" && AllDigits(s)
  {
    if s != "" && AllDigits(s) then Some(DigitsValue(s, false)) else None
  }

  lemma ParseDecimalOfNat(n: nat)
    ensures ParseDecimal(NatToString(n)) == Some(n)
  {
    DecimalValueOfNatToString(n);
  }

  /** A reader for the `bytes <first>-<last>/<complete-length>` form of a
      `Content-Range` value (section 4.2 of RFC 7233). */
  function ParseContentRange(h: string): Option<(nat, nat, nat)>
  {
    if !StartsWith(h, "bytes ") then None
    else
      var halves := Split(h[6..], '/');
      if |halves| != 2 then None
      else
        var ends := Split(halves[0], '-');
        if |ends| != 2 then None
        else
          match (ParseDecimal(ends[0]), ParseDecimal(ends[1]), ParseDecimal(halves[1]))
          case (Some(a), Some(b), Some(c)) => Some((a, b, c))
          case _ => None
  }

  lemma NoSeparatorInDigits(s: string, c: char)
    requires AllDigits(s) && !IsDigit(c)
    ensures c !in s
  {
  }

  lemma ContentRangeReads(a: string, b: string, c: string)
    requires a != "" && b != "" && c != ""
    requires AllDigits(a) && AllDigits(b) && AllDigits(c)
    ensures ParseContentRange("bytes " + a + "-" + b + "/" + c) ==
      Some((DigitsValue(a, false), DigitsValue(b, false), DigitsValue(c, false)))
  {
    var h := "bytes " + a + "-" + b + "/" + c;
    var span := a + "-" + b;
    assert StartsWith(h, "bytes ");
    assert h[6..] == span + ['/'] + c;
    NoSeparatorInDigits(a, '/');
    NoSeparatorInDigits(b, '/');
    NoSeparatorInDigits(c, '/');
    assert '/' !in span;
    SplitTwo(span, '/', c);
    NoSeparatorInDigits(a, '-');
    NoSeparatorInDigits(b, '-');
    assert span == a + ['-'] + b;
    SplitTwo(a, '-', b);
  }

  /** Every 206 with a finite end carries a `Content-Range` that reads back
      as the window and the file size, and a `Content-Length` equal to the
      number of bytes in the window. */
  lemma PartialContentRoundTrip(start: nat, end: nat, size: nat)
    requires start <= end
    ensures var r := PartialContent(Int(start), Int(end), size);
      r.contentRange.Some? &&
      ParseContentRange(r.contentRange.value) == Some((start, end, size)) &&
      r.contentLength == Some(Int(end - start + 1)) && r.contentLength.value.value >= 1 &&
      r.body == Window(start, end)
  {
    PartialContentOfNumbers(start, end, size);
    NumbersReadBack(start, end, size);
  }

  lemma PartialContentOfNumbers(start: nat, end: nat, size: nat)
    ensures PartialContent(Int(start), Int(end), size) == Response(206,
      Some("bytes " + NatToString(start) + "-" + NatToString(end) + "/" + NatToString(size)),
      Some("bytes"), Some(Int(end - start + 1)), Some("video/mp4"), Window(start, end))
  {
    assert NumText(Int(start)) == NatToString(start) && NumText(Int(end)) == NatToString(end);
    assert IntToString(size) == NatToString(size);
  }

  lemma NumbersReadBack(start: nat, end: nat, size: nat)
    ensures ParseContentRange("bytes " + NatToString(start) + "-" + NatToString(end) + "/" + NatToString(size)) ==
      Some((start, end, size))
  {
    ContentRangeReads(NatToString(start), NatToString(end), NatToString(size));
    DecimalValueOfNatToString(start);
    DecimalValueOfNatToString(end);
    DecimalValueOfNatToString(size);
  }

  // ------------------------------------------------------ header readings

  lemma ReplaceLeadingUnit(t: string)
    ensures ReplaceFirst("bytes=" + t, "bytes=", "") == t
  {
    var s := "bytes=" + t;
    assert s[0..6] == "bytes=";
    assert IndexFrom(s, "bytes=", 0) == Some(0);
    assert s[6..] == t;
  }

  /** The header pieces once "bytes=" is gone: `<a>-<b>`. */
  lemma BoundsOfPieces(a: string, b: string, size: int, radix: Radix)
    requires '-' !in a && '-' !in b
    ensures RangeBounds("bytes=" + a + "-" + b, size, radix) ==
      (ToNumber(ParseInt(a, radix)), ToNumber(if b == "" then Some(size - 1) else ParseInt(b, radix)))
  {
    assert "bytes=" + a + "-" + b == "bytes=" + (a + ['-'] + b);
    ReplaceLeadingUnit(a + ['-'] + b);
    SplitTwo(a, '-', b);
  }

  /** `bytes=<start>-` reads as the window from `start` to the last byte. */
  lemma OpenEndedBounds(start: nat, size: int, radix: Radix)
    ensures RangeBounds("bytes=" + NatToString(start) + "-", size, radix) == (ToNumber(Some(start)), ToNumber(Some(size - 1)))
  {
    var a := NatToString(start);
    NoSeparatorInDigits(a, '-');
    BoundsOfPieces(a, "", size, radix);
    assert "bytes=" + a + "-" + "" == "bytes=" + a + "-";
    ParseIntOfNatToString(start, radix);
  }

  /** `bytes=<start>-<end>` reads as exactly those two numbers. */
  lemma ClosedBounds(start: nat, end: nat, size: int, radix: Radix)
    ensures RangeBounds("bytes=" + NatToString(start) + "-" + NatToString(end), size, radix) ==
      (ToNumber(Some(start)), ToNumber(Some(end)))
  {
    var a, b := NatToString(start), NatToString(end);
    NoSeparatorInDigits(a, '-');
    NoSeparatorInDigits(b, '-');
    BoundsOfPieces(a, b, size, radix);
    assert b != [];
    ParseIntOfNatToString(start, radix);
    ParseIntOfNatToString(end, radix);
  }

  /** A start at or beyond the end of the file is not refused: with an end
      no smaller than it, the answer is still 206 with the raw numbers. */
  lemma UnsatisfiableRangeStillPartial(start: nat, end: nat, size: nat, radix: Radix)
    requires size <= start <= end <= MaxSafeInteger
    ensures RangedOrFull(Some("bytes=" + NatToString(start) + "-" + NatToString(end)), size, radix)
      == Sent(PartialContent(Int(start), Int(end), size))
  {
    ClosedBounds(start, end, size, radix);
  }

  /** A window whose start exceeds its end is never answered: Node refuses to
      open the stream and the error escapes the handler. */
  lemma InvertedRangeRaises(start: nat, end: nat, size: nat, radix: Radix)
    requires end < start
    ensures RangedOrFull(Some("bytes=" + NatToString(start) + "-" + NatToString(end)), size, radix) == Raised
  {
    ClosedBounds(start, end, size, radix);
  }

  /** A window ending past `Number.MAX_SAFE_INTEGER`, at a number JavaScript
      still holds as finite, is never answered either: Node's range check on
      the stream's `end` throws. */
  lemma OversizedRangeRaises(start: nat, end: nat, size: nat, radix: Radix)
    requires MaxSafeInteger < end < InfinityThreshold
    ensures RangedOrFull(Some("bytes=" + NatToString(start) + "-" + NatToString(end)), size, radix) == Raised
  {
    ClosedBounds(start, end, size, radix);
  }

  /** An end of `InfinityThreshold` or more is `Infinity` to JavaScript, and
      Node does not check such an end: the window is answered 206 with
      `Infinity` in `Content-Range` and `Content-Length`, a header that does
      not read back as section 4.2 of RFC 7233 defines it, and the stream runs
      to the end of the file. */
  lemma InfiniteEndServed(start: nat, end: nat, size: nat, radix: Radix)
    requires start <= MaxSafeInteger && InfinityThreshold <= end
    ensures var o := RangedOrFull(Some("bytes=" + NatToString(start) + "-" + NatToString(end)), size, radix);
      && o == Sent(PartialContent(Int(start), Infinity(false), size))
      && o.response.contentRange == Some("bytes " + NatToString(start) + "-Infinity/" + NatToString(size))
      && ParseContentRange(o.response.contentRange.value).None?
      && o.response.contentLength == Some(Infinity(false))
      && o.response.body == Rest(start)
  {
    ClosedBounds(start, end, size, radix);
    PartialContentToEnd(start, size);
  }

  lemma PartialContentToEnd(start: nat, size: nat)
    ensures var r := PartialContent(Int(start), Infinity(false), size);
      && r.contentRange == Some("bytes " + NatToString(start) + "-Infinity/" + NatToString(size))
      && ParseContentRange(r.contentRange.value).None?
      && r.contentLength == Some(Infinity(false))
      && r.body == Rest(start)
  {
    var a, c := NatToString(start), NatToString(size);
    assert NumText(Int(start)) == a && IntToString(size) == c;
    assert NumText(Infinity(false)) == "Infinity";
    assert "bytes " + a + "-" + "Infinity" + "/" + c == "bytes " + a + "-Infinity/" + c;
    InfiniteEndUnreadable(a, c);
  }

  /** `bytes <first>-Infinity/<length>` is not a `Content-Range` value. */
  lemma InfiniteEndUnreadable(a: string, c: string)
    requires AllDigits(a) && AllDigits(c)
    ensures ParseContentRange("bytes " + a + "-Infinity/" + c).None?
  {
    var h := "bytes " + a + "-Infinity/" + c;
    var span := a + "-Infinity";
    assert StartsWith(h, "bytes ");
    assert h[6..] == span + ['/'] + c;
    NoSeparatorInDigits(a, '/');
    NoSeparatorInDigits(c, '/');
    assert '/' !in span;
    SplitTwo(span, '/', c);
    NoSeparatorInDigits(a, '-');
    assert span == a + ['-'] + "Infinity";
    SplitTwo(a, '-', "Infinity");
    assert !IsDigit("Infinity"[0]);
  }

  /** The unit is never checked: "0-10" without "bytes=" is served as bytes 0-10. */
  lemma UnitNotChecked(size: nat)
    ensures RangedOrFull(Some("0-10"), size, Decimal) == Sent(PartialContent(Int(0), Int(10), size))
  {
    var zero, ten := NatToString(0), NatToString(10);
    assert RangeBounds("0-10", size, Decimal) == (Int(0), Int(10)) by {
      assert zero == "0" && ten == "10";
      assert IndexOf("0-10", "bytes=") == None;
      assert "0-10" == zero + ['-'] + ten;
      SplitTwo(zero, '-', ten);
      ParseIntOfNatToString(0, Decimal);
      ParseIntOfNatToString(10, Decimal);
    }
  }

  lemma SomeDecimals()
    ensures NatToString(900) == "900" && NatToString(999) == "999"
    ensures NatToString(1000) == "1000"
  {
    assert NatToString(9) == "9" && NatToString(90) == "90";
    assert NatToString(99) == "99";
    assert NatToString(1) == "1" && NatToString(10) == "10" && NatToString(100) == "100";
  }

  lemma OpenEndedServed(start: nat, size: nat, radix: Radix)
    requires start < size <= MaxSafeInteger + 1
    ensures RangedOrFull(Some("bytes=" + NatToString(start) + "-"), size, radix)
      == Sent(PartialContent(Int(start), Int(size - 1), size))
  {
    OpenEndedBounds(start, size, radix);
  }

  lemma LastHundredText(a: string, b: string, c: string)
    requires a == "900" && b == "999" && c == "1000"
    ensures "bytes=" + a + "-" == "bytes=900-"
    ensures "bytes " + a + "-" + b + "/" + c == "bytes 900-999/1000"
  {
  }

  /** On a 1000-byte file, `bytes=900-` is answered with the last 100 bytes. */
  lemma LastHundredBytes()
    ensures RangedOrFull(Some("bytes=900-"), 1000, Decimal) ==
      Sent(Response(206, Some("bytes 900-999/1000"), Some("bytes"), Some(Int(100)), Some("video/mp4"), Window(900, 999)))
  {
    SomeDecimals();
    LastHundredText(NatToString(900), NatToString(999), NatToString(1000));
    OpenEndedServed(900, 1000, Decimal);
  }
}

=== FILE: search_params.dfy ===
/** The browser's `URLSearchParams`, restricted to what the embed feature
    uses: building a query from name/value pairs, reading one back from
    `location.search`, and `get`. Every name and value involved is plain
    ASCII that needs no percent-encoding, so encoding is the identity. */
module SearchParams {
  import opened Options
  import opened JsText

  datatype Param = Param(name: string, value: string)

  /** `name=value`. */
  function PairText(p: Param): string {
    p.name + "=" + p.value
  }

  function PairTexts(ps: seq<Param>): (r: seq<string>)
    ensures |r| == |ps|
    ensures forall i :: 0 <= i < |ps| ==> r[i] == PairText(ps[i])
  {
    if ps == [] then [] else [PairText(ps[0])] + PairTexts(ps[1..])
  }

  /** `params.toString()`: the pairs joined by `&`. */
  function Serialize(ps: seq<Param>): string {
    Join(PairTexts(ps), '&')
  }

  /** One `&`-separated piece as a pair: the name runs up to the first `=`,
      the value is the rest; a piece without `=` is a name with an empty value. */
  function ParamOf(piece: string): (p: Param)
    ensures '=' !in p.name
    ensures '=' in piece ==> piece == PairText(p)
    ensures '=' !in piece ==> p == Param(piece, "")
  {
    if '=' in piece then
      var i := FirstIndexOfChar(piece, '=');
      assert piece == piece[..i] + "=" + piece[i + 1..];
      Param(piece[..i], piece[i + 1..])
    else Param(piece, "")
  }

  /** The pieces read in order, empty pieces skipped. */
  function ParamsOf(pieces: seq<string>): (ps: seq<Param>)
    ensures |ps| <= |pieces|
  {
    if pieces == [] then []
    else (if pieces[0] == "" then [] else [ParamOf(pieces[0])]) + ParamsOf(pieces[1..])
  }

  /** `new URLSearchParams(search)`: a leading `?` is dropped, then the text is
      cut at every `&`. */
  function Parse(search: string): seq<Param> {
    var query := if search != [] && search[0] == '?' then search[1..] else search;
    ParamsOf(Split(query, '&'))
  }

  /** `params.get(name)`: the value of the first pair with that name. */
  function Get(ps: seq<Param>, name: string): (r: Option<string>)
    ensures r.None? <==> forall i :: 0 <= i < |ps| ==> ps[i].name != name
    ensures r.Some? ==> Param(name, r.value) in ps
  {
    if ps == [] then None
    else if ps[0].name == name then Some(ps[0].value)
    else Get(ps[1..], name)
  }

  /** `get` on joined lists looks in the second only when the first has no match. */
  lemma GetConcat(a: seq<Param>, b: seq<Param>, name: string)
    ensures Get(a + b, name) == if Get(a, name).Some? then Get(a, name) else Get(b, name)
  {
    if a != [] {
      assert (a + b)[1..] == a[1..] + b;
      GetConcat(a[1..], b, name);
    } else {
      assert a + b == b;
    }
  }

  /** A pair that survives the round trip: a non-empty name without `=` or
      `&`, a value without `&`. */
  predicate Plain(p: Param) {
    p.name != "" && '=' !in p.name && '&' !in p.name && '&' !in p.value
  }

  predicate AllPlain(ps: seq<Param>) {
    forall i :: 0 <= i < |ps| ==> Plain(ps[i])
  }

  lemma AllPlainConcat(a: seq<Param>, b: seq<Param>)
    requires AllPlain(a) && AllPlain(b)
    ensures AllPlain(a + b)
  {
  }

  lemma ParamOfPairText(p: Param)
    requires '=' !in p.name
    ensures ParamOf(PairText(p)) == p
  {
    var t := PairText(p);
    assert t == p.name + ['='] + p.value;
    FirstIndexOfCharAfter(p.name, '=', p.value);
    assert t[..|p.name|] == p.name && t[|p.name| + 1..] == p.value;
  }

  lemma {:induction false} ParamsOfPairTexts(ps: seq<Param>)
    requires AllPlain(ps)
    ensures ParamsOf(PairTexts(ps)) == ps
  {
    if ps != [] {
      var ts := PairTexts(ps);
      assert ts[0] == PairText(ps[0]) && ts[0] != "";
      ParamOfPairText(ps[0]);
      assert ts[1..] == PairTexts(ps[1..]);
      ParamsOfPairTexts(ps[1..]);
    }
  }

  /** Parsing a serialised query recovers the pairs, in order. */
  lemma ParseSerialize(ps: seq<Param>)
    requires AllPlain(ps)
    ensures Parse("?" + Serialize(ps)) == ps
  {
    var ts := PairTexts(ps);
    assert ("?" + Serialize(ps))[1..] == Serialize(ps);
    if ps == [] {
      assert Split("", '&') == [""];
    } else {
      assert forall i :: 0 <= i < |ts| ==> '&' !in ts[i] by {
        forall i | 0 <= i < |ts| ensures '&' !in ts[i] {
          assert ts[i] == ps[i].name + "=" + ps[i].value;
        }
      }
      SplitJoin(ts, '&');
      ParamsOfPairTexts(ps);
    }
  }
}

=== FILE: seqs.dfy ===
/** Order-preserving sequence helpers shared by the stores and the client
    views: `Array#filter`, `Array#slice(0, n)`, set-like lists without
    duplicates, and the subsequence relation used to state "keeps input order". */
module Seqs {
  import opened Options

  /** `a` is obtained from `b` by deleting elements, keeping the order of the rest. */
  predicate IsSubsequence<T(==)>(a: seq<T>, b: seq<T>)
    decreases |b|
  {
    if a == [] then true
    else if b == [] then false
    else (a[0] == b[0] && IsSubsequence(a[1..], b[1..])) || IsSubsequence(a, b[1..])
  }

  lemma SubsequenceOfItself<T>(s: seq<T>)
    ensures IsSubsequence(s, s)
  {
    if s != [] {
      SubsequenceOfItself(s[1..]);
    }
  }

  /** `s.filter(p)`. */
  function Filter<T(!new)>(s: seq<T>, p: T -> bool): (r: seq<T>)
    ensures |r| <= |s|
    ensures forall x {:trigger x in r} :: x in r <==> x in s && p(x)
    ensures forall i :: 0 <= i < |r| ==> p(r[i])
  {
    if s == [] then []
    else if p(s[0]) then [s[0]] + Filter(s[1..], p)
    else Filter(s[1..], p)
  }

  /** The filter keeps the order of what it keeps. */
  lemma {:induction false} FilterIsSubsequence<T(!new)>(s: seq<T>, p: T -> bool)
    ensures IsSubsequence(Filter(s, p), s)
    decreases |s|
  {
    if s != [] {
      FilterIsSubsequence(s[1..], p);
      var rest := Filter(s[1..], p);
      if p(s[0]) {
        assert ([s[0]] + rest)[1..] == rest;
      } else if rest != [] {
        assert IsSubsequence(rest, s[1..]);
      }
    }
  }

  lemma {:induction false} FilterAppend<T(!new)>(a: seq<T>, b: seq<T>, p: T -> bool)
    ensures Filter(a + b, p) == Filter(a, p) + Filter(b, p)
    decreases |a|
  {
    if a == [] {
      assert a + b == b;
    } else {
      var ab := a + b;
      assert ab[0] == a[0] && ab[1..] == a[1..] + b;
      FilterAppend(a[1..], b, p);
      if p(a[0]) {
        assert Filter(ab, p) == [a[0]] + Filter(ab[1..], p);
        assert Filter(a, p) == [a[0]] + Filter(a[1..], p);
      } else {
        assert Filter(ab, p) == Filter(ab[1..], p);
        assert Filter(a, p) == Filter(a[1..], p);
      }
    }
  }

  /** The number of elements satisfying `p`. */
  function CountWhere<T(!new)>(s: seq<T>, p: T -> bool): (n: nat)
    ensures n == |Filter(s, p)|
    ensures n <= |s|
  {
    if s == [] then 0 else (if p(s[0]) then 1 else 0) + CountWhere(s[1..], p)
  }

  predicate NoDuplicates<T(==)>(s: seq<T>) {
    forall i, j :: 0 <= i < j < |s| ==> s[i] != s[j]
  }

  /** `s.filter(y => y !== x)`: every occurrence of `x` removed. */
  function RemoveAll<T(==,!new)>(s: seq<T>, x: T): (r: seq<T>)
    ensures x !in r
    ensures forall y :: y != x ==> (y in r <==> y in s)
    ensures IsSubsequence(r, s)
    ensures NoDuplicates(s) ==> NoDuplicates(r)
    ensures x !in s ==> r == s
  {
    if s == [] then []
    else if s[0] == x then RemoveAll(s[1..], x)
    else
      var rest := RemoveAll(s[1..], x);
      assert ([s[0]] + rest)[1..] == rest;
      assert NoDuplicates(s) ==> s[0] !in s[1..];
      [s[0]] + rest
  }

  /** Every copy of `x` goes and every copy of anything else stays. */
  lemma {:induction false} RemoveAllMultiset<T(!new)>(s: seq<T>, x: T)
    ensures multiset(RemoveAll(s, x)) == multiset(s)[x := 0]
  {
    if s != [] {
      RemoveAllMultiset(s[1..], x);
      assert s == [s[0]] + s[1..];
      if s[0] != x {
        assert RemoveAll(s, x) == [s[0]] + RemoveAll(s[1..], x);
      }
    }
  }

  /** `includes(x) ? s : [...s, x]`: append unless already present. */
  function AddIfAbsent<T(==,!new)>(s: seq<T>, x: T): (r: seq<T>)
    ensures x in r
    ensures forall y :: y in r <==> y in s || y == x
    ensures s <= r
    ensures NoDuplicates(s) ==> NoDuplicates(r)
  {
    if x in s then s else s + [x]
  }

  lemma AddIfAbsentIdempotent<T(!new)>(s: seq<T>, x: T)
    ensures AddIfAbsent(AddIfAbsent(s, x), x) == AddIfAbsent(s, x)
  {
  }

  /** `s.findIndex(p)`: the position of the first element satisfying `p`,
      `None` for JavaScript's `-1`. `s.find(p)` is the element there. */
  function FirstIndex<T>(s: seq<T>, p: T -> bool): (r: Option<nat>)
    ensures r.Some? ==> r.value < |s| && p(s[r.value])
    ensures r.Some? ==> forall j :: 0 <= j < r.value ==> !p(s[j])
    ensures r.None? <==> forall j :: 0 <= j < |s| ==> !p(s[j])
  {
    if s == [] then None
    else if p(s[0]) then Some(0)
    else match FirstIndex(s[1..], p)
      case None => None
      case Some(i) => Some(i + 1)
  }

  /** `s.slice(0, end)` with JavaScript's handling of a negative end (counted
      from the back). */
  function SliceTo<T>(s: seq<T>, end: int): (r: seq<T>)
    ensures r <= s
    ensures end >= 0 ==> |r| == if end < |s| then end else |s|
    ensures end < 0 ==> |r| == if |s| + end > 0 then |s| + end else 0
  {
    if end >= 0 then (if end < |s| then s[..end] else s)
    else if |s| + end > 0 then s[..|s| + end]
    else []
  }

  /** A prefix of a subsequence is a subsequence. */
  lemma {:induction false} PrefixOfSubsequence<T>(a: seq<T>, b: seq<T>, c: seq<T>)
    requires a <= b && IsSubsequence(b, c)
    ensures IsSubsequence(a, c)
    decreases |c|
  {
    if a != [] && c != [] {
      if b[0] == c[0] && IsSubsequence(b[1..], c[1..]) {
        PrefixOfSubsequence(a[1..], b[1..], c[1..]);
      } else {
        PrefixOfSubsequence(a, b, c[1..]);
      }
    }
  }

  lemma PrefixMembers<T>(a: seq<T>, b: seq<T>)
    requires a <= b
    ensures forall x :: x in a ==> x in b
  {
    forall x | x in a ensures x in b {
      var i :| 0 <= i < |a| && a[i] == x;
      assert b[i] == x;
    }
  }

  /** Filtering with a predicate that agrees with another everywhere on `s`
      gives the same result. */
  lemma FilterSame<T(!new)>(s: seq<T>, p: T -> bool, q: T -> bool)
    requires forall x :: x in s ==> p(x) == q(x)
    ensures Filter(s, p) == Filter(s, q)
  {
    if s != [] {
      FilterSame(s[1..], p, q);
    }
  }

  /** A filter that keeps nothing is empty. */
  lemma FilterNone<T(!new)>(s: seq<T>, p: T -> bool)
    requires forall i :: 0 <= i < |s| ==> !p(s[i])
    ensures Filter(s, p) == []
  {
    if s != [] {
      FilterNone(s[1..], p);
    }
  }

  /** A filter that keeps everything is the identity. */
  lemma FilterAll<T(!new)>(s: seq<T>, p: T -> bool)
    requires forall x :: x in s ==> p(x)
    ensures Filter(s, p) == s
  {
    if s != [] {
      FilterAll(s[1..], p);
    }
  }

  /** Narrowing a filter: `p` implies `q`, so filtering by `q` first loses
      nothing `p` keeps. */
  lemma FilterOfFilter<T(!new)>(s: seq<T>, p: T -> bool, q: T -> bool)
    requires forall x :: x in s && p(x) ==> q(x)
    ensures Filter(Filter(s, q), p) == Filter(s, p)
  {
    if s != [] {
      FilterOfFilter(s[1..], p, q);
    }
  }

  /** The elements of a list of lists, in order: `[].concat(...ss)`. */
  function Concat<T>(ss: seq<seq<T>>): (r: seq<T>)
  {
    if ss == [] then [] else ss[0] + Concat(ss[1..])
  }

  /** At most one occurrence of every element, stated through the multiset. */
  lemma {:induction false} NoDuplicatesCount<T>(s: seq<T>, x: T)
    requires NoDuplicates(s)
    ensures multiset(s)[x] <= 1
  {
    if s != [] {
      var n := |s| - 1;
      assert s == s[..n] + [s[n]];
      assert NoDuplicates(s[..n]);
      NoDuplicatesCount(s[..n], x);
      if s[n] == x {
        assert x !in s[..n];
      }
    }
  }

  /** A permutation of a list without duplicates has none either. */
  lemma PermutationNoDuplicates<T>(a: seq<T>, b: seq<T>)
    requires multiset(a) == multiset(b) && NoDuplicates(a)
    ensures NoDuplicates(b)
  {
    forall i, j | 0 <= i < j < |b| ensures b[i] != b[j] {
      if b[i] == b[j] {
        assert b == b[..j] + b[j..];
        assert b[i] in b[..j] && b[j] in b[j..];
        assert multiset(b)[b[i]] == multiset(b[..j])[b[i]] + multiset(b[j..])[b[i]];
        NoDuplicatesCount(a, b[i]);
      }
    }
  }
}

=== FILE: uploads.dfy ===
/** Upload acceptance and file-type rules: the multer `destination` and
    `fileFilter` callbacks of MovieStreamHost and MovieStreamingHub, the
    role-based default profile picture of MovieStreamHost, and the content
    type MovieStreamingHub sends with a thumbnail. */
module Uploads {
  import opened Options
  import opened JsText

  // ------------------------------------------------------ default pictures

  /** MovieStreamHost's `getDefaultProfilePicture`. */
  function DefaultProfilePicture(role: string): (path: string)
    ensures role == "owner" ==> path == "/images/owner/owner.png"
    ensures role == "member" ==> path == "/images/member/member.png"
    ensures role != "owner" && role != "member" ==> path == "/images/visitor/visitor.png"
  {
    if role == "owner" then "/images/owner/owner.png"
    else if role == "member" then "/images/member/member.png"
    else "/images/visitor/visitor.png"
  }

  /** Two roles share a default picture exactly when both are "owner", both
      are "member", or neither is one of those two. */
  lemma DefaultPictureSeparatesRoles(a: string, b: string)
    ensures DefaultProfilePicture(a) == DefaultProfilePicture(b) <==>
      (a == b == "owner") || (a == b == "member") ||
      (a != "owner" && a != "member" && b != "owner" && b != "member")
  {
  }

  // ------------------------------------------------------ MovieStreamHost

  datatype Folder = Videos | Thumbnails | ProfilePictures

  /** The `destination` callback: the folder for a form field, or `None` for
      the "Invalid fieldname" error. */
  function HostDestination(field: string): (d: Option<Folder>)
    ensures d.None? <==> field !in {"video", "thumbnail", "profilePicture"}
    ensures d == Some(Videos) <==> field == "video"
    ensures d == Some(Thumbnails) <==> field == "thumbnail"
    ensures d == Some(ProfilePictures) <==> field == "profilePicture"
  {
    if field == "video" then Some(Videos)
    else if field == "thumbnail" then Some(Thumbnails)
    else if field == "profilePicture" then Some(ProfilePictures)
    else None
  }

  const HostVideoTypes: seq<string> := [".mp4", ".mov", ".avi", ".mkv", ".webm"]
  const HostThumbnailTypes: seq<string> := [".jpg", ".jpeg", ".png", ".gif", ".webp"]
  const HostPictureTypes: seq<string> := [".png", ".jpg", ".jpeg", ".ico"]

  /** The extension multer's filter compares: `path.extname(name).toLowerCase()`. */
  function LowerExtension(name: string): string {
    ToLower(Extname(name))
  }

  /** A name without a dot has no extension. */
  lemma NoDotNoExtension(name: string)
    ensures '.' !in name ==> LowerExtension(name) == ""
  {
    var r, q := Extname(name), StripTrailingSlashes(name);
    if r != [] {
      assert q[|q| - |r|] == r[0] == '.';
      assert name[|q| - |r|] == '.';
    }
  }

  /** MovieStreamHost's `fileFilter`: the three known fields need a
      whitelisted extension; any other field is let through. */
  function HostFileFilter(field: string, originalName: string): (accepted: bool)
    ensures field !in {"video", "thumbnail", "profilePicture"} ==> accepted
    ensures field in {"video", "thumbnail", "profilePicture"} && '.' !in originalName ==> !accepted
  {
    var ext := LowerExtension(originalName);
    NoDotNoExtension(originalName);
    if field == "video" then ext in HostVideoTypes
    else if field == "thumbnail" then ext in HostThumbnailTypes
    else if field == "profilePicture" then ext in HostPictureTypes
    else true
  }

  function HostWhitelist(field: string): seq<string> {
    if field == "video" then HostVideoTypes
    else if field == "thumbnail" then HostThumbnailTypes
    else HostPictureTypes
  }

  /** A file named `stem.ext`, in any letter case, passes the filter of a
      known field exactly when `.ext` lower-cased is on that field's list. */
  lemma HostFilterByExtension(field: string, stem: string, ext: string)
    requires field in {"video", "thumbnail", "profilePicture"}
    requires stem != [] && '/' !in stem
    requires ext != [] && '.' !in ext && '/' !in ext
    ensures HostFileFilter(field, stem + "." + ext) <==> ToLower("." + ext) in HostWhitelist(field)
  {
    ExtnameOf(stem, ext);
  }

  /** A dot-file has no extension, so ".mp4" itself is not a video. */
  lemma HostFilterRejectsDotFile(ext: string)
    requires ext != [] && '.' !in ext && '/' !in ext
    ensures !HostFileFilter("video", "." + ext)
  {
    DotFileExtname(ext);
  }

  /** A dot-file has no extension. */
  lemma DotFileExtname(ext: string)
    requires ext != [] && '.' !in ext && '/' !in ext
    ensures Extname("." + ext) == ""
  {
    var p := "." + ext;
    DotFileComponent(ext);
    assert p == "" + "." + ext;
    DottedName("", ext);
  }

  lemma DotFileComponent(ext: string)
    requires ext != [] && '/' !in ext
    ensures var p := "." + ext; StripTrailingSlashes(p) == p && LastSegment(p, '/') == p
  {
    var p := "." + ext;
    assert p[|p| - 1] == ext[|ext| - 1];
    assert '/' !in p by { assert p == ['.'] + ext; }
    LastSegmentWithoutSeparator(p, '/');
  }

  // -------------------------------------------------- MovieStreamingHub

  /** MovieStreamingHub's `destination`: only "video" and "thumbnail". */
  function HubDestination(field: string): (d: Option<Folder>)
    ensures d.None? <==> field != "video" && field != "thumbnail"
    ensures d.Some? ==> d.value != ProfilePictures
  {
    if field == "video" then Some(Videos)
    else if field == "thumbnail" then Some(Thumbnails)
    else None
  }

  const HubVideoTokens: seq<string> := ["mp4", "mkv", "avi", "mov", "webm"]
  const HubImageTokens: seq<string> := ["jpeg", "jpg", "png", "gif", "webp"]

  /** `regex.test(s)` for an unanchored alternation of literal words: some
      word occurs somewhere in `s`. */
  predicate MatchesAnyWord(s: string, words: seq<string>) {
    words != [] && (Contains(s, words[0]) || MatchesAnyWord(s, words[1..]))
  }

  lemma MatchesAnyWordIff(s: string, words: seq<string>)
    ensures MatchesAnyWord(s, words) <==> exists i :: 0 <= i < |words| && Contains(s, words[i])
  {
    if words != [] {
      MatchesAnyWordIff(s, words[1..]);
      if MatchesAnyWord(s, words[1..]) {
        var i :| 0 <= i < |words[1..]| && Contains(s, words[1..][i]);
        assert Contains(s, words[i + 1]);
      }
      if exists i :: 0 <= i < |words| && Contains(s, words[i]) {
        var i :| 0 <= i < |words| && Contains(s, words[i]);
        if i > 0 { assert words[1..][i - 1] == words[i]; }
      }
    }
  }

  /** MovieStreamingHub's `videoFilter`: both the MIME type and the
      lower-cased extension must contain one of the field's words; any other
      field is refused ("Unexpected field"). */
  function HubFileFilter(field: string, mimetype: string, originalName: string): (accepted: bool)
    ensures field == "video" ==>
      (accepted <==> MatchesAnyWord(mimetype, HubVideoTokens) && MatchesAnyWord(LowerExtension(originalName), HubVideoTokens))
    ensures field == "thumbnail" ==>
      (accepted <==> MatchesAnyWord(mimetype, HubImageTokens) && MatchesAnyWord(LowerExtension(originalName), HubImageTokens))
    ensures field != "video" && field != "thumbnail" ==> !accepted
  {
    if field == "video" then
      MatchesAnyWord(mimetype, HubVideoTokens) && MatchesAnyWord(LowerExtension(originalName), HubVideoTokens)
    else if field == "thumbnail" then
      MatchesAnyWord(mimetype, HubImageTokens) && MatchesAnyWord(LowerExtension(originalName), HubImageTokens)
    else false
  }

  /** The error `videoFilter` passes to multer when it refuses a file. */
  function HubFilterError(field: string): (message: string)
    ensures message != ""
  {
    if field == "video" then "Only video files are allowed!"
    else if field == "thumbnail" then "Only image files are allowed for thumbnails!"
    else "Unexpected field"
  }

  lemma NotContainedWhenCharMissing(s: string, pat: string, k: nat)
    requires k < |pat| && pat[k] !in s
    ensures !Contains(s, pat)
  {
  }

  lemma LowerExtensionOfLowerName(stem: string, ext: string)
    requires stem != [] && '/' !in stem
    requires ext != [] && '.' !in ext && '/' !in ext
    requires forall i :: 0 <= i < |ext| ==> !('A' <= ext[i] <= 'Z')
    ensures LowerExtension(stem + "." + ext) == "." + ext
  {
    ExtnameOf(stem, ext);
    LowerDotted(ext);
  }

  /** A dot and lower-case letters are left alone by `toLowerCase`. */
  lemma LowerDotted(ext: string)
    requires forall i :: 0 <= i < |ext| ==> !('A' <= ext[i] <= 'Z')
    ensures ToLower("." + ext) == "." + ext
  {
    var e := "." + ext;
    forall i | 0 <= i < |e| ensures LowerChar(e[i]) == e[i] {
      if i > 0 { assert e[i] == ext[i - 1]; }
    }
  }

  lemma Mp4IsVideoWord(s: string)
    requires Contains(s, "mp4")
    ensures MatchesAnyWord(s, HubVideoTokens)
  {
    assert HubVideoTokens[0] == "mp4";
  }

  lemma Mp4MimeIsVideo(mime: string)
    requires mime == "video/mp4"
    ensures MatchesAnyWord(mime, HubVideoTokens)
  {
    ContainsInfix("video/", "mp4", "");
    assert "video/" + "mp4" + "" == mime;
    Mp4IsVideoWord(mime);
  }

  lemma Mp4xExtension(e: string, ext: string)
    requires ext == "mp4x" && e == "." + ext
    ensures MatchesAnyWord(e, HubVideoTokens)
  {
    assert e == "." + "mp4" + "x";
    ContainsInfix(".", "mp4", "x");
    Mp4IsVideoWord(e);
  }

  lemma Mp4xNameIsVideo(stem: string, ext: string)
    requires stem != [] && '/' !in stem && ext == "mp4x"
    ensures MatchesAnyWord(LowerExtension(stem + "." + ext), HubVideoTokens)
  {
    assert forall i :: 0 <= i < |ext| ==> !('A' <= ext[i] <= 'Z');
    LowerExtensionOfLowerName(stem, ext);
    Mp4xExtension("." + ext, ext);
  }

  /** The words are not anchored: an extension that merely contains one, such
      as ".mp4x", passes. */
  lemma HubFilterAcceptsLongerExtension(mime: string, stem: string, ext: string)
    requires mime == "video/mp4" && stem != [] && '/' !in stem && ext == "mp4x"
    ensures HubFileFilter("video", mime, stem + "." + ext)
  {
    Mp4MimeIsVideo(mime);
    Mp4xNameIsVideo(stem, ext);
  }

  lemma MsVideoLacksMov(mime: string)
    requires mime == "video/x-msvideo"
    ensures !Contains(mime, "mov")
  {
    forall j | 0 <= j ensures !OccursAt(mime, "mov", j) {
      if j + 3 <= |mime| {
        assert mime[j] != 'm' || mime[j + 1] != 'o';
        assert mime[j..j + 3][0] == mime[j] && mime[j..j + 3][1] == mime[j + 1];
      }
    }
  }

  /** The registered MIME type of `.avi` files, `video/x-msvideo`, contains
      none of the words, so an AVI file sent with it is refused. */
  lemma MsVideoLacksWords(mime: string)
    requires mime == "video/x-msvideo"
    ensures forall i :: 0 <= i < |HubVideoTokens| ==> !Contains(mime, HubVideoTokens[i])
  {
    NotContainedWhenCharMissing(mime, "mp4", 2);
    NotContainedWhenCharMissing(mime, "mkv", 1);
    NotContainedWhenCharMissing(mime, "avi", 0);
    NotContainedWhenCharMissing(mime, "webm", 0);
    MsVideoLacksMov(mime);
  }

  /** A video whose MIME type contains none of the words is refused whatever
      its name. */
  lemma HubFilterNeedsVideoWordInMime(mime: string, name: string)
    requires forall i :: 0 <= i < |HubVideoTokens| ==> !Contains(mime, HubVideoTokens[i])
    ensures !HubFileFilter("video", mime, name)
  {
    MatchesAnyWordIff(mime, HubVideoTokens);
  }

  // ------------------------------------------------------------ thumbnails

  /** The `Content-Type` sent for a thumbnail, chosen by the lower-cased
      extension, with JPEG as the fallback. */
  function ThumbnailContentType(name: string): (t: string)
    ensures t in {"image/png", "image/gif", "image/webp", "image/jpeg"}
    ensures t == "image/png" <==> LowerExtension(name) == ".png"
    ensures t == "image/gif" <==> LowerExtension(name) == ".gif"
    ensures t == "image/webp" <==> LowerExtension(name) == ".webp"
  {
    var ext := LowerExtension(name);
    if ext == ".png" then "image/png"
    else if ext == ".gif" then "image/gif"
    else if ext == ".webp" then "image/webp"
    else "image/jpeg"
  }

  /** `GET /api/thumbnails/:filename`: 404 when the file is missing, otherwise
      200 with the content type above. */
  function ThumbnailResponse(fileExists: bool, name: string): (r: (int, Option<string>))
    ensures !fileExists ==> r == (404, None)
    ensures fileExists ==> r == (200, Some(ThumbnailContentType(name)))
  {
    if !fileExists then (404, None) else (200, Some(ThumbnailContentType(name)))
  }

  /** Upper-case extensions are served like lower-case ones; anything that is
      not PNG, GIF or WebP, including a name with no extension, is sent as JPEG. */
  lemma ThumbnailTypeByExtension(stem: string, ext: string)
    requires stem != [] && '/' !in stem
    requires ext != [] && '.' !in ext && '/' !in ext
    ensures ThumbnailContentType(stem + "." + ext) ==
      (if ToLower("." + ext) == ".png" then "image/png"
       else if ToLower("." + ext) == ".gif" then "image/gif"
       else if ToLower("." + ext) == ".webp" then "image/webp"
       else "image/jpeg")
  {
    ExtnameOf(stem, ext);
  }
}

=== FILE: web_admin.dfy ===
/** MovieWeb's admin dashboard: the pending lock and unlock changes the
    panel collects before saving, the save that sends them, the username
    search, and the per-user row (`user-list-item.tsx`). The pending sets
    are JavaScript `Set`s, which iterate in insertion order, so they are
    sequences without duplicates here. */
module WebAdmin {
  import opened Options
  import opened JsText
  import opened Seqs
  import opened WebStore

  datatype Pending = Pending(locked: seq<int>, unlocked: seq<int>)

  /** No id is pending in both directions, and neither set repeats an id. */
  predicate Disjoint(p: Pending) {
    && NoDuplicates(p.locked) && NoDuplicates(p.unlocked)
    && forall x :: x in p.locked ==> x !in p.unlocked
  }

  const NoChanges := Pending([], [])

  /** `handleToggleLock`: the stored `isLocked` decides. An unlocked user is
      queued for locking and taken out of the unlock queue; a locked user the
      other way round. */
  function ToggleLock(p: Pending, u: User): (r: Pending)
    ensures !u.isLocked ==> u.id in r.locked && u.id !in r.unlocked
    ensures u.isLocked ==> u.id in r.unlocked && u.id !in r.locked
    ensures forall x :: x != u.id ==> (x in r.locked <==> x in p.locked) && (x in r.unlocked <==> x in p.unlocked)
    ensures Disjoint(p) ==> Disjoint(r)
  {
    if !u.isLocked then Pending(AddIfAbsent(p.locked, u.id), RemoveAll(p.unlocked, u.id))
    else Pending(RemoveAll(p.locked, u.id), AddIfAbsent(p.unlocked, u.id))
  }

  /** Toggling the same row twice queues the same change as toggling it
      once: the second click reads the same stored state. */
  lemma ToggleTwice(p: Pending, u: User)
    ensures ToggleLock(ToggleLock(p, u), u) == ToggleLock(p, u)
  {
    var r := ToggleLock(p, u);
    if !u.isLocked {
      AddIfAbsentIdempotent(p.locked, u.id);
    } else {
      AddIfAbsentIdempotent(p.unlocked, u.id);
    }
  }

  /** A run of clicks, in order. */
  function ToggleAll(p: Pending, clicks: seq<User>): (r: Pending)
    ensures Disjoint(p) ==> Disjoint(r)
    decreases |clicks|
  {
    if clicks == [] then p else ToggleAll(ToggleLock(p, clicks[0]), clicks[1..])
  }

  /** The sets stay disjoint whatever the users click, starting from none. */
  lemma ClicksKeepDisjoint(clicks: seq<User>)
    ensures Disjoint(ToggleAll(NoChanges, clicks))
  {
  }

  datatype LockCall = LockCall(userId: int, isLocked: bool)

  function LockRequests(ids: seq<int>, isLocked: bool): (r: seq<LockCall>)
    ensures |r| == |ids|
    ensures forall i :: 0 <= i < |ids| ==> r[i] == LockCall(ids[i], isLocked)
  {
    if ids == [] then [] else [LockCall(ids[0], isLocked)] + LockRequests(ids[1..], isLocked)
  }

  /** The requests a save sends when all succeed: a lock for every queued
      lock, then an unlock for every queued unlock. */
  function SaveRequests(p: Pending): seq<LockCall> {
    LockRequests(p.locked, true) + LockRequests(p.unlocked, false)
  }

  datatype SaveOutcome = SaveOutcome(sent: seq<LockCall>, pending: Pending, succeeded: bool)

  /** `handleSaveChanges`: the requests go one after another; the first one
      the server refuses throws out of the handler, leaving both sets as
      they were. When all go through, both sets are emptied. */
  function SaveChanges(p: Pending, accepts: LockCall -> bool): (r: SaveOutcome)
    ensures r.sent <= SaveRequests(p)
    ensures r.succeeded <==> forall i :: 0 <= i < |SaveRequests(p)| ==> accepts(SaveRequests(p)[i])
    ensures r.succeeded ==> r.sent == SaveRequests(p) && r.pending == NoChanges
    ensures !r.succeeded ==> r.pending == p && r.sent != [] && !accepts(r.sent[|r.sent| - 1])
    ensures forall i :: 0 <= i < |r.sent| - 1 ==> accepts(r.sent[i])
  {
    var all := SaveRequests(p);
    match FirstIndex(all, (c: LockCall) => !accepts(c))
    case None => SaveOutcome(all, NoChanges, true)
    case Some(i) => SaveOutcome(all[..i + 1], p, false)
  }

  /** The stored lock flags after a run of successful requests, the later
      request winning. */
  function ApplyCalls(stored: map<int, bool>, calls: seq<LockCall>): map<int, bool>
    decreases |calls|
  {
    if calls == [] then stored
    else ApplyCalls(stored[calls[0].userId := calls[0].isLocked], calls[1..])
  }

  lemma {:induction false} ApplyRequests(stored: map<int, bool>, ids: seq<int>, flag: bool, k: int)
    ensures var r := ApplyCalls(stored, LockRequests(ids, flag));
      k in r <==> k in stored || k in ids
    ensures var r := ApplyCalls(stored, LockRequests(ids, flag));
      k in ids ==> k in r && r[k] == flag
    ensures var r := ApplyCalls(stored, LockRequests(ids, flag));
      k !in ids && k in stored ==> k in r && r[k] == stored[k]
    decreases |ids|
  {
    if ids != [] {
      var rest := LockRequests(ids[1..], flag);
      assert LockRequests(ids, flag) == [LockCall(ids[0], flag)] + rest;
      assert ([LockCall(ids[0], flag)] + rest)[1..] == rest;
      ApplyRequests(stored[ids[0] := flag], ids[1..], flag, k);
      assert k in ids ==> k == ids[0] || k in ids[1..];
    }
  }

  lemma {:induction false} ApplyConcat(stored: map<int, bool>, a: seq<LockCall>, b: seq<LockCall>)
    ensures ApplyCalls(stored, a + b) == ApplyCalls(ApplyCalls(stored, a), b)
    decreases |a|
  {
    if a != [] {
      assert (a + b)[0] == a[0] && (a + b)[1..] == a[1..] + b;
      ApplyConcat(stored[a[0].userId := a[0].isLocked], a[1..], b);
    } else {
      assert a + b == b;
    }
  }

  /** The lock state a row shows: pending lock first, then pending unlock,
      then the stored flag. */
  function IsCurrentlyLocked(u: User, isPendingLock: bool, isPendingUnlock: bool): (locked: bool)
    ensures isPendingLock ==> locked
    ensures !isPendingLock && isPendingUnlock ==> !locked
    ensures !isPendingLock && !isPendingUnlock ==> locked == u.isLocked
  {
    if isPendingLock then true else if isPendingUnlock then false else u.isLocked
  }

  /** The row as the panel renders it, from the pending sets. */
  function ShownLocked(p: Pending, u: User): bool {
    IsCurrentlyLocked(u, u.id in p.locked, u.id in p.unlocked)
  }

  /** A click flips what the row shows relative to the stored flag, and a
      second click does not flip it back. */
  lemma ToggleShowsOpposite(p: Pending, u: User)
    ensures ShownLocked(ToggleLock(p, u), u) == !u.isLocked
    ensures ShownLocked(ToggleLock(ToggleLock(p, u), u), u) == !u.isLocked
  {
    ToggleTwice(p, u);
  }

  /** A save that goes through leaves every listed user stored as its row
      showed before the save. */
  lemma SaveStoresWhatWasShown(p: Pending, stored: map<int, bool>, u: User)
    requires Disjoint(p)
    requires u.id in stored && stored[u.id] == u.isLocked
    ensures var r := ApplyCalls(stored, SaveRequests(p)); u.id in r && r[u.id] == ShownLocked(p, u)
  {
    var mid := ApplyCalls(stored, LockRequests(p.locked, true));
    ApplyConcat(stored, LockRequests(p.locked, true), LockRequests(p.unlocked, false));
    ApplyRequests(stored, p.locked, true, u.id);
    ApplyRequests(mid, p.unlocked, false, u.id);
  }

  /** The save button: disabled when nothing is queued, or while a lock
      request is in flight. */
  function SaveDisabled(p: Pending, lockRequestPending: bool): (disabled: bool)
    ensures !disabled <==> (p.locked != [] || p.unlocked != []) && !lockRequestPending
  {
    (|p.locked| == 0 && |p.unlocked| == 0) || lockRequestPending
  }

  /** After any click the button is enabled unless a request is in flight. */
  lemma ClickEnablesSave(p: Pending, u: User)
    ensures !SaveDisabled(ToggleLock(p, u), false)
  {
  }

  // ------------------------------------------------------------- search

  function NameMatches(term: string): User -> bool {
    (u: User) => Contains(ToLower(u.username), ToLower(term))
  }

  /** `filteredUsers`: the users whose name contains the search text,
      ignoring ASCII case, in list order. */
  function FilteredUsers(users: seq<User>, term: string): (r: seq<User>)
    ensures forall u :: u in r <==> u in users && Contains(ToLower(u.username), ToLower(term))
    ensures IsSubsequence(r, users)
  {
    FilterIsSubsequence(users, NameMatches(term));
    Filter(users, NameMatches(term))
  }

  lemma ContainsEmpty(s: string)
    ensures Contains(s, "")
  {
    assert OccursAt(s, "", 0);
    ContainsIffOccurs(s, "");
  }

  /** An empty search box lists every user. */
  lemma EmptySearchListsAll(users: seq<User>)
    ensures FilteredUsers(users, "") == users
  {
    forall u | u in users ensures NameMatches("")(u) {
      ContainsEmpty(ToLower(u.username));
    }
    FilterAll(users, NameMatches(""));
  }

  /** The case of the search text does not matter. */
  lemma SearchIgnoresCase(users: seq<User>, term: string)
    ensures FilteredUsers(users, term) == FilteredUsers(users, ToLower(term))
  {
    ToLowerIdempotent(term);
    FilterSame(users, NameMatches(term), NameMatches(ToLower(term)));
  }

  /** The line shown under the list when the search leaves no user: one
      that mentions the search when there is a search text. */
  function NoUsersNotice(users: seq<User>, term: string): (notice: Option<string>)
    ensures notice.Some? <==> FilteredUsers(users, term) == []
    ensures notice.Some? && term == "" ==> notice.value == "No users found."
    ensures notice.Some? && term != "" ==> notice.value == "No users found matching your search."
  {
    if FilteredUsers(users, term) != [] then None
    else if term != "" then Some("No users found matching your search.")
    else Some("No users found.")
  }

  /** Without a search text the notice appears only when there are no users
      at all. */
  lemma EmptySearchNotice(users: seq<User>)
    ensures NoUsersNotice(users, "") == if users == [] then Some("No users found.") else None
  {
    EmptySearchListsAll(users);
  }

  // ------------------------------------------------------------ user row

  /** The lock button is disabled for owners only. */
  function LockButtonDisabled(u: User): (disabled: bool)
    ensures disabled <==> u.role == "owner"
  {
    u.role == "owner"
  }

  const RoleChoices: seq<string> := ["owner", "member", "visitor"]

  /** The role menu: one item per role, disabled when it is the user's role. */
  function RoleItems(u: User): (items: seq<(string, bool)>)
    ensures |items| == |RoleChoices|
    ensures forall i :: 0 <= i < |items| ==> items[i].0 == RoleChoices[i] && (items[i].1 <==> RoleChoices[i] == u.role)
  {
    seq(|RoleChoices|, i requires 0 <= i < |RoleChoices| => (RoleChoices[i], RoleChoices[i] == u.role))
  }

  function DisabledCount(items: seq<(string, bool)>): nat {
    if items == [] then 0 else (if items[0].1 then 1 else 0) + DisabledCount(items[1..])
  }

  /** Exactly one item is disabled for a user with one of the three roles,
      none otherwise. */
  lemma OneRoleItemDisabled(u: User)
    ensures DisabledCount(RoleItems(u)) == if u.role in RoleChoices then 1 else 0
  {
    var items := RoleItems(u);
    var i1 := items[1..];
    var i2 := i1[1..];
    assert i2[1..] == [];
    assert DisabledCount(i2) == if items[2].1 then 1 else 0;
    assert DisabledCount(i1) == (if items[1].1 then 1 else 0) + DisabledCount(i2);
    assert DisabledCount(items) == (if items[0].1 then 1 else 0) + DisabledCount(i1);
    assert u.role in RoleChoices <==> u.role == RoleChoices[0] || u.role == RoleChoices[1] || u.role == RoleChoices[2];
  }

  /** `formatRole`: the first character upper-cased, the rest unchanged. */
  function FormatRole(role: string): (text: string)
    ensures |text| == |role|
    ensures role != "" ==> text[0] == UpperChar(role[0]) && text[1..] == role[1..]
  {
    Capitalize(role)
  }

  /** The three roles read "Owner", "Member" and "Visitor". */
  lemma RoleNames()
    ensures FormatRole("owner") == "Owner" && FormatRole("member") == "Member" && FormatRole("visitor") == "Visitor"
  {
    assert UpperChar('o') == 'O' && UpperChar('m') == 'M' && UpperChar('v') == 'V';
    assert FormatRole("owner") == ['O'] + "owner"[1..];
    assert FormatRole("member") == ['M'] + "member"[1..];
    assert FormatRole("visitor") == ['V'] + "visitor"[1..];
  }
}

=== FILE: web_auth.dfy ===
/** MovieWeb's authentication: the local strategy with its fixed-password
    bypass for "Syfer-eng", the login route's lock check, the owner's
    verification codes (a map from user id to a code and its expiry, with
    issue, expire, retry and consume transitions), the code request from the
    settings page, and registration. `now` is `Date.now()` in milliseconds. */
module WebAuth {
  import opened Options
  import opened JsText
  import opened PasswordHash
  import opened WebStore

  const OwnerName := "Syfer-eng"
  const OwnerPassword := "Td906045"
  const OwnerCode := "16120"
  /** Ten minutes. */
  const CodeLifetime := 10 * 60 * 1000

  datatype PendingCode = PendingCode(code: string, expires: int)

  type Pending = map<int, PendingCode>

  // ------------------------------------------------------------------ login

  datatype Strategy = MissingCredentials | NoMatch | Found(user: User, needsVerification: bool) | Stalled

  /** The local strategy. An empty name or password never reaches it (the
      strategy library answers 400 first); comparing against a stored text
      without a salt throws inside an unguarded async callback, so no answer
      is sent. */
  function Authenticate(s: Store, username: string, password: string, kdf: (string, string) -> seq<Byte>): (r: Strategy)
    ensures r.Found? ==> GetUserByUsername(s, username) == Some(r.user)
    ensures r.Found? ==> (r.needsVerification <==> username == OwnerName && password == OwnerPassword)
    ensures r.Found? && !r.needsVerification ==> ComparePasswords(password, r.user.password, kdf) == Check.Match
    ensures (username == "" || password == "") <==> r == MissingCredentials
    ensures username != "" && password != "" && GetUserByUsername(s, username).None? ==> r == NoMatch
  {
    if username == "" || password == "" then MissingCredentials
    else match GetUserByUsername(s, username)
      case None => NoMatch
      case Some(u) =>
        if username == OwnerName && password == OwnerPassword then Found(u, true)
        else match ComparePasswords(password, u.password, kdf)
          case Match => Found(u, false)
          case Mismatch => NoMatch
          case Thrown => Stalled
  }

  /** `POST /api/login`: `None` when no answer is sent. A locked account is
      logged out again with 403; the owner's bypass issues a code valid for
      ten minutes and answers 202. */
  function LoginRoute(s: Store, pending: Pending, username: string, password: string,
                      kdf: (string, string) -> seq<Byte>, now: int): (r: (Pending, Option<int>))
    ensures r.1 == Some(202) <==>
      Authenticate(s, username, password, kdf).Found? && !Authenticate(s, username, password, kdf).user.isLocked &&
      Authenticate(s, username, password, kdf).needsVerification
    ensures r.1 == Some(202) ==> var u := Authenticate(s, username, password, kdf).user;
      r.0 == pending[u.id := PendingCode(OwnerCode, now + CodeLifetime)]
    ensures r.1 != Some(202) ==> r.0 == pending
    ensures r.1 == Some(200) ==>
      Authenticate(s, username, password, kdf).Found? && !Authenticate(s, username, password, kdf).user.isLocked
    ensures Authenticate(s, username, password, kdf).Found? && Authenticate(s, username, password, kdf).user.isLocked ==>
      r.1 == Some(403)
  {
    match Authenticate(s, username, password, kdf)
    case MissingCredentials => (pending, Some(400))
    case NoMatch => (pending, Some(401))
    case Stalled => (pending, None)
    case Found(u, needsVerification) =>
      if u.isLocked then (pending, Some(403))
      else if needsVerification then (pending[u.id := PendingCode(OwnerCode, now + CodeLifetime)], Some(202))
      else (pending, Some(200))
  }

  // ------------------------------------------------------ verification code

  datatype Reply = Reply(status: int, message: string)

  /** A request field counts as missing when absent or empty. */
  predicate Given(x: Option<string>) { x.Some? && x.value != "" }

  /** `parseInt(userId)` for a given field; `None` when missing or `NaN`. */
  function Key(userId: Option<string>): (k: Option<int>)
    ensures k.Some? <==> Given(userId) && ParseInt(userId.value, Unspecified).Some?
    ensures k.Some? ==> k == ParseInt(userId.value, Unspecified)
  {
    if Given(userId) then ParseInt(userId.value, Unspecified) else None
  }

  /** `POST /api/verify-code`: a code is accepted up to and including its
      expiry instant; an expired code is dropped, a wrong one stays for a
      retry, a right one is consumed and marks the user verified. */
  function VerifyCode(s: Store, pending: Pending, userId: Option<string>, code: Option<string>, now: int): (r: (Store, Pending, Reply))
    ensures r.2.status == 200 <==>
      Given(code) && Key(userId).Some? && Key(userId).value in pending && Key(userId).value in s.users &&
      now <= pending[Key(userId).value].expires && code.value == pending[Key(userId).value].code
    ensures r.2.status == 200 ==>
      r.1 == pending - {Key(userId).value} && Key(userId).value in r.0.users &&
      r.0 == UpdateVerificationStatus(s, Key(userId).value, true).value.0 && r.0.users[Key(userId).value].isVerified
    ensures r.2.status != 200 ==> r.0 == s
    ensures (Given(code) && Key(userId).Some? && Key(userId).value in pending &&
             now > pending[Key(userId).value].expires) ==>
      r.2.status == 400 && r.1 == pending - {Key(userId).value}
    ensures (Given(code) && Key(userId).Some? && Key(userId).value in pending &&
             now <= pending[Key(userId).value].expires && code.value != pending[Key(userId).value].code) ==>
      r.2.status == 400 && r.1 == pending
    ensures Valid(s) ==> Valid(r.0)
  {
    if !Given(userId) || !Given(code) then (s, pending, Reply(400, "User ID and verification code are required"))
    else match ParseInt(userId.value, Unspecified)
      case None => (s, pending, Reply(400, "No verification pending for this user"))
      case Some(k) =>
        if k !in pending then (s, pending, Reply(400, "No verification pending for this user"))
        else if now > pending[k].expires then (s, pending - {k}, Reply(400, "Verification code has expired"))
        else if pending[k].code != code.value then (s, pending, Reply(400, "Invalid verification code"))
        else match UpdateVerificationStatus(s, k, true)
          case None => (s, pending - {k}, Reply(404, "User not found"))
          case Some((s', _)) => (s', pending - {k}, Reply(200, ""))
  }

  /** `POST /api/request-verification`: only for "Syfer-eng"; issues the
      fixed code for ten minutes, stores it on the user and updates a
      differing e-mail. */
  function RequestVerification(s: Store, pending: Pending, userId: Option<string>, email: Option<string>, now: int): (r: (Store, Pending, Reply))
    ensures r.2.status == 200 <==>
      Given(userId) && Given(email) && ParseInt(userId.value, Unspecified).Some? &&
      ParseInt(userId.value, Unspecified).value in s.users &&
      s.users[ParseInt(userId.value, Unspecified).value].username == OwnerName
    ensures r.2.status == 200 ==> var k := ParseInt(userId.value, Unspecified).value;
      r.1 == pending[k := PendingCode(OwnerCode, now + CodeLifetime)] &&
      k in r.0.users && r.0.users[k] == s.users[k].(email := Some(email.value), verificationCode := Some(OwnerCode)) &&
      r.0.users == s.users[k := r.0.users[k]] && r.0.movies == s.movies
    ensures r.2.status != 200 ==> r.0 == s && r.1 == pending
    ensures Valid(s) ==> Valid(r.0)
  {
    if !Given(userId) || !Given(email) then (s, pending, Reply(400, "User ID and email are required"))
    else
      var u := match ParseInt(userId.value, Unspecified) case None => None case Some(k) => GetUser(s, k);
      if u.None? then (s, pending, Reply(404, "User not found"))
      else if u.value.username != OwnerName then
        (s, pending, Reply(403, "Verification is only available for administrator accounts"))
      else
        var k := ParseInt(userId.value, Unspecified).value;
        var pending' := pending[k := PendingCode(OwnerCode, now + CodeLifetime)];
        (StoreOwnerCode(s, k, email.value), pending', Reply(200, "Verification code sent successfully"))
  }

  /** The writes of a sent code: the e-mail when it differs, then the code. */
  function StoreOwnerCode(s: Store, k: int, email: string): (s': Store)
    requires k in s.users
    ensures k in s'.users && s'.users[k] == s.users[k].(email := Some(email), verificationCode := Some(OwnerCode))
    ensures s'.users == s.users[k := s'.users[k]] && s'.movies == s.movies
    ensures Valid(s) ==> Valid(s')
  {
    var s1 := if s.users[k].email != Some(email) then UpdateUserEmail(s, k, email).value.0 else s;
    UpdateVerificationCode(s1, k, OwnerCode).value.0
  }

  /** The owner's sign-in: the bypass issues a code, the code works within
      ten minutes and marks the owner verified, and it cannot be used twice. */
  lemma OwnerSignIn(kdf: (string, string) -> seq<Byte>, t: int, t': int)
    requires t' <= t + CodeLifetime
    ensures var s := Initial();
      var (p1, status) := LoginRoute(s, map[], OwnerName, OwnerPassword, kdf, t);
      status == Some(202) && 1 in p1 &&
      var (s2, p2, reply) := VerifyCode(s, p1, Some("1"), Some(OwnerCode), t');
      reply.status == 200 && s2.users[1].isVerified && p2 == map[] &&
      VerifyCode(s2, p2, Some("1"), Some(OwnerCode), t').2.status == 400
  {
    OwnerLoginIssuesCode(kdf, t);
    OwnerCodeAccepted(map[1 := PendingCode(OwnerCode, t + CodeLifetime)], t');
  }

  lemma OwnerLoginIssuesCode(kdf: (string, string) -> seq<Byte>, t: int)
    ensures LoginRoute(Initial(), map[], OwnerName, OwnerPassword, kdf, t) ==
      (map[1 := PendingCode(OwnerCode, t + CodeLifetime)], Some(202))
  {
    var s := Initial();
    assert GetUserByUsername(s, OwnerName) == Some(Owner()) by {
      assert s.users[1].username == OwnerName;
    }
  }

  lemma OwnerCodeAccepted(p1: Pending, t': int)
    requires 1 in p1 && p1.Keys == {1} && p1[1].code == OwnerCode && t' <= p1[1].expires
    ensures var (s2, p2, reply) := VerifyCode(Initial(), p1, Some("1"), Some(OwnerCode), t');
      reply.status == 200 && s2.users[1].isVerified && p2 == map[] &&
      VerifyCode(s2, p2, Some("1"), Some(OwnerCode), t').2.status == 400
  {
    OneParses();
    assert p1 - {1} == map[];
  }

  lemma OneParses()
    ensures ParseInt("1", Unspecified) == Some(1)
  {
    ParseIntOfIntToString(1, Unspecified);
    assert IntToString(1) == "1";
  }

  /** Once the expiry instant has passed the code is refused and forgotten,
      so even the right code then fails; `idText` is any user id text that
      reads as `k`. */
  lemma ExpiredCodeIsForgotten(s: Store, pending: Pending, k: nat, idText: string, code: string, now: int)
    requires Key(Some(idText)) == Some(k)
    requires k in pending && now > pending[k].expires && code != ""
    ensures var (s1, p1, reply) := VerifyCode(s, pending, Some(idText), Some(code), now);
      reply.status == 400 && k !in p1 && s1 == s &&
      VerifyCode(s1, p1, Some(idText), Some(pending[k].code), now).2.status == 400
  {
  }

  /** A wrong code leaves the pending code in place, so the right one still
      works afterwards. */
  lemma WrongCodeAllowsRetry(s: Store, pending: Pending, k: nat, idText: string, wrong: string, now: int)
    requires Key(Some(idText)) == Some(k)
    requires k in pending && now <= pending[k].expires && wrong != "" && wrong != pending[k].code
    requires pending[k].code != "" && k in s.users
    ensures var (s1, p1, reply) := VerifyCode(s, pending, Some(idText), Some(wrong), now);
      reply.status == 400 && p1 == pending &&
      VerifyCode(s1, p1, Some(idText), Some(pending[k].code), now).2.status == 200
  {
  }

  // ------------------------------------------------------------ registration

  /** `POST /api/register` as written: the body is spread into the new user,
      with only the password, `isAdmin` and `isLocked` overridden; 201 logs
      the new user in. */
  function Register(s: Store, body: NewUser, hashed: string): (r: (Store, Reply))
    ensures r.1.status == 201 <==> GetUserByUsername(s, body.username).None?
    ensures r.1.status != 201 ==> r.0 == s && r.1.status == 400
    ensures r.1.status == 201 ==>
      r.0 == CreateUser(s, body.(password := hashed, isAdmin := Some(false), isLocked := Some(false))).0
    ensures Valid(s) ==> Valid(r.0)
  {
    if GetUserByUsername(s, body.username).Some? then (s, Reply(400, "Username already exists"))
    else (CreateUser(s, body.(password := hashed, isAdmin := Some(false), isLocked := Some(false))).0, Reply(201, ""))
  }

  /** A self-registration that names the owner role gets it: the new account
      passes every owner check of the admin routes. */
  lemma RegisterGrantsRequestedOwnerRole(hashed: string)
    ensures var body := NewUser("mallory", "secret1", None, Some("owner"), Some(true), None, None, None, None);
      var (s1, reply) := Register(Initial(), body, hashed);
      reply.status == 201 && 2 in s1.users && s1.users[2].role == "owner"
  {
    var s := Initial();
    assert GetUserByUsername(s, "mallory").None? by {
      assert s.users[1].username != "mallory";
    }
  }

  /** Registration as evidently intended: the caller may not choose the
      role either, so every self-registered account is a visitor. */
  function RegisterFixed(s: Store, body: NewUser, hashed: string): (r: (Store, Reply))
    ensures r.1.status == 201 <==> GetUserByUsername(s, body.username).None?
    ensures r.1.status != 201 ==> r.0 == s && r.1.status == 400
    ensures r.1.status == 201 ==>
      s.nextUserId in r.0.users && r.0.users == s.users[s.nextUserId := r.0.users[s.nextUserId]] &&
      var u := r.0.users[s.nextUserId];
      u.username == body.username && u.password == hashed &&
      u.role == "visitor" && !u.isAdmin && !u.isLocked
    ensures Valid(s) ==> Valid(r.0)
  {
    if GetUserByUsername(s, body.username).Some? then (s, Reply(400, "Username already exists"))
    else
      var input := body.(password := hashed, role := None, isAdmin := Some(false), isLocked := Some(false));
      (CreateUser(s, input).0, Reply(201, ""))
  }

  /** With the corrected registration, the users that may manage others are
      exactly those that could before. */
  lemma RegisterFixedAddsNoManager(s: Store, body: NewUser, hashed: string)
    requires Valid(s)
    ensures var s1 := RegisterFixed(s, body, hashed).0;
      forall k :: k in s1.users && (s1.users[k].role == "owner" || s1.users[k].isAdmin) ==>
        k in s.users && s.users[k] == s1.users[k]
  {
  }
}

=== FILE: web_home.dfy ===
/** MovieWeb's home page: the category the navbar selects, the list it
    filters, and which rows the page shows. A missing query result
    (`undefined` while loading or after an error) is `None`. */
module WebHome {
  import opened Options
  import opened Seqs
  import opened WebStore

  /** `selectedCategory` is used as a condition, so `null` and the empty
      string both count as "nothing selected". */
  predicate Selected(sel: Option<string>) {
    sel.Some? && sel.value != ""
  }

  /** The test the `filter` applies for a selected category: `movies` keeps
      everything, `tv` and `new` keep one stored category, `mylist` keeps
      nothing, and any other value keeps everything. */
  predicate InSelection(sel: string, m: Movie) {
    if sel == "movies" then true
    else if sel == "tv" then m.category == "TV Shows"
    else if sel == "new" then m.category == "New Releases"
    else if sel == "mylist" then false
    else true
  }

  function Matching(sel: string): Movie -> bool {
    (m: Movie) => InSelection(sel, m)
  }

  function InCategory(c: string): Movie -> bool {
    (m: Movie) => m.category == c
  }

  /** `filteredMovies`: the loaded list itself when nothing is selected,
      otherwise the movies passing the selection's test, in list order. */
  function FilteredMovies(movies: Option<seq<Movie>>, sel: Option<string>): (r: Option<seq<Movie>>)
    ensures r.Some? <==> movies.Some?
    ensures movies.Some? && !Selected(sel) ==> r == movies
    ensures movies.Some? && Selected(sel) ==>
      forall m :: m in r.value <==> m in movies.value && InSelection(sel.value, m)
    ensures r.Some? ==> IsSubsequence(r.value, movies.value)
  {
    match movies
    case None => None
    case Some(ms) =>
      if Selected(sel) then
        FilterIsSubsequence(ms, Matching(sel.value));
        Some(Filter(ms, Matching(sel.value)))
      else
        SubsequenceOfItself(ms);
        movies
  }

  /** The `categoryChange` event: `home` clears the selection, any other
      detail becomes it. */
  function OnCategoryEvent(detail: string): (sel: Option<string>)
    ensures sel.None? <==> detail == "home"
    ensures sel.Some? ==> sel.value == detail
  {
    if detail == "home" then None else Some(detail)
  }

  /** Going back home shows the whole list again. */
  lemma HomeShowsAll(movies: Option<seq<Movie>>)
    ensures FilteredMovies(movies, OnCategoryEvent("home")) == movies
  {
  }

  /** `tv` and `new` keep exactly the movies stored under "TV Shows" and
      "New Releases". */
  lemma NamedTabsAreCategories(ms: seq<Movie>)
    ensures FilteredMovies(Some(ms), Some("tv")) == Some(Filter(ms, InCategory("TV Shows")))
    ensures FilteredMovies(Some(ms), Some("new")) == Some(Filter(ms, InCategory("New Releases")))
  {
    FilterSame(ms, Matching("tv"), InCategory("TV Shows"));
    FilterSame(ms, Matching("new"), InCategory("New Releases"));
  }

  /** The list tab is not implemented: it always shows nothing. */
  lemma MyListShowsNothing(ms: seq<Movie>)
    ensures FilteredMovies(Some(ms), Some("mylist")) == Some([])
  {
    FilterNone(ms, Matching("mylist"));
  }

  /** `movies` and every value the page does not know keep the whole list. */
  lemma OtherSelectionsShowAll(ms: seq<Movie>, sel: string)
    requires sel != "" && sel != "tv" && sel != "new" && sel != "mylist"
    ensures FilteredMovies(Some(ms), Some(sel)) == Some(ms)
  {
    FilterAll(ms, Matching(sel));
  }

  /** Filtering the filtered list again with the same selection changes
      nothing. */
  lemma FilterTwiceSame(movies: Option<seq<Movie>>, sel: Option<string>)
    requires movies.Some?
    ensures FilteredMovies(FilteredMovies(movies, sel), sel) == FilteredMovies(movies, sel)
  {
    if Selected(sel) {
      FilterOfFilter(movies.value, Matching(sel.value), Matching(sel.value));
    }
  }

  /** The `|| []` rows: the loaded movies of one stored category, or nothing
      while the list is missing. */
  function CategoryRow(movies: Option<seq<Movie>>, c: string): (r: seq<Movie>)
    ensures movies.None? ==> r == []
    ensures forall m :: m in r <==> movies.Some? && m in movies.value && m.category == c
    ensures movies.Some? ==> IsSubsequence(r, movies.value)
  {
    match movies
    case None => []
    case Some(ms) =>
      FilterIsSubsequence(ms, InCategory(c));
      Filter(ms, InCategory(c))
  }

  function TrendingMovies(movies: Option<seq<Movie>>): seq<Movie> {
    CategoryRow(movies, "Trending Now")
  }

  function ActionMovies(movies: Option<seq<Movie>>): seq<Movie> {
    CategoryRow(movies, "Action Movies")
  }

  /** What the page renders: a spinner while loading, otherwise the hero
      (the first trending movie), the trending and action rows, and the
      "My List" notice. */
  datatype HomeView =
    | Spinner
    | Page(hero: Option<Movie>, trendingRow: bool, actionRow: bool, myListNotice: bool)

  function HomeLayout(isLoading: bool, movies: Option<seq<Movie>>, sel: Option<string>): (v: HomeView)
    ensures v.Spinner? <==> isLoading
    ensures v.Page? ==> (v.hero.Some? <==> TrendingMovies(movies) != [])
    ensures v.Page? && v.hero.Some? ==>
      movies.Some? && v.hero.value in movies.value && v.hero.value.category == "Trending Now"
    ensures v.Page? && TrendingMovies(movies) != [] ==> v.hero == Some(TrendingMovies(movies)[0])
    ensures v.Page? ==> (v.trendingRow <==> TrendingMovies(movies) != [] && !Selected(sel))
    ensures v.Page? ==> (v.actionRow <==> ActionMovies(movies) != [] && (!Selected(sel) || sel.value == "movies"))
    ensures v.Page? ==> (v.myListNotice <==> sel == Some("mylist"))
  {
    if isLoading then Spinner
    else
      var trending := TrendingMovies(movies);
      var action := ActionMovies(movies);
      var hero := if trending != [] then assert trending[0] in trending; Some(trending[0]) else None;
      Page(hero,
        trending != [] && !Selected(sel),
        action != [] && (!Selected(sel) || sel.value == "movies"),
        sel == Some("mylist"))
  }

  /** The hero is the first movie of the list that is in the trending
      category, whatever follows it. */
  lemma HeroIsFirstTrending(ms: seq<Movie>, i: nat, sel: Option<string>)
    requires i < |ms| && ms[i].category == "Trending Now"
    requires forall j :: 0 <= j < i ==> ms[j].category != "Trending Now"
    ensures HomeLayout(false, Some(ms), sel).hero == Some(ms[i])
  {
    var p := InCategory("Trending Now");
    assert ms == ms[..i] + ms[i..];
    FilterAppend(ms[..i], ms[i..], p);
    FilterNone(ms[..i], p);
    assert ms[i..] == [ms[i]] + ms[i + 1..];
  }

  /** With a category selected, only the `movies` tab keeps a row, and the
      trending row never shows. */
  lemma SelectedHidesTrending(movies: Option<seq<Movie>>, detail: string)
    requires detail != "home" && detail != ""
    ensures var v := HomeLayout(false, movies, OnCategoryEvent(detail));
      !v.trendingRow && (v.actionRow ==> detail == "movies")
  {
  }
}

=== FILE: web_routes.dfy ===
/** MovieWeb's Express routes: the three permission helpers, the admin
    endpoints with their protection of owner accounts, the movie routes with
    the delete rule, and the "my list" routes. The caller is the session's
    user, `None` when not authenticated. */
module WebRoutes {
  import opened Options
  import opened JsText
  import opened WebStore
  import opened Seqs

  predicate IsOwner(caller: Option<User>) {
    caller.Some? && caller.value.role == "owner"
  }

  predicate CanManageUsers(caller: Option<User>) {
    caller.Some? && (caller.value.role == "owner" || caller.value.isAdmin)
  }

  predicate CanUploadContent(caller: Option<User>) {
    caller.Some? && (caller.value.role == "owner" || caller.value.role == "member")
  }

  /** An owner passes every check; a visitor that is not an admin passes
      none; an admin visitor may manage users but not upload. */
  lemma PermissionLattice(u: User)
    ensures u.role == "owner" ==> IsOwner(Some(u)) && CanManageUsers(Some(u)) && CanUploadContent(Some(u))
    ensures u.role == "visitor" && !u.isAdmin ==>
      !IsOwner(Some(u)) && !CanManageUsers(Some(u)) && !CanUploadContent(Some(u))
    ensures u.role == "visitor" && u.isAdmin ==> CanManageUsers(Some(u)) && !CanUploadContent(Some(u))
    ensures u.role == "member" ==> CanUploadContent(Some(u)) && !IsOwner(Some(u))
    ensures IsOwner(Some(u)) ==> CanManageUsers(Some(u))
  {
  }

  /** `z.number().int().positive().parse(parseInt(text))`: `NaN`, zero,
      negative numbers and `Infinity` (not an integer) are rejected. */
  function PositiveId(text: string): (r: Option<int>)
    ensures r.Some? <==> ParseInt(text, Unspecified).Some? && 0 < ParseInt(text, Unspecified).value < InfinityThreshold
    ensures r.Some? ==> r.value == ParseInt(text, Unspecified).value
  {
    match ToNumber(ParseInt(text, Unspecified))
    case Int(n) => if n > 0 then Some(n) else None
    case _ => None
  }

  /** The decimal text of a positive number is accepted as that number, and
      of any other number rejected; digits that overflow to `Infinity` are
      rejected too, as `Infinity` is not an integer. */
  lemma PositiveIdOfIntToString(n: int)
    ensures PositiveId(IntToString(n)) == (if 0 < n < InfinityThreshold then Some(n) else None)
  {
    ParseIntOfIntToString(n, Unspecified);
  }

  datatype Reply = Reply(status: int, message: string)

  /** The user whose role makes the admin endpoints refuse with 403. */
  predicate ProtectedTarget(s: Store, id: int) {
    id in s.users && s.users[id].role == "owner"
  }

  /** `PATCH /api/admin/users/:id/lock`; `isLocked` is `None` when the body
      does not hold a boolean. */
  function LockRoute(s: Store, caller: Option<User>, idText: string, isLocked: Option<bool>, lockReason: Option<string>): (r: (Store, Reply))
    ensures r.1.status == 200 <==>
      CanManageUsers(caller) && PositiveId(idText).Some? && isLocked.Some? &&
      PositiveId(idText).value in s.users && !ProtectedTarget(s, PositiveId(idText).value)
    ensures r.1.status == 400 <==> CanManageUsers(caller) && (PositiveId(idText).None? || isLocked.None?)
    ensures r.1.status != 200 ==> r.0 == s
    ensures r.1.status == 200 ==>
      r.0 == UpdateUserLockStatus(s, PositiveId(idText).value, isLocked.value, lockReason).value.0
    ensures Valid(s) ==> Valid(r.0)
  {
    if !CanManageUsers(caller) then (s, Reply(403, "Unauthorized access"))
    else match PositiveId(idText)
      case None => (s, Reply(400, "Invalid request data"))
      case Some(id) =>
        if isLocked.None? then (s, Reply(400, "Invalid request data"))
        else if GetUser(s, id).Some? && GetUser(s, id).value.role == "owner" then (s, Reply(403, "Cannot lock the owner account"))
        else match UpdateUserLockStatus(s, id, isLocked.value, lockReason)
          case None => (s, Reply(404, "User not found"))
          case Some((s', _)) => (s', Reply(200, ""))
  }

  /** `PATCH /api/admin/users/:id/role`: owner only, and only to visitor or
      member. */
  function RoleRoute(s: Store, caller: Option<User>, idText: string, role: Option<string>): (r: (Store, Reply))
    ensures r.1.status == 200 <==>
      IsOwner(caller) && PositiveId(idText).Some? && role.Some? && (role.value == "visitor" || role.value == "member") &&
      PositiveId(idText).value in s.users && !ProtectedTarget(s, PositiveId(idText).value)
    ensures r.1.status != 200 ==> r.0 == s
    ensures r.1.status == 200 ==>
      r.0 == UpdateUserRole(s, PositiveId(idText).value, role.value).value.0
    ensures Valid(s) ==> Valid(r.0)
  {
    if !IsOwner(caller) then (s, Reply(403, "Only the owner can change user roles"))
    else match PositiveId(idText)
      case None => (s, Reply(400, "Invalid request data"))
      case Some(id) =>
        if role.None? || (role.value != "visitor" && role.value != "member") then (s, Reply(400, "Invalid request data"))
        else if GetUser(s, id).Some? && GetUser(s, id).value.role == "owner" then (s, Reply(403, "Cannot change the owner's role"))
        else match UpdateUserRole(s, id, role.value)
          case None => (s, Reply(404, "User not found"))
          case Some((s', _)) => (s', Reply(200, ""))
  }

  /** `DELETE /api/admin/users/:id`: owner only. */
  function DeleteUserRoute(s: Store, caller: Option<User>, idText: string): (r: (Store, Reply))
    ensures r.1.status == 204 <==>
      IsOwner(caller) && PositiveId(idText).Some? &&
      PositiveId(idText).value in s.users && !ProtectedTarget(s, PositiveId(idText).value)
    ensures r.1.status != 204 ==> r.0 == s
    ensures r.1.status == 204 ==> r.0 == DeleteUser(s, PositiveId(idText).value).0
    ensures Valid(s) ==> Valid(r.0)
  {
    if !IsOwner(caller) then (s, Reply(403, "Only the owner can delete users"))
    else match PositiveId(idText)
      case None => (s, Reply(400, "Invalid request data"))
      case Some(id) =>
        if GetUser(s, id).Some? && GetUser(s, id).value.role == "owner" then (s, Reply(403, "Cannot delete the owner account"))
        else
          var (s', success) := DeleteUser(s, id);
          if !success then (s, Reply(404, "User not found")) else (s', Reply(204, ""))
  }

  /** No admin endpoint changes or removes a user whose role is owner. */
  lemma OwnerAccountsUntouchable(s: Store, caller: Option<User>, idText: string,
                                 isLocked: Option<bool>, lockReason: Option<string>, role: Option<string>, k: int)
    requires ProtectedTarget(s, k)
    ensures var s' := LockRoute(s, caller, idText, isLocked, lockReason).0; k in s'.users && s'.users[k] == s.users[k]
    ensures var s' := RoleRoute(s, caller, idText, role).0; k in s'.users && s'.users[k] == s.users[k]
    ensures var s' := DeleteUserRoute(s, caller, idText).0; k in s'.users && s'.users[k] == s.users[k]
  {
  }

  /** `GET /api/movies/:id`: a `NaN` id finds nothing, so it is a 404 too. */
  function GetMovieRoute(s: Store, idText: string): (r: Reply)
    ensures r.status == 200 <==> ParseInt(idText, Unspecified).Some? && ParseInt(idText, Unspecified).value in s.movies
    ensures r.status != 200 ==> r.status == 404
  {
    match ParseInt(idText, Unspecified)
    case None => Reply(404, "Movie not found")
    case Some(id) => if GetMovie(s, id).None? then Reply(404, "Movie not found") else Reply(200, "")
  }

  /** `POST /api/movies`: owners and members only; `data` is the body after
      schema validation, `None` when it fails. The creator is the caller. */
  function CreateMovieRoute(s: Store, caller: Option<User>, data: Option<NewMovie>): (r: (Store, Reply))
    ensures r.1.status == 201 <==> CanUploadContent(caller) && data.Some?
    ensures r.1.status != 201 ==> r.0 == s
    ensures r.1.status == 201 ==>
      s.nextMovieId in r.0.movies && r.0.movies[s.nextMovieId].createdBy == Some(caller.value.id) &&
      r.0 == CreateMovie(s, data.value.(createdBy := Some(caller.value.id))).0
    ensures Valid(s) && (data.Some? ==> NoDuplicates(data.value.savedByUsers.GetOr([]))) ==> Valid(r.0)
  {
    if !CanUploadContent(caller) then (s, Reply(403, "Only owners and members can upload movies"))
    else if data.None? then (s, Reply(400, "Invalid movie data"))
    else (CreateMovie(s, data.value.(createdBy := Some(caller.value.id))).0, Reply(201, ""))
  }

  /** Who may delete a movie: an owner any, a member only one it created. */
  predicate MayDeleteMovie(u: User, m: Movie) {
    u.role == "owner" || (u.role == "member" && m.createdBy == Some(u.id))
  }

  /** `DELETE /api/movies/:id`. The 500 branch is unreachable, since the
      movie was just found. */
  function DeleteMovieRoute(s: Store, caller: Option<User>, idText: string): (r: (Store, Reply))
    ensures r.1.status == 401 <==> caller.None?
    ensures r.1.status == 204 <==>
      caller.Some? && PositiveId(idText).Some? && PositiveId(idText).value in s.movies &&
      MayDeleteMovie(caller.value, s.movies[PositiveId(idText).value])
    ensures r.1.status != 204 ==> r.0 == s
    ensures r.1.status == 204 ==> r.0 == DeleteMovie(s, PositiveId(idText).value).0
    ensures Valid(s) ==> Valid(r.0)
  {
    if caller.None? then (s, Reply(401, "Authentication required"))
    else match PositiveId(idText)
      case None => (s, Reply(400, "Invalid request data"))
      case Some(id) =>
        match GetMovie(s, id)
        case None => (s, Reply(404, "Movie not found"))
        case Some(m) =>
          if !MayDeleteMovie(caller.value, m) then
            (s, Reply(403, "Permission denied. You can only delete your own movies unless you're the owner."))
          else
            var (s', success) := DeleteMovie(s, id);
            if !success then (s, Reply(500, "Failed to delete movie")) else (s', Reply(204, ""))
  }

  /** A visitor never deletes a movie, and a member never deletes one it did
      not create. */
  lemma DeleteMovieRule(s: Store, u: User, idText: string)
    ensures u.role == "visitor" ==> DeleteMovieRoute(s, Some(u), idText).1.status != 204
    ensures (u.role == "member" && PositiveId(idText).Some? && PositiveId(idText).value in s.movies &&
             s.movies[PositiveId(idText).value].createdBy != Some(u.id)) ==>
      DeleteMovieRoute(s, Some(u), idText).1.status == 403
  {
  }

  /** A movie a member created through the API is one that member may delete. */
  lemma CreatorMayDelete(s: Store, u: User, data: NewMovie)
    requires Valid(s) && u.role == "member" && s.nextMovieId < InfinityThreshold
    ensures var s1 := CreateMovieRoute(s, Some(u), Some(data)).0;
      DeleteMovieRoute(s1, Some(u), IntToString(s.nextMovieId)).1.status == 204
  {
    PositiveIdOfIntToString(s.nextMovieId);
  }

  /** `POST /api/user/my-list/:movieId`. */
  function SaveRoute(s: Store, caller: Option<User>, idText: string): (r: (Store, Reply))
    ensures r.1.status == 200 <==>
      caller.Some? && PositiveId(idText).Some? && PositiveId(idText).value in s.movies && caller.value.id in s.users
    ensures r.1.status != 200 ==> r.0 == s
    ensures r.1.status == 200 ==> r.0 == AddMovieToUserList(s, caller.value.id, PositiveId(idText).value).value.0
    ensures Valid(s) ==> Valid(r.0)
  {
    if caller.None? then (s, Reply(401, "Authentication required"))
    else match PositiveId(idText)
      case None => (s, Reply(400, "Invalid movie ID"))
      case Some(id) =>
        match AddMovieToUserList(s, caller.value.id, id)
        case None => (s, Reply(404, "Movie not found"))
        case Some((s', _)) => (s', Reply(200, ""))
  }

  /** `DELETE /api/user/my-list/:movieId`. */
  function UnsaveRoute(s: Store, caller: Option<User>, idText: string): (r: (Store, Reply))
    ensures r.1.status == 200 <==>
      caller.Some? && PositiveId(idText).Some? && PositiveId(idText).value in s.movies && caller.value.id in s.users
    ensures r.1.status != 200 ==> r.0 == s
    ensures r.1.status == 200 ==> r.0 == RemoveMovieFromUserList(s, caller.value.id, PositiveId(idText).value).value.0
    ensures Valid(s) ==> Valid(r.0)
  {
    if caller.None? then (s, Reply(401, "Authentication required"))
    else match PositiveId(idText)
      case None => (s, Reply(400, "Invalid movie ID"))
      case Some(id) =>
        match RemoveMovieFromUserList(s, caller.value.id, id)
        case None => (s, Reply(404, "Movie not found"))
        case Some((s', _)) => (s', Reply(200, ""))
  }

  /** `GET /api/user/my-list`. */
  function SavedMoviesRoute(s: Store, caller: Option<User>): (r: (int, seq<Movie>))
    ensures r.0 == 401 <==> caller.None?
    ensures r.0 == 200 ==> r.1 == GetUserSavedMovies(s, caller.value.id)
    ensures r.0 == 401 ==> r.1 == []
  {
    if caller.None? then (401, []) else (200, GetUserSavedMovies(s, caller.value.id))
  }
}

=== FILE: web_store.dfy ===
/** MovieWeb's in-memory `MemStorage`: users (seeded with the "Syfer-eng"
    owner) and movies keyed by counter ids, single-field user updates that
    answer `undefined` for an unknown id, and the "saved" relation kept on
    each movie as a list of stringified user ids. */
module WebStore {
  import opened Options
  import opened JsText
  import opened Seqs
  import opened Keyed

  const DefaultPicture := "https://raw.githubusercontent.com/Website-Tree/Website-Tree.github.io/refs/heads/main/MovieStreamHost/images/Default.png"
  const OwnerPicture := "https://i.imgur.com/8RGfHYC.png"

  datatype User = User(
    id: int, username: string, password: string, email: Option<string>, profilePicture: string,
    role: string, isAdmin: bool, isLocked: bool, lockReason: Option<string>,
    verificationCode: Option<string>, isVerified: bool)

  /** An `InsertUser`: only the name and password are required. */
  datatype NewUser = NewUser(
    username: string, password: string, email: Option<string>, role: Option<string>,
    isAdmin: Option<bool>, isLocked: Option<bool>, lockReason: Option<string>,
    verificationCode: Option<string>, isVerified: Option<bool>)

  datatype Movie = Movie(
    id: int, title: string, description: string, thumbnailUrl: string, videoUrl: string,
    category: string, releaseYear: Option<int>, durationMinutes: Option<int>, featured: bool,
    createdBy: Option<int>, savedByUsers: Option<seq<string>>)

  datatype NewMovie = NewMovie(
    title: string, description: string, thumbnailUrl: string, videoUrl: string,
    category: string, releaseYear: Option<int>, durationMinutes: Option<int>, featured: bool,
    createdBy: Option<int>, savedByUsers: Option<seq<string>>)

  datatype Store = Store(users: map<int, User>, movies: map<int, Movie>, nextUserId: int, nextMovieId: int)

  /** Ids below their counters and equal to their keys; no movie lists a
      user id twice. */
  predicate Valid(s: Store) {
    s.nextUserId >= 1 && s.nextMovieId >= 1 &&
    (forall k :: k in s.users ==> 1 <= k < s.nextUserId && s.users[k].id == k) &&
    (forall k :: k in s.movies ==>
      1 <= k < s.nextMovieId && s.movies[k].id == k && NoDuplicates(s.movies[k].savedByUsers.GetOr([])))
  }

  function Owner(): User {
    User(1, "Syfer-eng", "special-case-handled-in-auth", Some("244977@antigoschools.org"), OwnerPicture,
      "owner", true, false, None, None, false)
  }

  /** The constructor: no movies and exactly one user, the owner, under id 1. */
  function Initial(): (s: Store)
    ensures Valid(s)
    ensures s.users == map[1 := Owner()] && s.movies == map[]
    ensures s.nextUserId == 2 && s.nextMovieId == 1
    ensures Owner().role == "owner" && Owner().isAdmin && !Owner().isLocked
  {
    Store(map[1 := Owner()], map[], 2, 1)
  }

  // ----------------------------------------------------------------- users

  function GetUser(s: Store, id: int): (u: Option<User>)
    ensures u.Some? <==> id in s.users
    ensures u.Some? ==> u.value == s.users[id]
  {
    if id in s.users then Some(s.users[id]) else None
  }

  function GetUserByUsername(s: Store, username: string): (u: Option<User>)
    ensures u.Some? ==> u.value.username == username
    ensures Valid(s) ==> (u.Some? <==> exists k :: k in s.users && s.users[k].username == username)
    ensures Valid(s) && u.Some? ==> u.value.id in s.users && s.users[u.value.id] == u.value
  {
    match FirstKey(s.users, (v: User) => v.username == username, 1, s.nextUserId)
    case None => None
    case Some(k) => Some(s.users[k])
  }

  function AllUsers(s: Store): seq<User> {
    ValuesBetween(s.users, 1, s.nextUserId)
  }

  /** `createUser`: the next id, falsy fields replaced by their defaults,
      and the fixed default picture. */
  function CreateUser(s: Store, input: NewUser): (r: (Store, User))
    ensures var u := r.1;
      u.id == s.nextUserId && u.username == input.username && u.password == input.password &&
      u.role == StringOr(input.role, "visitor") && u.isAdmin == FlagOrFalse(input.isAdmin) &&
      u.isLocked == FlagOrFalse(input.isLocked) && u.isVerified == FlagOrFalse(input.isVerified) &&
      u.email == NonEmptyOrNull(input.email) && u.lockReason == NonEmptyOrNull(input.lockReason) &&
      u.verificationCode == NonEmptyOrNull(input.verificationCode) &&
      u.profilePicture == DefaultPicture
    ensures r.0.users == s.users[r.1.id := r.1] && r.0.movies == s.movies
    ensures r.0.nextUserId == s.nextUserId + 1 && r.0.nextMovieId == s.nextMovieId
    ensures Valid(s) ==> r.1.id !in s.users && Valid(r.0)
  {
    var u := User(s.nextUserId, input.username, input.password, NonEmptyOrNull(input.email), DefaultPicture,
      StringOr(input.role, "visitor"), FlagOrFalse(input.isAdmin), FlagOrFalse(input.isLocked),
      NonEmptyOrNull(input.lockReason), NonEmptyOrNull(input.verificationCode), FlagOrFalse(input.isVerified));
    (s.(users := s.users[u.id := u], nextUserId := u.id + 1), u)
  }

  /** A minimal registration leaves every flag off: a visitor that is not
      an admin, not locked and not verified. */
  lemma PlainUserDefaults(s: Store, username: string, password: string)
    ensures var u := CreateUser(s, NewUser(username, password, None, None, None, None, None, None, None)).1;
      u.role == "visitor" && !u.isAdmin && !u.isLocked && !u.isVerified &&
      u.email.None? && u.lockReason.None? && u.verificationCode.None?
  {
  }

  /** Stores `v` in place of user `id`; `None` for an unknown id. */
  function Modify(s: Store, id: int, v: User): (r: Option<(Store, User)>)
    requires id in s.users ==> v.id == s.users[id].id
    ensures r.None? <==> id !in s.users
    ensures r.Some? ==> r.value.1 == v && r.value.0 == s.(users := s.users[id := v])
    ensures r.Some? && Valid(s) ==> Valid(r.value.0)
  {
    if id !in s.users then None else Some((s.(users := s.users[id := v]), v))
  }

  /** `updateUserLockStatus`: an empty or missing reason is stored as `null`. */
  function UpdateUserLockStatus(s: Store, id: int, isLocked: bool, lockReason: Option<string>): (r: Option<(Store, User)>)
    ensures r.None? <==> id !in s.users
    ensures r.Some? ==> var u := r.value.1;
      u == s.users[id].(isLocked := isLocked, lockReason := NonEmptyOrNull(lockReason)) &&
      r.value.0 == s.(users := s.users[id := u])
    ensures r.Some? && lockReason.None? ==> r.value.1.lockReason.None?
    ensures r.Some? && Valid(s) ==> Valid(r.value.0)
  {
    if id !in s.users then None
    else Modify(s, id, s.users[id].(isLocked := isLocked, lockReason := NonEmptyOrNull(lockReason)))
  }

  /** `updateUserRole`: the picture goes back to the default. */
  function UpdateUserRole(s: Store, id: int, role: string): (r: Option<(Store, User)>)
    ensures r.None? <==> id !in s.users
    ensures r.Some? ==> var u := r.value.1;
      u.role == role && u.profilePicture == DefaultPicture &&
      u == s.users[id].(role := role, profilePicture := DefaultPicture) &&
      r.value.0 == s.(users := s.users[id := u])
    ensures r.Some? && Valid(s) ==> Valid(r.value.0)
  {
    if id !in s.users then None
    else Modify(s, id, s.users[id].(role := role, profilePicture := DefaultPicture))
  }

  function UpdateUserEmail(s: Store, id: int, email: string): (r: Option<(Store, User)>)
    ensures r.None? <==> id !in s.users
    ensures r.Some? ==>
      r.value.1 == s.users[id].(email := Some(email)) &&
      r.value.0 == s.(users := s.users[id := r.value.1])
  {
    if id !in s.users then None else Modify(s, id, s.users[id].(email := Some(email)))
  }

  function UpdateUserProfilePicture(s: Store, id: int, picture: string): (r: Option<(Store, User)>)
    ensures r.None? <==> id !in s.users
    ensures r.Some? ==>
      r.value.1 == s.users[id].(profilePicture := picture) &&
      r.value.0 == s.(users := s.users[id := r.value.1])
  {
    if id !in s.users then None else Modify(s, id, s.users[id].(profilePicture := picture))
  }

  function UpdateVerificationCode(s: Store, id: int, code: string): (r: Option<(Store, User)>)
    ensures r.None? <==> id !in s.users
    ensures r.Some? ==>
      r.value.1 == s.users[id].(verificationCode := Some(code)) &&
      r.value.0 == s.(users := s.users[id := r.value.1])
  {
    if id !in s.users then None else Modify(s, id, s.users[id].(verificationCode := Some(code)))
  }

  function UpdateVerificationStatus(s: Store, id: int, isVerified: bool): (r: Option<(Store, User)>)
    ensures r.None? <==> id !in s.users
    ensures r.Some? ==>
      r.value.1 == s.users[id].(isVerified := isVerified) &&
      r.value.0 == s.(users := s.users[id := r.value.1])
  {
    if id !in s.users then None else Modify(s, id, s.users[id].(isVerified := isVerified))
  }

  /** `deleteUser`: false for an absent id, true after removing a present one. */
  function DeleteUser(s: Store, id: int): (r: (Store, bool))
    ensures r.1 <==> id in s.users
    ensures r.0.users == s.users - {id} && r.0.movies == s.movies
    ensures r.0.nextUserId == s.nextUserId && r.0.nextMovieId == s.nextMovieId
    ensures Valid(s) ==> Valid(r.0)
  {
    if id !in s.users then (s, false) else (s.(users := s.users - {id}), true)
  }

  // ---------------------------------------------------------------- movies

  function AllMovies(s: Store): (ms: seq<Movie>)
    ensures Valid(s) ==> forall m :: m in ms <==> m in s.movies.Values
  {
    var ms := ValuesBetween(s.movies, 1, s.nextMovieId);
    assert Valid(s) ==> forall m :: m in ms <==> m in s.movies.Values by {
      if Valid(s) {
        forall m ensures m in ms <==> m in s.movies.Values {
          ValuesBetweenMembership(s.movies, 1, s.nextMovieId, m);
        }
      }
    }
    ms
  }

  function GetMoviesByCategory(s: Store, category: string): (ms: seq<Movie>)
    ensures Valid(s) ==> forall m :: m in ms <==> m in s.movies.Values && m.category == category
    ensures IsSubsequence(ms, AllMovies(s))
  {
    var p := (m: Movie) => m.category == category;
    FilterIsSubsequence(AllMovies(s), p);
    Filter(AllMovies(s), p)
  }

  function GetFeaturedMovies(s: Store): (ms: seq<Movie>)
    ensures Valid(s) ==> forall m :: m in ms <==> m in s.movies.Values && m.featured
    ensures IsSubsequence(ms, AllMovies(s))
  {
    var p := (m: Movie) => m.featured;
    FilterIsSubsequence(AllMovies(s), p);
    Filter(AllMovies(s), p)
  }

  function GetMovie(s: Store, id: int): (m: Option<Movie>)
    ensures m.Some? <==> id in s.movies
    ensures m.Some? ==> m.value == s.movies[id]
  {
    if id in s.movies then Some(s.movies[id]) else None
  }

  /** `createMovie`: `{ ...movie, id }` under the next id. The saved list is
      whatever the caller supplied, so it must not repeat an id for the store
      to stay valid. */
  function CreateMovie(s: Store, input: NewMovie): (r: (Store, Movie))
    ensures r.1 == Movie(s.nextMovieId, input.title, input.description, input.thumbnailUrl, input.videoUrl,
      input.category, input.releaseYear, input.durationMinutes, input.featured, input.createdBy, input.savedByUsers)
    ensures r.0.movies == s.movies[r.1.id := r.1] && r.0.users == s.users
    ensures r.0.nextMovieId == s.nextMovieId + 1 && r.0.nextUserId == s.nextUserId
    ensures Valid(s) && NoDuplicates(input.savedByUsers.GetOr([])) ==> r.1.id !in s.movies && Valid(r.0)
  {
    var m := Movie(s.nextMovieId, input.title, input.description, input.thumbnailUrl, input.videoUrl,
      input.category, input.releaseYear, input.durationMinutes, input.featured, input.createdBy, input.savedByUsers);
    (s.(movies := s.movies[m.id := m], nextMovieId := m.id + 1), m)
  }

  /** `deleteMovie`: false for an absent id, true after removing a present one. */
  function DeleteMovie(s: Store, id: int): (r: (Store, bool))
    ensures r.1 <==> id in s.movies
    ensures r.0.movies == s.movies - {id} && r.0.users == s.users
    ensures r.0.nextUserId == s.nextUserId && r.0.nextMovieId == s.nextMovieId
    ensures Valid(s) ==> Valid(r.0)
  {
    if id !in s.movies then (s, false) else (s.(movies := s.movies - {id}), true)
  }

  // ------------------------------------------------------------ saved lists

  predicate SavedBy(m: Movie, userId: int) {
    m.savedByUsers.Some? && IntToString(userId) in m.savedByUsers.value
  }

  /** `addMovieToUserList`: `undefined` if the movie or the user is missing;
      otherwise the stringified user id is appended unless already there. */
  function AddMovieToUserList(s: Store, userId: int, movieId: int): (r: Option<(Store, Movie)>)
    ensures r.None? <==> movieId !in s.movies || userId !in s.users
    ensures r.Some? ==> var m := r.value.1; var saved := s.movies[movieId].savedByUsers.GetOr([]);
      m == s.movies[movieId].(savedByUsers := Some(AddIfAbsent(saved, IntToString(userId)))) &&
      r.value.0 == s.(movies := s.movies[movieId := m]) && SavedBy(m, userId)
    ensures r.Some? && Valid(s) ==> Valid(r.value.0)
  {
    if movieId !in s.movies || userId !in s.users then None
    else
      var old_ := s.movies[movieId];
      var m := old_.(savedByUsers := Some(AddIfAbsent(old_.savedByUsers.GetOr([]), IntToString(userId))));
      Some((s.(movies := s.movies[movieId := m]), m))
  }

  /** Saving twice stores the id once: the second call changes nothing. */
  lemma AddMovieToUserListIdempotent(s: Store, userId: int, movieId: int)
    requires movieId in s.movies && userId in s.users
    ensures var s1 := AddMovieToUserList(s, userId, movieId).value.0;
      AddMovieToUserList(s1, userId, movieId).value.0 == s1
  {
    var s1 := AddMovieToUserList(s, userId, movieId).value.0;
    assert s1.movies[movieId := s1.movies[movieId]] == s1.movies;
  }

  /** `removeMovieFromUserList`: `undefined` if the movie or the user is
      missing; otherwise every copy of this user's id leaves the list. */
  function RemoveMovieFromUserList(s: Store, userId: int, movieId: int): (r: Option<(Store, Movie)>)
    ensures r.None? <==> movieId !in s.movies || userId !in s.users
    ensures r.Some? ==> var m := r.value.1; var o := s.movies[movieId];
      m == o.(savedByUsers := m.savedByUsers) && !SavedBy(m, userId) &&
      (o.savedByUsers.None? ==> m.savedByUsers.None?) &&
      (forall x :: x != IntToString(userId) ==>
        (m.savedByUsers.Some? && x in m.savedByUsers.value <==> o.savedByUsers.Some? && x in o.savedByUsers.value)) &&
      r.value.0 == s.(movies := s.movies[movieId := m])
    ensures r.Some? && Valid(s) ==> Valid(r.value.0)
  {
    if movieId !in s.movies || userId !in s.users then None
    else
      var o := s.movies[movieId];
      var key := IntToString(userId);
      if o.savedByUsers.Some? && key in o.savedByUsers.value then
        var m := o.(savedByUsers := Some(RemoveAll(o.savedByUsers.value, key)));
        Some((s.(movies := s.movies[movieId := m]), m))
      else Some((s, o))
  }

  /** `getUserSavedMovies`: [] for an unknown user, otherwise exactly the
      movies whose saved list holds the user's id. */
  function GetUserSavedMovies(s: Store, userId: int): (ms: seq<Movie>)
    ensures userId !in s.users ==> ms == []
    ensures Valid(s) && userId in s.users ==> forall m :: m in ms <==> m in s.movies.Values && SavedBy(m, userId)
  {
    if userId !in s.users then []
    else Filter(AllMovies(s), (m: Movie) => SavedBy(m, userId))
  }

  /** Distinct user ids are distinct keys, so one user's saves never touch
      another's. */
  lemma KeysDistinct(a: int, b: int)
    requires a != b
    ensures IntToString(a) != IntToString(b)
  {
    ParseIntOfIntToString(a, Decimal);
    ParseIntOfIntToString(b, Decimal);
  }

  /** After saving, the movie is among the user's saved movies; after
      removing it again it is not, and another user's saves are unaffected. */
  lemma SaveThenUnsave(s: Store, userId: int, other: int, movieId: int)
    requires Valid(s) && movieId in s.movies && userId in s.users && other != userId
    ensures var (s1, m1) := AddMovieToUserList(s, userId, movieId).value;
      m1 in GetUserSavedMovies(s1, userId) &&
      var (s2, m2) := RemoveMovieFromUserList(s1, userId, movieId).value;
      m2 !in GetUserSavedMovies(s2, userId) &&
      (SavedBy(m2, other) <==> SavedBy(s.movies[movieId], other))
  {
    var (s1, m1) := AddMovieToUserList(s, userId, movieId).value;
    assert m1 in s1.movies.Values by { assert s1.movies[movieId] == m1; }
    var (s2, m2) := RemoveMovieFromUserList(s1, userId, movieId).value;
    KeysDistinct(other, userId);
    assert SavedBy(m2, other) <==> SavedBy(m1, other);
  }
}
